=== FILE: README.md ===
# ToyRendererV2 bookkeeping, modelled in Dafny

ToyRendererV2 is a Vulkan renderer written in C++, with a small utility library.
Most of it records GPU commands.
Underneath that sits deterministic bookkeeping, and this project models it and proves properties about it.
Vulkan, VMA and GLFW handles are opaque numbers.
What a Vulkan call returns, what a clock reads and what an image decoder produces are parameters.

One module per source file:

- `Misc`: `align`, in `size_t` and in `uint32_t`, with its unsigned wrap-around.
- `StaticStack`, `Hive`, `SparseSet`, `Timeline`: the fixed-capacity containers of `utils/`.
  This covers the hive's generational handles and intrusive free list, and the sparse set built on it.
  `Timeline` is the double-written ring buffer.
- `Types`: the debouncer and `make_non_null_pointer`.
- `Deletion`, `DeletionStack`, `DeletionQueue`: the LIFO deletion stacks and `Lifetime`.
  Both the current `deletion_stack` files and the older `deletion_queue` ones are modelled.
- `Synchronisation`: `SyncInfo`, its predefined states, and `ImageMemoryBarrier::submit<N>`.
- `Ressources`: an image's synchronisation state and `prepare_barrier`.
  Also the pure flag-to-format, flag-to-usage, flag-to-aspect and extent mappings.
  Also the per-frame slot storages with their invalidation flags.
- `RessourceManager`: the 16-bit-index-plus-scope handles and registration by id.
  Also the transient pools and the per-frame acquire/release layout.
- `Registry`: the CVar get-or-default and save/resolve round trips.
- `Staging`: the staging-buffer bump allocator and the `Uploader` that drives it.
- `Swapchain`, `Instance`, `Device`, `VkUtils`, `VertexLayout`: the selection rules of device and swapchain creation.
  These are the extension check, the layer intersection, the debug-message mapping, and the choice of surface format, present mode, image count, extent and queue family.
- `Input`: the key-to-camera-input state machine.
- `Gltf`: attribute loading, material order, and the index rebasing and surface partition of mesh assembly.
- `Options`: the command-line parser and the options it fills in.
- `Engine`: the frame loop's flags.
  These are the swapchain rebuild, the invalidated storages, frame slots and the command buffers a transfer hands to the next frame.
- `Pass`: how a pass definition becomes registered handles, formats and blend states.
  Also which Vulkan objects a pass and its pipeline tie to a lifetime.

Failures are `Res.Fail`.
A `TR_ASSERT` or `VK_CHECK` that fails is `AssertionFailed`, and an `.at()` out of range is `OutOfRange`.
Undefined behaviour, such as an `operator[]` past the end, is `Undefined`, or a precondition where the caller guarantees it.
`MAX_FRAMES_IN_FLIGHT` is 2.

Where a header and its implementation file disagree, the function body that is written out is the one modelled.
The "## Findings" below list the places where the code as written differs from what it evidently intends.
Each is modelled both ways.

## Model

| member | source | states |
|---|---|---|
| Misc.ClearLowBits | utils/include/utils/misc.h:27 | the mask `& -a` leaves a multiple of `a` that is at most `a - 1` below its input |
| Misc.WrapSum | utils/include/utils/misc.h:27 | `offset - 1 + a` computed in `size_t` wraps to `a - 1` for a zero offset and is exact otherwise below 2^64 |
| Misc.AlignedStays | utils/include/utils/misc.h:27 | rounding `offset - 1 + a` down returns an offset that was already a multiple of `a` |
| Misc.AlignSize | utils/include/utils/misc.h:24-28 | `align` in `size_t`: 0 stays 0; without overflow the result is the least multiple of `a` at or above the offset; an aligned offset is unchanged |
| Misc.Align32 | utils/include/utils/misc.h:24-28 | `align<uint32_t>`: the same rounding-up promise after the widening and the narrowing cast back to 32 bits |
| Misc.Pow2IsPowerOfTwo | utils/include/utils/misc.h:24-28 | every 2^k meets the power-of-two precondition `align` relies on |
| Misc.Pow2Split | utils/include/utils/misc.h:24-28 | 2^(j+k) = 2^j * 2^k |
| Misc.U32IsPowerOfTwo | utils/include/utils/misc.h:24-28 | 2^32, the width of the narrowing cast, is a power of two |
| Misc.PowerOfTwoDivides | utils/include/utils/misc.h:24-28 | a power-of-two alignment divides every larger power of two, so truncation to 32 bits keeps alignment |
| Misc.MultipleBelow | utils/include/utils/misc.h:24-28 | two distinct multiples of `a` are at least `a` apart |
| Misc.AlignIdempotent | utils/include/utils/misc.h:24-28 | aligning an already aligned 32-bit offset changes nothing: `align(align(o, a), a) == align(o, a)` |
| Misc.AlignByOne | utils/include/utils/misc.h:24-28 | an alignment of 1 is the identity on every 32-bit offset, including 0 |
| StaticStack.Empty | utils/include/utils/data/static_stack.h:15-16 | a value-initialised stack has N slots and no items |
| StaticStack.Items | utils/include/utils/data/static_stack.h:36-39 | the iterated range is exactly the first `item_count` slots |
| StaticStack.Size | utils/include/utils/data/static_stack.h:19 | the size is the number of items in the iterated range |
| StaticStack.IsEmpty | utils/include/utils/data/static_stack.h:20 | `empty()` holds iff the iterated range is empty |
| StaticStack.PushBack | utils/include/utils/data/static_stack.h:22-26 | succeeds iff the stack is not full, and then appends the item at the end of the items; a full stack fails the assertion |
| StaticStack.PopBackAsWritten | utils/include/utils/data/static_stack.h:27-30 | as written, popping succeeds iff there are at least two items, and then drops the last one |
| StaticStack.PopBack | utils/include/utils/data/static_stack.h:27-30 | corrected: popping succeeds iff the stack is not empty, and then drops the last item |
| StaticStack.Clear | utils/include/utils/data/static_stack.h:32 | after `clear()` the stack is empty and the array is untouched |
| StaticStack.PopSingleItemRejected | utils/include/utils/data/static_stack.h:28 | a stack holding one pushed item cannot be popped as written, while the corrected pop empties it |
| StaticStack.PushThenPop | utils/include/utils/data/static_stack.h:22-30 | a pop right after a successful push restores the items |
| StaticStack.PushAllItems | utils/include/utils/data/static_stack.h:22-26 | pushes that fit leave the pushed sequence on top of the old items, in order |
| StaticStack.PushAllOverflow | utils/include/utils/data/static_stack.h:23 | pushing more items than the free room always ends in the assertion failure |
| Timeline.Init | utils/include/utils/timer.h:66-68 | a fresh timeline starts with `index1 = 0` and `index2 = N`, N apart, and its history is the first N slots |
| Timeline.Push | utils/include/utils/timer.h:53-59 | a push writes the sample at both indices, keeps the indices N apart modulo 2N, and leaves every other slot alone |
| Timeline.Advance | utils/include/utils/timer.h:57-58 | `(i + 1) % size` steps to the next slot and wraps to 0 at the end |
| Timeline.History | utils/include/utils/timer.h:63 | the history is a span of exactly N samples starting at the smaller index |
| Timeline.HoldsHistory | utils/include/utils/timer.h:47-49 | under the mirrored-storage invariant, the history is the current window |
| Timeline.PushShiftsWindow | utils/include/utils/timer.h:53-63 | one push keeps the mirrored-storage invariant and slides the window: the oldest sample drops out and the new one is appended |
| Timeline.PushAllWindow | utils/include/utils/timer.h:53-63 | any number of pushes slides the window along the concatenation of the old window and the pushed samples |
| Timeline.SlideOne | utils/include/utils/timer.h:53-63 | sliding the window by one sample and then by the rest equals sliding it by all the samples at once |
| Timeline.WindowInsidePushes | utils/include/utils/timer.h:63 | once at least N samples have been pushed, the N-sample window lies wholly inside the pushed samples |
| Timeline.HistoryAfterPushes | utils/include/utils/timer.h:47-63 | after any pushes from a fresh timeline, the history is the last N values of the initial window followed by the pushes |
| Timeline.HistoryIsLastN | utils/include/utils/timer.h:47-63 | after at least N pushes, the history is the last N pushed samples, oldest first |
| Hive.NewChunk | utils/include/utils/data/hive.h:51-61 | a value-initialised chunk has N dead slots of generation 0, their storage holding data, and nothing handed out |
| Hive.ChunkGet | utils/include/utils/data/hive.h:64-70 | an out-of-range slot throws; otherwise a value comes back iff the slot is live and its generation matches the handle's, and the value is the slot's data |
| Hive.ChunkCreate | utils/include/utils/data/hive.h:74-100 | an out-of-range slot throws, a slot beyond `initialized` fails the assertion, and reusing a slot whose storage holds data (not a link) reads `next_free` undefinedly; otherwise the slot becomes live with value-initialised data, other slots are untouched, a reused slot advertises its stored link, and a first-time slot restarts at generation 0 and advertises the next slot |
| Hive.ChunkRemove | utils/include/utils/data/hive.h:102-107 | the slot turns dead for every generation and stores the given free-list head over the data, so reading its data is undefined afterwards; its 32-bit generation is bumped with wrap-around; other slots are untouched |
| Hive.Get | utils/include/utils/data/hive.h:117-125 | an unknown chunk gives a null pointer; otherwise the chunk's bounds-checked lookup decides |
| Hive.ChunkGetUnchecked | utils/include/utils/data/hive.h:72 | an out-of-range slot throws; a slot whose storage holds the free-list link (a removed one) has undefined data; otherwise the slot's data whatever its liveness, which is what `get` finds for any generation it accepts |
| Hive.GetUnchecked | utils/include/utils/data/hive.h:126-131 | an unknown chunk gives a null pointer; otherwise the chunk's slot is read: out of range throws, a removed slot's data is undefined, any other slot gives its data; on a hive whose live slots hold data it agrees with `get` whenever `get` finds the element |
| Hive.Write | utils/include/utils/data/hive.h:98 | writing through the returned pointer makes that slot read the new value and changes nothing else: every other handle and slot reads the same, the free list head is untouched |
| Hive.Create | utils/include/utils/data/hive.h:133-146 | the handle `create` returns finds a value-initialised element at the free-list head; with no free slot a new chunk is appended first; elements in other slots read the same |
| Hive.CreateAsWritten | utils/include/utils/data/hive.h:82-89 | `create` with the written successor guard `initialized <= N`; its handle finds the new element |
| Hive.CreateFixed | utils/include/utils/data/hive.h:82-89 | `create` with the corrected guard never fails on a good hive whose free-list head can be followed, and keeps it good |
| Hive.Remove | utils/include/utils/data/hive.h:148-156 | an out-of-range slot throws; otherwise the removed handle no longer resolves, its slot's data becomes undefined to `get_unchecked`, the slot becomes the free-list head, and every handle to another slot reads the same |
| Hive.GoodLinkGrows | utils/include/utils/data/hive.h:74-91 | a followable link stays followable when chunks only hand out more slots |
| Hive.EmptyIsGood | utils/include/utils/data/hive.h:113-114 | the empty hive satisfies the hive invariant |
| Hive.CreateFirstUse | utils/include/utils/data/hive.h:78-91 | when the head is the next fresh slot, `create` hands it out for the first time |
| Hive.ReuseKeepsGood | utils/include/utils/data/hive.h:74-100 | handing out a dead slot again keeps the hive invariant |
| Hive.FirstUseKeepsGood | utils/include/utils/data/hive.h:78-91 | handing out a fresh slot with the corrected guard keeps the hive invariant |
| Hive.GrownIsGood | utils/include/utils/data/hive.h:134-140 | appending a chunk when there is no free slot keeps the hive invariant |
| Hive.CreateFixedKeepsGood | utils/include/utils/data/hive.h:133-146 | with the corrected guard, `create` on a good hive whose head can be followed succeeds and leaves it good |
| Hive.LiveIsInitialized | utils/include/utils/data/hive.h:64-70 | only a slot that has been handed out can hold a live element |
| Hive.WriteKeepsGood | utils/include/utils/data/hive.h:98 | writing an element's data keeps the hive invariant |
| Hive.RemoveKeepsGood | utils/include/utils/data/hive.h:148-156 | removing a handed-out slot keeps the hive invariant |
| Hive.FreeListIsReady | utils/include/utils/data/hive.h:133-146 | a spelled-out free list (with a chunk count below 2^16) has a head that `create` can follow without undefined behaviour |
| Hive.EmptyFreeList | utils/include/utils/data/hive.h:113-114 | the empty hive has an empty free list |
| Hive.CreateKeepsFreeList | utils/include/utils/data/hive.h:133-146 | the corrected `create` takes the first dead slot (or the fresh tail), never a live element's slot, keeps every live element, and leaves the rest of the free list intact |
| Hive.CreateReuses | utils/include/utils/data/hive.h:74-100 | when the head is a slot that was handed out before and holds a link, `create` reuses it |
| Hive.ReusedKeepsRest | utils/include/utils/data/hive.h:74-100 | after reusing the first dead slot, the remaining listed slots are still dead and distinct |
| Hive.ReusedKeepsLinks | utils/include/utils/data/hive.h:74-100 | after reusing the first dead slot, the remaining slots are still linked in order |
| Hive.CreateFromFreeSlot | utils/include/utils/data/hive.h:133-146 | `create` pops the first dead slot off the free list |
| Hive.CreateFromTail | utils/include/utils/data/hive.h:133-146 | with no dead slot, `create` hands out the fresh tail and the free list continues after it |
| Hive.RemovedLinks | utils/include/utils/data/hive.h:148-156 | after `remove`, the removed slot links to the old head and the old list is unchanged after it |
| Hive.RemoveKeepsFreeList | utils/include/utils/data/hive.h:148-156 | removing a live element pushes its slot on the front of the free list |
| Hive.WriteKeepsFreeList | utils/include/utils/data/hive.h:98 | writing a live element's data leaves the free list as it was |
| Hive.RemoveThenCreateReuses | utils/include/utils/data/hive.h:102-156 | `remove` then `create` reuses the same slot with the next generation and restores the free-list head |
| Hive.AsWrittenSecondCreateThrows | utils/include/utils/data/hive.h:82-89 | with one slot per chunk, the written guard advertises a slot that does not exist, so the second `create` throws; the corrected guard opens a new chunk instead |
| Hive.WriteOverLinkThenCreateIsUndefined | utils/include/utils/data/hive.h:74-76 | writing through a stale pointer into a just-removed slot and then calling `create` reads the overwritten link, which is undefined |
| Hive.AsWrittenAgreesWhileFree | utils/include/utils/data/hive.h:133-146 | while the free list is not empty or ends at a fresh slot, the written `create` hands out the same handle and leaves the same chunks as the corrected one; the advertised head differs only after a chunk's last slot is first used, where the corrected guard gives none and the written one slot N narrowed to 16 bits |
| Hive.AsWrittenAdvertisesSlotN | utils/include/utils/data/hive.h:82-89 | in general, handing out a chunk's last slot advertises slot N, which throws when followed; the corrected guard advertises nothing |
| SparseSet.New | utils/include/utils/data/sparse_set.h:70-73 | a fresh set is valid and holds no item |
| SparseSet.At | utils/include/utils/data/sparse_set.h:18-22 | a null hive answer stays null; a position is read through the bounds-checked `dense.at`, which throws past the array |
| SparseSet.Get | utils/include/utils/data/sparse_set.h:16-23 | in a valid set, a live item's handle yields that item's data; the lookup goes through the hive and then `dense.at` |
| SparseSet.GetUnchecked | utils/include/utils/data/sparse_set.h:25-31 | in a valid set, the index of a live item's handle yields that item's data; an unknown chunk gives null; a removed slot's position is undefined |
| SparseSet.Size | utils/include/utils/data/sparse_set.h:50 | in a valid set, the size is at most N and each of the first `size()` dense items is found through its own handle with its data |
| SparseSet.Iterate | utils/include/utils/data/sparse_set.h:45-48 | iteration spans all N dense items, of which the first `size()` are live and resolve through their own handles |
| SparseSet.Pos | utils/include/utils/data/sparse_set.h:26 | for a slot whose storage holds a position (not a removed slot's link), that position, as `get_unchecked` reads it, inside the dense array |
| SparseSet.SwapDense | utils/include/utils/data/sparse_set.h:33-36 | `swap_dense` exchanges the two hive entries and the data (not the stored handles) of the two dense items; the items read through each index stay the same |
| SparseSet.RemoveUncheckedAsWritten | utils/include/utils/data/sparse_set.h:38-43 | as written: an empty set throws; otherwise the set shrinks and the handle removed from the hive is the last item's, so the item meant to be removed stays reachable |
| SparseSet.RemoveUnchecked | utils/include/utils/data/sparse_set.h:38-43 | corrected: an empty set throws; otherwise the set shrinks, stays valid, the removed item's handle no longer resolves, and every other live item is still found with its data |
| SparseSet.RemoveUncheckedKeepsValid | utils/include/utils/data/sparse_set.h:38-43 | moving the last item into the removed item's place and removing the removed item's handle keeps every remaining handle resolving to its own position |
| SparseSet.Create | utils/include/utils/data/sparse_set.h:52-67 | a full set throws on `dense.at(N)`; otherwise the set grows by one value-initialised item whose new handle finds it, and earlier items are untouched (over the corrected hive) |
| SparseSet.NewIsSound | utils/include/utils/data/sparse_set.h:70-73 | a fresh set is valid and its hive has an empty free list |
| SparseSet.CreateKeepsSound | utils/include/utils/data/sparse_set.h:52-67 | `create` on a set that is not full keeps every live handle resolving to its own item and the hive's free list intact (over the corrected hive) |
| SparseSet.CreateMatchesAsWritten | utils/include/utils/data/sparse_set.h:62-73 | on a sound set below capacity whose hive has a free slot on hand, the written hive's `create` hands out the same handle as the corrected one `create` uses |
| SparseSet.RemoveKeepsSound | utils/include/utils/data/sparse_set.h:38-43 | the corrected removal keeps the set valid and puts the removed slot on the front of the hive's free list |
| SparseSet.TwoCreated | utils/include/utils/data/sparse_set.h:52-67 | two `create` calls on a set of capacity two leave a two-item dense array |
| SparseSet.AsWrittenRemovesTheWrongItem | utils/include/utils/data/sparse_set.h:39-42 | with two items, removing the first as written makes the second unreachable and leaves the first reachable; the corrected removal does the opposite |
| Types.MakeNonNullPointer | utils/include/utils/types.h:47-54 | the result is empty exactly for a null pointer and otherwise wraps the same address |
| Types.NewDebouncer | utils/include/utils/types.h:60-62 | a new debouncer waits 100 ms and holds no value |
| Types.Debounce | utils/include/utils/types.h:64-75 | the value handed to `fn2` is the most recent one, only once the quiet period has elapsed since it was seen; handing over clears the state, otherwise the most recent value is kept |
| Types.DebounceAll | utils/include/utils/types.h:64-75 | after a series of calls the quiet period is unchanged, and if nothing was handed over the state holds the last value with its time |
| Types.BurstIsSuppressed | utils/include/utils/types.h:71 | a burst whose calls come closer together than the quiet period hands nothing over and ends holding the burst's last value |
| Types.QuietPeriodFires | utils/include/utils/types.h:71-74 | once the quiet period has passed, a call with no new value hands over the held value and clears the state |
| Deletion.Defer | ToyRenderer/src/renderer/deletion_stack.h:18-21 | `defer_deletion` adds exactly one entry, at the back, keeping the earlier ones |
| Deletion.Drop | ToyRenderer/src/renderer/deletion_stack.h:23-27 | destroying a stack succeeds iff it is empty; otherwise the assertion fails |
| Deletion.Cleanup | ToyRenderer/src/renderer/deletion_stack.cpp:35-58 | the loop empties the stack and makes the destroy calls of the entries read from the back |
| Deletion.ReversedAt | ToyRenderer/src/renderer/deletion_stack.cpp:37-38 | reading from the back, position `i` holds the entry deferred `i` places before the last |
| Deletion.EveryEntryDestroyedOnce | ToyRenderer/src/renderer/deletion_stack.cpp:40-56 | when every kind has a case, each entry produces exactly one call, in order |
| Deletion.CleanupIsLifo | ToyRenderer/src/renderer/deletion_stack.cpp:35-58 | with a case for every kind, cleanup makes one call per entry, the last deferred first |
| DeletionStack.InstanceDestroy | ToyRenderer/src/renderer/deletion_stack.cpp:17-23 | the device is destroyed on its own and every other instance-level kind with the instance, each with its own handle |
| DeletionStack.VmaDestroy | ToyRenderer/src/renderer/deletion_stack.cpp:62-74 | an allocator entry is destroyed together with the allocation it was deferred with |
| DeletionStack.TieDevice | ToyRenderer/src/renderer/deletion_stack.h:93-96 | tying a device handle grows only the device stack, by that one entry |
| DeletionStack.TieVma | ToyRenderer/src/renderer/deletion_stack.h:88-91 | tying an allocator handle grows only the allocator stack, by that one entry and its allocation |
| DeletionStack.CleanupLifetime | ToyRenderer/src/renderer/deletion_stack.h:98-101 | `Lifetime::cleanup` empties both stacks; every device object is destroyed once, newest first, before any allocator object, also newest first |
| DeletionStack.CleanupInstance | ToyRenderer/src/renderer/deletion_stack.cpp:12-26 | the instance stack is emptied, so its destructor's assertion holds, and every entry is destroyed once, newest first |
| DeletionQueue.DeviceDestroyAsWritten | ToyRenderer/src/renderer/deletion_queue.cpp:39-52 | the older switch makes no call exactly for a shader module |
| DeletionQueue.DeviceDestroy | ToyRenderer/src/renderer/deletion_queue.cpp:39-52 | with the missing case added, no kind is skipped: every entry gets a call of its own kind and handle, and the call equals the written switch's exactly on the kinds that switch handles |
| DeletionQueue.ShaderModuleLeaks | ToyRenderer/src/renderer/deletion_queue.cpp:34-55 | deferring a shader module adds nothing to what the older cleanup destroys |
| DeletionQueue.CleanupDevice | ToyRenderer/src/renderer/deletion_queue.cpp:34-55 | with the shader-module case added, every entry is destroyed once, newest first, and the stack ends empty |
| Synchronisation.MakeBarrier | ToyRenderer/src/renderer/synchronisation.h:52-68 | the barrier's source half is the `this` state and its destination half is `dst`, on the given image and range |
| Synchronisation.BarrierDeterminedByStates | ToyRenderer/src/renderer/synchronisation.h:52-68 | rebuilding a barrier from its two states, image and range gives back the same barrier |
| Synchronisation.Queue | ToyRenderer/src/renderer/synchronisation.h:71-74 | `queue` changes the queue family only |
| Synchronisation.QueueOverrides | ToyRenderer/src/renderer/synchronisation.h:71-74 | only the last queue family set counts, and setting the current one is a no-op |
| Synchronisation.PredefinedDifferByLayout | ToyRenderer/src/renderer/synchronisation.h:77-124 | every predefined state ignores queue families, and no two of them share a layout |
| Synchronisation.Engaged | ToyRenderer/src/renderer/synchronisation.h:34-38 | the engaged barriers, in order, are never more than the optional ones |
| Synchronisation.EngagedEmpty | ToyRenderer/src/renderer/synchronisation.h:34-40 | nothing is engaged iff every optional barrier is empty |
| Synchronisation.Submit | ToyRenderer/src/renderer/synchronisation.h:30-43 | nothing is recorded iff no barrier is engaged; otherwise exactly the engaged barriers are recorded, in order, and the N-slot stack never overflows |
| Ressources.AspectMask | ToyRenderer/src/renderer/ressources.cpp:110-122 | an image has the colour aspect iff it is a colour or a sampled image, the depth aspect iff it is a depth image, and no other aspect |
| Ressources.PrepareBarrier | ToyRenderer/src/renderer/ressources.cpp:23-56 | a barrier is emitted iff the layout or the queue family changes; it goes from the recorded state to `dst` over the whole single-level image; the image then records `dst` and nothing else changes |
| Ressources.PrepareBarrierTwice | ToyRenderer/src/renderer/ressources.cpp:23-56 | preparing the same transition twice emits nothing the second time and leaves the image as the first call left it |
| Ressources.BarriersChain | ToyRenderer/src/renderer/ressources.cpp:23-56 | a later layout change starts its barrier from the state the earlier transition ended in |
| Ressources.Invalidate | ToyRenderer/src/renderer/ressources.cpp:58-61 | `invalidate` puts the image in the undefined layout at the top of the pipe with no access and no queue family, and touches nothing but the sync state |
| Ressources.InvalidateForcesBarrier | ToyRenderer/src/renderer/ressources.cpp:23-61 | after `invalidate`, any use in a defined layout is preceded by a barrier out of the undefined layout |
| Ressources.FromExternalImage | ToyRenderer/src/renderer/ressources.cpp:63-66 | an external image keeps the given image, view, usage and state and owns no allocation |
| Ressources.AsAttachment | ToyRenderer/src/renderer/ressources.cpp:8-21 | the attachment is cleared iff a clear value is given and loaded otherwise, is always stored, and uses the image's view and current layout |
| Ressources.FormatAsWritten | ToyRenderer/src/renderer/ressources.cpp:67-91 | as written: a format is returned iff exactly one format flag is set, and the four-channel float flag yields the three-channel float format |
| Ressources.Format | ToyRenderer/src/renderer/ressources.cpp:67-91 | a format is returned iff exactly one format flag is set, otherwise the assertion stops; the set flag selects the format it names (or the swapchain's) |
| Ressources.FourChannelFlagLosesAlpha | ToyRenderer/src/renderer/ressources.cpp:78-79 | the four-channel float flag gives `VK_FORMAT_R32G32B32_SFLOAT` (106) as written where `VK_FORMAT_R32G32B32A32_SFLOAT` (109) is meant |
| Ressources.ImageUsage | ToyRenderer/src/renderer/ressources.cpp:93-108 | each Vulkan usage bit is set iff its renderer counterpart is, and no other bit is set |
| Ressources.Extent | ToyRenderer/src/renderer/ressources.cpp:124-142 | an extent exists iff the size follows the framebuffer, or a custom size is flagged and given; the framebuffer flag wins; the depth is 1; every other case stops on the assertion |
| Ressources.Allocation | ToyRenderer/src/renderer/ressources.cpp:210-236 | a CPU-to-GPU buffer requires host-visible memory, prefers device-local memory, is written at random and lets the allocator prefer the device; any other buffer asks for nothing |
| Ressources.SlotOf | ToyRenderer/src/renderer/ressources.h:178 | a frame's slot is always one of the `MAX_FRAMES_IN_FLIGHT` slots |
| Ressources.StoreSlot | ToyRenderer/src/renderer/ressources.h:178 | `store` keeps one resource per frame in flight |
| Ressources.StoreThenGet | ToyRenderer/src/renderer/ressources.h:178-184 | a frame reads back what was stored for any frame sharing its slot; a frame in the other slot reads what it read before |
| Ressources.FramesAlternate | ToyRenderer/src/renderer/ressources.h:178-184 | consecutive frames use different slots, and a frame shares its slot with the frame `MAX_FRAMES_IN_FLIGHT` later |
| Ressources.InitStorage | ToyRenderer/src/renderer/ressources.h:186-194 | an external storage is left exactly as it was; an owned one holds the freshly built image of each slot and is no longer invalidated; the definition is kept |
| Ressources.FromExternalImages | ToyRenderer/src/renderer/ressources.h:205-212 | the swapchain images are taken iff images and views pair up and cover every slot, else the assertion stops; slot i then holds external image i with view i, the storage's usage and the undefined state |
| Ressources.DefineImage | ToyRenderer/src/renderer/ressources.h:238-240 | defining an image keeps one storage per image id, each with one slot per frame in flight |
| Ressources.DefineThenRead | ToyRenderer/src/renderer/ressources.h:238-243 | a definition is read back under its id, and every other id keeps its definition |
| Ressources.InvalidateImage | ToyRenderer/src/renderer/ressources.h:259-262 | the storage of this id and the manager are flagged as invalidated; the storage's definition and images, the buffers and every other image storage are unchanged |
| Ressources.FrameImage | ToyRenderer/src/renderer/ressources.h:269-271 | a frame's image is one of the images its id's storage holds |
| RessourceManager.IntoHandle | ToyRenderer/src/renderer/ressource_manager.h:20-26 | a handle fits 32 bits and its low 16 bits are the index |
| RessourceManager.FromHandle | ToyRenderer/src/renderer/ressource_manager.h:27-29 | every 32-bit handle decodes to a 16-bit index and a 16-bit scope code |
| RessourceManager.FromIntoHandle | ToyRenderer/src/renderer/ressource_manager.h:20-29 | decoding an encoded info gives it back |
| RessourceManager.IntoFromHandle | ToyRenderer/src/renderer/ressource_manager.h:20-29 | encoding a decoded handle gives it back: the bit-cast loses nothing |
| RessourceManager.BufferIndex | ToyRenderer/src/renderer/ressource_manager.h:77-90 | an index is found iff the handle's scope is one of the three listed, otherwise the assertion stops; it is never below the handle's own index |
| RessourceManager.ImageIndex | ToyRenderer/src/renderer/ressource_manager.h:56-69 | the image index fails exactly when the buffer index does, and is otherwise that index narrowed to 32 bits |
| RessourceManager.PoolGet | ToyRenderer/src/renderer/ressource_manager.h:106-131 | an empty pool builds a new resource from its definition and stays as it was; otherwise the last resource given back is taken off the top; the definition never changes |
| RessourceManager.GetThenPushRestores | ToyRenderer/src/renderer/ressource_manager.h:106-131 | giving back what `get` took from a non-empty pool restores the pool exactly |
| RessourceManager.ClearPoolIf | ToyRenderer/src/renderer/ressource_manager.h:143-153 | every resource of a selected pool goes through the destructor once, pool by pool and in order; selected pools are emptied and the others keep their content; no definition changes |
| RessourceManager.Find | ToyRenderer/src/renderer/ressource_manager.cpp:10 | the position found is the first whose projection matches; no position matches when nothing is found |
| RessourceManager.FindOrPushBack | ToyRenderer/src/renderer/ressource_manager.cpp:8-17 | the returned position is the first match; an existing match leaves the vector unchanged, and otherwise the new element is appended and its position returned |
| RessourceManager.FindOrPushBackIdempotent | ToyRenderer/src/renderer/ressource_manager.cpp:8-17 | a second call with the same key returns the same position and changes nothing |
| RessourceManager.RegisterStorage | ToyRenderer/src/renderer/ressource_manager.cpp:118-136 | the handle names the first storage entry with this id; a known id adds no entry, a new id is appended with its definition and the given resource or an empty one; given data overwrites that entry's resource and without data it is kept; every other entry and the other registries are untouched |
| RessourceManager.RegisterExternal | ToyRenderer/src/renderer/ressource_manager.cpp:138-148 | the handle names an external entry with this id; existing entries are kept as a prefix and the other registries are untouched |
| RessourceManager.RegisterPool | ToyRenderer/src/renderer/ressource_manager.cpp:165-167 | the returned pool has this definition; existing pools are unchanged and the other registries are untouched |
| RessourceManager.RegisterTransient | ToyRenderer/src/renderer/ressource_manager.cpp:150-163 | the handle names a transient entry with this id; a known id changes nothing; a new id is appended with the pool of its definition; every entry keeps pointing at an existing pool |
| RessourceManager.RegisterImage | ToyRenderer/src/renderer/ressource_manager.h:159-169 | transient and external definitions are dispatched to their registration, any other scope stops on the assertion |
| RessourceManager.RegisterBuffer | ToyRenderer/src/renderer/ressource_manager.h:175-187 | all three scopes are dispatched, a storage buffer without data; an unlisted scope stops on the assertion |
| RessourceManager.RegisterExternalIdempotent | ToyRenderer/src/renderer/ressource_manager.cpp:138-148 | registering an external id again gives the same handle and adds nothing |
| RessourceManager.RegisterStorageIdempotent | ToyRenderer/src/renderer/ressource_manager.cpp:118-136 | registering a storage id again without data gives the same handle and changes nothing |
| RessourceManager.RegisterTransientIdempotent | ToyRenderer/src/renderer/ressource_manager.cpp:150-163 | registering a transient id again gives the same handle and adds no entry and no pool |
| RessourceManager.TransientsShareThePool | ToyRenderer/src/renderer/ressource_manager.cpp:150-167 | two new transient ids with the same definition draw from one pool, and the second creates no pool |
| RessourceManager.Uses | ToyRenderer/src/renderer/ressource_manager.cpp:41-44 | no pool is drawn from by more entries than there are |
| RessourceManager.AcquireTransient | ToyRenderer/src/renderer/ressource_manager.cpp:40-44 | one resource per transient entry, each either newly built from its pool's definition or taken from that pool; no pool changes its definition |
| RessourceManager.ReleaseTransient | ToyRenderer/src/renderer/ressource_manager.cpp:63-66 | every pool is still there with its definition after the resources are given back |
| RessourceManager.AcquireTakesFromTheTop | ToyRenderer/src/renderer/ressource_manager.cpp:40-44 | acquiring takes from each pool as many resources as entries draw from it, or all of them, always from the top |
| RessourceManager.ReleaseGrows | ToyRenderer/src/renderer/ressource_manager.cpp:63-66 | releasing puts back on each pool exactly as many resources as entries draw from it, on top of what it held |
| RessourceManager.AcquireThenReleaseSizes | ToyRenderer/src/renderer/ressource_manager.cpp:19-67 | after a frame is acquired and released, each pool holds the larger of its old size and its number of users |
| RessourceManager.AcquireFrameData | ToyRenderer/src/renderer/ressource_manager.cpp:39-52 | transients come first, then the storage resources in order, then one default slot per external entry; the offsets mark those three ranges; only the pools change |
| RessourceManager.ReleaseFrameData | ToyRenderer/src/renderer/ressource_manager.cpp:55-67 | releasing changes only the pools, and every transient entry still names a pool |
| RessourceManager.HandlesFindTheirSlots | ToyRenderer/src/renderer/ressource_manager.h:77-90 | in acquired frame data, each storage, external and transient handle indexes its own slot, and storage slots hold the stored resource |
| RessourceManager.HandleOf | ToyRenderer/src/renderer/ressource_manager.h:20-29 | the handle of the i-th entry of a scope fits 32 bits and decodes to i truncated to 16 bits, with that scope |
| Registry.AsUInt | ToyRenderer/src/registry.cpp:56-57 | a value that passes `isUInt` converts without throwing to itself, below 2^32; null converts to 0 |
| Registry.SetAt | ToyRenderer/src/registry.cpp:45 | an assignment through `operator[]` succeeds iff every value on the way is null, an object or missing, and the value is then found at its path; otherwise JsonCpp throws a logic error |
| Registry.Index | ToyRenderer/src/registry.cpp:36 | a read through `operator[]` succeeds on the same paths, returns the stored value or a null, and leaves that value findable at its path; any failure is a JsonCpp logic error |
| Registry.SetAtFrame | ToyRenderer/src/registry.cpp:45 | an assignment leaves every value on a path apart from its own unchanged |
| Registry.CVarFloatSave | ToyRenderer/src/registry.cpp:45 | saving puts the number at `cvar/<name>` whenever that path can be indexed; any failure is a JsonCpp logic error |
| Registry.CVarFloatResolve | ToyRenderer/src/registry.cpp:35-43 | a stored number is returned as is; anything else yields the default, which is then stored at `cvar/<name>`; any failure is a JsonCpp logic error |
| Registry.FloatSaveThenResolve | ToyRenderer/src/registry.cpp:35-45 | a saved float is what the next `resolve` returns, and saving writes nothing outside `cvar/<name>` |
| Registry.CVarExtentSave | ToyRenderer/src/registry.cpp:61-65 | saving stores the width under `x` and the height under `y`, each as an unsigned value, whenever the path can be indexed; any failure is a JsonCpp logic error |
| Registry.ExtentSaveFrame | ToyRenderer/src/registry.cpp:61-65 | saving an extent writes nothing outside `cvar/<name>` |
| Registry.ReadXY | ToyRenderer/src/registry.cpp:48-50 | the two reads return what is stored under `x` and `y` (null when missing) and keep the subtree indexable; any failure is a JsonCpp logic error |
| Registry.CVarExtentResolve | ToyRenderer/src/registry.cpp:47-59 | both stored values are returned when both are 32-bit unsigned; otherwise the default is returned and stored under `x` and `y`; any failure is a JsonCpp logic error |
| Registry.SaveThenResolve | ToyRenderer/src/registry.cpp:47-65 | a saved extent is what the next `resolve` returns |
| Registry.DefaultSticks | ToyRenderer/src/registry.cpp:47-59 | an unusable stored extent is replaced by the default, so the next `resolve` returns the default again |
| Registry.CVarExtentResolveAsWritten | ToyRenderer/src/renderer/ressources.h:102-113 | as written the header's `resolve` checks only the height: with a valid height it converts whatever the width holds (and throws on a non-number); otherwise it returns the default; any failure is a JsonCpp logic error |
| Registry.AsWrittenAcceptsMissingWidth | ToyRenderer/src/renderer/ressources.h:105 | with no width stored and a height of 5, the header's `resolve` returns a width of 0 where the checked one returns the default |
| Staging.Init | ToyRenderer/src/renderer/vertex.cpp:111-139 | a fresh staging buffer maps exactly the requested size and has handed out nothing |
| Staging.Available | ToyRenderer/src/renderer/uploader.h:39-41 | `available` is the room after the aligned offset when that offset is inside the buffer; past the end the `size_t` subtraction wraps to a value of at least 2^64 - 2^32 |
| Staging.WrapNegative | ToyRenderer/src/renderer/uploader.h:39-41 | a negative `size_t` difference wraps to 2^64 plus the difference |
| Staging.ConsumeAsWritten | ToyRenderer/src/renderer/vertex.cpp:99-107 | as written: the request passes iff the wrapped `available` covers it; the offset is then aligned, the window at it is handed out and `to_upload` is the size narrowed to 32 bits |
| Staging.Consume | ToyRenderer/src/renderer/vertex.cpp:99-107 | the request passes iff the aligned offset plus the size fits in the buffer, else the assertion stops; the window handed out then lies inside the buffer and the offset stays in bounds |
| Staging.ConsumePastTheEnd | ToyRenderer/src/renderer/vertex.cpp:100 | a 10-byte buffer with 9 bytes used accepts a 1-byte request aligned to 4 as written, handing out a window at byte 12; the intended check refuses it |
| Staging.AsWrittenAgreesWithoutAlignment | ToyRenderer/src/renderer/uploader.cpp:17-19 | with an alignment of 1, the only one `map` uses, the check as written and the intended one accept the same requests and hand out the same windows |
| Staging.Commit | ToyRenderer/src/renderer/vertex.cpp:65-75 | `commit` records a copy of `to_upload` bytes from the current offset to the destination offset and then advances the offset by that amount in 32 bits; a window inside the buffer keeps it in bounds |
| Staging.CommitImage | ToyRenderer/src/renderer/vertex.cpp:76-97 | `commit_image` records a copy from the current offset into the image's rectangle in its current layout, then advances the offset the same way |
| Staging.Reset | ToyRenderer/src/renderer/vertex.cpp:109 | after `reset`, the whole buffer is available again and its memory is kept |
| Staging.SuccessiveWindowsDisjoint | ToyRenderer/src/renderer/vertex.cpp:65-107 | after one consume and commit round, the offset is just past the first window, and the next window starts no earlier |
| Staging.UploaderInit | ToyRenderer/src/renderer/uploader.cpp:5-9 | a new uploader holds exactly one empty staging buffer of 2^28 bytes |
| Staging.UploaderDrop | ToyRenderer/src/renderer/uploader.h:85 | destroying an uploader passes its assertion iff it holds no staging buffer |
| Staging.Move | ToyRenderer/src/renderer/uploader.h:54-55 | the moved-to uploader has everything, and the moved-from one has a null allocator and can be destroyed |
| Staging.DeferTrim | ToyRenderer/src/renderer/uploader.cpp:11-16 | each staging buffer is deferred for deletion with its allocation, in order, on top of the existing stack; the uploader is then empty and can be destroyed |
| Staging.Map | ToyRenderer/src/renderer/uploader.cpp:17-19 | `map` succeeds iff the first staging buffer has room for the size at its current offset, and hands out the window at that offset; other buffers are untouched (composes the corrected `Consume`) |
| Staging.CommitBuffer | ToyRenderer/src/renderer/uploader.cpp:21-25 | the copy goes from the current offset to the destination offset for the size, both narrowed to 32 bits, and the offset advances by the narrowed size |
| Staging.CommitImageUpload | ToyRenderer/src/renderer/uploader.cpp:27-31 | the image copy starts at the current offset, and the offset advances by the size narrowed to 32 bits |
| Staging.Write | ToyRenderer/src/renderer/uploader.h:68 | the `memcpy` puts the source in the window and changes no other byte or field |
| Staging.ExecuteCopy | ToyRenderer/src/renderer/uploader.h:63-70 | executing a recorded copy puts the source range at the destination range and changes no other destination byte |
| Staging.UploadBuffer | ToyRenderer/src/renderer/uploader.h:63-70 | an upload fails iff the first staging buffer has no room left for the source; otherwise the source lies in the staging memory where the recorded copy reads it, and the offset advances by exactly its size |
| Staging.UploadThenExecute | ToyRenderer/src/renderer/uploader.h:63-70 | an upload followed by the execution of its copy writes exactly the source at the destination offset and nothing else |
| Staging.UploadImage | ToyRenderer/src/renderer/uploader.h:73-80 | an image upload fails iff there is no room; otherwise the source lies where the image copy reads it and the offset advances by its size |
| Staging.TransferBuffer | ToyRenderer/src/renderer/uploader.h:106-108 | a buffer upload records exactly one copy, on the transfer command buffer only |
| Staging.TransferImage | ToyRenderer/src/renderer/uploader.h:109-112 | an image upload records exactly one command, on the transfer command buffer only |
| Common.Clamp | ToyRenderer/src/renderer/swapchain.cpp:38-40 | `std::clamp` (under its precondition lo <= hi) lands inside the bounds, keeps a value already inside, and maps a value below or above to the nearer bound |
| Swapchain.ComputeExtent | ToyRenderer/src/renderer/swapchain.cpp:24-43 | the surface's current extent is used unless its width is `UINT32_MAX`; then each side lies within the surface's bounds, and a framebuffer side already within them is kept as is |
| Swapchain.ChooseSurfaceFormat | ToyRenderer/src/renderer/swapchain.cpp:60-69 | the preferred BGRA8 sRGB format is chosen iff it is offered; otherwise the first offered format is |
| Swapchain.ChoosePresentMode | ToyRenderer/src/renderer/swapchain.cpp:82-91 | the chosen mode is always offered; it is the configured mode iff that mode is offered, and the first offered one otherwise |
| Swapchain.ImageCountAsWritten | ToyRenderer/src/renderer/swapchain.cpp:96-98 | as written: the clamp is undefined exactly when its upper bound (the maximum, or the number of frames in flight when there is no maximum) lies below the surface's minimum |
| Swapchain.ImageCount | ToyRenderer/src/renderer/swapchain.cpp:96-98 | the intended count is at least the surface's minimum and at most its maximum when it has one, and it is the number of frames in flight iff that number meets both bounds |
| Swapchain.UnboundedSurfaceBreaksClamp | ToyRenderer/src/renderer/swapchain.cpp:96-98 | a valid surface with a minimum of 3 images and no maximum makes the clamp as written undefined, while the intended count is 3 |
| Swapchain.ImageCountAgrees | ToyRenderer/src/renderer/swapchain.cpp:96-98 | wherever the clamp as written is defined on a valid surface, the intended count equals it |
| Swapchain.Sharing | ToyRenderer/src/renderer/swapchain.cpp:103-111 | images are exclusive with no family list iff the graphics and present families are the same; otherwise they are concurrent across both families, graphics first |
| Swapchain.CreateViews | ToyRenderer/src/renderer/swapchain.cpp:144-176 | one view per swapchain image, in order, each tied to the lifetime as an image view right after the existing entries |
| Swapchain.InitWithConfig | ToyRenderer/src/renderer/swapchain.cpp:45-136 | the swapchain gets an offered format and present mode, the computed extent, an image count within the surface's bounds and the sharing mode of its queue families (composes the corrected `ImageCount`); the created swapchain is tied to the lifetime as a `SwapchainKHR`, after every earlier entry, and the allocator stack is untouched |
| Input.Binding | ToyRenderer/src/system/input.cpp:12-39 | exactly the WSAD and arrow keys drive a flag, and no key drives `Up` or `Down` |
| Input.ApplyKey | ToyRenderer/src/system/input.cpp:12-39 | the flag bound to the key takes the value; every other flag and the mouse delta keep theirs |
| Input.OnInputAsWritten | ToyRenderer/src/system/input.cpp:8-53 | as written: a key's flag is set to whether the action is a release; a cursor event puts the cursor at (x, x) and the delta is the step to it; a mouse button changes nothing |
| Input.OnInput | ToyRenderer/src/system/input.cpp:8-53 | a key's flag holds while the key is down and the rest is unchanged; a cursor event puts the cursor at (x, y) with the step as the delta and keeps the flags; a mouse button changes nothing |
| Input.ReleaseMovesForward | ToyRenderer/src/system/input.cpp:11 | as written, pressing W clears the forward flag and releasing it sets it, so the camera moves once the key is let go; the intended handler leaves it cleared |
| Input.CursorLosesY | ToyRenderer/src/system/input.cpp:45 | as written, a cursor move to (1, 2) puts the cursor at (1, 1); the intended handler puts it at (1, 2) |
| Input.PressThenRelease | ToyRenderer/src/system/input.cpp:11-39 | a bound key's flag is set by a press and cleared by the following release, whatever it was before |
| Input.DeltaIsLastStep | ToyRenderer/src/system/input.cpp:42-49 | after two cursor moves the delta is the last step, not the whole way |
| Input.ConsumeCameraInput | ToyRenderer/src/system/input.cpp:55-59 | the input accumulated so far is returned, and only the mouse delta is reset |
| Input.ConsumeTwice | ToyRenderer/src/system/input.cpp:55-59 | consuming twice with no event in between yields no mouse movement the second time and the same flags |
| Instance.ValidationLayers | ToyRenderer/src/renderer/instance.cpp:35-67 | with validation on, exactly the wanted layers that are available are enabled; with it off, none |
| Instance.RequiredExtensions | ToyRenderer/src/renderer/instance.cpp:69-77 | the required list is the fixed instance extensions, then the window system's in order, then debug utils iff validating, and names nothing else |
| Instance.Init | ToyRenderer/src/renderer/instance.cpp:31-150 | creation passes its assertion iff every required extension is available; it then enables the chosen layers and exactly the required extensions, with a debug messenger iff validation is on |
| Instance.SeverityLevel | ToyRenderer/src/renderer/instance.cpp:156-173 | verbose logs at trace, info at info, error at error, and every other severity, warning included, at warn |
| Instance.TypeReason | ToyRenderer/src/renderer/instance.cpp:175-193 | the reason is "unknown" iff the type is not exactly one of the four single type bits; the validation bit reads "validation" |
| Instance.DebugCallback | ToyRenderer/src/renderer/instance.cpp:152-220 | the callback logs at the severity's level with the type's reason and always tells the driver not to abort the call |
| Instance.CombinedTypeIsUnknown | ToyRenderer/src/renderer/instance.cpp:177-193 | a message of two types at once (validation and performance) is logged as "unknown", and an unlisted severity as a warning |
| Device.ScanFamilies | ToyRenderer/src/renderer/device.cpp:77-91 | a graphics family is found iff one exists and a present family iff one can present; each found one is the last such family |
| Device.SelectPhysicalDevice | ToyRenderer/src/renderer/device.cpp:22-110 | selection succeeds iff some device has the swapchain extension, a surface format, a present mode, a graphics family and a present family; it picks the first such device with its last graphics and last present family, and otherwise the assertion stops |
| Device.QueueCreateFamilies | ToyRenderer/src/renderer/device.cpp:112-129 | one queue is created per distinct family, in increasing order: one when graphics and present share a family, two otherwise |
| VkUtils.CheckExtensions | ToyRenderer/src/renderer/utils.cpp:13-40 | the check succeeds iff every required name is available, whatever the order or repetitions of either list |
| VkUtils.SatisfiedIff | ToyRenderer/src/renderer/utils.cpp:22-30 | the required set lies within the available set iff every required name is available |
| VkUtils.UnlistedIsUnknown | ToyRenderer/src/renderer/utils.cpp:46-102 | every object type the switch does not list is named "unknown" |
| VkUtils.ListedNames | ToyRenderer/src/renderer/utils.cpp:46-102 | listed types keep their own name without the prefix; the listed `UNKNOWN` type differs from the fallback |
| VertexLayout.AttributeAt | ToyRenderer/src/renderer/vertex.cpp:19-63 | exactly locations 0 to 5 are bound, all on the single per-vertex binding, three-component floats for the first four and two-component floats for the texture coordinates, and no two locations read the same member |
| Gltf.FieldOf | ToyRenderer/src/gltf.cpp:115-134 | exactly the names POSITION, NORMAL, TEXCOORD_0 and COLOR_0 select a field, each its own |
| Gltf.Write | ToyRenderer/src/gltf.cpp:117-132 | writing a field sets that field and leaves every other field of the vertex as it was |
| Gltf.Grown | ToyRenderer/src/gltf.cpp:113 | the resize grows the vertices to the larger of the two sizes with blank vertices and never shrinks or changes an existing one |
| Gltf.LoadAttribute | ToyRenderer/src/gltf.cpp:111-138 | the vertices grow to cover the accessor from the start; a known attribute writes element k into its field of vertex start + k and nothing else; an unknown one writes nothing and warns only the first time its name is seen |
| Gltf.LoadMaterial | ToyRenderer/src/gltf.cpp:54-106 | a material loads iff it has a base colour texture with an image index whose bytes are in memory and decode; every other case stops on an assertion |
| Gltf.LoadMaterialsFrom | ToyRenderer/src/gltf.cpp:50-109 | from a given material on, loading succeeds iff every remaining material loads, and yields one material per asset material, in order, each with the texture definition and pixels of its decoded image |
| Gltf.LoadMaterials | ToyRenderer/src/gltf.cpp:50-109 | loading succeeds iff every material loads, with one material per asset material whose texture has the decoded image's size |
| Gltf.TextureIsDecodedSize | ToyRenderer/src/gltf.cpp:86-98 | a material texture is an RGBA8 image of exactly the decoded size and one layer deep |
| Gltf.CountsStep | ToyRenderer/src/gltf.cpp:165-190 | one more primitive adds its own index count and its largest attribute's vertex count |
| Gltf.AddPrimitive | ToyRenderer/src/gltf.cpp:165-190 | a primitive is accepted iff it has an index accessor and a material; it then adds one surface, appends its indices rebased by the vertex count so far in 32 bits, and grows the vertices by its largest attribute, leaving earlier data untouched |
| Gltf.RebasedKept | ToyRenderer/src/gltf.cpp:180-183 | appending to the index buffer keeps the rebased indices of the earlier primitives |
| Gltf.AssembledExtend | ToyRenderer/src/gltf.cpp:165-190 | appending the next primitive extends an assembly of the primitives before it |
| Gltf.AssembleMesh | ToyRenderer/src/gltf.cpp:163-190 | a mesh assembles iff all its primitives are complete; each surface then starts after the earlier primitives' indices and counts its own, and every index is rebased by the vertices before its primitive |
| Gltf.IndexCountPrefix | ToyRenderer/src/gltf.cpp:171-183 | the indices of the first k primitives are never more than those of all of them |
| Gltf.SurfacesPartition | ToyRenderer/src/gltf.cpp:171-183 | with fewer than 2^32 indices, the surfaces partition the index buffer: the first starts at 0, each counts its primitive's indices, each starts where the previous ends, and the last ends at the buffer's end |
| Gltf.SurfaceExact | ToyRenderer/src/gltf.cpp:174-178 | with fewer than 2^32 indices, the narrowed start and count of a surface are exact |
| Gltf.Flatten | ToyRenderer/src/gltf.cpp:143-144 | the flattened order lists exactly the nodes of all scenes |
| Gltf.LoadNode | ToyRenderer/src/gltf.cpp:145-213 | a node loads iff it has a mesh whose primitives are all complete; its mesh then has the node's transform scaled by 0.1 and the mesh's primitives assembled |
| Gltf.LoadMeshes | ToyRenderer/src/gltf.cpp:140-218 | loading succeeds iff every node of every scene loads; it then yields one mesh per scene node, scene by scene and in listed order, each assembled from its node |
| Options.Counted | ToyRenderer/src/options.cpp:94-99 | a count action adds one to its `size_t` counter, wrapping at 2^64; every other counter, flag, integer and custom action is unchanged |
| Options.FindShort | ToyRenderer/src/options.cpp:137-139 | the index found is the first entry with that short name, an entry whose short name is 0 never matches, and no index means no entry matches |
| Options.FindLong | ToyRenderer/src/options.cpp:150-151 | the index found is the first entry with that long name; no index means none has it |
| Options.FindChoice | ToyRenderer/src/options.cpp:112-113 | the index found is the first choice with that name; no index means none has it |
| Options.Dispatch | ToyRenderer/src/options.cpp:84-123 | per kind: none is an invalid entry; a null flag or counter is malformed input; a flag is set to the negation of `invert` and nothing else changes; a counter goes up by one and nothing else changes; a null custom action is an invalid entry; a choice with no argument left is malformed input, otherwise it consumes one argument and succeeds iff that argument names a choice, storing its value; a failure leaves every variable unchanged |
| Options.LeadingDashes | ToyRenderer/src/options.cpp:126-130 | `npos` iff the argument is empty or all dashes; otherwise the index of the first non-dash, with only dashes before it |
| Options.LeadingDashesOf | ToyRenderer/src/options.cpp:126 | an argument opening with one to three dashes and then a non-dash has exactly that many leading dashes |
| Options.ShortCluster | ToyRenderer/src/options.cpp:135-148 | a cluster of short names never moves the cursor backwards and never changes the arguments; its first-failure behaviour is stated by Options.ClusterStopsAtFirstRejected |
| Options.ParseOne | ToyRenderer/src/options.cpp:125-162 | only dashes, no dash, or three or more dashes are malformed input; one dash runs the short-name cluster; two dashes dispatch the entry with that long name, and an unknown long name is malformed input |
| Options.ParseFrom | ToyRenderer/src/options.cpp:168-174 | a successful parse has consumed every argument; its first-failure behaviour is stated by Options.FromStopsAtFirstRejected |
| Options.Parse | ToyRenderer/src/options.cpp:163-175 | the program name is skipped; a command line holding only it parses to `Ok` with the variables untouched |
| Options.ProgramNameIgnored | ToyRenderer/src/options.cpp:163-175 | the result and the variables do not depend on the program name |
| Options.SameTail | ToyRenderer/src/options.cpp:168-174 | two argument lists that agree after the program name parse alike from the same cursor |
| Options.SameTailOne | ToyRenderer/src/options.cpp:125-162 | one argument parses alike over two argument lists that agree after the program name |
| Options.SameTailCluster | ToyRenderer/src/options.cpp:135-148 | a short-name cluster parses alike over two argument lists that agree after the program name |
| Options.ClusterMatches | ToyRenderer/src/options.cpp:135-148 | without choice entries a cluster consumes nothing more and succeeds iff every one of its characters names an entry whose action succeeds |
| Options.OneMatches | ToyRenderer/src/options.cpp:125-162 | without choice entries one argument succeeds iff it is a one-dash cluster of good short names or a two-dash name of a good entry |
| Options.FromMatches | ToyRenderer/src/options.cpp:168-174 | without choice entries the loop succeeds iff every remaining argument is accepted on its own |
| Options.ParseOkIffAllAccepted | ToyRenderer/src/options.cpp:163-175 | without choice entries `parse` returns `Ok` iff every argument after the program name is accepted on its own |
| Options.KindResult | ToyRenderer/src/options.cpp:84-123 | for a kind other than choice, the action returns `Ok` iff its pointer is set (a kind of none never does) |
| Options.CharResult | ToyRenderer/src/options.cpp:137-146 | without choice entries, a character returns `Ok` iff it names an entry whose action succeeds |
| Options.FirstRejected | ToyRenderer/src/options.cpp:136-147 | the position of the first character not accepted: all before it are accepted |
| Options.ClusterStopsAtFirstRejected | ToyRenderer/src/options.cpp:135-148 | without choice entries a cluster runs its accepted prefix and then returns the first failing character's result from the state that prefix left; later characters have no effect |
| Options.FirstRejectedArg | ToyRenderer/src/options.cpp:168-174 | the position of the first argument not accepted: all before it are accepted |
| Options.ClusterIgnoresArgs | ToyRenderer/src/options.cpp:135-148 | without choice entries a cluster's result, store and cursor do not depend on the argument list |
| Options.OneIgnoresArgs | ToyRenderer/src/options.cpp:126-161 | without choice entries one argument's result, store and cursor do not depend on the argument list |
| Options.FromStopsAtFirstRejected | ToyRenderer/src/options.cpp:168-174 | without choice entries the loop parses the accepted arguments, then returns exactly what the first rejected argument returns from the store they left (a non-`Ok` result); later arguments have no effect |
| Options.ParseStopsAtFirstRejected | ToyRenderer/src/options.cpp:163-175 | without choice entries `parse` stops at the first argument after the program name that is not accepted and returns its result |
| Options.MaxLongName | ToyRenderer/src/options.cpp:185-191 | the longest long name: no entry's is longer, and some entry's is that long |
| Options.ArgsSpace | ToyRenderer/src/options.cpp:184-191 | the width reserved for long names is the longest long name capped at 20 |
| Options.LevelOf | ToyRenderer/src/options.cpp:290-300 | no `-v` is info, one is debug, two or more are trace |
| Options.FromArgs | ToyRenderer/src/options.cpp:231-303 | options come back only from a parse that returned `Ok` without reaching the help action; otherwise the usage text ends the program |
| Options.FromArgsDefaults | ToyRenderer/src/options.h:11-22 | with no argument: info level, renderdoc and validation layers off, FIFO presentation |
| Options.FromArgsVerboseOnce | ToyRenderer/src/options.cpp:245-248 | `-v` gives the debug level and leaves the other options at their defaults |
| Options.FromArgsVerboseTwice | ToyRenderer/src/options.cpp:290-300 | `-vv` counts twice in one cluster and gives the trace level |
| Options.FromArgsVerboseLong | ToyRenderer/src/options.cpp:149-158 | `--verbose` counts like `-v` |
| Options.FromArgsChoice | ToyRenderer/src/options.cpp:269-281 | `-p mailbox` consumes the following argument and selects the mailbox present mode |
| Options.FromArgsBadChoice | ToyRenderer/src/options.cpp:107-119 | `-p` with an unknown value or with no value is malformed, so no options come back |
| Options.FromArgsThreeDashes | ToyRenderer/src/options.cpp:159-160 | an argument with three leading dashes is malformed, so no options come back |
| Options.FromArgsHelp | ToyRenderer/src/options.cpp:239-243 | `-h` runs the usage action, so no options come back |
| Options.ClusterChoiceQuirk | ToyRenderer/src/options.cpp:132-134 | inside `-vpv immediate` the `p` takes the next argument as its value and both `v`s count: trace level with the immediate present mode |
| Engine.InvalidateDependents | ToyRenderer/src/renderer/vulkan_engine.cpp:157-161 | a storage ends up invalidated iff it already was or its definition depends on the swapchain; nothing else about any storage changes |
| Engine.RebuildSwapchain | ToyRenderer/src/renderer/vulkan_engine.cpp:150-166 | the rebuild succeeds iff the new images pair up with their views and cover every frame in flight; it waits once, flags the manager, invalidates exactly the storages that depend on the swapchain, fills the swapchain storage's slots with the new images in order, and keeps the engine consistent |
| Engine.Retired | ToyRenderer/src/renderer/vulkan_engine.cpp:37-42 | the retired images are exactly the images of the invalidated storages that the renderer owns |
| Engine.TieRetired | ToyRenderer/src/renderer/vulkan_engine.cpp:36-42 | the cleanup lifetime holds, in order, the view and the image with its allocation of every retired image, and nothing of an external storage |
| Engine.Teardown | ToyRenderer/src/renderer/vulkan_engine.cpp:36-44 | every retired view is destroyed, newest first, and then every retired image with its allocation, newest first; each exactly once |
| Engine.ReinitInvalidated | ToyRenderer/src/renderer/vulkan_engine.cpp:46-51 | each invalidated storage the renderer owns takes the freshly built images and is no longer invalidated; every other storage is unchanged |
| Engine.Reinit | ToyRenderer/src/renderer/vulkan_engine.cpp:34-51 | one device wait, every retiring storage rebuilt, nothing else about the engine changed |
| Engine.RebuildInvalidatedAsWritten | ToyRenderer/src/renderer/vulkan_engine.cpp:34-53 | as written, the storages are rebuilt but the manager's flag is left set |
| Engine.RebuildInvalidated | ToyRenderer/src/renderer/vulkan_engine.cpp:34-53 | with the flag cleared, nothing is left to rebuild and the engine is consistent |
| Engine.RebuildIfFlagged | ToyRenderer/src/renderer/vulkan_engine.cpp:57-60 | a pending swapchain rebuild is done and its flag cleared; without one the engine is unchanged |
| Engine.AcquireFrame | ToyRenderer/src/renderer/vulkan_engine.cpp:66-118 | the frame counter advances; out of date rebuilds the swapchain and returns no frame; any other result but success fails; success puts the acquired swapchain image in the frame's slot, hands over the pending command buffers and empties the queue; consistency is kept |
| Engine.StartFrameAsWritten | ToyRenderer/src/renderer/vulkan_engine.cpp:55-119 | as written: a pending swapchain rebuild is done first, then the flagged storages are rebuilt, then the acquire; the frame contract and consistency hold |
| Engine.StartFrame | ToyRenderer/src/renderer/vulkan_engine.cpp:55-119 | the same frame contract, and a started frame leaves nothing flagged for rebuilding |
| Engine.SuboptimalAcquireStops | ToyRenderer/src/renderer/vulkan_engine.cpp:84-91 | a suboptimal acquire falls through to `VK_CHECK` and stops the program |
| Engine.EveryFrameWaitsAsWritten | ToyRenderer/src/renderer/vulkan_engine.cpp:52-64 | as written, once the manager is flagged it stays flagged, and every later frame waits for the device again |
| Engine.SteadyFramesDoNotWait | ToyRenderer/src/renderer/vulkan_engine.cpp:55-66 | with the flag cleared, a frame that needs no rebuild and acquires an image does not wait for the device |
| Engine.EndFrame | ToyRenderer/src/renderer/vulkan_engine.cpp:122-148 | the frame's swapchain image moves to the present state and the other slot is untouched; an out-of-date or suboptimal present or a pending request leaves the rebuild flag set; any other failure stops the program; nothing else changes and consistency is kept |
| Engine.PresentRequestsRebuild | ToyRenderer/src/renderer/vulkan_engine.cpp:57-141 | a frame that presents out of date or suboptimal gets its swapchain rebuilt when the next frame starts |
| Engine.EndTransfer | ToyRenderer/src/renderer/vulkan_engine.cpp:260-272 | the transfer's graphics command buffer is queued last for the next frame, the engine waits once, and nothing else changes |
| Engine.TransferRunsNextFrame | ToyRenderer/src/renderer/vulkan_engine.cpp:108-111 | the next frame that acquires an image executes the queued command buffers, the transfer's last, and forgets them |
| Engine.DefineImages | ToyRenderer/src/renderer/vulkan_engine.cpp:218-220 | defining images touches only their definitions; no storage's images or invalidation flag change |
| Engine.DefineImagesUntouched | ToyRenderer/src/renderer/vulkan_engine.cpp:218-220 | an id that no definition names keeps its definition |
| Engine.DefineImagesLatestWins | ToyRenderer/src/renderer/vulkan_engine.cpp:218-220 | the last definition given for an id is the one it ends up with |
| Engine.InitStorages | ToyRenderer/src/renderer/vulkan_engine.cpp:225-232 | every storage the renderer owns is built from fresh images and is not invalidated; external storages are left alone |
| Pass.RegisterImageNames | ToyRenderer/src/renderer/ressource_manager.h:159-169 | a successful `register_image` returns the handle of the entry registered under its definition's id in its definition's scope, and only grows the registry |
| Pass.RegisterBufferNames | ToyRenderer/src/renderer/ressource_manager.h:175-187 | a successful `register_buffer` returns the handle of the entry registered under its definition's id in its definition's scope, and only grows the registry |
| Pass.RegisterImages | ToyRenderer/src/renderer/passes/pass.cpp:54-58 | registering a list of images succeeds iff every definition is transient or external; then it gives one handle per definition, in order, each naming its definition's entry, and no earlier entry moves |
| Pass.RegisterBuffers | ToyRenderer/src/renderer/passes/pass.cpp:59-63 | registering a list of buffers succeeds iff no definition has an unlisted scope; then it gives one handle per definition, in order, each naming its definition's entry, and no earlier entry moves |
| Pass.TieAll | ToyRenderer/src/renderer/passes/pass.cpp:38-46 | one descriptor-set layout is tied per definition, in order, after what the lifetime already held |
| Pass.AttachmentDefs | ToyRenderer/src/renderer/passes/pass.cpp:65-70 | the image definitions of the colour attachments, position by position |
| Pass.RegisterInputs | ToyRenderer/src/renderer/passes/pass.cpp:54-63 | the inputs register iff their images are transient or external and their buffers have a known scope; then every input handle names its definition, in order |
| Pass.Formats | ToyRenderer/src/renderer/passes/pass.cpp:76-81 | attachment `i` has the format its image definition resolves to |
| Pass.BlendStates | ToyRenderer/src/renderer/passes/pass.cpp:71-75 | attachment `i` has its own blend state |
| Pass.RegisterDepth | ToyRenderer/src/renderer/passes/pass.cpp:82-85 | without a depth attachment the handle is unset and the format undefined; with one, it is registered and its handle names it, with the format its definition resolves to |
| Pass.RegisterOutputs | ToyRenderer/src/renderer/passes/pass.cpp:65-90 | the colour attachments, depth attachment and output buffers register iff their scopes allow it; then handles, blend states and formats line up with the attachments, and the depth handle and format are set only for a defined depth attachment |
| Pass.BuildPass | ToyRenderer/src/renderer/passes/pass.cpp:26-93 | each definition list becomes a list of handles of the same length and order, each naming its definition's entry; attachment handles, formats and blend states line up; the lifetime gains the descriptor-set layouts in order and then the pipeline layout |
| Pass.BuildPipeline | ToyRenderer/src/renderer/passes/pass.cpp:94-126 | the pipeline takes the pass's stages, layout, attachment formats, depth format and blend states unchanged, and is tied last to the lifetime |
| Pass.PassAndPipelineTiedOnce | ToyRenderer/src/renderer/passes/pass.cpp:42-124 | a pass and its pipeline tie one descriptor-set layout per definition, then exactly one pipeline layout, then exactly one pipeline |

## Left out

- `Timer` and `FilteredTimer` in `timer.h` read a floating-point clock; only `Timeline` is modelled.
- The Python SSAO-kernel script is not part of this model.
- Hive: the stored type is fixed to `nat`. The source instantiates it with `uint32_t` and `size_t`, and nothing depends on the element type.
- Hive.CreateKeepsFreeList: proved only while the chunk count plus one fits in 16 bits. Beyond that the chunk index wraps, and the free-list lemmas do not cover it.
- Hive.CreateFromTail: the same 16-bit bound on the chunk count.
- Hive: the union of `data` and `next_free` in a slot is modelled as two fields plus a flag saying which was written last. Reading the data of a slot that holds a link is `Undefined`. The bytes of one member seen through the other are not modelled.
- Hive.CreateFixed: success is promised only from a good hive whose free-list head can be followed (`Hive.Ready`). A stale handle removed twice links its slot to itself, and a later `create` then reads a live slot's link, which is `Undefined`.
- Hive.CreateFixedKeepsGood: the same condition on the head.
- Hive.CreateReuses: stated for a head slot whose storage holds a link; otherwise `create` is `Undefined` (see `Hive.WriteOverLinkThenCreateIsUndefined`).
- Hive.ChunkCreate: on a first use the source also copies the slot's inactive `next_free` member before discarding it. That discarded read is not flagged.
- Hive.WriteKeepsFreeList: proved for a write into a live slot only. A write into a free slot overwrites its link, which the flag records, and no lemma follows what the free list becomes.
- SparseSet.Create: built on the corrected hive, while `sparse_set.h` instantiates the written one. `SparseSet.CreateMatchesAsWritten` shows the two hand out the same handle whenever the hive has a free slot on hand. That a set below capacity always has one is not proved, as that needs a count of the hive's slots.
- SparseSet.CreateKeepsSound: the same, over the corrected hive.
- Floating point: `CVarFloat` values, glTF scalars and the `0.1F` mesh-transform factor are reals. Rounding is not modelled.
- Options: only the fields `from_args` writes are kept (level, renderdoc, validation layers, present mode). Entry descriptions and sections feed only the printed usage text, and are dropped.
- Options.ArgsSpace: the width is computed, but the text `usage` prints and its `std::exit(0)` are not modelled. Reaching the help action simply means no options come back.
- Ressources: the bit values of the project's `IMAGE_OPTION_FLAG_*` and `IMAGE_USAGE_*` flags are not in the sources modelled here. They are given distinct placeholder values.
- Ressources: the `RessourceScope` codes are taken to be Transient 0, Extern 1, Storage 2. The handle is laid out with the index in the low 16 bits.
- Ressources.AsAttachment: the header's variant with a `DontCare` load operation is not modelled.
- Ressources.FromExternalImage: the extent parameter is dropped because nothing in the model reads it.
- Ressources: the `spdlog` warning that `get` prints for an invalidated storage is not modelled.
- RessourceManager.AcquireThenReleaseSizes: release restores a pool to `max(size, uses)`, not to its old size. A pool smaller than its number of uses builds fresh resources, and those are pushed back too.
- Instance.Init: `instance.cpp` calls a four-argument `check_extensions` whose body is not in the sources. The three-argument one from `utils.cpp` stands in for it, so optional extensions are not modelled.
- Device: `device.cpp` checks its own local list of device extensions (the swapchain only). The `REQUIRED_DEVICE_EXTENSIONS` constant of `constants.h` is not used there.
- VkUtils.UnlistedIsUnknown: one direction only. Unlisted values map to `"unknown"`, and listed names are shown on examples rather than for the whole table.
- VertexLayout: `vertex.h` and `vertex.cpp` describe different `Vertex` structs. The attribute table of `vertex.cpp` is modelled, but member offsets are not computed from a struct layout.
- Registry: the screen-size writes `swapchain.cpp` makes into the registry (lines 99-100) are not modelled.
- Staging: move-only semantics (deleted copy, defaulted move) are a C++ typing matter. Only the moved-from state is modelled.
- Staging.SuccessiveWindowsDisjoint: proved only while the mapped size plus each alignment stays below 2^32.
- Gltf: image decoding is a parameter. Buffer upload at the end of `load_meshes` and the TRS composition of node transforms are not modelled; a node's transform is given as a matrix.
- Gltf.SurfacesPartition: proved for meshes with fewer than 2^32 indices, the range the 32-bit index counts cover.
- Gltf.LoadMeshes: the loop over scenes and their nodes is flattened into one loop over the nodes in the same order.
- Types.Debounce: the clock is a parameter, and successive readings are required not to go backwards. Each call reads the clock twice: once when a value arrives, once for the elapsed check.
- Engine: the Vulkan calls behind `VK_UNWRAP` (fences, command-buffer begin/end, submit) are taken to succeed.
- Engine: what `end_frame` cleans up per frame, the uploader's `defer_trim` in `end_transfer`, buffer storage initialisation with `define_buffer`, timestamps, and the destructor's teardown are not modelled.
- Engine: `frame_id` is unbounded, so its 64-bit wrap is not modelled. The swapchain extent passed with the images is dropped.
- Pass: shader compilation and push constants are not modelled. The stages and layouts Vulkan returns are inputs.
- Pass: the format an image definition resolves to against the swapchain (`vk_format`, whose body is not in the sources) is a parameter.
- Pass: the fixed pipeline states (viewport, multisampling, dynamic state) carry no bookkeeping, and are not modelled.
- Staging.UploadBuffer: the `memcpy` into mapped memory is modelled as writing the bytes into the window. `update_buffer`'s own mapping of host-visible buffers is not modelled.

## Findings

| source | as written | input that shows it | evidently intended | confidence | as-written member | corrected member |
|---|---|---|---|---|---|---|
| utils/include/utils/data/hive.h:82-89 | the successor guard `initialized <= N` always holds, so filling the last slot of a chunk advertises slot N as the next free one | a hive with chunk size N: N creates fill chunk 0 and leave slot N as the next free slot; the next create calls `data.at(N)` and throws | advertise a successor only while `initialized + 1 < N`, otherwise start a new chunk | not executed | Hive.CreateAsWritten, Hive.AsWrittenSecondCreateThrows, Hive.AsWrittenAdvertisesSlotN | Hive.CreateFixed, Hive.CreateFixedKeepsGood |
| utils/include/utils/data/sparse_set.h:38-43 | `remove_unchecked(i)` releases the hive handle of the last dense element, not of `i` | create two items, then `remove_unchecked(0)`: the first item's handle still resolves, and the second item's handle no longer does | release the handle of the removed item and move the last item into its place | not executed | SparseSet.RemoveUncheckedAsWritten, SparseSet.AsWrittenRemovesTheWrongItem | SparseSet.RemoveUnchecked, SparseSet.RemoveKeepsSound |
| utils/include/utils/data/static_stack.h:28 | `pop_back` asserts `item_count > 1` | push one item, then `pop_back`: the assertion fails | allow popping whenever the stack is not empty | not executed | StaticStack.PopBackAsWritten, StaticStack.PopSingleItemRejected | StaticStack.PopBack |
| ToyRenderer/src/renderer/ressources.h:105 | `CVarExtent::resolve` checks that the height exists twice and never checks the width | a registry holding only the height key: resolve reads a width that was never saved | check the width and the height, as `CVarExtent2D` in `registry.cpp` does | not executed | Registry.CVarExtentResolveAsWritten, Registry.AsWrittenAcceptsMissingWidth | Registry.CVarExtentResolve, Registry.SaveThenResolve |
| ToyRenderer/src/renderer/ressources.cpp:78-79 | the four-channel `R32G32B32A32` flag maps to the three-channel `VK_FORMAT_R32G32B32_SFLOAT` (106) | a definition with only that flag: the format has no alpha channel | `VK_FORMAT_R32G32B32A32_SFLOAT` (109) | not executed | Ressources.FormatAsWritten, Ressources.FourChannelFlagLosesAlpha | Ressources.Format |
| ToyRenderer/src/renderer/deletion_queue.cpp:39-52 | `DeviceDeletionStack::cleanup` has no case for `ShaderModule`, so a deferred shader module is popped and never destroyed | defer one shader module and clean up: no destroy call is made | destroy it with `vkDestroyShaderModule`, as `deletion_stack.cpp` does | not executed | DeletionQueue.DeviceDestroyAsWritten, DeletionQueue.ShaderModuleLeaks | DeletionQueue.CleanupDevice |
| ToyRenderer/src/renderer/vertex.cpp:99-107 | `consume` computes `available()` in `size_t`, which wraps when the aligned offset is past the end of the buffer, so a request is let through | a buffer of size 10 at offset 9, with a request of 1 byte at alignment 4: the aligned offset is 12, `available()` wraps to a huge value, and the window at byte 12 is handed out | reject the request when the aligned offset plus the size exceeds the buffer | not executed | Staging.ConsumeAsWritten, Staging.ConsumePastTheEnd | Staging.Consume |
| ToyRenderer/src/renderer/swapchain.cpp:96-98 | the image count is clamped to `[minImageCount, maxImageCount or 2]`; when the surface reports no maximum and a minimum above 2, `std::clamp`'s precondition `lo <= hi` fails | `minImageCount = 3`, `maxImageCount = 0` | no upper bound when the surface reports none | not executed | Swapchain.ImageCountAsWritten, Swapchain.UnboundedSurfaceBreaksClamp | Swapchain.ImageCount, Swapchain.ImageCountAgrees |
| ToyRenderer/src/system/input.cpp:11 | a key's flag is set when the action is `GLFW_RELEASE`, so movement is held while the key is up | press and release the forward key: the camera moves forward after the release and not while the key is held | set the flag while the key is pressed or repeated | not executed | Input.OnInputAsWritten, Input.ReleaseMovesForward | Input.OnInput, Input.PressThenRelease |
| ToyRenderer/src/system/input.cpp:45 | the cursor's y is read from the event's x | a cursor move to (1, 2): the recorded position is (1, 1) | read y from the event's y | not executed | Input.OnInputAsWritten, Input.CursorLosesY | Input.OnInput, Input.DeltaIsLastStep |
| ToyRenderer/src/renderer/vulkan_engine.cpp:52 | `rebuild_invalidated` ends by setting `has_invalidated = true` | any frame after a swapchain rebuild: every later `start_frame` calls `rebuild_invalidated` again and waits for the device | clear the flag: `has_invalidated = false` | not executed | Engine.RebuildInvalidatedAsWritten, Engine.StartFrameAsWritten, Engine.EveryFrameWaitsAsWritten | Engine.RebuildInvalidated, Engine.StartFrame, Engine.SteadyFramesDoNotWait |

=== FILE: common.dfy ===
/**
 * Shared vocabulary of the model: optional values, the two ways an
 * operation of the renderer can stop the program (a failed `TR_ASSERT`
 * or an exception from a bounds-checked `.at()`), fixed-width integer
 * ranges and `std::clamp`.
 */
module Common {

  datatype Option<T> = None | Some(value: T)
  {
    predicate IsSome() { Some? }
  }

  /** Why an operation did not return normally. */
  datatype Failure =
    | AssertionFailed   // TR_ASSERT / VK_CHECK calls the no-return handler
    | OutOfRange        // std::array::at / std::vector::at throws
    | LogicError        // a JSON value throws on a conversion it does not support
    | Undefined         // a standard-library precondition is violated

  datatype Res<T> = Ok(value: T) | Fail(failure: Failure)

  const U16: nat := 0x1_0000
  const U32: nat := 0x1_0000_0000
  const U64: nat := 0x1_0000_0000_0000_0000

  /** `VkExtent2D`: two 32-bit sizes. */
  datatype Extent2D = Extent2D(width: nat, height: nat)

  /** Number of frames the renderer keeps in flight. */
  const MAX_FRAMES_IN_FLIGHT: nat := 2

  /** `std::clamp(v, lo, hi)`, whose precondition is `!(hi < lo)`. */
  function Clamp(v: int, lo: int, hi: int): (r: int)
    requires lo <= hi
    ensures lo <= r <= hi
    ensures lo <= v <= hi ==> r == v
    ensures v < lo ==> r == lo
    ensures hi < v ==> r == hi
  {
    if v < lo then lo else if hi < v then hi else v
  }

  function Min(a: int, b: int): (r: int)
    ensures r <= a && r <= b && (r == a || r == b)
  {
    if a <= b then a else b
  }

  function Max(a: int, b: int): (r: int)
    ensures r >= a && r >= b && (r == a || r == b)
  {
    if a >= b then a else b
  }

  lemma MulAtLeast(k: int, a: int)
    requires k >= 1 && a >= 1
    ensures k * a >= a
  {
  }

  /** Euclidean division is determined by quotient and remainder. */
  lemma ModUnique(x: int, a: int, q: int, r: int)
    requires a >= 1 && 0 <= r < a && x == q * a + r
    ensures x / a == q && x % a == r
  {
    var q' := x / a;
    var r' := x % a;
    assert x == q' * a + r';
    if q' > q {
      assert (q' - q) * a == q' * a - q * a;
      MulAtLeast(q' - q, a);
    } else if q' < q {
      assert (q - q') * a == q * a - q' * a;
      MulAtLeast(q - q', a);
    }
  }
}

=== FILE: deletion.dfy ===
/**
 * The deferred-deletion stacks of `deletion_stack.h/.cpp` and their older
 * copy in `deletion_queue.h/.cpp`: handles are pushed as they are created
 * and destroyed last-in first-out by `cleanup`; a stack destroyed while
 * not empty is an assertion failure.
 *
 * Handles are opaque numbers (the `reinterpret_cast<uint64_t>` of the
 * Vulkan handle); a destruction is recorded as the call it makes.
 */
module Deletion {
  import opened Common

  /** One deferred entry: the kind of object and its handle. */
  datatype Entry<K, H> = Entry(kind: K, handle: H)

  /** `defer_deletion`: one entry at the back. */
  function Defer<E>(stack: seq<E>, e: E): (r: seq<E>)
    ensures |r| == |stack| + 1 && r[..|stack|] == stack && r[|stack|] == e
  {
    stack + [e]
  }

  /** `~DeletionStack`: it asserts that everything was cleaned up. */
  function Drop<E>(stack: seq<E>): (r: Res<()>)
    ensures r.Ok? <==> stack == []
    ensures r.Fail? ==> r.failure == AssertionFailed
  {
    if stack == [] then Ok(()) else Fail(AssertionFailed)
  }

  /** A stack read from the back. */
  function Reversed<E>(s: seq<E>): (r: seq<E>)
    ensures |r| == |s|
  {
    if s == [] then [] else [s[|s| - 1]] + Reversed(s[..|s| - 1])
  }

  /** The calls made for a sequence of entries, in that order; an entry with no case makes none. */
  function Emitted<E, C>(s: seq<E>, destroy: E -> Option<C>): (r: seq<C>)
    ensures |r| <= |s|
  {
    if s == [] then []
    else (if destroy(s[0]).Some? then [destroy(s[0]).value] else []) + Emitted(s[1..], destroy)
  }

  /**
   * `cleanup`: pop the back entry, then destroy it, until the stack is
   * empty. The calls are those of the entries read from the back.
   */
  method Cleanup<E, C>(stack: seq<E>, destroy: E -> Option<C>) returns (calls: seq<C>, rest: seq<E>)
    ensures rest == []
    ensures calls == Emitted(Reversed(stack), destroy)
  {
    rest := stack;
    calls := [];
    while |rest| > 0
      invariant calls + Emitted(Reversed(rest), destroy) == Emitted(Reversed(stack), destroy)
    {
      var e := rest[|rest| - 1];
      ghost var before := rest;
      rest := rest[..|rest| - 1];
      assert Reversed(before) == [e] + Reversed(rest);
      assert ([e] + Reversed(rest))[1..] == Reversed(rest);
      match destroy(e) {
        case Some(c) => calls := calls + [c];
        case None =>
      }
    }
  }

  /** Reading from the back: position `i` holds the entry `i` places before the last. */
  lemma {:induction false} ReversedAt<E>(s: seq<E>, i: nat)
    requires i < |s|
    ensures Reversed(s)[i] == s[|s| - 1 - i]
  {
    if i > 0 {
      ReversedAt(s[..|s| - 1], i - 1);
    }
  }

  /** When every kind has a case, each entry is destroyed exactly once, the last deferred first. */
  lemma {:induction false} EveryEntryDestroyedOnce<E, C>(s: seq<E>, destroy: E -> Option<C>)
    requires forall k :: 0 <= k < |s| ==> destroy(s[k]).Some?
    ensures |Emitted(s, destroy)| == |s|
    ensures forall i :: 0 <= i < |s| ==> Emitted(s, destroy)[i] == destroy(s[i]).value
  {
    if s != [] {
      EveryEntryDestroyedOnce(s[1..], destroy);
    }
  }

  /** Cleanup with a case for every kind makes one call per entry, in reverse order of deferral. */
  lemma CleanupIsLifo<E, C>(s: seq<E>, destroy: E -> Option<C>)
    requires forall k :: 0 <= k < |s| ==> destroy(s[k]).Some?
    ensures |Emitted(Reversed(s), destroy)| == |s|
    ensures forall i :: 0 <= i < |s| ==> Emitted(Reversed(s), destroy)[i] == destroy(s[|s| - 1 - i]).value
  {
    forall k | 0 <= k < |s| ensures destroy(Reversed(s)[k]).Some? {
      ReversedAt(s, k);
    }
    EveryEntryDestroyedOnce(Reversed(s), destroy);
    forall i | 0 <= i < |s| ensures Emitted(Reversed(s), destroy)[i] == destroy(s[|s| - 1 - i]).value {
      ReversedAt(s, i);
    }
  }
}

/** The current deletion stacks, `Lifetime` among them. */
module DeletionStack {
  import opened Common
  import D = Deletion

  datatype InstanceHandle = Device | DebugUtilsMessengerEXT | SurfaceKHR

  datatype DeviceHandle =
    | CommandPool | ImageView | SwapchainKHR | Framebuffer | RenderPass | Fence | Semaphore
    | QueryPool | Pipeline | PipelineLayout | Buffer | DescriptorPool | ShaderModule
    | DescriptorSetLayout | Sampler

  datatype VmaHandle = VmaBuffer | VmaImage

  /** The destroy call a cleanup makes. */
  datatype Destroyed =
    | DestroyDevice(handle: nat)                                   // `vkDestroyDevice`, without the instance
    | WithInstance(instanceKind: InstanceHandle, handle: nat)     // `vkDestroy<Kind>(instance, ...)`
    | WithDevice(deviceKind: DeviceHandle, handle: nat)           // `vkDestroy<Kind>(device, ...)`
    | WithAllocator(vmaKind: VmaHandle, handle: nat, alloc: nat)  // `vmaDestroy<Kind>(allocator, ..., alloc)`

  type InstanceEntry = D.Entry<InstanceHandle, nat>
  type DeviceEntry = D.Entry<DeviceHandle, nat>
  type VmaEntry = D.Entry<VmaHandle, (nat, nat)>

  /** `InstanceDeletionStack::cleanup`'s switch: the device alone, the other kinds with the instance. */
  function InstanceDestroy(e: InstanceEntry): (r: Option<Destroyed>)
    ensures r.Some?
    ensures r.value.DestroyDevice? <==> e.kind == Device
    ensures r.value.handle == e.handle
    ensures r.value.WithInstance? ==> r.value.instanceKind == e.kind
  {
    if e.kind == Device then Some(DestroyDevice(e.handle)) else Some(WithInstance(e.kind, e.handle))
  }

  /** `DeviceDeletionStack::cleanup`'s switch: every kind has its same-named destroy call. */
  function DeviceDestroy(e: DeviceEntry): (r: Option<Destroyed>)
    ensures r.Some? && r.value.WithDevice? && r.value.deviceKind == e.kind && r.value.handle == e.handle
  {
    Some(WithDevice(e.kind, e.handle))
  }

  /** `VmaDeletionStack::cleanup`'s switch: the handle is destroyed with its paired allocation. */
  function VmaDestroy(e: VmaEntry): (r: Option<Destroyed>)
    ensures r.Some? && r.value.WithAllocator? && r.value.vmaKind == e.kind
    ensures r.value.handle == e.handle.0 && r.value.alloc == e.handle.1
  {
    Some(WithAllocator(e.kind, e.handle.0, e.handle.1))
  }

  /** `Lifetime`: a device stack and an allocator stack. */
  datatype Lifetime = Lifetime(device: seq<DeviceEntry>, allocator: seq<VmaEntry>)

  /** `tie` with a device handle grows only the device stack. */
  function TieDevice(l: Lifetime, kind: DeviceHandle, handle: nat): (r: Lifetime)
    ensures r.allocator == l.allocator
    ensures r.device == l.device + [D.Entry(kind, handle)]
  {
    l.(device := D.Defer(l.device, D.Entry(kind, handle)))
  }

  /** `tie` with an allocator handle grows only the allocator stack. */
  function TieVma(l: Lifetime, kind: VmaHandle, handle: nat, alloc: nat): (r: Lifetime)
    ensures r.device == l.device
    ensures r.allocator == l.allocator + [D.Entry(kind, (handle, alloc))]
  {
    l.(allocator := D.Defer(l.allocator, D.Entry(kind, (handle, alloc))))
  }

  /**
   * `Lifetime::cleanup`: the device stack is emptied before the allocator
   * stack, each from its last entry back.
   */
  method CleanupLifetime(l: Lifetime) returns (calls: seq<Destroyed>, after: Lifetime)
    ensures after == Lifetime([], [])
    ensures |calls| == |l.device| + |l.allocator|
    ensures forall i :: 0 <= i < |l.device| ==>
      calls[i] == WithDevice(l.device[|l.device| - 1 - i].kind, l.device[|l.device| - 1 - i].handle)
    ensures forall i :: 0 <= i < |l.allocator| ==>
      calls[|l.device|..][i] == VmaDestroy(l.allocator[|l.allocator| - 1 - i]).value
  {
    var deviceCalls, deviceRest := D.Cleanup(l.device, DeviceDestroy);
    var vmaCalls, vmaRest := D.Cleanup(l.allocator, VmaDestroy);
    D.CleanupIsLifo(l.device, DeviceDestroy);
    D.CleanupIsLifo(l.allocator, VmaDestroy);
    calls := deviceCalls + vmaCalls;
    assert calls[..|l.device|] == deviceCalls;
    assert calls[|l.device|..] == vmaCalls;
    after := Lifetime(deviceRest, vmaRest);
  }

  /** `InstanceDeletionStack::cleanup`: one call per entry, newest first, and an empty stack. */
  method CleanupInstance(stack: seq<InstanceEntry>) returns (calls: seq<Destroyed>, rest: seq<InstanceEntry>)
    ensures rest == [] && D.Drop(rest).Ok?
    ensures |calls| == |stack|
    ensures forall i :: 0 <= i < |stack| ==> calls[i] == InstanceDestroy(stack[|stack| - 1 - i]).value
  {
    calls, rest := D.Cleanup(stack, InstanceDestroy);
    D.CleanupIsLifo(stack, InstanceDestroy);
  }
}

/**
 * The older deletion stacks: the device kinds stop at `ShaderModule`, and
 * the device cleanup has no case for it.
 */
module DeletionQueue {
  import opened Common
  import D = Deletion

  datatype DeviceHandle =
    | CommandPool | ImageView | SwapchainKHR | Framebuffer | RenderPass | Fence | Semaphore
    | QueryPool | Pipeline | PipelineLayout | Buffer | DescriptorPool | ShaderModule

  datatype Destroyed = WithDevice(kind: DeviceHandle, handle: nat)

  type DeviceEntry = D.Entry<DeviceHandle, nat>

  /** The switch as written: a shader module falls through without a destroy call. */
  function DeviceDestroyAsWritten(e: DeviceEntry): (r: Option<Destroyed>)
    ensures r.None? <==> e.kind == ShaderModule
    ensures r.Some? ==> r.value == WithDevice(e.kind, e.handle)
  {
    if e.kind == ShaderModule then None else Some(WithDevice(e.kind, e.handle))
  }

  /**
   * The switch with the missing case: no kind is skipped, and on every kind
   * the written switch handles it makes the same call.
   */
  function DeviceDestroy(e: DeviceEntry): (r: Option<Destroyed>)
    ensures r.Some? && r.value.kind == e.kind && r.value.handle == e.handle
    ensures e.kind != ShaderModule <==> r == DeviceDestroyAsWritten(e)
  {
    Some(WithDevice(e.kind, e.handle))
  }

  /** A deferred shader module is popped but never destroyed by the switch as written. */
  lemma ShaderModuleLeaks(stack: seq<DeviceEntry>, h: nat)
    ensures var s := D.Defer(stack, D.Entry(ShaderModule, h));
      D.Emitted(D.Reversed(s), DeviceDestroyAsWritten) == D.Emitted(D.Reversed(stack), DeviceDestroyAsWritten)
  {
    var s := D.Defer(stack, D.Entry(ShaderModule, h));
    assert s[..|s| - 1] == stack;
    assert ([D.Entry(ShaderModule, h)] + D.Reversed(stack))[1..] == D.Reversed(stack);
  }

  /** With the case added, cleanup destroys every entry once, newest first. */
  method CleanupDevice(stack: seq<DeviceEntry>) returns (calls: seq<Destroyed>, rest: seq<DeviceEntry>)
    ensures rest == []
    ensures |calls| == |stack|
    ensures forall i :: 0 <= i < |stack| ==> calls[i] == WithDevice(stack[|stack| - 1 - i].kind, stack[|stack| - 1 - i].handle)
  {
    calls, rest := D.Cleanup(stack, DeviceDestroy);
    D.CleanupIsLifo(stack, DeviceDestroy);
  }
}

=== FILE: device.dfy ===
/**
 * Physical-device and queue-family selection of `device.cpp`. The
 * enumeration results (extensions, surface format and present-mode counts,
 * queue families with their surface support) are inputs.
 */
module Device {
  import opened Common
  import VkUtils

  /** The device extensions selection checks: the swapchain only. */
  const DEVICE_EXTENSIONS: seq<string> := ["VK_KHR_swapchain"]

  const VK_QUEUE_GRAPHICS_BIT: bv32 := 0x1

  datatype QueueFamily = QueueFamily(flags: bv32, presentSupport: bool)

  datatype PhysicalDevice = PhysicalDevice(
    handle: nat, extensions: seq<string>, formatCount: nat, presentModeCount: nat, families: seq<QueueFamily>)

  predicate IsGraphics(f: QueueFamily) { f.flags & VK_QUEUE_GRAPHICS_BIT != 0 }
  predicate CanPresent(f: QueueFamily) { f.presentSupport }

  /** `i` is the last index of `fs` whose family satisfies `p`. */
  ghost predicate IsLast(fs: seq<QueueFamily>, p: QueueFamily -> bool, i: nat)
  {
    i < |fs| && p(fs[i]) && forall j :: i < j < |fs| ==> !p(fs[j])
  }

  /**
   * The queue-family scan: every family is looked at and the last
   * graphics one and the last one able to present win.
   */
  method ScanFamilies(fs: seq<QueueFamily>) returns (graphics: Option<nat>, present: Option<nat>)
    ensures graphics.Some? <==> exists k :: 0 <= k < |fs| && IsGraphics(fs[k])
    ensures graphics.Some? ==> IsLast(fs, IsGraphics, graphics.value)
    ensures present.Some? <==> exists k :: 0 <= k < |fs| && fs[k].presentSupport
    ensures present.Some? ==> IsLast(fs, CanPresent, present.value)
  {
    graphics := None;
    present := None;
    for i := 0 to |fs|
      invariant graphics.None? <==> forall k :: 0 <= k < i ==> !IsGraphics(fs[k])
      invariant graphics.Some? ==> graphics.value < i && IsGraphics(fs[graphics.value]) &&
                                   forall j :: graphics.value < j < i ==> !IsGraphics(fs[j])
      invariant present.None? <==> forall k :: 0 <= k < i ==> !fs[k].presentSupport
      invariant present.Some? ==> present.value < i && fs[present.value].presentSupport &&
                                  forall j :: present.value < j < i ==> !fs[j].presentSupport
    {
      if IsGraphics(fs[i]) {
        graphics := Some(i);
      }
      if fs[i].presentSupport {
        present := Some(i);
      }
    }
  }

  /** The device passes every test of the selection loop. */
  ghost predicate Suitable(d: PhysicalDevice)
  {
    VkUtils.Satisfied(DEVICE_EXTENSIONS, d.extensions) && d.formatCount > 0 && d.presentModeCount > 0 &&
    (exists k :: 0 <= k < |d.families| && IsGraphics(d.families[k])) &&
    (exists k :: 0 <= k < |d.families| && d.families[k].presentSupport)
  }

  datatype Selected = Selected(index: nat, handle: nat, graphicsFamily: nat, presentFamily: nat)

  /**
   * `init_physical_device`: the first device, in enumeration order, that is
   * suitable; none at all, or none suitable, fails the assertion.
   */
  method SelectPhysicalDevice(devices: seq<PhysicalDevice>) returns (r: Res<Selected>)
    ensures r.Ok? <==> exists i :: 0 <= i < |devices| && Suitable(devices[i])
    ensures r.Fail? ==> r.failure == AssertionFailed
    ensures r.Ok? ==> var s := r.value;
      s.index < |devices| && Suitable(devices[s.index]) && s.handle == devices[s.index].handle &&
      (forall j :: 0 <= j < s.index ==> !Suitable(devices[j])) &&
      IsLast(devices[s.index].families, IsGraphics, s.graphicsFamily) &&
      IsLast(devices[s.index].families, CanPresent, s.presentFamily)
  {
    if |devices| == 0 {
      return Fail(AssertionFailed);
    }
    for i := 0 to |devices|
      invariant forall j :: 0 <= j < i ==> !Suitable(devices[j])
    {
      var d := devices[i];
      var ok := VkUtils.CheckExtensions(DEVICE_EXTENSIONS, d.extensions);
      VkUtils.SatisfiedIff(DEVICE_EXTENSIONS, d.extensions);
      if !ok || d.formatCount == 0 || d.presentModeCount == 0 {
        continue;
      }
      var graphics, present := ScanFamilies(d.families);
      if graphics.None? || present.None? {
        continue;
      }
      return Ok(Selected(i, d.handle, graphics.value, present.value));
    }
    return Fail(AssertionFailed);
  }

  /**
   * `init_device`'s queue create infos: one per distinct family, in
   * increasing order (the families go through a `std::set`).
   */
  function QueueCreateFamilies(graphics: nat, present: nat): (r: seq<nat>)
    ensures |r| == 1 <==> graphics == present
    ensures |r| == 2 <==> graphics != present
    ensures forall k :: k in r <==> k == graphics || k == present
    ensures forall i, j :: 0 <= i < j < |r| ==> r[i] < r[j]
  {
    if graphics == present then [graphics]
    else if graphics < present then [graphics, present]
    else [present, graphics]
  }
}

=== FILE: engine.dfy ===
/**
 * The bookkeeping of `VulkanEngine`'s frame loop: the swapchain-rebuild
 * flag, the `has_invalidated` flag of the resource manager and the
 * per-storage `invalidated` flags, the frame counter and its slots, and
 * the graphics command buffers a transfer leaves for the next frame.
 *
 * Vulkan calls are not modelled: what they return (the acquire and present
 * results, the new swapchain's images, freshly built images) is an input,
 * and `sync` is recorded as a count of device waits.
 */
module Engine {
  import opened Common
  import opened Synchronisation
  import R = Ressources
  import DS = DeletionStack
  import D = Deletion

  const VK_SUCCESS: int := 0
  const VK_SUBOPTIMAL_KHR: int := 1000001003
  const VK_ERROR_OUT_OF_DATE_KHR: int := -1000001004

  /** `ImageRessourceId::Swapchain`. */
  const SWAPCHAIN_ID: nat := 0

  /** The images and views of the swapchain, as the context's swapchain rebuild leaves them. */
  datatype Swapchain = Swapchain(images: seq<nat>, views: seq<nat>)

  datatype Engine = Engine(
    rm: R.Manager,
    frameId: nat,              // `frame_id`
    needsRebuild: bool,        // `swapchain_need_to_be_rebuilt`
    nextFrameCmds: seq<nat>,   // `graphic_command_buffers_for_next_frame`
    swapchain: Swapchain,
    swapchainBuilds: nat,      // how many times the swapchain was rebuilt
    waits: nat)                // how many times `sync` waited for the device

  predicate EngineValid(e: Engine)
  {
    R.ManagerValid(e.rm)
  }

  /** A storage the next `rebuild_invalidated` tears down and rebuilds: invalidated and owned by the renderer. */
  predicate Retires(st: R.ImageStorage)
  {
    st.invalidated && !R.IsExternal(st.definition)
  }

  /**
   * The engine's invariant: whenever an owned storage is invalidated, the
   * manager knows it, so the next frame rebuilds it.
   */
  predicate Consistent(e: Engine)
  {
    EngineValid(e) &&
    ((exists k :: 0 <= k < R.IMAGE_ID_COUNT && Retires(e.rm.images[k])) ==> e.rm.hasInvalidated)
  }

  // ---------------------------------------------------------- rebuild_swapchain

  /** `rebuild_swapchain`'s loop: the storages that depend on the swapchain are flagged. */
  function InvalidateDependents(images: seq<R.ImageStorage>): (r: seq<R.ImageStorage>)
    ensures |r| == |images|
    ensures forall k :: 0 <= k < |images| ==>
      r[k].definition == images[k].definition && r[k].ressources == images[k].ressources &&
      (r[k].invalidated <==> images[k].invalidated || R.DependsOnSwapchain(images[k].definition))
  {
    seq(|images|, k requires 0 <= k < |images| =>
      if R.DependsOnSwapchain(images[k].definition) then images[k].(invalidated := true) else images[k])
  }

  /**
   * `rebuild_swapchain`: after a device wait and a new swapchain (`next`),
   * exactly the storages depending on the swapchain are invalidated, the
   * manager is flagged, and the swapchain storage takes the new images,
   * which must pair up with their views and cover every frame in flight.
   */
  function RebuildSwapchain(e: Engine, next: Swapchain): (r: Res<Engine>)
    requires EngineValid(e)
    ensures r.Ok? <==> |next.images| == |next.views| >= MAX_FRAMES_IN_FLIGHT
    ensures r.Fail? ==> r.failure == AssertionFailed
    ensures r.Ok? ==> Consistent(r.value) && r.value.rm.hasInvalidated && r.value.rm.buffers == e.rm.buffers
    ensures r.Ok? ==> r.value.swapchain == next && r.value.swapchainBuilds == e.swapchainBuilds + 1 && r.value.waits == e.waits + 1
    ensures r.Ok? ==> r.value.frameId == e.frameId && r.value.needsRebuild == e.needsRebuild && r.value.nextFrameCmds == e.nextFrameCmds
    ensures r.Ok? ==> forall k :: 0 <= k < R.IMAGE_ID_COUNT ==>
      r.value.rm.images[k].definition == e.rm.images[k].definition &&
      (r.value.rm.images[k].invalidated <==> e.rm.images[k].invalidated || R.DependsOnSwapchain(e.rm.images[k].definition))
    ensures r.Ok? ==> forall k :: SWAPCHAIN_ID < k < R.IMAGE_ID_COUNT ==> r.value.rm.images[k].ressources == e.rm.images[k].ressources
    ensures r.Ok? ==> forall i :: 0 <= i < MAX_FRAMES_IN_FLIGHT ==>
      r.value.rm.images[SWAPCHAIN_ID].ressources[i] ==
      R.FromExternalImage(next.images[i], next.views[i], e.rm.images[SWAPCHAIN_ID].definition.usage, SrcImageMemoryBarrierUndefined)
  {
    var images := InvalidateDependents(e.rm.images);
    match R.FromExternalImages(images[SWAPCHAIN_ID], next.images, next.views)
    case Fail(f) => Fail(f)
    case Ok(st) =>
      Ok(e.(rm := e.rm.(images := images[SWAPCHAIN_ID := st], hasInvalidated := true),
            swapchain := next, swapchainBuilds := e.swapchainBuilds + 1, waits := e.waits + 1))
  }

  // -------------------------------------------------------- rebuild_invalidated

  /** The images of the retiring storages, in id order and slot by slot. */
  function Retired(images: seq<R.ImageStorage>): (r: seq<R.ImageRessource>)
    ensures forall x :: x in r ==> exists k :: 0 <= k < |images| && Retires(images[k]) && x in images[k].ressources
    ensures forall k, x :: 0 <= k < |images| && Retires(images[k]) && x in images[k].ressources ==> x in r
    decreases |images|
  {
    if images == [] then []
    else
      var last := images[|images| - 1];
      Retired(images[..|images| - 1]) + (if Retires(last) then last.ressources else [])
  }

  function ViewEntry(x: R.ImageRessource): DS.DeviceEntry
  {
    D.Entry(DS.ImageView, x.view)
  }

  function ImageEntry(x: R.ImageRessource): DS.VmaEntry
  {
    D.Entry(DS.VmaImage, (x.image, x.alloc))
  }

  /** The lifetime holds, position by position, the view and the image with its allocation of each resource. */
  predicate Tied(l: DS.Lifetime, rs: seq<R.ImageRessource>)
  {
    |l.device| == |rs| && |l.allocator| == |rs| &&
    forall i :: 0 <= i < |rs| ==> l.device[i] == ViewEntry(rs[i]) && l.allocator[i] == ImageEntry(rs[i])
  }

  /**
   * `rebuild_invalidated`'s first loop: each retiring storage ties its
   * images to a fresh lifetime (external storages tie nothing).
   */
  method TieRetired(images: seq<R.ImageStorage>) returns (l: DS.Lifetime)
    ensures Tied(l, Retired(images))
  {
    l := DS.Lifetime([], []);
    var k := 0;
    while k < |images|
      invariant 0 <= k <= |images|
      invariant Tied(l, Retired(images[..k]))
    {
      var st := images[k];
      assert images[..k + 1][..k] == images[..k];
      if Retires(st) {
        var j := 0;
        while j < |st.ressources|
          invariant 0 <= j <= |st.ressources|
          invariant Tied(l, Retired(images[..k]) + st.ressources[..j])
        {
          var x := st.ressources[j];
          l := DS.TieVma(l, DS.VmaImage, x.image, x.alloc);
          l := DS.TieDevice(l, DS.ImageView, x.view);
          assert st.ressources[..j + 1] == st.ressources[..j] + [x];
          j := j + 1;
        }
        assert st.ressources[..j] == st.ressources;
      }
      k := k + 1;
    }
    assert images[..k] == images;
  }

  /**
   * The teardown of `rebuild_invalidated`: every view of a retiring
   * storage is destroyed, newest first, and then every image with its
   * allocation, newest first; each exactly once.
   */
  method Teardown(images: seq<R.ImageStorage>) returns (calls: seq<DS.Destroyed>)
    ensures |calls| == 2 * |Retired(images)|
    ensures forall i :: 0 <= i < |Retired(images)| ==>
      calls[i] == DS.WithDevice(DS.ImageView, Retired(images)[|Retired(images)| - 1 - i].view)
    ensures forall i :: |Retired(images)| <= i < |calls| ==>
      calls[i] == DS.WithAllocator(DS.VmaImage, Retired(images)[|calls| - 1 - i].image, Retired(images)[|calls| - 1 - i].alloc)
  {
    var l := TieRetired(images);
    var after;
    calls, after := DS.CleanupLifetime(l);
    var n := |Retired(images)|;
    forall i | n <= i < |calls|
      ensures calls[i] == DS.WithAllocator(DS.VmaImage, Retired(images)[|calls| - 1 - i].image, Retired(images)[|calls| - 1 - i].alloc)
    {
      assert calls[i] == calls[|l.device|..][i - n];
    }
  }

  /** Fresh images from the image builder: one per frame in flight for each storage, in id order. */
  predicate Built(built: seq<seq<R.ImageRessource>>)
  {
    |built| == R.IMAGE_ID_COUNT && forall k :: 0 <= k < |built| ==> |built[k]| == MAX_FRAMES_IN_FLIGHT
  }

  /** `rebuild_invalidated`'s second loop: each invalidated storage is initialised again. */
  function ReinitInvalidated(images: seq<R.ImageStorage>, built: seq<seq<R.ImageRessource>>): (r: seq<R.ImageStorage>)
    requires |images| == R.IMAGE_ID_COUNT && Built(built)
    requires forall k :: 0 <= k < |images| ==> R.StorageValid(images[k])
    ensures |r| == |images|
    ensures forall k :: 0 <= k < |images| ==> R.StorageValid(r[k]) && r[k].definition == images[k].definition
    ensures forall k :: 0 <= k < |images| ==> !Retires(r[k])
    ensures forall k :: 0 <= k < |images| && Retires(images[k]) ==> r[k].ressources == built[k]
    ensures forall k :: 0 <= k < |images| && !Retires(images[k]) ==> r[k] == images[k]
  {
    seq(|images|, k requires 0 <= k < |images| =>
      if images[k].invalidated then R.InitStorage(images[k], built[k]) else images[k])
  }

  /**
   * What `rebuild_invalidated` does to the engine apart from the final
   * flag: one device wait, every retiring storage rebuilt from `built`,
   * nothing else changed.
   */
  predicate Reinitialised(e: Engine, built: seq<seq<R.ImageRessource>>, r: Engine)
    requires EngineValid(e) && Built(built)
  {
    EngineValid(r) && r.waits == e.waits + 1 &&
    r.frameId == e.frameId && r.needsRebuild == e.needsRebuild && r.nextFrameCmds == e.nextFrameCmds &&
    r.swapchain == e.swapchain && r.swapchainBuilds == e.swapchainBuilds && r.rm.buffers == e.rm.buffers &&
    (forall k :: 0 <= k < R.IMAGE_ID_COUNT ==> !Retires(r.rm.images[k]) && r.rm.images[k].definition == e.rm.images[k].definition) &&
    (forall k :: 0 <= k < R.IMAGE_ID_COUNT && Retires(e.rm.images[k]) ==> r.rm.images[k].ressources == built[k]) &&
    (forall k :: 0 <= k < R.IMAGE_ID_COUNT && !Retires(e.rm.images[k]) ==> r.rm.images[k] == e.rm.images[k])
  }

  function Reinit(e: Engine, built: seq<seq<R.ImageRessource>>): (r: Engine)
    requires EngineValid(e) && Built(built)
    ensures Reinitialised(e, built, r)
  {
    e.(rm := e.rm.(images := ReinitInvalidated(e.rm.images, built)), waits := e.waits + 1)
  }

  /** `rebuild_invalidated` as written: the manager's flag is left set. */
  function RebuildInvalidatedAsWritten(e: Engine, built: seq<seq<R.ImageRessource>>): (r: Engine)
    requires EngineValid(e) && Built(built)
    ensures Reinitialised(e, built, r) && r.rm.hasInvalidated
  {
    var e' := Reinit(e, built);
    e'.(rm := e'.rm.(hasInvalidated := true))
  }

  /** `rebuild_invalidated` with the flag cleared: nothing is left to rebuild. */
  function RebuildInvalidated(e: Engine, built: seq<seq<R.ImageRessource>>): (r: Engine)
    requires EngineValid(e) && Built(built)
    ensures Reinitialised(e, built, r) && !r.rm.hasInvalidated && Consistent(r)
  {
    var e' := Reinit(e, built);
    e'.(rm := e'.rm.(hasInvalidated := false))
  }

  // ------------------------------------------------------------------ frames

  /** What `vkAcquireNextImageKHR` returns. */
  datatype Acquire = Acquire(result: int, imageIndex: nat)

  /** A started frame: its id, its slot, the swapchain image and the command buffers it executes first. */
  datatype Frame = Frame(frameId: nat, slot: nat, imageIndex: nat, executed: seq<nat>)

  datatype Started = Started(frame: Option<Frame>, engine: Engine)

  /** Lines 57-60 of `start_frame`: a pending rebuild is done and the flag cleared. */
  function RebuildIfFlagged(e: Engine, next: Swapchain): (r: Res<Engine>)
    requires EngineValid(e)
    ensures !e.needsRebuild ==> r == Ok(e)
    ensures e.needsRebuild ==> (r.Ok? <==> RebuildSwapchain(e, next).Ok?)
    ensures e.needsRebuild && r.Ok? ==> r.value == RebuildSwapchain(e, next).value.(needsRebuild := false)
  {
    if !e.needsRebuild then Ok(e)
    else match RebuildSwapchain(e, next)
      case Fail(f) => Fail(f)
      case Ok(e') => Ok(e'.(needsRebuild := false))
  }

  /**
   * `start_frame` from line 66 on: the frame counter advances, then the
   * acquire result decides. Out of date: the swapchain is rebuilt and no
   * frame is returned. Anything else but success fails `VK_CHECK`. On
   * success, the frame's slot of the swapchain storage takes the acquired
   * image and the pending command buffers are executed and forgotten.
   */
  function AcquireFrame(e: Engine, acquire: Acquire, next: Swapchain): (r: Res<Started>)
    requires EngineValid(e)
    ensures Acquired(e, acquire, next, r)
    ensures r.Ok? && Consistent(e) ==> Consistent(r.value.engine)
  {
    var e1 := e.(frameId := e.frameId + 1);
    if acquire.result == VK_ERROR_OUT_OF_DATE_KHR then
      match RebuildSwapchain(e1, next)
      case Fail(f) => Fail(f)
      case Ok(e2) => Ok(Started(None, e2))
    else if acquire.result != VK_SUCCESS then Fail(AssertionFailed)
    else if acquire.imageIndex >= |e.swapchain.images| || acquire.imageIndex >= |e.swapchain.views| then Fail(Undefined)
    else
      var img := R.FromExternalImage(e.swapchain.images[acquire.imageIndex], e.swapchain.views[acquire.imageIndex],
                                     R.VK_IMAGE_USAGE_COLOR_ATTACHMENT_BIT, SrcImageMemoryBarrierUndefined);
      var st := e.rm.images[SWAPCHAIN_ID];
      var st' := st.(ressources := R.StoreSlot(st.ressources, e1.frameId, img));
      var frame := Frame(e1.frameId, R.SlotOf(e1.frameId), acquire.imageIndex, e.nextFrameCmds);
      Ok(Started(Some(frame), e1.(rm := e.rm.(images := e.rm.images[SWAPCHAIN_ID := st']), nextFrameCmds := [])))
  }

  /**
   * What acquiring does to an engine: the frame counter advances; an out
   * of date swapchain is rebuilt from `next` and no frame is returned; a
   * success stores the acquired image in the frame's slot and hands over
   * the pending command buffers; the rest fails.
   */
  predicate Acquired(e: Engine, acquire: Acquire, next: Swapchain, r: Res<Started>)
    requires EngineValid(e)
  {
    (r.Ok? ==> EngineValid(r.value.engine) && r.value.engine.needsRebuild == e.needsRebuild && r.value.engine.frameId == e.frameId + 1) &&
    (r.Ok? ==> r.value.engine.swapchainBuilds == e.swapchainBuilds + (if acquire.result == VK_ERROR_OUT_OF_DATE_KHR then 1 else 0)) &&
    (r.Ok? ==> (acquire.result == VK_SUCCESS || acquire.result == VK_ERROR_OUT_OF_DATE_KHR)) &&
    (r.Ok? ==> (r.value.frame.None? <==> acquire.result == VK_ERROR_OUT_OF_DATE_KHR)) &&
    (r.Ok? && r.value.frame.None? ==> r.value.engine.nextFrameCmds == e.nextFrameCmds && r.value.engine.swapchain == next) &&
    (r.Ok? && r.value.frame.Some? ==>
      var f := r.value.frame.value;
      var g := r.value.engine;
      f.frameId == e.frameId + 1 && f.slot == R.SlotOf(e.frameId + 1) && f.imageIndex == acquire.imageIndex &&
      f.executed == e.nextFrameCmds && g.nextFrameCmds == [] && g.swapchain == e.swapchain && g.waits == e.waits &&
      g.rm.hasInvalidated == e.rm.hasInvalidated &&
      f.imageIndex < |g.swapchain.images| && f.imageIndex < |g.swapchain.views| &&
      R.GetSlot(g.rm.images[SWAPCHAIN_ID].ressources, f.frameId) ==
        R.FromExternalImage(g.swapchain.images[f.imageIndex], g.swapchain.views[f.imageIndex],
                            R.VK_IMAGE_USAGE_COLOR_ATTACHMENT_BIT, SrcImageMemoryBarrierUndefined) &&
      forall k :: 0 <= k < R.IMAGE_ID_COUNT ==> Retires(g.rm.images[k]) == Retires(e.rm.images[k]))
  }

  /** The contract `start_frame` keeps, whichever way `rebuild_invalidated` leaves the flag. */
  predicate StartedFrame(e: Engine, acquire: Acquire, next: Swapchain, reacquired: Swapchain, r: Res<Started>)
  {
    (r.Ok? ==> EngineValid(r.value.engine) && !r.value.engine.needsRebuild && r.value.engine.frameId == e.frameId + 1) &&
    (r.Ok? ==>
      r.value.engine.swapchainBuilds ==
        e.swapchainBuilds + (if e.needsRebuild then 1 else 0) + (if acquire.result == VK_ERROR_OUT_OF_DATE_KHR then 1 else 0)) &&
    (r.Ok? ==> (acquire.result == VK_SUCCESS || acquire.result == VK_ERROR_OUT_OF_DATE_KHR)) &&
    (r.Ok? ==> (r.value.frame.None? <==> acquire.result == VK_ERROR_OUT_OF_DATE_KHR)) &&
    (r.Ok? && r.value.frame.None? ==> r.value.engine.nextFrameCmds == e.nextFrameCmds && r.value.engine.swapchain == reacquired) &&
    (r.Ok? && r.value.frame.Some? ==>
      var f := r.value.frame.value;
      var g := r.value.engine;
      f.frameId == e.frameId + 1 && f.slot == R.SlotOf(e.frameId + 1) && f.imageIndex == acquire.imageIndex &&
      f.executed == e.nextFrameCmds && g.nextFrameCmds == [] &&
      f.imageIndex < |g.swapchain.images| && f.imageIndex < |g.swapchain.views| &&
      R.GetSlot(g.rm.images[SWAPCHAIN_ID].ressources, f.frameId) ==
        R.FromExternalImage(g.swapchain.images[f.imageIndex], g.swapchain.views[f.imageIndex],
                            R.VK_IMAGE_USAGE_COLOR_ATTACHMENT_BIT, SrcImageMemoryBarrierUndefined) &&
      forall k :: 0 <= k < R.IMAGE_ID_COUNT ==> !Retires(g.rm.images[k]))
  }

  /** `start_frame` as written, with `rebuild_invalidated` leaving the flag set. */
  function StartFrameAsWritten(e: Engine, built: seq<seq<R.ImageRessource>>, next: Swapchain, acquire: Acquire, reacquired: Swapchain): (r: Res<Started>)
    requires Consistent(e) && Built(built)
    ensures StartedFrame(e, acquire, next, reacquired, r)
    ensures r.Ok? ==> Consistent(r.value.engine)
  {
    match RebuildIfFlagged(e, next)
    case Fail(f) => Fail(f)
    case Ok(e1) =>
      var e2 := if e1.rm.hasInvalidated then RebuildInvalidatedAsWritten(e1, built) else e1;
      AcquireFrame(e2, acquire, reacquired)
  }

  /** `start_frame` with the corrected `rebuild_invalidated`. */
  function StartFrame(e: Engine, built: seq<seq<R.ImageRessource>>, next: Swapchain, acquire: Acquire, reacquired: Swapchain): (r: Res<Started>)
    requires Consistent(e) && Built(built)
    ensures StartedFrame(e, acquire, next, reacquired, r)
    ensures r.Ok? ==> Consistent(r.value.engine)
    ensures r.Ok? && r.value.frame.Some? ==> !r.value.engine.rm.hasInvalidated
  {
    match RebuildIfFlagged(e, next)
    case Fail(f) => Fail(f)
    case Ok(e1) =>
      var e2 := if e1.rm.hasInvalidated then RebuildInvalidated(e1, built) else e1;
      AcquireFrame(e2, acquire, reacquired)
  }

  /** A suboptimal acquire goes to `VK_CHECK` with the other results and stops the program. */
  lemma SuboptimalAcquireStops(e: Engine, built: seq<seq<R.ImageRessource>>, next: Swapchain, acquire: Acquire, reacquired: Swapchain)
    requires Consistent(e) && Built(built) && acquire.result == VK_SUBOPTIMAL_KHR
    ensures StartFrame(e, built, next, acquire, reacquired).Fail?
    ensures StartFrameAsWritten(e, built, next, acquire, reacquired).Fail?
  {
  }

  /**
   * As written, once the manager is flagged it stays flagged: every later
   * `start_frame` calls `rebuild_invalidated` again and waits for the device.
   */
  lemma EveryFrameWaitsAsWritten(e: Engine, built: seq<seq<R.ImageRessource>>, next: Swapchain, acquire: Acquire, reacquired: Swapchain)
    requires Consistent(e) && Built(built) && e.rm.hasInvalidated
    ensures var r := StartFrameAsWritten(e, built, next, acquire, reacquired);
      r.Ok? ==> r.value.engine.rm.hasInvalidated && r.value.engine.waits > e.waits
  {
    var r := StartFrameAsWritten(e, built, next, acquire, reacquired);
    if r.Ok? {
      var e1 := RebuildIfFlagged(e, next).value;
      assert e1.rm.hasInvalidated && e1.waits >= e.waits;
      var e2 := RebuildInvalidatedAsWritten(e1, built);
      assert e2.waits > e.waits;
    }
  }

  /**
   * With the flag cleared, frames with nothing to rebuild do not wait: after
   * a frame is started, the next one that needs no swapchain rebuild and
   * acquires an image waits no more than it did.
   */
  lemma SteadyFramesDoNotWait(e: Engine, built: seq<seq<R.ImageRessource>>, next: Swapchain, acquire: Acquire, reacquired: Swapchain)
    requires Consistent(e) && Built(built) && !e.needsRebuild && !e.rm.hasInvalidated && acquire.result == VK_SUCCESS
    ensures var r := StartFrame(e, built, next, acquire, reacquired);
      r.Ok? ==> r.value.engine.waits == e.waits && !r.value.engine.rm.hasInvalidated
  {
  }

  /**
   * `end_frame`: the frame's swapchain image is moved to the present state;
   * an out-of-date or suboptimal present, or a pending request, leaves the
   * rebuild flag set for the next frame; any other failure stops the program.
   */
  function EndFrame(e: Engine, frame: Frame, present: int): (r: Res<Engine>)
    requires EngineValid(e)
    ensures r.Ok? <==> present == VK_SUCCESS || present == VK_ERROR_OUT_OF_DATE_KHR || present == VK_SUBOPTIMAL_KHR || e.needsRebuild
    ensures r.Fail? ==> r.failure == AssertionFailed
    ensures r.Ok? ==> EngineValid(r.value)
    ensures r.Ok? ==> (r.value.needsRebuild <==> e.needsRebuild || present == VK_ERROR_OUT_OF_DATE_KHR || present == VK_SUBOPTIMAL_KHR)
    ensures r.Ok? ==>
      R.GetSlot(r.value.rm.images[SWAPCHAIN_ID].ressources, frame.frameId) ==
      R.GetSlot(e.rm.images[SWAPCHAIN_ID].ressources, frame.frameId).(syncInfo := SyncPresent)
    ensures r.Ok? ==>
      R.GetSlot(r.value.rm.images[SWAPCHAIN_ID].ressources, frame.frameId + 1) ==
      R.GetSlot(e.rm.images[SWAPCHAIN_ID].ressources, frame.frameId + 1)
    ensures r.Ok? ==> forall k :: SWAPCHAIN_ID < k < R.IMAGE_ID_COUNT ==> r.value.rm.images[k] == e.rm.images[k]
    ensures r.Ok? ==> r.value.rm.hasInvalidated == e.rm.hasInvalidated && r.value.frameId == e.frameId
    ensures r.Ok? ==> r.value.nextFrameCmds == e.nextFrameCmds && r.value.waits == e.waits && r.value.swapchainBuilds == e.swapchainBuilds
    ensures r.Ok? && Consistent(e) ==> Consistent(r.value)
  {
    var st := e.rm.images[SWAPCHAIN_ID];
    var img := R.PrepareBarrier(R.GetSlot(st.ressources, frame.frameId), SyncPresent).1;
    var st' := st.(ressources := R.StoreSlot(st.ressources, frame.frameId, img));
    var e1 := e.(rm := e.rm.(images := e.rm.images[SWAPCHAIN_ID := st']));
    R.FramesAlternate(frame.frameId);
    if present == VK_ERROR_OUT_OF_DATE_KHR || present == VK_SUBOPTIMAL_KHR || e.needsRebuild then Ok(e1.(needsRebuild := true))
    else if present != VK_SUCCESS then Fail(AssertionFailed)
    else Ok(e1)
  }

  /** A frame that presents out of date or suboptimal has its swapchain rebuilt when the next frame starts. */
  lemma PresentRequestsRebuild(e: Engine, frame: Frame, present: int, built: seq<seq<R.ImageRessource>>,
                               next: Swapchain, acquire: Acquire, reacquired: Swapchain)
    requires Consistent(e) && Built(built)
    requires present == VK_ERROR_OUT_OF_DATE_KHR || present == VK_SUBOPTIMAL_KHR
    ensures EndFrame(e, frame, present).Ok?
    ensures var r := StartFrame(EndFrame(e, frame, present).value, built, next, acquire, reacquired);
      r.Ok? ==> r.value.engine.swapchainBuilds > e.swapchainBuilds && !r.value.engine.needsRebuild
  {
  }

  /**
   * `end_transfer`: the transfer's graphics command buffer is queued for
   * the next frame, and the engine waits for the device.
   */
  function EndTransfer(e: Engine, graphicsCmd: nat): (r: Engine)
    ensures r.nextFrameCmds == e.nextFrameCmds + [graphicsCmd] && r.nextFrameCmds[|e.nextFrameCmds|] == graphicsCmd
    ensures r.waits == e.waits + 1
    ensures r.(nextFrameCmds := e.nextFrameCmds, waits := e.waits) == e
  {
    e.(nextFrameCmds := e.nextFrameCmds + [graphicsCmd], waits := e.waits + 1)
  }

  /** The next frame that acquires an image executes the queued command buffer, last, and forgets it. */
  lemma TransferRunsNextFrame(e: Engine, graphicsCmd: nat, built: seq<seq<R.ImageRessource>>,
                              next: Swapchain, acquire: Acquire, reacquired: Swapchain)
    requires Consistent(e) && Built(built)
    ensures Consistent(EndTransfer(e, graphicsCmd))
    ensures var r := StartFrame(EndTransfer(e, graphicsCmd), built, next, acquire, reacquired);
      r.Ok? && r.value.frame.Some? ==>
        r.value.frame.value.executed == e.nextFrameCmds + [graphicsCmd] && r.value.engine.nextFrameCmds == []
  {
  }

  // -------------------------------------------------------------------- init

  /** `init`'s definition loop: each definition goes to its id's storage, a later one overriding an earlier one. */
  function DefineImages(m: R.Manager, defs: seq<(nat, R.ImageDefinition)>): (r: R.Manager)
    requires R.ManagerValid(m)
    requires forall i :: 0 <= i < |defs| ==> defs[i].0 < R.IMAGE_ID_COUNT
    ensures R.ManagerValid(r) && r.buffers == m.buffers && r.hasInvalidated == m.hasInvalidated
    ensures forall k :: 0 <= k < R.IMAGE_ID_COUNT ==>
      r.images[k].ressources == m.images[k].ressources && r.images[k].invalidated == m.images[k].invalidated
    decreases |defs|
  {
    if defs == [] then m
    else
      var (id, def) := defs[|defs| - 1];
      R.DefineImage(DefineImages(m, defs[..|defs| - 1]), id, def)
  }

  /** An id that no definition names keeps the definition it had. */
  lemma {:induction false} DefineImagesUntouched(m: R.Manager, defs: seq<(nat, R.ImageDefinition)>, k: nat)
    requires R.ManagerValid(m)
    requires forall i :: 0 <= i < |defs| ==> defs[i].0 < R.IMAGE_ID_COUNT
    requires k < R.IMAGE_ID_COUNT && forall i :: 0 <= i < |defs| ==> defs[i].0 != k
    ensures DefineImages(m, defs).images[k].definition == m.images[k].definition
    decreases |defs|
  {
    if defs != [] {
      var prefix := defs[..|defs| - 1];
      assert forall i :: 0 <= i < |prefix| ==> prefix[i] == defs[i];
      DefineImagesUntouched(m, prefix, k);
    }
  }

  /** A definition that no later one overrides is the one its id ends up with. */
  lemma {:induction false} DefineImagesLatestWins(m: R.Manager, defs: seq<(nat, R.ImageDefinition)>, i: nat)
    requires R.ManagerValid(m)
    requires forall j :: 0 <= j < |defs| ==> defs[j].0 < R.IMAGE_ID_COUNT
    requires i < |defs| && forall j :: i < j < |defs| ==> defs[j].0 != defs[i].0
    ensures DefineImages(m, defs).images[defs[i].0].definition == defs[i].1
    decreases |defs|
  {
    var last := |defs| - 1;
    if i < last {
      var prefix := defs[..last];
      assert forall j :: 0 <= j < |prefix| ==> prefix[j] == defs[j];
      DefineImagesLatestWins(m, prefix, i);
    }
  }

  /** `init`'s storage loop: every owned storage is built from `built` and valid; external ones are left alone. */
  function InitStorages(m: R.Manager, built: seq<seq<R.ImageRessource>>): (r: R.Manager)
    requires R.ManagerValid(m) && Built(built)
    ensures R.ManagerValid(r) && r.buffers == m.buffers && r.hasInvalidated == m.hasInvalidated
    ensures forall k :: 0 <= k < R.IMAGE_ID_COUNT ==> !Retires(r.images[k]) && r.images[k].definition == m.images[k].definition
    ensures forall k :: 0 <= k < R.IMAGE_ID_COUNT && !R.IsExternal(m.images[k].definition) ==> r.images[k].ressources == built[k]
    ensures forall k :: 0 <= k < R.IMAGE_ID_COUNT && R.IsExternal(m.images[k].definition) ==> r.images[k] == m.images[k]
  {
    m.(images := seq(R.IMAGE_ID_COUNT, k requires 0 <= k < R.IMAGE_ID_COUNT =>
      if R.IsExternal(m.images[k].definition) then m.images[k] else R.InitStorage(m.images[k], built[k])))
  }
}

=== FILE: gltf.dfy ===
/**
 * Mesh and material assembly of `gltf.cpp`, on an already parsed and
 * validated glTF asset: accessors are sequences of elements, images are
 * byte strings decoded by a given function.
 *
 * Each scene node becomes one mesh. The mesh's primitives append their
 * indices, rebased by the number of vertices present before the
 * primitive, to one index buffer, and each primitive's surface records
 * where its indices start and how many there are. Vertex attributes are
 * written field by field into a vertex array that only grows.
 */
module Gltf {

  import opened Common
  import R = Ressources

  /** A float vector of an attribute; its width is not tracked. */
  type Vec = seq<real>

  /** The vertex fields glTF attributes are written to. */
  datatype Field = Position | Normal | Texcoord | Color

  /** A vertex: the fields written so far; a field never written keeps its value-initialised default. */
  datatype Vertex = Vertex(fields: map<Field, Vec>)

  /** A value-initialised vertex, as `std::vector::resize` appends it. */
  const BLANK: Vertex := Vertex(map[])

  /** One element of an accessor, read either as a `uint32_t` index or as a vector. */
  datatype Element = Element(asIndex: nat, asVector: Vec)

  type Accessor = seq<Element>

  /** The field an attribute name is loaded into; any other name is unknown. */
  function FieldOf(name: string): (r: Option<Field>)
    ensures r == Some(Position) <==> name == "POSITION"
    ensures r == Some(Normal) <==> name == "NORMAL"
    ensures r == Some(Texcoord) <==> name == "TEXCOORD_0"
    ensures r == Some(Color) <==> name == "COLOR_0"
  {
    if name == "POSITION" then Some(Position)
    else if name == "NORMAL" then Some(Normal)
    else if name == "TEXCOORD_0" then Some(Texcoord)
    else if name == "COLOR_0" then Some(Color)
    else None
  }

  /** Sets one field of a vertex. */
  function Write(v: Vertex, f: Field, x: Vec): (r: Vertex)
    ensures f in r.fields && r.fields[f] == x
    ensures forall g :: g != f ==> (g in r.fields <==> g in v.fields)
    ensures forall g :: g != f && g in v.fields ==> r.fields[g] == v.fields[g]
  {
    Vertex(v.fields[f := x])
  }

  /** The vertex at position `i` before a resize: the stored one, or a blank one past the end. */
  function Prior(vertices: seq<Vertex>, i: nat): Vertex
  {
    if i < |vertices| then vertices[i] else BLANK
  }

  /** `std::vector::resize(std::max(size, n))`: grows with blank vertices, never shrinks. */
  function Grown(vertices: seq<Vertex>, n: nat): (r: seq<Vertex>)
    ensures |r| == Max(|vertices|, n)
    ensures forall i :: 0 <= i < |r| ==> r[i] == Prior(vertices, i)
  {
    if n <= |vertices| then vertices else vertices + seq(n - |vertices|, _ => BLANK)
  }

  /**
   * `load_attribute`: grows the vertices to cover the accessor from
   * `start` on, then writes element k into field `FieldOf(name)` of vertex
   * `start + k`. An unknown name writes nothing and warns, once per name
   * over the whole run (`warned` is the set of names already warned about).
   */
  method LoadAttribute(vertices: seq<Vertex>, name: string, accessor: Accessor, start: nat, warned: set<string>)
    returns (r: seq<Vertex>, warned': set<string>, warns: bool)
    ensures |r| == Max(|vertices|, start + |accessor|)
    ensures forall i :: 0 <= i < |r| && !(start <= i < start + |accessor|) ==> r[i] == Prior(vertices, i)
    ensures FieldOf(name).Some? ==>
      forall k :: 0 <= k < |accessor| ==> r[start + k] == Write(Prior(vertices, start + k), FieldOf(name).value, accessor[k].asVector)
    ensures FieldOf(name).None? ==> r == Grown(vertices, start + |accessor|)
    ensures warns <==> FieldOf(name).None? && name !in warned
    ensures warned' == if FieldOf(name).None? then warned + {name} else warned
  {
    r := Grown(vertices, start + |accessor|);
    match FieldOf(name)
    case None =>
      warns := name !in warned;
      warned' := warned + {name};
    case Some(f) =>
      warns := false;
      warned' := warned;
      var k := 0;
      while k < |accessor|
        invariant 0 <= k <= |accessor|
        invariant |r| == Max(|vertices|, start + |accessor|)
        invariant forall i :: 0 <= i < |r| && !(start <= i < start + k) ==> r[i] == Prior(vertices, i)
        invariant forall j :: 0 <= j < k ==> r[start + j] == Write(Prior(vertices, start + j), f, accessor[j].asVector)
      {
        r := r[start + k := Write(r[start + k], f, accessor[k].asVector)];
        k := k + 1;
      }
  }

  // ------------------------------------------------------------------ asset

  datatype Primitive = Primitive(indicesAccessor: Option<nat>, materialIndex: Option<nat>, attributes: seq<(string, nat)>)

  datatype MeshDef = MeshDef(name: string, primitives: seq<Primitive>)

  /** A scene node; its local matrix is given already composed from translation, rotation and scale. */
  datatype Node = Node(meshIndex: Option<nat>, transform: seq<real>)

  datatype MaterialDef = MaterialDef(baseColorTexture: Option<nat>)

  datatype Texture = Texture(imageIndex: Option<nat>)

  /** Where an image's bytes live: in memory (a buffer or a vector), or elsewhere (a URI). */
  datatype ImageSource = Bytes(bytes: seq<int>) | Elsewhere

  datatype Asset = Asset(
    scenes: seq<seq<nat>>,
    nodes: seq<Node>,
    meshes: seq<MeshDef>,
    accessors: seq<Accessor>,
    materials: seq<MaterialDef>,
    textures: seq<Texture>,
    images: seq<ImageSource>)

  predicate PrimitiveValid(a: Asset, p: Primitive)
  {
    (p.indicesAccessor.Some? ==> p.indicesAccessor.value < |a.accessors|) &&
    (p.materialIndex.Some? ==> p.materialIndex.value < |a.materials|) &&
    forall i :: 0 <= i < |p.attributes| ==> p.attributes[i].1 < |a.accessors|
  }

  predicate AllValid(a: Asset, prims: seq<Primitive>)
  {
    forall k :: 0 <= k < |prims| ==> PrimitiveValid(a, prims[k])
  }

  /** What a successful `fastgltf::validate` guarantees: every index names an existing object. */
  predicate Valid(a: Asset)
  {
    (forall s :: s in a.scenes ==> forall n :: n in s ==> n < |a.nodes|) &&
    (forall n :: n in a.nodes && n.meshIndex.Some? ==> n.meshIndex.value < |a.meshes|) &&
    (forall m :: m in a.meshes ==> AllValid(a, m.primitives)) &&
    (forall m :: m in a.materials && m.baseColorTexture.Some? ==> m.baseColorTexture.value < |a.textures|) &&
    (forall t :: t in a.textures && t.imageIndex.Some? ==> t.imageIndex.value < |a.images|)
  }

  // -------------------------------------------------------------- materials

  /** A decoded image: `stbi_load_from_memory` forced to four channels. */
  datatype Decoded = Decoded(width: nat, height: nat, pixels: seq<int>)

  /** A material: the definition of its base colour texture and the pixels uploaded into it. */
  datatype Material = Material(texture: R.ImageOptions, pixels: seq<int>)

  /** The texture definition of a material: RGBA8, custom size, sampled and a transfer destination. */
  function TextureOptions(width: nat, height: nat): R.ImageOptions
  {
    R.ImageOptions(R.IMAGE_OPTION_FLAG_FORMAT_R8G8B8A8_UNORM_BIT | R.IMAGE_OPTION_FLAG_SIZE_CUSTOM_BIT,
                   R.IMAGE_USAGE_SAMPLED_BIT | R.IMAGE_USAGE_TRANSFER_DST_BIT,
                   Some(Extent2D(width, height)))
  }

  /** Whether a material can be loaded: base colour texture, image index, in-memory bytes that decode. */
  predicate Loadable(a: Asset, decode: seq<int> -> Option<Decoded>, m: MaterialDef)
    requires Valid(a) && m in a.materials
  {
    m.baseColorTexture.Some? &&
    a.textures[m.baseColorTexture.value].imageIndex.Some? &&
    var image := a.images[a.textures[m.baseColorTexture.value].imageIndex.value];
    image.Bytes? && decode(image.bytes).Some?
  }

  /** The decoded base colour image of a loadable material. */
  function DecodedOf(a: Asset, decode: seq<int> -> Option<Decoded>, m: MaterialDef): Decoded
    requires Valid(a) && m in a.materials && Loadable(a, decode, m)
  {
    decode(a.images[a.textures[m.baseColorTexture.value].imageIndex.value].bytes).value
  }

  /** The loop body of `load_materials`. */
  function LoadMaterial(a: Asset, decode: seq<int> -> Option<Decoded>, m: MaterialDef): (r: Res<Material>)
    requires Valid(a) && m in a.materials
    ensures r.Ok? <==> Loadable(a, decode, m)
    ensures r.Fail? ==> r.failure == AssertionFailed
  {
    if m.baseColorTexture.None? then Fail(AssertionFailed)
    else
      var texture := a.textures[m.baseColorTexture.value];
      if texture.imageIndex.None? then Fail(AssertionFailed)
      else match a.images[texture.imageIndex.value]
        case Elsewhere => Fail(AssertionFailed)
        case Bytes(bytes) =>
          match decode(bytes)
          case None => Fail(AssertionFailed)
          case Some(d) => Ok(Material(TextureOptions(d.width, d.height), d.pixels))
  }

  /**
   * `load_materials` from the `i`-th material on: one material per asset
   * material, in the asset's order; the first that cannot be loaded stops
   * the program.
   */
  function LoadMaterialsFrom(a: Asset, decode: seq<int> -> Option<Decoded>, i: nat): (r: Res<seq<Material>>)
    requires Valid(a) && i <= |a.materials|
    ensures r.Ok? <==> forall j :: i <= j < |a.materials| ==> Loadable(a, decode, a.materials[j])
    ensures r.Fail? ==> r.failure == AssertionFailed
    ensures r.Ok? ==> |r.value| == |a.materials| - i
    ensures r.Ok? ==> forall j :: i <= j < |a.materials| ==>
      var d := DecodedOf(a, decode, a.materials[j]);
      r.value[j - i] == Material(TextureOptions(d.width, d.height), d.pixels)
    decreases |a.materials| - i
  {
    if i == |a.materials| then Ok([])
    else match LoadMaterial(a, decode, a.materials[i])
      case Fail(f) => Fail(f)
      case Ok(m) =>
        match LoadMaterialsFrom(a, decode, i + 1)
        case Fail(f) => Fail(f)
        case Ok(rest) => Ok([m] + rest)
  }

  function LoadMaterials(a: Asset, decode: seq<int> -> Option<Decoded>): (r: Res<seq<Material>>)
    requires Valid(a)
    ensures r.Ok? <==> forall m :: m in a.materials ==> Loadable(a, decode, m)
    ensures r.Ok? ==> |r.value| == |a.materials|
    ensures r.Ok? ==> forall j :: 0 <= j < |a.materials| ==>
      r.value[j].texture == TextureOptions(DecodedOf(a, decode, a.materials[j]).width, DecodedOf(a, decode, a.materials[j]).height)
  {
    var r := LoadMaterialsFrom(a, decode, 0);
    assert r.Ok? <==> forall m :: m in a.materials ==> Loadable(a, decode, m) by {
      if !r.Ok? {
        var j :| 0 <= j < |a.materials| && !Loadable(a, decode, a.materials[j]);
        assert a.materials[j] in a.materials;
      }
    }
    r
  }

  /** A material texture is an RGBA8 image of exactly the decoded size, one layer deep. */
  lemma TextureIsDecodedSize(width: nat, height: nat, framebufferFormat: int, framebuffer: Extent2D)
    ensures R.Format(TextureOptions(width, height), framebufferFormat) == Ok(R.VK_FORMAT_R8G8B8A8_UNORM)
    ensures R.Extent(TextureOptions(width, height), framebuffer) == Ok(R.Extent3D(width, height, 1))
  {
    var flags := TextureOptions(width, height).flags;
    assert R.Has(flags, R.IMAGE_OPTION_FLAG_FORMAT_R8G8B8A8_UNORM_BIT);
    assert !R.Has(flags, R.IMAGE_OPTION_FLAG_FORMAT_R32G32B32A32_SFLOAT_BIT);
    assert !R.Has(flags, R.IMAGE_OPTION_FLAG_FORMAT_D16_UNORM_BIT);
    assert !R.Has(flags, R.IMAGE_OPTION_FLAG_FORMAT_SAME_AS_FRAMEBUFFER_BIT);
    assert !R.Has(flags, R.IMAGE_OPTION_FLAG_SIZE_SAME_AS_FRAMEBUFFER_BIT);
    assert R.Has(flags, R.IMAGE_OPTION_FLAG_SIZE_CUSTOM_BIT);
  }

  // ----------------------------------------------------------------- meshes

  /** A primitive `load_meshes` accepts: it has an index accessor and a material. */
  predicate Complete(p: Primitive)
  {
    p.indicesAccessor.Some? && p.materialIndex.Some?
  }

  /** The first `n` primitives are complete. */
  predicate AllComplete(prims: seq<Primitive>, n: nat)
    requires n <= |prims|
  {
    forall k :: 0 <= k < n ==> Complete(prims[k])
  }

  /** Number of elements of accessor `i`, none for an index past the end. */
  function AccessorSize(a: Asset, i: nat): nat
  {
    if i < |a.accessors| then |a.accessors[i]| else 0
  }

  /** Number of indices a primitive contributes: its index accessor's count. */
  function IndexCountOf(a: Asset, p: Primitive): nat
  {
    if p.indicesAccessor.Some? then AccessorSize(a, p.indicesAccessor.value) else 0
  }

  /** The largest accessor among some attributes: how far they grow the vertices past the primitive's start. */
  function MaxCount(a: Asset, attributes: seq<(string, nat)>): nat
  {
    if attributes == [] then 0
    else Max(MaxCount(a, attributes[..|attributes| - 1]), AccessorSize(a, attributes[|attributes| - 1].1))
  }

  /** Number of indices a run of primitives contributes. */
  function IndexCount(a: Asset, prims: seq<Primitive>): nat
  {
    if prims == [] then 0 else IndexCount(a, prims[..|prims| - 1]) + IndexCountOf(a, prims[|prims| - 1])
  }

  /** Number of vertices a run of primitives contributes. */
  function VertexCount(a: Asset, prims: seq<Primitive>): nat
  {
    if prims == [] then 0 else VertexCount(a, prims[..|prims| - 1]) + MaxCount(a, prims[|prims| - 1].attributes)
  }

  lemma CountsStep(a: Asset, prims: seq<Primitive>, k: nat)
    requires k < |prims|
    ensures IndexCount(a, prims[..k + 1]) == IndexCount(a, prims[..k]) + IndexCountOf(a, prims[k])
    ensures VertexCount(a, prims[..k + 1]) == VertexCount(a, prims[..k]) + MaxCount(a, prims[k].attributes)
  {
    assert prims[..k + 1][..k] == prims[..k];
  }

  /** `GeoSurface`: a range of the index buffer and the material it is drawn with. */
  datatype Surface = Surface(start: nat, count: nat, material: Material)

  /** What `load_meshes` builds for one mesh before uploading it. */
  datatype MeshData = MeshData(surfaces: seq<Surface>, indices: seq<nat>, vertices: seq<Vertex>)

  /** Surface k starts after the indices of the primitives before it and counts its own, both narrowed to 32 bits. */
  function SurfaceOf(a: Asset, materials: seq<Material>, prims: seq<Primitive>, k: nat): Surface
    requires k < |prims| && Complete(prims[k]) && PrimitiveValid(a, prims[k]) && |materials| == |a.materials|
  {
    Surface(IndexCount(a, prims[..k]) % U32, IndexCountOf(a, prims[k]) % U32, materials[prims[k].materialIndex.value])
  }

  /** Index j of primitive k is the accessor's index plus the vertices before the primitive, in 32-bit arithmetic. */
  predicate RebasedAt(a: Asset, prims: seq<Primitive>, k: nat, j: nat, indices: seq<nat>)
    requires k < |prims| && Complete(prims[k]) && PrimitiveValid(a, prims[k]) && j < IndexCountOf(a, prims[k])
  {
    IndexCount(a, prims[..k]) + j < |indices| &&
    indices[IndexCount(a, prims[..k]) + j] ==
      (VertexCount(a, prims[..k]) % U32 + a.accessors[prims[k].indicesAccessor.value][j].asIndex) % U32
  }

  /** The first `n` primitives are assembled into `d`. */
  predicate Assembled(a: Asset, materials: seq<Material>, prims: seq<Primitive>, n: nat, d: MeshData)
    requires AllValid(a, prims) && n <= |prims| && AllComplete(prims, n) && |materials| == |a.materials|
  {
    |d.surfaces| == n &&
    |d.indices| == IndexCount(a, prims[..n]) &&
    |d.vertices| == VertexCount(a, prims[..n]) &&
    (forall k :: 0 <= k < n ==> d.surfaces[k] == SurfaceOf(a, materials, prims, k)) &&
    (forall k, j :: 0 <= k < n && 0 <= j < IndexCountOf(a, prims[k]) ==> RebasedAt(a, prims, k, j, d.indices))
  }

  /**
   * `d'` is `d` with primitive `p` appended: one more surface, the
   * primitive's indices rebased by the vertex count so far, and the
   * vertices grown by the primitive's largest attribute, the earlier ones
   * untouched.
   */
  predicate Appended(a: Asset, materials: seq<Material>, d: MeshData, p: Primitive, d': MeshData)
    requires PrimitiveValid(a, p) && Complete(p) && |materials| == |a.materials|
  {
    var acc := a.accessors[p.indicesAccessor.value];
    d'.surfaces == d.surfaces + [Surface(|d.indices| % U32, |acc| % U32, materials[p.materialIndex.value])] &&
    |d'.indices| == |d.indices| + |acc| &&
    d'.indices[..|d.indices|] == d.indices &&
    (forall j :: 0 <= j < |acc| ==> d'.indices[|d.indices| + j] == (|d.vertices| % U32 + acc[j].asIndex) % U32) &&
    |d'.vertices| == |d.vertices| + MaxCount(a, p.attributes) &&
    d'.vertices[..|d.vertices|] == d.vertices
  }

  /**
   * One iteration of the primitive loop of `load_meshes`: record the
   * surface, append the rebased indices, then load every attribute at the
   * primitive's first vertex.
   */
  method AddPrimitive(a: Asset, materials: seq<Material>, d: MeshData, warned: set<string>, p: Primitive)
    returns (r: Res<MeshData>, warned': set<string>)
    requires PrimitiveValid(a, p) && |materials| == |a.materials|
    ensures r.Ok? <==> Complete(p)
    ensures r.Fail? ==> r.failure == AssertionFailed
    ensures r.Ok? ==> Appended(a, materials, d, p, r.value)
  {
    warned' := warned;
    if p.indicesAccessor.None? || p.materialIndex.None? {
      return Fail(AssertionFailed), warned';
    }
    var acc := a.accessors[p.indicesAccessor.value];
    var start := |d.vertices|;
    var surfaces := d.surfaces + [Surface(|d.indices| % U32, |acc| % U32, materials[p.materialIndex.value])];
    var indices: seq<nat> := d.indices;
    var j := 0;
    while j < |acc|
      invariant 0 <= j <= |acc|
      invariant |indices| == |d.indices| + j
      invariant indices[..|d.indices|] == d.indices
      invariant forall i :: 0 <= i < j ==> indices[|d.indices| + i] == (start % U32 + acc[i].asIndex) % U32
    {
      indices := indices + [(start % U32 + acc[j].asIndex) % U32];
      j := j + 1;
    }
    var vertices := d.vertices;
    var i := 0;
    while i < |p.attributes|
      invariant 0 <= i <= |p.attributes|
      invariant |vertices| == start + MaxCount(a, p.attributes[..i])
      invariant vertices[..start] == d.vertices
    {
      var (name, index) := p.attributes[i];
      var grown, w, _ := LoadAttribute(vertices, name, a.accessors[index], start, warned');
      assert p.attributes[..i + 1][..i] == p.attributes[..i];
      assert grown[..start] == vertices[..start] by {
        forall k | 0 <= k < start ensures grown[k] == vertices[k] {
          assert grown[k] == Prior(vertices, k);
        }
      }
      vertices, warned' := grown, w;
      i := i + 1;
    }
    assert p.attributes[..|p.attributes|] == p.attributes;
    r := Ok(MeshData(surfaces, indices, vertices));
  }

  /** Appending primitive k keeps the rebased indices of the primitives before it. */
  lemma RebasedKept(a: Asset, prims: seq<Primitive>, k: nat, k': nat, j: nat, d: MeshData, d': MeshData)
    requires k' < k < |prims| && Complete(prims[k']) && PrimitiveValid(a, prims[k']) && j < IndexCountOf(a, prims[k'])
    requires RebasedAt(a, prims, k', j, d.indices)
    requires |d.indices| <= |d'.indices| && d'.indices[..|d.indices|] == d.indices
    ensures RebasedAt(a, prims, k', j, d'.indices)
  {
    var i := IndexCount(a, prims[..k']) + j;
    assert d'.indices[..|d.indices|][i] == d.indices[i];
  }

  /** Appending the next primitive extends an assembly of the ones before it. */
  lemma AssembledExtend(a: Asset, materials: seq<Material>, prims: seq<Primitive>, k: nat, d: MeshData, d': MeshData)
    requires AllValid(a, prims) && k < |prims| && |materials| == |a.materials|
    requires AllComplete(prims, k + 1)
    requires Assembled(a, materials, prims, k, d)
    requires Appended(a, materials, d, prims[k], d')
    ensures Assembled(a, materials, prims, k + 1, d')
  {
    CountsStep(a, prims, k);
    assert d'.surfaces[k] == SurfaceOf(a, materials, prims, k);
    forall k', j | 0 <= k' < k + 1 && 0 <= j < IndexCountOf(a, prims[k'])
      ensures RebasedAt(a, prims, k', j, d'.indices)
    {
      if k' < k {
        RebasedKept(a, prims, k, k', j, d, d');
      }
    }
  }

  /**
   * The primitive loop of `load_meshes` for one mesh. It fails on the
   * first primitive without an index accessor or a material.
   */
  method AssembleMesh(a: Asset, materials: seq<Material>, m: MeshDef, warned: set<string>)
    returns (r: Res<MeshData>, warned': set<string>)
    requires AllValid(a, m.primitives) && |materials| == |a.materials|
    ensures r.Ok? <==> AllComplete(m.primitives, |m.primitives|)
    ensures r.Fail? ==> r.failure == AssertionFailed
    ensures r.Ok? ==> Assembled(a, materials, m.primitives, |m.primitives|, r.value)
  {
    var prims := m.primitives;
    var d := MeshData([], [], []);
    warned' := warned;
    var k := 0;
    assert prims[..0] == [];
    while k < |prims|
      invariant 0 <= k <= |prims|
      invariant AllComplete(prims, k)
      invariant Assembled(a, materials, prims, k, d)
    {
      var step, w := AddPrimitive(a, materials, d, warned', prims[k]);
      warned' := w;
      if step.Fail? {
        return Fail(AssertionFailed), warned';
      }
      AssembledExtend(a, materials, prims, k, d, step.value);
      d := step.value;
      k := k + 1;
    }
    r := Ok(d);
  }

  /** The indices of the first k primitives are among those of all of them. */
  lemma {:induction false} IndexCountPrefix(a: Asset, prims: seq<Primitive>, k: nat)
    requires k <= |prims|
    ensures IndexCount(a, prims[..k]) <= IndexCount(a, prims)
    decreases |prims|
  {
    if k < |prims| {
      var init := prims[..|prims| - 1];
      assert init[..k] == prims[..k];
      IndexCountPrefix(a, init, k);
    } else {
      assert prims[..k] == prims;
    }
  }

  /**
   * The surfaces of an assembled mesh partition its index buffer: the
   * first starts at 0, each starts where the previous one ends, each
   * counts its primitive's indices, and the last ends at the buffer's
   * end. This needs the buffer to stay below 2^32 entries, so that the
   * narrowed starts and counts are exact.
   */
  lemma SurfacesPartition(a: Asset, materials: seq<Material>, prims: seq<Primitive>, d: MeshData)
    requires AllValid(a, prims) && |materials| == |a.materials|
    requires AllComplete(prims, |prims|)
    requires Assembled(a, materials, prims, |prims|, d)
    requires |d.indices| < U32
    ensures |d.surfaces| == |prims|
    ensures |prims| > 0 ==> d.surfaces[0].start == 0
    ensures forall k :: 0 <= k < |prims| ==> d.surfaces[k].count == |a.accessors[prims[k].indicesAccessor.value]|
    ensures forall k :: 0 <= k < |prims| - 1 ==> d.surfaces[k + 1].start == d.surfaces[k].start + d.surfaces[k].count
    ensures |prims| > 0 ==> d.surfaces[|prims| - 1].start + d.surfaces[|prims| - 1].count == |d.indices|
  {
    assert prims[..|prims|] == prims;
    forall k | 0 <= k < |prims|
      ensures d.surfaces[k].start == IndexCount(a, prims[..k])
      ensures d.surfaces[k].count == |a.accessors[prims[k].indicesAccessor.value]|
      ensures IndexCount(a, prims[..k + 1]) == d.surfaces[k].start + d.surfaces[k].count
    {
      SurfaceExact(a, materials, prims, d, k);
    }
    if |prims| > 0 {
      assert prims[..0] == [];
    }
  }

  lemma SurfaceExact(a: Asset, materials: seq<Material>, prims: seq<Primitive>, d: MeshData, k: nat)
    requires AllValid(a, prims) && |materials| == |a.materials|
    requires AllComplete(prims, |prims|)
    requires Assembled(a, materials, prims, |prims|, d)
    requires |d.indices| < U32
    requires k < |prims|
    ensures d.surfaces[k].start == IndexCount(a, prims[..k])
    ensures d.surfaces[k].count == |a.accessors[prims[k].indicesAccessor.value]|
    ensures IndexCount(a, prims[..k + 1]) == d.surfaces[k].start + d.surfaces[k].count
  {
    assert prims[..|prims|] == prims;
    IndexCountPrefix(a, prims, k + 1);
    CountsStep(a, prims, k);
    assert IndexCount(a, prims[..k + 1]) < U32;
    assert d.surfaces[k] == SurfaceOf(a, materials, prims, k);
  }

  // ------------------------------------------------------------------ scenes

  /** The nodes of all scenes, scene by scene, each in its listed order. */
  function Flatten(scenes: seq<seq<nat>>): (r: seq<nat>)
    ensures forall n :: n in r <==> exists s :: s in scenes && n in s
  {
    if scenes == [] then [] else scenes[0] + Flatten(scenes[1..])
  }

  /** `0.1F * transform`. */
  function Scaled(m: seq<real>): (r: seq<real>)
  {
    seq(|m|, i requires 0 <= i < |m| => m[i] / 10.0)
  }

  /** `Mesh`: its transform and the geometry uploaded into its vertex and index buffers. */
  datatype Mesh = Mesh(transform: seq<real>, data: MeshData)

  /** Whether a node can be loaded: it has a mesh, and every primitive of the mesh is complete. */
  predicate NodeLoadable(a: Asset, node: Node)
    requires Valid(a) && node in a.nodes
  {
    node.meshIndex.Some? &&
    AllComplete(a.meshes[node.meshIndex.value].primitives, |a.meshes[node.meshIndex.value].primitives|)
  }

  /** The mesh of a node: the node's transform scaled by 0.1 and its mesh's primitives assembled. */
  predicate MeshOfNode(a: Asset, materials: seq<Material>, node: Node, mesh: Mesh)
    requires Valid(a) && node in a.nodes && |materials| == |a.materials| && NodeLoadable(a, node)
  {
    var m := a.meshes[node.meshIndex.value];
    assert m in a.meshes;
    mesh.transform == Scaled(node.transform) &&
    Assembled(a, materials, m.primitives, |m.primitives|, mesh.data)
  }

  /** The body of the node loop of `load_meshes`. */
  method LoadNode(a: Asset, materials: seq<Material>, node: Node, warned: set<string>)
    returns (r: Res<Mesh>, warned': set<string>)
    requires Valid(a) && node in a.nodes && |materials| == |a.materials|
    ensures r.Ok? <==> NodeLoadable(a, node)
    ensures r.Fail? ==> r.failure == AssertionFailed
    ensures r.Ok? ==> MeshOfNode(a, materials, node, r.value)
  {
    warned' := warned;
    if node.meshIndex.None? {
      return Fail(AssertionFailed), warned';
    }
    var m := a.meshes[node.meshIndex.value];
    assert m in a.meshes;
    var data;
    data, warned' := AssembleMesh(a, materials, m, warned);
    if data.Fail? {
      return Fail(AssertionFailed), warned';
    }
    r := Ok(Mesh(Scaled(node.transform), data.value));
  }

  /**
   * `load_meshes`: one mesh per scene node, in scene order; the first node
   * that cannot be loaded stops the program.
   */
  method LoadMeshes(a: Asset, materials: seq<Material>, warned: set<string>)
    returns (r: Res<seq<Mesh>>, warned': set<string>)
    requires Valid(a) && |materials| == |a.materials|
    ensures var order := Flatten(a.scenes);
      forall i :: 0 <= i < |order| ==> order[i] < |a.nodes|
    ensures var order := Flatten(a.scenes);
      r.Ok? <==> forall i :: 0 <= i < |order| ==> NodeLoadable(a, a.nodes[order[i]])
    ensures r.Fail? ==> r.failure == AssertionFailed
    ensures var order := Flatten(a.scenes);
      r.Ok? ==> (|r.value| == |order| &&
        forall i :: 0 <= i < |order| ==> MeshOfNode(a, materials, a.nodes[order[i]], r.value[i]))
  {
    var order := Flatten(a.scenes);
    assert forall i :: 0 <= i < |order| ==> order[i] < |a.nodes| by {
      forall i | 0 <= i < |order| ensures order[i] < |a.nodes| {
        assert order[i] in order;
      }
    }
    var meshes: seq<Mesh> := [];
    warned' := warned;
    var i := 0;
    while i < |order|
      invariant 0 <= i <= |order|
      invariant |meshes| == i
      invariant forall k :: 0 <= k < i ==> a.nodes[order[k]] in a.nodes
      invariant forall k :: 0 <= k < i ==> NodeLoadable(a, a.nodes[order[k]]) && MeshOfNode(a, materials, a.nodes[order[k]], meshes[k])
    {
      var node := a.nodes[order[i]];
      var mesh;
      mesh, warned' := LoadNode(a, materials, node, warned');
      if mesh.Fail? {
        return Fail(AssertionFailed), warned';
      }
      meshes := meshes + [mesh.value];
      i := i + 1;
    }
    r := Ok(meshes);
  }
}

=== FILE: hive.dfy ===
/**
 * `utils::data::hive<T, N>`: a vector of fixed-size chunks of N slots with
 * generational handles and an intrusive free list threaded through the
 * removed (and the next never-used) slots. The data type is fixed to an
 * integer, the only instantiations the renderer uses (`hive<uint32_t>`
 * and the `hive<usize>` inside `sparse_set`); `T{}` is 0.
 */
module Hive {
  import opened Common

  /** `hive_index_t`: a 16-bit chunk number and a 16-bit slot number. */
  datatype HiveIndex = HiveIndex(chunk: nat, chunkIndex: nat)

  /** `hive_handle_t`: a 32-bit generation plus the slot's index. */
  datatype HiveHandle = HiveHandle(generation: nat, index: HiveIndex)

  /**
   * One slot. In the source `data` and `nextFree` share storage (a union);
   * the model keeps both and records in `holdsLink` which of the two was
   * written last: `remove` stores the link, `create` and a write through
   * the element's pointer store data. Reading the data while the storage
   * holds the link is undefined.
   */
  datatype Slot = Slot(data: nat, nextFree: Option<HiveIndex>, generation: nat, valid: bool, holdsLink: bool)

  /** `chunk<T, N>`: N slots, of which the first `initialized` have been handed out once. */
  datatype Chunk = Chunk(slots: seq<Slot>, initialized: nat)

  datatype Hive = Hive(inner: seq<Chunk>, nextFree: Option<HiveIndex>)

  /** What a chunk's `create` returns: the new handle and the next free slot it advertises. */
  datatype Created = Created(chunk: Chunk, handle: HiveHandle, next: Option<HiveIndex>)

  /** A value-initialised chunk: no slot valid, nothing initialised. */
  function NewChunk(n: nat): (c: Chunk)
    ensures |c.slots| == n && c.initialized == 0
    ensures forall i :: 0 <= i < n ==> !c.slots[i].valid && !c.slots[i].holdsLink && c.slots[i].generation == 0
  {
    Chunk(seq(n, _ => Slot(0, None, 0, false, false)), 0)
  }

  function EmptyHive(): Hive
  {
    Hive([], None)
  }

  // ---------------------------------------------------------------- chunk

  /** `chunk::get`: bounds-checked slot, then a liveness and generation check. */
  function ChunkGet(c: Chunk, generation: nat, index: nat): (r: Res<Option<nat>>)
    ensures r.Fail? <==> index >= |c.slots|
    ensures r.Fail? ==> r.failure == OutOfRange
    ensures r.Ok? ==> (r.value.Some? <==> c.slots[index].valid && c.slots[index].generation == generation)
    ensures r.Ok? && r.value.Some? ==> r.value.value == c.slots[index].data
  {
    if index >= |c.slots| then Fail(OutOfRange)
    else if !c.slots[index].valid || c.slots[index].generation != generation then Ok(None)
    else Ok(Some(c.slots[index].data))
  }

  /**
   * `chunk::get_unchecked`: the slot's data whatever its liveness; the slot
   * is bounds-checked, and reading a removed slot reads the link stored over
   * the data, which is undefined.
   */
  function ChunkGetUnchecked(c: Chunk, index: nat): (r: Res<nat>)
    ensures r.Fail? <==> index >= |c.slots| || c.slots[index].holdsLink
    ensures r.Fail? ==> r.failure == (if index >= |c.slots| then OutOfRange else Undefined)
    ensures r.Ok? ==> r.value == c.slots[index].data
    ensures forall g :: index < |c.slots| && !c.slots[index].holdsLink && ChunkGet(c, g, index) != Ok(None) ==>
      ChunkGet(c, g, index) == Ok(Some(r.value))
  {
    if index >= |c.slots| then Fail(OutOfRange)
    else if c.slots[index].holdsLink then Fail(Undefined)
    else Ok(c.slots[index].data)
  }

  /**
   * `chunk::create`. A slot at or beyond `initialized` is handed out for the
   * first time: its generation restarts at 0 and the chunk advertises the
   * following slot as the next free one. `fixed` selects the guard on that
   * successor: the source tests `initialized <= N`, which always holds here
   * and advertises slot N after the last slot; the corrected guard
   * `initialized + 1 < N` advertises nothing instead. Reusing a slot reads
   * the link stored in it, which is undefined when its storage holds data.
   */
  function ChunkCreate(c: Chunk, index: HiveIndex, n: nat, fixed: bool): (r: Res<Created>)
    ensures index.chunkIndex >= |c.slots| ==> r == Fail(OutOfRange)
    ensures index.chunkIndex < |c.slots| && index.chunkIndex > c.initialized ==> r == Fail(AssertionFailed)
    ensures index.chunkIndex < |c.slots| && index.chunkIndex < c.initialized && !c.slots[index.chunkIndex].holdsLink ==>
      r == Fail(Undefined)
    ensures (index.chunkIndex < |c.slots| &&
             (index.chunkIndex == c.initialized || (index.chunkIndex < c.initialized && c.slots[index.chunkIndex].holdsLink))) ==>
      r.Ok?
    ensures r.Ok? ==> |r.value.chunk.slots| == |c.slots|
    ensures r.Ok? ==> r.value.handle.index == index
    ensures r.Ok? ==> ChunkGet(r.value.chunk, r.value.handle.generation, index.chunkIndex) == Ok(Some(0))
    ensures r.Ok? ==> forall i :: 0 <= i < |c.slots| && i != index.chunkIndex ==> r.value.chunk.slots[i] == c.slots[i]
    // reusing a slot keeps its generation and pops the link stored in it
    ensures r.Ok? && index.chunkIndex < c.initialized ==>
      r.value.chunk.initialized == c.initialized &&
      r.value.handle.generation == c.slots[index.chunkIndex].generation &&
      r.value.next == c.slots[index.chunkIndex].nextFree
    // a first use restarts the generation and links the following slot
    ensures r.Ok? && index.chunkIndex == c.initialized ==>
      r.value.chunk.initialized == c.initialized + 1 &&
      r.value.handle.generation == 0 &&
      r.value.next == (if (if fixed then c.initialized + 1 < n else c.initialized <= n)
                       then Some(HiveIndex(index.chunk, (c.initialized + 1) % U16)) else None)
  {
    if index.chunkIndex >= |c.slots| then Fail(OutOfRange)
    else
      var d := c.slots[index.chunkIndex];
      if index.chunkIndex >= c.initialized && index.chunkIndex != c.initialized then Fail(AssertionFailed)
      else if index.chunkIndex < c.initialized && !d.holdsLink then Fail(Undefined)
      else
        var firstUse := index.chunkIndex >= c.initialized;
        var generation := if firstUse then 0 else d.generation;
        var successor := if fixed then c.initialized + 1 < n else c.initialized <= n;
        var next :=
          if !firstUse then d.nextFree
          else if successor then Some(HiveIndex(index.chunk, (c.initialized + 1) % U16))
          else None;
        var initialized := if firstUse then c.initialized + 1 else c.initialized;
        var slot := Slot(0, None, generation, true, false);
        Ok(Created(Chunk(c.slots[index.chunkIndex := slot], initialized), HiveHandle(generation, index), next))
  }

  /**
   * `chunk::remove`: stores the hive's free-list head in the slot, over the
   * element's data, bumps its 32-bit generation and marks it dead. The
   * handle's generation is not compared with the slot's.
   */
  function ChunkRemove(c: Chunk, index: nat, nextFree: Option<HiveIndex>): (r: Res<Chunk>)
    ensures r.Fail? <==> index >= |c.slots|
    ensures r.Ok? ==> |r.value.slots| == |c.slots| && r.value.initialized == c.initialized
    ensures r.Ok? ==> forall g :: ChunkGet(r.value, g, index) == Ok(None)
    ensures r.Ok? ==> r.value.slots[index].nextFree == nextFree
    ensures r.Ok? ==> ChunkGetUnchecked(r.value, index) == Fail(Undefined)
    ensures r.Ok? ==> r.value.slots[index].generation == (c.slots[index].generation + 1) % U32
    ensures r.Ok? ==> forall i :: 0 <= i < |c.slots| && i != index ==> r.value.slots[i] == c.slots[i]
  {
    if index >= |c.slots| then Fail(OutOfRange)
    else
      var d := c.slots[index];
      Ok(c.(slots := c.slots[index := Slot(d.data, nextFree, (d.generation + 1) % U32, false, true)]))
  }

  // ----------------------------------------------------------------- hive

  /** `hive::get`: an unknown chunk yields a null pointer. */
  function Get(h: Hive, handle: HiveHandle): (r: Res<Option<nat>>)
    ensures handle.index.chunk >= |h.inner| ==> r == Ok(None)
    ensures handle.index.chunk < |h.inner| ==>
      r == ChunkGet(h.inner[handle.index.chunk], handle.generation, handle.index.chunkIndex)
  {
    if handle.index.chunk >= |h.inner| then Ok(None)
    else ChunkGet(h.inner[handle.index.chunk], handle.generation, handle.index.chunkIndex)
  }

  /**
   * `hive::get_unchecked`: null for an unknown chunk, otherwise the slot's
   * data whatever its liveness; a removed slot's data is undefined.
   */
  function GetUnchecked(h: Hive, index: HiveIndex): (r: Res<Option<nat>>)
    ensures index.chunk >= |h.inner| ==> r == Ok(None)
    ensures index.chunk < |h.inner| ==>
      (r.Fail? <==> (index.chunkIndex >= |h.inner[index.chunk].slots| || h.inner[index.chunk].slots[index.chunkIndex].holdsLink))
    ensures index.chunk < |h.inner| && r.Fail? ==>
      r.failure == (if index.chunkIndex >= |h.inner[index.chunk].slots| then OutOfRange else Undefined)
    ensures r.Ok? && index.chunk < |h.inner| ==> r == Ok(Some(h.inner[index.chunk].slots[index.chunkIndex].data))
    ensures LiveUnlinked(h) ==> forall g :: Get(h, HiveHandle(g, index)).Ok? && Get(h, HiveHandle(g, index)).value.Some? ==>
      r == Get(h, HiveHandle(g, index))
  {
    if index.chunk >= |h.inner| then Ok(None)
    else match ChunkGetUnchecked(h.inner[index.chunk], index.chunkIndex)
      case Fail(f) => Fail(f)
      case Ok(v) => Ok(Some(v))
  }

  /**
   * Writing through the pointer that `create` or `get_unchecked` returned:
   * the shared storage holds data again.
   */
  function Write(h: Hive, index: HiveIndex, v: nat): (r: Hive)
    requires index.chunk < |h.inner| && index.chunkIndex < |h.inner[index.chunk].slots|
    ensures |r.inner| == |h.inner| && r.nextFree == h.nextFree
    ensures GetUnchecked(r, index) == Ok(Some(v))
    ensures forall g :: Get(h, HiveHandle(g, index)).Ok? && Get(h, HiveHandle(g, index)).value.Some? ==>
      Get(r, HiveHandle(g, index)) == Ok(Some(v))
    ensures forall other: HiveHandle :: other.index != index ==> Get(r, other) == Get(h, other)
    ensures forall other: HiveIndex :: other != index ==> GetUnchecked(r, other) == GetUnchecked(h, other)
  {
    var c := h.inner[index.chunk];
    var d := c.slots[index.chunkIndex];
    h.(inner := h.inner[index.chunk := c.(slots := c.slots[index.chunkIndex := d.(data := v, holdsLink := false)])])
  }

  /** The free-list head after `create` makes sure there is one. */
  function Head(h: Hive): HiveIndex
  {
    if h.nextFree.Some? then h.nextFree.value else HiveIndex(|h.inner| % U16, 0)
  }

  /** The chunks after `create` makes sure there is a free slot. */
  function Grown(h: Hive, n: nat): seq<Chunk>
  {
    if h.nextFree.Some? then h.inner else h.inner + [NewChunk(n)]
  }

  /**
   * `hive::create`: with no free slot a new chunk is appended and its first
   * slot becomes the head (the chunk number is narrowed to 16 bits); the
   * head's chunk then creates the element and its advertised successor
   * becomes the new head. `fixed` selects the chunk's successor guard.
   */
  function Create(h: Hive, n: nat, fixed: bool): (r: Res<(Hive, HiveHandle)>)
    requires h.nextFree.Some? ==> h.nextFree.value.chunk < |h.inner|
    ensures r.Ok? ==> Get(r.value.0, r.value.1) == Ok(Some(0))
    ensures r.Ok? ==> r.value.1.index == Head(h)
    ensures r.Ok? ==> |r.value.0.inner| == |Grown(h, n)|
    ensures h.nextFree.None? ==> |Grown(h, n)| == |h.inner| + 1
    ensures h.nextFree.None? && |h.inner| < U16 && n >= 1 ==>
      r.Ok? && r.value.1 == HiveHandle(0, HiveIndex(|h.inner|, 0))
    ensures r.Ok? ==> forall other: HiveHandle :: other.index != r.value.1.index && other.index.chunk < |h.inner| ==>
      Get(r.value.0, other) == Get(h, other)
  {
    var inner := Grown(h, n);
    var head := Head(h);
    match ChunkCreate(inner[head.chunk], head, n, fixed)
    case Fail(f) => Fail(f)
    case Ok(created) =>
      Ok((Hive(inner[head.chunk := created.chunk], created.next), created.handle))
  }

  /** `hive::create` as written. */
  function CreateAsWritten(h: Hive, n: nat): (r: Res<(Hive, HiveHandle)>)
    requires h.nextFree.Some? ==> h.nextFree.value.chunk < |h.inner|
    ensures r.Ok? ==> Get(r.value.0, r.value.1) == Ok(Some(0))
  {
    Create(h, n, false)
  }

  /** `hive::create` with the corrected successor guard. */
  function CreateFixed(h: Hive, n: nat): (r: Res<(Hive, HiveHandle)>)
    requires h.nextFree.Some? ==> h.nextFree.value.chunk < |h.inner|
    ensures r.Ok? ==> Get(r.value.0, r.value.1) == Ok(Some(0))
    ensures Good(h, n) && Ready(h) ==> r.Ok? && Good(r.value.0, n)
  {
    CreateFixedKeepsGood(h, n);
    Create(h, n, true)
  }

  /**
   * `hive::remove`: the chunk stores the current head in the slot and the
   * removed slot becomes the head. The chunk is looked up without a range
   * check, which the precondition states.
   */
  function Remove(h: Hive, handle: HiveHandle): (r: Res<Hive>)
    requires handle.index.chunk < |h.inner|
    ensures r.Fail? <==> handle.index.chunkIndex >= |h.inner[handle.index.chunk].slots|
    ensures r.Ok? ==> Get(r.value, handle) == Ok(None)
    ensures r.Ok? ==> GetUnchecked(r.value, handle.index) == Fail(Undefined)
    ensures r.Ok? ==> r.value.nextFree == Some(handle.index) && |r.value.inner| == |h.inner|
    ensures r.Ok? ==> forall other: HiveHandle :: other.index != handle.index ==> Get(r.value, other) == Get(h, other)
  {
    var c := h.inner[handle.index.chunk];
    match ChunkRemove(c, handle.index.chunkIndex, h.nextFree)
    case Fail(f) => Fail(f)
    case Ok(c') => Ok(Hive(h.inner[handle.index.chunk := c'], Some(handle.index)))
  }

  // --------------------------------------------------------- free list

  /** A link the corrected `create` can follow: a slot inside an existing chunk, already handed out or next in line. */
  ghost predicate GoodLink(h: Hive, link: Option<HiveIndex>, n: nat)
  {
    link.None? ||
    (link.value.chunk < |h.inner| && link.value.chunkIndex < n &&
     link.value.chunkIndex <= h.inner[link.value.chunk].initialized)
  }

  /**
   * The free-list head can be followed without undefined behaviour: there
   * is none and a new chunk's 16-bit number does not wrap onto an old one,
   * or it is the next fresh slot of its chunk, or its storage holds a link.
   */
  ghost predicate Ready(h: Hive)
  {
    (h.nextFree.None? && |h.inner| < U16) ||
    (h.nextFree.Some? &&
    (h.nextFree.value.chunk < |h.inner| &&
     (h.nextFree.value.chunkIndex >= h.inner[h.nextFree.value.chunk].initialized ||
      (h.nextFree.value.chunkIndex < |h.inner[h.nextFree.value.chunk].slots| &&
       h.inner[h.nextFree.value.chunk].slots[h.nextFree.value.chunkIndex].holdsLink))))
  }

  /** Every chunk has N slots and every reachable link is followable. */
  ghost predicate Good(h: Hive, n: nat)
  {
    1 <= n <= U16 && Shaped(h, n) && UnusedDead(h) && LiveUnlinked(h) && GoodLink(h, h.nextFree, n) && LinksGood(h, n)
  }

  ghost predicate Shaped(h: Hive, n: nat)
  {
    forall c :: 0 <= c < |h.inner| ==> |h.inner[c].slots| == n && h.inner[c].initialized <= n
  }

  /** A slot that was never handed out is not live. */
  ghost predicate UnusedDead(h: Hive)
  {
    forall c, i :: 0 <= c < |h.inner| && h.inner[c].initialized <= i < |h.inner[c].slots| ==>
      !h.inner[c].slots[i].valid
  }

  /** A live slot's storage holds its data, not a link. */
  ghost predicate LiveUnlinked(h: Hive)
  {
    forall c, i :: 0 <= c < |h.inner| && 0 <= i < |h.inner[c].slots| && h.inner[c].slots[i].valid ==>
      !h.inner[c].slots[i].holdsLink
  }

  /** The links stored in handed-out slots are followable. */
  ghost predicate LinksGood(h: Hive, n: nat)
  {
    forall c, i :: 0 <= c < |h.inner| && 0 <= i < h.inner[c].initialized && i < |h.inner[c].slots| ==>
      GoodLink(h, h.inner[c].slots[i].nextFree, n)
  }

  /** Whether a link is followable depends only on how far each chunk has been handed out. */
  lemma GoodLinkGrows(g: Hive, h: Hive, link: Option<HiveIndex>, n: nat)
    requires |h.inner| == |g.inner|
    requires forall c :: 0 <= c < |g.inner| ==> h.inner[c].initialized >= g.inner[c].initialized
    requires GoodLink(g, link, n)
    ensures GoodLink(h, link, n)
  {
  }

  lemma EmptyIsGood(n: nat)
    requires 1 <= n <= U16
    ensures Good(EmptyHive(), n)
  {
  }

  /** The hive after the corrected `create` hands out slot `x` for the first time. */
  function FirstUsed(h: Hive, x: HiveIndex, n: nat): (r: Hive)
    requires x.chunk < |h.inner| && x.chunkIndex < |h.inner[x.chunk].slots|
  {
    var c := h.inner[x.chunk];
    var next := if c.initialized + 1 < n then Some(HiveIndex(x.chunk, (c.initialized + 1) % U16)) else None;
    Hive(h.inner[x.chunk := Chunk(c.slots[x.chunkIndex := Slot(0, None, 0, true, false)], c.initialized + 1)], next)
  }

  lemma CreateFirstUse(h: Hive, n: nat)
    requires h.nextFree.Some? && h.nextFree.value.chunk < |h.inner|
    requires h.nextFree.value.chunkIndex == h.inner[h.nextFree.value.chunk].initialized
    requires h.nextFree.value.chunkIndex < |h.inner[h.nextFree.value.chunk].slots|
    ensures Create(h, n, true).Ok? && Create(h, n, true).value.0 == FirstUsed(h, h.nextFree.value, n)
  {
  }

  lemma ReuseKeepsGood(g: Hive, n: nat)
    requires Good(g, n) && g.nextFree.Some?
    requires g.nextFree.value.chunkIndex < g.inner[g.nextFree.value.chunk].initialized
    ensures Good(Reused(g, g.nextFree.value), n)
  {
    var x := g.nextFree.value;
    var h' := Reused(g, x);
    assert GoodLink(g, g.inner[x.chunk].slots[x.chunkIndex].nextFree, n);
    forall c, i | 0 <= c < |h'.inner| && 0 <= i < h'.inner[c].initialized && i < |h'.inner[c].slots|
      ensures GoodLink(h', h'.inner[c].slots[i].nextFree, n)
    {
      if c != x.chunk || i != x.chunkIndex {
        assert GoodLink(g, g.inner[c].slots[i].nextFree, n);
      }
    }
  }

  lemma FirstUseKeepsGood(g: Hive, n: nat)
    requires Good(g, n) && g.nextFree.Some?
    requires g.nextFree.value.chunkIndex == g.inner[g.nextFree.value.chunk].initialized
    ensures Good(FirstUsed(g, g.nextFree.value, n), n)
  {
    var x := g.nextFree.value;
    var h' := FirstUsed(g, x, n);
    assert forall c :: 0 <= c < |g.inner| ==> h'.inner[c].initialized >= g.inner[c].initialized;
    forall c, i | 0 <= c < |h'.inner| && 0 <= i < h'.inner[c].initialized && i < |h'.inner[c].slots|
      ensures GoodLink(h', h'.inner[c].slots[i].nextFree, n)
    {
      if c != x.chunk || i != x.chunkIndex {
        assert GoodLink(g, g.inner[c].slots[i].nextFree, n);
        GoodLinkGrows(g, h', g.inner[c].slots[i].nextFree, n);
      }
    }
  }

  /** Making sure there is a free slot (a new chunk if need be) keeps the hive good. */
  lemma GrownIsGood(h: Hive, n: nat)
    requires Good(h, n)
    ensures Good(Hive(Grown(h, n), Some(Head(h))), n)
  {
    var g := Hive(Grown(h, n), Some(Head(h)));
    forall c, i | 0 <= c < |g.inner| && 0 <= i < g.inner[c].initialized && i < |g.inner[c].slots|
      ensures GoodLink(g, g.inner[c].slots[i].nextFree, n)
    {
      assert c < |h.inner|;
      assert GoodLink(h, h.inner[c].slots[i].nextFree, n);
    }
  }

  /** With the corrected guard, `create` never fails on a good hive and keeps it good. */
  lemma CreateFixedKeepsGood(h: Hive, n: nat)
    requires h.nextFree.Some? ==> h.nextFree.value.chunk < |h.inner|
    ensures Good(h, n) && Ready(h) ==> Create(h, n, true).Ok? && Good(Create(h, n, true).value.0, n)
  {
    if Good(h, n) && Ready(h) {
      var g := Hive(Grown(h, n), Some(Head(h)));
      GrownIsGood(h, n);
      assert Create(h, n, true) == Create(g, n, true);
      var x := Head(h);
      if x.chunkIndex < g.inner[x.chunk].initialized {
        assert h.nextFree == Some(x) && g.inner[x.chunk] == h.inner[x.chunk];
        CreateReuses(g, n, true);
        ReuseKeepsGood(g, n);
      } else {
        CreateFirstUse(g, n);
        FirstUseKeepsGood(g, n);
      }
    }
  }

  /** Only a slot that was handed out can be live. */
  lemma LiveIsInitialized(h: Hive, handle: HiveHandle, n: nat)
    requires Good(h, n) && Get(h, handle).Ok? && Get(h, handle).value.Some?
    ensures handle.index.chunk < |h.inner|
    ensures handle.index.chunkIndex < h.inner[handle.index.chunk].initialized
  {
  }

  /** Writing an element's data does not touch the free list. */
  lemma WriteKeepsGood(h: Hive, index: HiveIndex, v: nat, n: nat)
    requires index.chunk < |h.inner| && index.chunkIndex < |h.inner[index.chunk].slots|
    requires Good(h, n)
    ensures Good(Write(h, index, v), n)
  {
    var r := Write(h, index, v);
    forall c, i | 0 <= c < |r.inner| && 0 <= i < r.inner[c].initialized && i < |r.inner[c].slots|
      ensures GoodLink(r, r.inner[c].slots[i].nextFree, n)
    {
      assert GoodLink(h, h.inner[c].slots[i].nextFree, n);
    }
  }

  /** Removing a slot that was handed out keeps the hive good. */
  lemma RemoveKeepsGood(h: Hive, handle: HiveHandle, n: nat)
    requires Good(h, n) && handle.index.chunk < |h.inner|
    requires handle.index.chunkIndex < h.inner[handle.index.chunk].initialized
    ensures Remove(h, handle).Ok? && Good(Remove(h, handle).value, n)
  {
    var h' := Remove(h, handle).value;
    forall c, i | 0 <= c < |h'.inner| && 0 <= i < h'.inner[c].initialized && i < |h'.inner[c].slots|
      ensures GoodLink(h', h'.inner[c].slots[i].nextFree, n)
    {
      if c == handle.index.chunk && i == handle.index.chunkIndex {
        assert GoodLink(h, h.nextFree, n);
      } else {
        assert GoodLink(h, h.inner[c].slots[i].nextFree, n);
      }
    }
  }

  /** A slot that was handed out before and is dead now, its storage holding a link. */
  ghost predicate Dead(h: Hive, x: HiveIndex)
  {
    x.chunk < |h.inner| && x.chunkIndex < h.inner[x.chunk].initialized &&
    x.chunkIndex < |h.inner[x.chunk].slots| && !h.inner[x.chunk].slots[x.chunkIndex].valid &&
    h.inner[x.chunk].slots[x.chunkIndex].holdsLink
  }

  /** The slot after the last handed-out one of its chunk, or nothing. */
  ghost predicate FreshTail(h: Hive, n: nat, tail: Option<HiveIndex>)
  {
    tail.None? ||
    (tail.value.chunk < |h.inner| && tail.value.chunkIndex == h.inner[tail.value.chunk].initialized &&
     tail.value.chunkIndex < n)
  }

  ghost function LinkAfter(free: seq<HiveIndex>, t: nat, tail: Option<HiveIndex>): Option<HiveIndex>
  {
    if t + 1 < |free| then Some(free[t + 1]) else tail
  }

  /**
   * The free list spelled out: from the head, the links visit the distinct
   * dead slots `free` in order and then end at `tail`.
   */
  ghost predicate FreeList(h: Hive, n: nat, free: seq<HiveIndex>, tail: Option<HiveIndex>)
  {
    Good(h, n) && FreshTail(h, n, tail) && AllDead(h, free) && Distinct(free) &&
    h.nextFree == (if |free| > 0 then Some(free[0]) else tail) &&
    Linked(h, free, tail)
  }

  ghost predicate AllDead(h: Hive, free: seq<HiveIndex>)
  {
    forall t :: 0 <= t < |free| ==> Dead(h, free[t])
  }

  ghost predicate Distinct(free: seq<HiveIndex>)
  {
    forall t, u :: 0 <= t < u < |free| ==> free[t] != free[u]
  }

  /** Each dead slot of the list links to the next one, the last to `tail`. */
  ghost predicate Linked(h: Hive, free: seq<HiveIndex>, tail: Option<HiveIndex>)
  {
    forall t :: 0 <= t < |free| && Dead(h, free[t]) ==>
      h.inner[free[t].chunk].slots[free[t].chunkIndex].nextFree == LinkAfter(free, t, tail)
  }

  /** A spelled-out free list starts at a dead slot or at the fresh tail, so its head can be followed. */
  lemma FreeListIsReady(h: Hive, n: nat, free: seq<HiveIndex>, tail: Option<HiveIndex>)
    requires FreeList(h, n, free, tail) && |h.inner| < U16
    ensures Ready(h)
  {
    if |free| > 0 {
      assert Dead(h, free[0]);
    }
  }

  lemma EmptyFreeList(n: nat)
    requires 1 <= n <= U16
    ensures FreeList(EmptyHive(), n, [], None)
  {
  }

  /** The free list after a corrected `create`. */
  ghost function FreeAfterCreate(h: Hive, n: nat, free: seq<HiveIndex>, tail: Option<HiveIndex>)
    : (seq<HiveIndex>, Option<HiveIndex>)
  {
    if |free| > 0 then (free[1..], tail)
    else
      var t := if tail.Some? then tail.value else HiveIndex(|h.inner|, 0);
      ([], if t.chunkIndex + 1 < n then Some(HiveIndex(t.chunk, t.chunkIndex + 1)) else None)
  }

  /**
   * The corrected `create` takes the first dead slot (or the fresh tail),
   * so it never hands out a live element's slot, and the rest of the free
   * list stays intact. The 16-bit chunk number must not wrap.
   */
  lemma CreateKeepsFreeList(h: Hive, n: nat, free: seq<HiveIndex>, tail: Option<HiveIndex>)
    requires FreeList(h, n, free, tail) && |h.inner| + 1 < U16
    ensures CreateFixed(h, n).Ok?
    ensures forall other: HiveHandle :: Get(h, other).Ok? && Get(h, other).value.Some? ==>
      other.index != CreateFixed(h, n).value.1.index
    ensures FreeList(CreateFixed(h, n).value.0, n, FreeAfterCreate(h, n, free, tail).0, FreeAfterCreate(h, n, free, tail).1)
  {
    CreateFixedKeepsGood(h, n);
    forall other: HiveHandle | Get(h, other).Ok? && Get(h, other).value.Some?
      ensures other.index != Head(h)
    {
      if |free| > 0 {
        assert Dead(h, free[0]);
      }
    }
    if |free| > 0 {
      CreateFromFreeSlot(h, n, free, tail);
    } else {
      CreateFromTail(h, n, tail);
    }
  }

  /** The hive after `create` hands out the dead slot `x` at the head of the free list again. */
  function Reused(h: Hive, x: HiveIndex): (r: Hive)
    requires x.chunk < |h.inner| && x.chunkIndex < |h.inner[x.chunk].slots|
  {
    var c := h.inner[x.chunk];
    var d := c.slots[x.chunkIndex];
    Hive(h.inner[x.chunk := c.(slots := c.slots[x.chunkIndex := Slot(0, None, d.generation, true, false)])], d.nextFree)
  }

  lemma CreateReuses(h: Hive, n: nat, fixed: bool)
    requires h.nextFree.Some? && h.nextFree.value.chunk < |h.inner|
    requires h.nextFree.value.chunkIndex < h.inner[h.nextFree.value.chunk].initialized
    requires h.nextFree.value.chunkIndex < |h.inner[h.nextFree.value.chunk].slots|
    requires h.inner[h.nextFree.value.chunk].slots[h.nextFree.value.chunkIndex].holdsLink
    ensures Create(h, n, fixed).Ok? && Create(h, n, fixed).value.0 == Reused(h, h.nextFree.value)
  {
  }

  lemma ReusedKeepsRest(h: Hive, n: nat, free: seq<HiveIndex>, tail: Option<HiveIndex>)
    requires FreeList(h, n, free, tail) && |free| > 0
    ensures AllDead(Reused(h, free[0]), free[1..]) && Distinct(free[1..])
  {
    var x := free[0];
    var h' := Reused(h, x);
    var free' := free[1..];
    forall t | 0 <= t < |free'| ensures Dead(h', free'[t]) {
      assert Dead(h, free[t + 1]) && free[t + 1] != x;
    }
    forall t, u | 0 <= t < u < |free'| ensures free'[t] != free'[u] {
      assert free'[t] == free[t + 1] && free'[u] == free[u + 1];
    }
  }

  lemma ReusedKeepsLinks(h: Hive, n: nat, free: seq<HiveIndex>, tail: Option<HiveIndex>)
    requires FreeList(h, n, free, tail) && |free| > 0
    ensures Linked(Reused(h, free[0]), free[1..], tail)
  {
    var x := free[0];
    var h' := Reused(h, x);
    var free' := free[1..];
    forall t | 0 <= t < |free'| && Dead(h', free'[t])
      ensures h'.inner[free'[t].chunk].slots[free'[t].chunkIndex].nextFree == LinkAfter(free', t, tail)
    {
      assert Dead(h, free[t + 1]) && free[t + 1] != x;
      assert LinkAfter(free, t + 1, tail) == LinkAfter(free', t, tail);
    }
  }

  lemma CreateFromFreeSlot(h: Hive, n: nat, free: seq<HiveIndex>, tail: Option<HiveIndex>)
    requires FreeList(h, n, free, tail) && |free| > 0
    ensures Create(h, n, true).Ok?
    ensures FreeList(Create(h, n, true).value.0, n, free[1..], tail)
  {
    var x := free[0];
    assert Dead(h, x);
    CreateReuses(h, n, true);
    CreateFixedKeepsGood(h, n);
    ReusedKeepsRest(h, n, free, tail);
    ReusedKeepsLinks(h, n, free, tail);
    var h' := Reused(h, x);
    assert h'.nextFree == LinkAfter(free, 0, tail);
    assert FreshTail(h', n, tail) by {
      if tail.Some? {
        assert tail.value != x;
      }
    }
  }

  lemma CreateFromTail(h: Hive, n: nat, tail: Option<HiveIndex>)
    requires FreeList(h, n, [], tail) && |h.inner| + 1 < U16
    ensures Create(h, n, true).Ok?
    ensures FreeList(Create(h, n, true).value.0, n, FreeAfterCreate(h, n, [], tail).0, FreeAfterCreate(h, n, [], tail).1)
  {
    CreateFixedKeepsGood(h, n);
    var x := Head(h);
    assert x == if tail.Some? then tail.value else HiveIndex(|h.inner|, 0);
  }

  lemma RemovedLinks(h: Hive, handle: HiveHandle, n: nat, free: seq<HiveIndex>, tail: Option<HiveIndex>)
    requires FreeList(h, n, free, tail)
    requires handle.index.chunk < |h.inner| && handle.index.chunkIndex < |h.inner[handle.index.chunk].slots|
    requires forall t :: 0 <= t < |free| ==> free[t] != handle.index
    ensures Remove(h, handle).Ok? && Linked(Remove(h, handle).value, [handle.index] + free, tail)
  {
    var h' := Remove(h, handle).value;
    var free' := [handle.index] + free;
    forall t | 0 <= t < |free'| && Dead(h', free'[t])
      ensures h'.inner[free'[t].chunk].slots[free'[t].chunkIndex].nextFree == LinkAfter(free', t, tail)
    {
      if t > 0 {
        assert Dead(h, free[t - 1]);
        assert LinkAfter(free, t - 1, tail) == LinkAfter(free', t, tail);
      }
    }
  }

  /** `remove` of a live element pushes its slot on the front of the free list. */
  lemma RemoveKeepsFreeList(h: Hive, handle: HiveHandle, n: nat, free: seq<HiveIndex>, tail: Option<HiveIndex>)
    requires FreeList(h, n, free, tail)
    requires Get(h, handle).Ok? && Get(h, handle).value.Some?
    ensures Remove(h, handle).Ok?
    ensures FreeList(Remove(h, handle).value, n, [handle.index] + free, tail)
  {
    LiveIsInitialized(h, handle, n);
    RemoveKeepsGood(h, handle, n);
    forall t | 0 <= t < |free| ensures free[t] != handle.index {
      assert Dead(h, free[t]);
    }
    RemovedLinks(h, handle, n, free, tail);
    var h' := Remove(h, handle).value;
    var free' := [handle.index] + free;
    assert AllDead(h', free') by {
      forall t | 0 <= t < |free'| ensures Dead(h', free'[t]) {
        if t > 0 {
          assert Dead(h, free[t - 1]);
        }
      }
    }
    assert Distinct(free') by {
      forall t, u | 0 <= t < u < |free'| ensures free'[t] != free'[u] {
        assert free'[u] == free[u - 1];
      }
    }
  }

  /**
   * Writing a live element's data leaves the free list as it was (a write
   * into a free slot would overwrite its link).
   */
  lemma WriteKeepsFreeList(h: Hive, index: HiveIndex, v: nat, n: nat, free: seq<HiveIndex>, tail: Option<HiveIndex>)
    requires index.chunk < |h.inner| && index.chunkIndex < |h.inner[index.chunk].slots|
    requires h.inner[index.chunk].slots[index.chunkIndex].valid
    requires FreeList(h, n, free, tail)
    ensures FreeList(Write(h, index, v), n, free, tail)
  {
    WriteKeepsGood(h, index, v, n);
    var r := Write(h, index, v);
    forall t | 0 <= t < |free| ensures Dead(r, free[t]) {
      assert Dead(h, free[t]);
    }
  }

  /**
   * Removing a handed-out element and creating again reuses the same slot
   * with the next generation, and the free list is back where it was.
   */
  lemma RemoveThenCreateReuses(h: Hive, handle: HiveHandle, n: nat, fixed: bool)
    requires handle.index.chunk < |h.inner|
    requires handle.index.chunkIndex < h.inner[handle.index.chunk].initialized
    requires handle.index.chunkIndex < |h.inner[handle.index.chunk].slots|
    ensures Remove(h, handle).Ok?
    ensures Create(Remove(h, handle).value, n, fixed).Ok?
    ensures Create(Remove(h, handle).value, n, fixed).value.1 ==
      HiveHandle((h.inner[handle.index.chunk].slots[handle.index.chunkIndex].generation + 1) % U32, handle.index)
    ensures Create(Remove(h, handle).value, n, fixed).value.0.nextFree == h.nextFree
  {
  }

  /**
   * While the free list is not empty or ends at a fresh slot, the written
   * `create` hands out the same handle and leaves the same chunks as the
   * corrected one; the two differ only in the head they advertise after
   * the last slot of a chunk is first used: none, or the bogus slot N
   * (narrowed to 16 bits).
   */
  lemma AsWrittenAgreesWhileFree(h: Hive, n: nat, free: seq<HiveIndex>, tail: Option<HiveIndex>)
    requires FreeList(h, n, free, tail) && (|free| > 0 || tail.Some?)
    ensures CreateAsWritten(h, n).Ok? && CreateFixed(h, n).Ok?
    ensures CreateAsWritten(h, n).value.1 == CreateFixed(h, n).value.1
    ensures CreateAsWritten(h, n).value.0.inner == CreateFixed(h, n).value.0.inner
    ensures CreateAsWritten(h, n).value.0.nextFree == CreateFixed(h, n).value.0.nextFree ||
      (CreateFixed(h, n).value.0.nextFree.None? &&
       CreateAsWritten(h, n).value.0.nextFree == Some(HiveIndex(CreateFixed(h, n).value.1.index.chunk, n % U16)))
  {
    var x := h.nextFree.value;
    if |free| > 0 {
      assert Dead(h, free[0]);
      CreateReuses(h, n, false);
      CreateReuses(h, n, true);
    } else {
      assert x == tail.value;
    }
  }

  /**
   * A write through a stale pointer into a removed slot puts data over the
   * slot's link; the next `create` then reads that link, which is undefined.
   */
  lemma WriteOverLinkThenCreateIsUndefined(h: Hive, handle: HiveHandle, v: nat, n: nat, fixed: bool)
    requires handle.index.chunk < |h.inner|
    requires handle.index.chunkIndex < h.inner[handle.index.chunk].initialized
    requires handle.index.chunkIndex < |h.inner[handle.index.chunk].slots|
    ensures Remove(h, handle).Ok?
    ensures Create(Write(Remove(h, handle).value, handle.index, v), n, fixed) == Fail(Undefined)
  {
    var r := Remove(h, handle).value;
    assert r.inner[handle.index.chunk].initialized == h.inner[handle.index.chunk].initialized;
  }

  /**
   * The written guard in action, with one slot per chunk: the first create
   * advertises slot 1 of chunk 0, which does not exist, so the second create
   * throws; with the corrected guard the second create opens a new chunk.
   */
  lemma AsWrittenSecondCreateThrows()
    ensures CreateAsWritten(EmptyHive(), 1).Ok?
    ensures CreateAsWritten(EmptyHive(), 1).value.0.nextFree == Some(HiveIndex(0, 1))
    ensures CreateAsWritten(CreateAsWritten(EmptyHive(), 1).value.0, 1) == Fail(OutOfRange)
    ensures CreateFixed(EmptyHive(), 1).Ok?
    ensures CreateFixed(CreateFixed(EmptyHive(), 1).value.0, 1).Ok?
    ensures CreateFixed(CreateFixed(EmptyHive(), 1).value.0, 1).value.1 == HiveHandle(0, HiveIndex(1, 0))
  {
  }

  /** In general the written guard advertises slot N once the last slot of a chunk is handed out. */
  lemma AsWrittenAdvertisesSlotN(c: Chunk, chunk: nat, n: nat)
    requires 1 <= n < U16 && |c.slots| == n && c.initialized == n - 1
    ensures ChunkCreate(c, HiveIndex(chunk, n - 1), n, false).Ok?
    ensures ChunkCreate(c, HiveIndex(chunk, n - 1), n, false).value.next == Some(HiveIndex(chunk, n))
    ensures ChunkCreate(c, HiveIndex(chunk, n), n, false) == Fail(OutOfRange)
    ensures ChunkCreate(c, HiveIndex(chunk, n - 1), n, true).value.next == None
  {
  }
}

=== FILE: input.dfy ===
/**
 * The key-to-camera-input state machine of `system/input.cpp`: key
 * events set or clear the camera's movement flags, cursor events update
 * the cursor position and the mouse delta, and the camera consumes the
 * accumulated input once per frame.
 *
 * Cursor coordinates are modelled as reals; the narrowing from `double`
 * to `float` is not modelled.
 */
module Input {

  import opened Common

  const GLFW_RELEASE: int := 0
  const GLFW_PRESS: int := 1
  const GLFW_KEY_A: int := 65
  const GLFW_KEY_D: int := 68
  const GLFW_KEY_S: int := 83
  const GLFW_KEY_W: int := 87
  const GLFW_KEY_RIGHT: int := 262
  const GLFW_KEY_LEFT: int := 263
  const GLFW_KEY_DOWN: int := 264
  const GLFW_KEY_UP: int := 265

  datatype Vec2 = Vec2(x: real, y: real)
  {
    function Minus(o: Vec2): Vec2 { Vec2(x - o.x, y - o.y) }
  }

  /** The flags of `CameraInput`. */
  datatype Flag = Forward | Backward | Left | Right | Up | Down | RotUp | RotDown | RotLeft | RotRight

  /** `CameraInput`: the mouse delta and one boolean per flag. */
  datatype CameraInput = CameraInput(mouseDelta: Vec2, flags: map<Flag, bool>)

  function Get(c: CameraInput, f: Flag): bool
  {
    f in c.flags && c.flags[f]
  }

  datatype State = State(cursor: Vec2, camera: CameraInput)

  datatype Event =
    | Key(key: int, scancode: int, action: int, mods: int)
    | CursorPos(x: real, y: real)
    | MouseButton(button: int, buttonAction: int, buttonMods: int)

  /** The flag each handled key drives: WSAD move, the arrows rotate; nothing drives `Up` or `Down`. */
  function Binding(key: int): (r: Option<Flag>)
    ensures r != Some(Up) && r != Some(Down)
    ensures r.Some? <==> key in {GLFW_KEY_W, GLFW_KEY_S, GLFW_KEY_A, GLFW_KEY_D,
                                 GLFW_KEY_UP, GLFW_KEY_DOWN, GLFW_KEY_LEFT, GLFW_KEY_RIGHT}
  {
    if key == GLFW_KEY_W then Some(Forward)
    else if key == GLFW_KEY_S then Some(Backward)
    else if key == GLFW_KEY_A then Some(Left)
    else if key == GLFW_KEY_D then Some(Right)
    else if key == GLFW_KEY_UP then Some(RotUp)
    else if key == GLFW_KEY_DOWN then Some(RotDown)
    else if key == GLFW_KEY_LEFT then Some(RotLeft)
    else if key == GLFW_KEY_RIGHT then Some(RotRight)
    else None
  }

  /** The key switch: the bound flag takes the value, every other flag and the mouse delta keep theirs. */
  function ApplyKey(c: CameraInput, key: int, value: bool): (r: CameraInput)
    ensures r.mouseDelta == c.mouseDelta
    ensures forall f :: Get(r, f) == if Binding(key) == Some(f) then value else Get(c, f)
  {
    match Binding(key)
    case Some(f) => c.(flags := c.flags[f := value])
    case None => c
  }

  /**
   * `on_input` as written: a key's flag is set to whether the action is a
   * release, and the cursor's y coordinate is read from the event's x.
   */
  function OnInputAsWritten(s: State, e: Event): (r: State)
    ensures e.Key? ==> r == s.(camera := ApplyKey(s.camera, e.key, e.action == GLFW_RELEASE))
    ensures e.CursorPos? ==> r.cursor == Vec2(e.x, e.x) && r.camera.mouseDelta == r.cursor.Minus(s.cursor)
    ensures e.CursorPos? ==> r.camera.flags == s.camera.flags
    ensures e.MouseButton? ==> r == s
  {
    match e
    case Key(key, _, action, _) => s.(camera := ApplyKey(s.camera, key, action == GLFW_RELEASE))
    case CursorPos(x, _) =>
      var cursor := Vec2(x, x);
      State(cursor, s.camera.(mouseDelta := cursor.Minus(s.cursor)))
    case MouseButton(_, _, _) => s
  }

  /**
   * `on_input` as intended: a key's flag holds while the key is down (any
   * action but a release), and the cursor takes both coordinates of the
   * event.
   */
  function OnInput(s: State, e: Event): (r: State)
    ensures e.Key? ==> r.cursor == s.cursor && r.camera.mouseDelta == s.camera.mouseDelta
    ensures e.Key? ==> forall f :: Get(r.camera, f) == if Binding(e.key) == Some(f) then e.action != GLFW_RELEASE else Get(s.camera, f)
    ensures e.CursorPos? ==> r.cursor == Vec2(e.x, e.y) && r.camera.mouseDelta == Vec2(e.x - s.cursor.x, e.y - s.cursor.y)
    ensures e.CursorPos? ==> r.camera.flags == s.camera.flags
    ensures e.MouseButton? ==> r == s
  {
    match e
    case Key(key, _, action, _) => s.(camera := ApplyKey(s.camera, key, action != GLFW_RELEASE))
    case CursorPos(x, y) =>
      var cursor := Vec2(x, y);
      State(cursor, s.camera.(mouseDelta := cursor.Minus(s.cursor)))
    case MouseButton(_, _, _) => s
  }

  /** As written, pressing W clears the forward flag and releasing it sets it: the camera moves once the key is let go. */
  lemma ReleaseMovesForward(s: State)
    ensures !Get(OnInputAsWritten(s, Key(GLFW_KEY_W, 0, GLFW_PRESS, 0)).camera, Forward)
    ensures Get(OnInputAsWritten(OnInputAsWritten(s, Key(GLFW_KEY_W, 0, GLFW_PRESS, 0)), Key(GLFW_KEY_W, 0, GLFW_RELEASE, 0)).camera, Forward)
    ensures !Get(OnInput(OnInput(s, Key(GLFW_KEY_W, 0, GLFW_PRESS, 0)), Key(GLFW_KEY_W, 0, GLFW_RELEASE, 0)).camera, Forward)
  {
  }

  /** As written, a cursor move to (1, 2) puts the cursor at (1, 1). */
  lemma CursorLosesY(s: State)
    ensures OnInputAsWritten(s, CursorPos(1.0, 2.0)).cursor == Vec2(1.0, 1.0)
    ensures OnInput(s, CursorPos(1.0, 2.0)).cursor == Vec2(1.0, 2.0)
  {
  }

  /** A key press followed by its release leaves the intended flag cleared, whatever it was before. */
  lemma PressThenRelease(s: State, key: int)
    requires Binding(key).Some?
    ensures Get(OnInput(s, Key(key, 0, GLFW_PRESS, 0)).camera, Binding(key).value)
    ensures !Get(OnInput(OnInput(s, Key(key, 0, GLFW_PRESS, 0)), Key(key, 0, GLFW_RELEASE, 0)).camera, Binding(key).value)
  {
  }

  /** Two cursor moves: the delta is the last step, not the whole way. */
  lemma DeltaIsLastStep(s: State, x1: real, y1: real, x2: real, y2: real)
    ensures OnInput(OnInput(s, CursorPos(x1, y1)), CursorPos(x2, y2)).camera.mouseDelta == Vec2(x2 - x1, y2 - y1)
  {
  }

  /** `consume_camera_input`: the input so far, with only the mouse delta reset for the next frame. */
  function ConsumeCameraInput(s: State): (r: (CameraInput, State))
    ensures r.0 == s.camera
    ensures r.1.cursor == s.cursor && r.1.camera.flags == s.camera.flags && r.1.camera.mouseDelta == Vec2(0.0, 0.0)
  {
    (s.camera, s.(camera := s.camera.(mouseDelta := Vec2(0.0, 0.0))))
  }

  /** Consuming twice without an event in between yields no mouse movement the second time. */
  lemma ConsumeTwice(s: State)
    ensures ConsumeCameraInput(ConsumeCameraInput(s).1).0.mouseDelta == Vec2(0.0, 0.0)
    ensures forall f :: Get(ConsumeCameraInput(ConsumeCameraInput(s).1).0, f) == Get(s.camera, f)
  {
  }
}

=== FILE: instance.dfy ===
/**
 * Instance creation rules of `instance.cpp`: which validation layers are
 * enabled, which extensions are required, and how the debug messenger's
 * callback turns a message's severity and type into a log level and a
 * reason.
 */
module Instance {
  import opened Common
  import VkUtils

  const OPTIONAL_VALIDATION_LAYERS: seq<string> := ["VK_LAYER_KHRONOS_validation"]
  const REQUIRED_INSTANCE_EXTENSIONS: seq<string> := []
  const VK_EXT_DEBUG_UTILS_EXTENSION_NAME: string := "VK_EXT_debug_utils"

  /**
   * The enabled layers: with validation asked for, the wanted layers that
   * are available; otherwise none.
   */
  function ValidationLayers(validation: bool, available: seq<string>): (r: set<string>)
    ensures !validation ==> r == {}
    ensures validation ==> forall n :: n in r <==> n in OPTIONAL_VALIDATION_LAYERS && n in available
    ensures r <= set n | n in OPTIONAL_VALIDATION_LAYERS
  {
    if validation then (set n | n in OPTIONAL_VALIDATION_LAYERS) * (set n | n in available) else {}
  }

  /** The required extensions: the fixed list, then the window system's, then debug utils when validating. */
  function RequiredExtensions(validation: bool, wsi: seq<string>): (r: seq<string>)
    ensures |r| == |REQUIRED_INSTANCE_EXTENSIONS| + |wsi| + (if validation then 1 else 0)
    ensures r[..|REQUIRED_INSTANCE_EXTENSIONS| + |wsi|] == REQUIRED_INSTANCE_EXTENSIONS + wsi
    ensures validation ==> r[|r| - 1] == VK_EXT_DEBUG_UTILS_EXTENSION_NAME
    ensures forall n :: n in r <==> n in wsi || (validation && n == VK_EXT_DEBUG_UTILS_EXTENSION_NAME)
  {
    REQUIRED_INSTANCE_EXTENSIONS + wsi + (if validation then [VK_EXT_DEBUG_UTILS_EXTENSION_NAME] else [])
  }

  /** What instance creation enables. */
  datatype Config = Config(layers: set<string>, extensions: set<string>, debugMessenger: bool)

  /**
   * `Instance::init` up to the creation calls: it asserts that every
   * required extension is available; a debug messenger is created iff
   * validation is on.
   */
  method Init(validation: bool, wsi: seq<string>, availableLayers: seq<string>, availableExtensions: seq<string>)
    returns (r: Res<Config>)
    ensures r.Ok? <==> forall n :: n in RequiredExtensions(validation, wsi) ==> n in availableExtensions
    ensures r.Fail? ==> r.failure == AssertionFailed
    ensures r.Ok? ==> r.value.layers == ValidationLayers(validation, availableLayers)
    ensures r.Ok? ==> r.value.debugMessenger == validation
    ensures r.Ok? ==> forall n :: n in r.value.extensions <==> n in RequiredExtensions(validation, wsi)
  {
    var layers := ValidationLayers(validation, availableLayers);
    var required := RequiredExtensions(validation, wsi);
    var ok := VkUtils.CheckExtensions(required, availableExtensions);
    if !ok {
      return Fail(AssertionFailed);
    }
    r := Ok(Config(layers, (set n | n in required), validation));
  }

  // ------------------------------------------------------ debug callback

  const VK_DEBUG_UTILS_MESSAGE_SEVERITY_VERBOSE_BIT_EXT: nat := 0x1
  const VK_DEBUG_UTILS_MESSAGE_SEVERITY_INFO_BIT_EXT: nat := 0x10
  const VK_DEBUG_UTILS_MESSAGE_SEVERITY_WARNING_BIT_EXT: nat := 0x100
  const VK_DEBUG_UTILS_MESSAGE_SEVERITY_ERROR_BIT_EXT: nat := 0x1000

  const VK_DEBUG_UTILS_MESSAGE_TYPE_GENERAL_BIT_EXT: nat := 0x1
  const VK_DEBUG_UTILS_MESSAGE_TYPE_VALIDATION_BIT_EXT: nat := 0x2
  const VK_DEBUG_UTILS_MESSAGE_TYPE_PERFORMANCE_BIT_EXT: nat := 0x4
  const VK_DEBUG_UTILS_MESSAGE_TYPE_DEVICE_ADDRESS_BINDING_BIT_EXT: nat := 0x8

  const VK_FALSE: nat := 0

  /** The log levels the callback uses. */
  datatype Level = Trace | Info | Warn | Err

  /** The severity switch: one level per severity bit, warning for anything else. */
  function SeverityLevel(severity: nat): (r: Level)
    ensures r == Trace <==> severity == VK_DEBUG_UTILS_MESSAGE_SEVERITY_VERBOSE_BIT_EXT
    ensures r == Info <==> severity == VK_DEBUG_UTILS_MESSAGE_SEVERITY_INFO_BIT_EXT
    ensures r == Err <==> severity == VK_DEBUG_UTILS_MESSAGE_SEVERITY_ERROR_BIT_EXT
    ensures r == Warn <==> severity !in {VK_DEBUG_UTILS_MESSAGE_SEVERITY_VERBOSE_BIT_EXT,
                                         VK_DEBUG_UTILS_MESSAGE_SEVERITY_INFO_BIT_EXT,
                                         VK_DEBUG_UTILS_MESSAGE_SEVERITY_ERROR_BIT_EXT}
  {
    if severity == VK_DEBUG_UTILS_MESSAGE_SEVERITY_VERBOSE_BIT_EXT then Trace
    else if severity == VK_DEBUG_UTILS_MESSAGE_SEVERITY_INFO_BIT_EXT then Info
    else if severity == VK_DEBUG_UTILS_MESSAGE_SEVERITY_WARNING_BIT_EXT then Warn
    else if severity == VK_DEBUG_UTILS_MESSAGE_SEVERITY_ERROR_BIT_EXT then Err
    else Warn
  }

  /** The type switch: a reason only for a single type bit, matched exactly. */
  function TypeReason(messageType: nat): (r: string)
    ensures r == "unknown" <==> messageType !in {1, 2, 4, 8}
    ensures messageType == VK_DEBUG_UTILS_MESSAGE_TYPE_VALIDATION_BIT_EXT ==> r == "validation"
  {
    if messageType == VK_DEBUG_UTILS_MESSAGE_TYPE_GENERAL_BIT_EXT then "general"
    else if messageType == VK_DEBUG_UTILS_MESSAGE_TYPE_VALIDATION_BIT_EXT then "validation"
    else if messageType == VK_DEBUG_UTILS_MESSAGE_TYPE_PERFORMANCE_BIT_EXT then "performance"
    else if messageType == VK_DEBUG_UTILS_MESSAGE_TYPE_DEVICE_ADDRESS_BINDING_BIT_EXT then "device address binding"
    else "unknown"
  }

  /** `debug_callback`: the level and reason of the logged line, and the value returned to the driver. */
  function DebugCallback(severity: nat, messageType: nat): (r: (Level, string, nat))
    ensures r.2 == VK_FALSE
    ensures r.0 == SeverityLevel(severity) && r.1 == TypeReason(messageType)
  {
    (SeverityLevel(severity), TypeReason(messageType), VK_FALSE)
  }

  /** A combination of type bits is not matched by any case: validation and performance together is unknown. */
  lemma CombinedTypeIsUnknown()
    ensures TypeReason(VK_DEBUG_UTILS_MESSAGE_TYPE_VALIDATION_BIT_EXT + VK_DEBUG_UTILS_MESSAGE_TYPE_PERFORMANCE_BIT_EXT) == "unknown"
    ensures SeverityLevel(VK_DEBUG_UTILS_MESSAGE_SEVERITY_WARNING_BIT_EXT) == SeverityLevel(0x3) == Warn
  {
  }
}

=== FILE: misc.dfy ===
/**
 * `utils::align`: rounds an offset up to a multiple of an alignment by
 * computing `(offset - 1 + a) & -a` in `size_t` and casting back. For a
 * power-of-two alignment the mask `& -a` clears the low bits, i.e. it
 * rounds down to a multiple of `a`; the model states it that way.
 */
module Misc {
  import opened Common

  ghost predicate IsPowerOfTwo(a: nat)
    decreases a
  {
    a == 1 || (a >= 2 && a % 2 == 0 && IsPowerOfTwo(a / 2))
  }

  /** `x & -a` for a power-of-two `a`: the largest multiple of `a` not above `x`. */
  function ClearLowBits(x: nat, a: nat): (r: nat)
    requires a >= 1
    ensures r % a == 0 && r <= x && x - r < a
  {
    ModUnique((x / a) * a, a, x / a, 0);
    x - x % a
  }

  /** The wrapped sum `offset - 1 + a` in `size_t`. */
  lemma WrapSum(offset: nat, a: nat)
    requires offset < U64 && 1 <= a < U64
    ensures offset == 0 ==> (offset + U64 - 1 + a) % U64 == a - 1
    ensures offset >= 1 && offset + a - 1 < U64 ==> (offset + U64 - 1 + a) % U64 == offset - 1 + a
  {
    if offset == 0 {
      ModUnique(U64 - 1 + a, U64, 1, a - 1);
    } else if offset + a - 1 < U64 {
      ModUnique(offset + U64 - 1 + a, U64, 1, offset - 1 + a);
    }
  }

  /** Rounding `offset - 1 + a` down lands back on an offset that is already aligned. */
  lemma AlignedStays(offset: nat, a: nat)
    requires a >= 1 && offset >= 1 && offset % a == 0
    ensures ClearLowBits(offset - 1 + a, a) == offset
  {
    ModUnique(offset - 1 + a, a, offset / a, a - 1);
  }

  /** `align` in `size_t`: the subtraction wraps modulo 2^64 when the offset is 0. */
  function AlignSize(offset: nat, a: nat): (r: nat)
    requires offset < U64 && 1 <= a < U64 && IsPowerOfTwo(a)
    ensures r < U64
    ensures offset == 0 ==> r == 0
    ensures offset + a - 1 < U64 ==> r % a == 0 && offset <= r < offset + a
    ensures offset + a - 1 < U64 && offset % a == 0 ==> r == offset
  {
    var s := (offset + U64 - 1 + a) % U64;
    WrapSum(offset, a);
    var r := ClearLowBits(s, a);
    if offset == 0 then
      ModUnique(r, a, 0, r);
      r
    else if offset + a - 1 < U64 && offset % a == 0 then
      AlignedStays(offset, a);
      r
    else
      r
  }

  /**
   * `align<uint32_t>`: the alignment and the offset are widened to `size_t`
   * and the result is truncated back to 32 bits.
   */
  function Align32(offset: nat, a: nat): (r: nat)
    requires offset < U32 && 1 <= a < U32 && IsPowerOfTwo(a)
    ensures r < U32
    ensures offset == 0 ==> r == 0
    ensures offset + a - 1 < U32 ==> r % a == 0 && offset <= r < offset + a
    ensures offset + a - 1 < U32 && offset % a == 0 ==> r == offset
  {
    var w := AlignSize(offset, a);
    if offset + a - 1 < U32 then
      ModUnique(w, U32, 0, w);
      w % U32
    else
      w % U32
  }

  function Pow2(k: nat): (r: nat)
    ensures r >= 1
  {
    if k == 0 then 1 else 2 * Pow2(k - 1)
  }

  lemma {:induction false} Pow2IsPowerOfTwo(k: nat)
    ensures IsPowerOfTwo(Pow2(k))
  {
    if k > 0 {
      Pow2IsPowerOfTwo(k - 1);
      assert Pow2(k) / 2 == Pow2(k - 1);
    }
  }

  lemma {:induction false} Pow2Split(j: nat, k: nat)
    ensures Pow2(j + k) == Pow2(j) * Pow2(k)
  {
    if k > 0 {
      Pow2Split(j, k - 1);
      assert Pow2(j + k) == 2 * Pow2(j + k - 1);
    }
  }

  lemma Pow2Of32()
    ensures Pow2(32) == U32
  {
    var p8 := Pow2(8);
    assert p8 == 0x100;
    Pow2Split(8, 8);
    var p16 := Pow2(16);
    assert p16 == p8 * p8;
    Pow2Split(16, 16);
    assert Pow2(32) == p16 * p16;
  }

  lemma U32IsPowerOfTwo()
    ensures IsPowerOfTwo(U32)
  {
    Pow2IsPowerOfTwo(32);
    Pow2Of32();
  }

  /** A power of two divides every larger power of two. */
  lemma {:induction false} PowerOfTwoDivides(a: nat, n: nat)
    requires IsPowerOfTwo(a) && IsPowerOfTwo(n) && a <= n
    ensures n % a == 0
  {
    if a > 1 {
      PowerOfTwoDivides(a / 2, n / 2);
      var k := (n / 2) / (a / 2);
      assert n / 2 == k * (a / 2);
      assert n == k * a;
      ModUnique(n, a, k, 0);
    }
  }

  /** Between two multiples of `a` there is room for a whole step of `a`. */
  lemma MultipleBelow(r: nat, n: nat, a: nat)
    requires a >= 1 && r % a == 0 && n % a == 0 && r < n
    ensures r + a <= n
  {
    var p, q := r / a, n / a;
    assert r == p * a && n == q * a;
    assert (q - p) * a >= a by { MulAtLeast(q - p, a); }
  }

  /** Aligning twice is aligning once. */
  lemma AlignIdempotent(offset: nat, a: nat)
    requires offset < U32 && 1 <= a < U32 && IsPowerOfTwo(a) && offset + a - 1 < U32
    ensures Align32(Align32(offset, a), a) == Align32(offset, a)
  {
    var r := Align32(offset, a);
    U32IsPowerOfTwo();
    PowerOfTwoDivides(a, U32);
    MultipleBelow(r, U32, a);
  }

  /** An alignment of 1 leaves every offset as it is. */
  lemma AlignByOne(offset: nat)
    requires offset < U32
    ensures Align32(offset, 1) == offset
  {
  }
}

=== FILE: options.dfy ===
/**
 * The command-line parser of `options.cpp`: a table of entries (short
 * name, long name, kind), a cursor over the arguments, and the action each
 * kind performs. The variables the entries point at are modelled as a
 * store indexed by address; a null pointer is `None`. Custom actions are
 * recorded by identifier rather than run.
 */
module Options {
  import C = Common

  datatype ParseResult = Ok | InvalidEntry | MalFormedInput

  datatype Kind =
    | Boolean(value: C.Option<nat>, invert: bool)
    | Count(count: C.Option<nat>)
    | Custom(action: C.Option<nat>)
    | Choice(target: nat, choices: seq<(string, int)>)
    | NoKind

  /**
   * `Entry`; a short name of `'\0'` means the entry has none. The
   * description and section only feed the usage text and are not kept.
   */
  datatype Entry = Entry(shortName: char, longName: string, kind: Kind)

  /** The variables entries point at: flags, `size_t` counters, integers, and the custom actions run so far. */
  datatype Store = Store(bools: map<nat, bool>, counts: map<nat, nat>, ints: map<nat, int>, invoked: seq<nat>)

  /** `CliParser::State`: the argument span and the cursor. */
  datatype State = State(args: seq<string>, index: nat, store: Store)

  function CountAt(s: Store, p: nat): nat
  {
    if p in s.counts then s.counts[p] else 0
  }

  /** The store after one more count of the `size_t` counter at `p` (it wraps at 2^64). */
  function Counted(s: Store, p: nat): (r: Store)
    ensures r.bools == s.bools && r.ints == s.ints && r.invoked == s.invoked
    ensures CountAt(r, p) == (CountAt(s, p) + 1) % C.U64
    ensures forall q :: q != p ==> CountAt(r, q) == CountAt(s, q)
    ensures r.counts.Keys == s.counts.Keys + {p}
  {
    s.(counts := s.counts[p := (CountAt(s, p) + 1) % C.U64])
  }

  predicate HasNext(st: State)
  {
    st.index < |st.args|
  }

  // ------------------------------------------------------------- lookups

  /** The first entry with a short name equal to `c` (entries without one never match). */
  function FindShort(entries: seq<Entry>, c: char): (r: C.Option<nat>)
    ensures r.Some? ==> r.value < |entries| && entries[r.value].shortName != '\0' && entries[r.value].shortName == c
    ensures r.Some? ==> forall k :: 0 <= k < r.value ==> !(entries[k].shortName != '\0' && entries[k].shortName == c)
    ensures r.None? ==> forall k :: 0 <= k < |entries| ==> !(entries[k].shortName != '\0' && entries[k].shortName == c)
  {
    if entries == [] then C.None
    else if entries[0].shortName != '\0' && entries[0].shortName == c then C.Some(0)
    else match FindShort(entries[1..], c)
      case None => C.None
      case Some(k) => C.Some(k + 1)
  }

  /** The first entry whose long name is `name`. */
  function FindLong(entries: seq<Entry>, name: string): (r: C.Option<nat>)
    ensures r.Some? ==> r.value < |entries| && entries[r.value].longName == name
    ensures r.Some? ==> forall k :: 0 <= k < r.value ==> entries[k].longName != name
    ensures r.None? ==> forall k :: 0 <= k < |entries| ==> entries[k].longName != name
  {
    if entries == [] then C.None
    else if entries[0].longName == name then C.Some(0)
    else match FindLong(entries[1..], name)
      case None => C.None
      case Some(k) => C.Some(k + 1)
  }

  /** The first choice whose name is `val`. */
  function FindChoice(choices: seq<(string, int)>, val: string): (r: C.Option<nat>)
    ensures r.Some? ==> r.value < |choices| && choices[r.value].0 == val
    ensures r.Some? ==> forall k :: 0 <= k < r.value ==> choices[k].0 != val
    ensures r.None? ==> forall k :: 0 <= k < |choices| ==> choices[k].0 != val
  {
    if choices == [] then C.None
    else if choices[0].0 == val then C.Some(0)
    else match FindChoice(choices[1..], val)
      case None => C.None
      case Some(k) => C.Some(k + 1)
  }

  // ------------------------------------------------------------ actions

  /** `dispactch_action`: what an entry does when it is named on the command line. */
  function Dispatch(entry: Entry, st: State): (r: (ParseResult, State))
    ensures r.1.args == st.args
    ensures r.0 != Ok ==> r.1.store == st.store
    ensures entry.kind.NoKind? ==> r == (InvalidEntry, st)
    ensures entry.kind.Boolean? ==>
      if entry.kind.value.None? then r == (MalFormedInput, st)
      else r.0 == Ok && r.1.index == st.index &&
           r.1.store == st.store.(bools := st.store.bools[entry.kind.value.value := !entry.kind.invert])
    ensures entry.kind.Count? ==>
      if entry.kind.count.None? then r == (MalFormedInput, st)
      else r.0 == Ok && r.1.index == st.index &&
           r.1.store == st.store.(counts := st.store.counts[entry.kind.count.value :=
             (CountAt(st.store, entry.kind.count.value) + 1) % C.U64])
    ensures entry.kind.Custom? ==>
      if entry.kind.action.None? then r == (InvalidEntry, st)
      else r.0 == Ok && r.1.index == st.index &&
           r.1.store == st.store.(invoked := st.store.invoked + [entry.kind.action.value])
    // a choice consumes the next argument and must name one of the choices
    ensures entry.kind.Choice? ==>
      if !HasNext(st) then r == (MalFormedInput, st)
      else r.1.index == st.index + 1 &&
           (r.0 == Ok <==> FindChoice(entry.kind.choices, st.args[st.index]).Some?) &&
           (r.0 == Ok ==> r.1.store == st.store.(ints := st.store.ints[entry.kind.target :=
              entry.kind.choices[FindChoice(entry.kind.choices, st.args[st.index]).value].1]))
  {
    match entry.kind
    case NoKind => (InvalidEntry, st)
    case Boolean(value, invert) =>
      if value.None? then (MalFormedInput, st)
      else (Ok, st.(store := st.store.(bools := st.store.bools[value.value := !invert])))
    case Count(count) =>
      if count.None? then (MalFormedInput, st)
      else
        (Ok, st.(store := Counted(st.store, count.value)))
    case Custom(action) =>
      if action.None? then (InvalidEntry, st)
      else (Ok, st.(store := st.store.(invoked := st.store.invoked + [action.value])))
    case Choice(target, choices) =>
      if !HasNext(st) then (MalFormedInput, st)
      else
        var val := st.args[st.index];
        var st' := st.(index := st.index + 1);
        match FindChoice(choices, val)
        case Some(k) => (Ok, st'.(store := st'.store.(ints := st'.store.ints[target := choices[k].1])))
        case None => (MalFormedInput, st')
  }

  // ------------------------------------------------------------- parsing

  /** `find_first_not_of('-')`: `None` stands for `npos` (empty or all dashes). */
  function LeadingDashes(arg: string): (r: C.Option<nat>)
    ensures r.None? <==> forall k :: 0 <= k < |arg| ==> arg[k] == '-'
    ensures r.Some? ==> r.value < |arg| && arg[r.value] != '-' && forall k :: 0 <= k < r.value ==> arg[k] == '-'
  {
    if arg == [] then C.None
    else if arg[0] != '-' then C.Some(0)
    else match LeadingDashes(arg[1..])
      case None => C.None
      case Some(k) => C.Some(k + 1)
  }

  /** How many dashes lead an argument that has one to three of them. */
  lemma LeadingDashesOf(arg: string, n: nat)
    requires 1 <= n <= 3 && |arg| > n && arg[n] != '-' && forall k :: 0 <= k < n ==> arg[k] == '-'
    ensures LeadingDashes(arg) == C.Some(n)
  {
    assert LeadingDashes(arg[n..]) == C.Some(0);
    if n >= 2 {
      assert arg[n - 1..][1..] == arg[n..];
      if n == 3 {
        assert arg[1..][1..] == arg[2..];
        assert arg[2..][1..] == arg[3..];
      }
    }
  }

  /** The short-option cluster loop: each character names an entry; stops at the first failure. */
  function ShortCluster(entries: seq<Entry>, cs: string, st: State): (r: (ParseResult, State))
    ensures r.1.args == st.args && r.1.index >= st.index
    decreases |cs|
  {
    if cs == [] then (Ok, st)
    else match FindShort(entries, cs[0])
      case None => (MalFormedInput, st)
      case Some(k) =>
        var (res, st') := Dispatch(entries[k], st);
        if res != Ok then (res, st') else ShortCluster(entries, cs[1..], st')
  }

  /**
   * `parse_one`: one dash introduces a cluster of short names, two dashes a
   * long name; anything else (no dash, three or more, or only dashes) is
   * malformed.
   */
  function ParseOne(entries: seq<Entry>, arg: string, st: State): (r: (ParseResult, State))
    ensures r.1.args == st.args && r.1.index >= st.index
    ensures LeadingDashes(arg).None? ==> r == (MalFormedInput, st)
    ensures LeadingDashes(arg).Some? && LeadingDashes(arg).value != 1 && LeadingDashes(arg).value != 2 ==>
      r == (MalFormedInput, st)
    ensures LeadingDashes(arg) == C.Some(1) ==> r == ShortCluster(entries, arg[1..], st)
    ensures LeadingDashes(arg) == C.Some(2) ==>
      if FindLong(entries, arg[2..]).None? then r == (MalFormedInput, st)
      else r == Dispatch(entries[FindLong(entries, arg[2..]).value], st)
  {
    match LeadingDashes(arg)
    case None => (MalFormedInput, st)
    case Some(count) =>
      if count == 1 then ShortCluster(entries, arg[1..], st)
      else if count == 2 then
        match FindLong(entries, arg[2..])
        case None => (MalFormedInput, st)
        case Some(k) => Dispatch(entries[k], st)
      else (MalFormedInput, st)
  }

  /** The loop of `parse`: one argument at a time until the end or the first failure. */
  function ParseFrom(entries: seq<Entry>, st: State): (r: (ParseResult, State))
    ensures r.1.args == st.args
    ensures r.0 == Ok ==> !HasNext(r.1)
    decreases |st.args| - st.index
  {
    if !HasNext(st) then (Ok, st)
    else
      var arg := st.args[st.index];
      var (res, st') := ParseOne(entries, arg, st.(index := st.index + 1));
      if res != Ok then (res, st') else ParseFrom(entries, st')
  }

  /** `parse`: the first argument (the program name) is skipped; an empty span cannot be read. */
  function Parse(entries: seq<Entry>, args: seq<string>, store: Store): (r: (ParseResult, State))
    requires |args| >= 1
    ensures r.1.args == args
    ensures r.0 == Ok ==> r.1.index >= |args|
    ensures |args| == 1 ==> r == (Ok, State(args, 1, store))
  {
    ParseFrom(entries, State(args, 1, store))
  }

  /** The program name plays no part in parsing. */
  lemma ProgramNameIgnored(entries: seq<Entry>, a: string, b: string, rest: seq<string>, store: Store)
    ensures Parse(entries, [a] + rest, store).0 == Parse(entries, [b] + rest, store).0
    ensures Parse(entries, [a] + rest, store).1.store == Parse(entries, [b] + rest, store).1.store
  {
    SameTail(entries, State([a] + rest, 1, store), State([b] + rest, 1, store));
  }

  lemma {:induction false} SameTail(entries: seq<Entry>, s1: State, s2: State)
    requires s1.index == s2.index && s1.store == s2.store && |s1.args| == |s2.args| && s1.index >= 1
    requires forall k :: 1 <= k < |s1.args| ==> s1.args[k] == s2.args[k]
    ensures ParseFrom(entries, s1).0 == ParseFrom(entries, s2).0
    ensures ParseFrom(entries, s1).1.store == ParseFrom(entries, s2).1.store
    ensures ParseFrom(entries, s1).1.index == ParseFrom(entries, s2).1.index
    decreases |s1.args| - s1.index
  {
    if HasNext(s1) {
      var arg := s1.args[s1.index];
      assert s2.args[s2.index] == arg;
      var t1 := s1.(index := s1.index + 1);
      var t2 := s2.(index := s2.index + 1);
      SameTailOne(entries, arg, t1, t2);
      var p1 := ParseOne(entries, arg, t1);
      var p2 := ParseOne(entries, arg, t2);
      assert ParseFrom(entries, s1) == if p1.0 != Ok then p1 else ParseFrom(entries, p1.1);
      assert ParseFrom(entries, s2) == if p2.0 != Ok then p2 else ParseFrom(entries, p2.1);
      if p1.0 == Ok {
        SameTail(entries, p1.1, p2.1);
      }
    }
  }

  lemma SameTailOne(entries: seq<Entry>, arg: string, t1: State, t2: State)
    requires t1.index == t2.index && t1.store == t2.store && |t1.args| == |t2.args| && t1.index >= 1
    requires forall k :: 1 <= k < |t1.args| ==> t1.args[k] == t2.args[k]
    ensures ParseOne(entries, arg, t1).0 == ParseOne(entries, arg, t2).0
    ensures ParseOne(entries, arg, t1).1.store == ParseOne(entries, arg, t2).1.store
    ensures ParseOne(entries, arg, t1).1.index == ParseOne(entries, arg, t2).1.index
  {
    if LeadingDashes(arg) == C.Some(1) {
      SameTailCluster(entries, arg[1..], t1, t2);
    }
  }

  lemma {:induction false} SameTailCluster(entries: seq<Entry>, cs: string, t1: State, t2: State)
    requires t1.index == t2.index && t1.store == t2.store && |t1.args| == |t2.args| && t1.index >= 1
    requires forall k :: 1 <= k < |t1.args| ==> t1.args[k] == t2.args[k]
    ensures ShortCluster(entries, cs, t1).0 == ShortCluster(entries, cs, t2).0
    ensures ShortCluster(entries, cs, t1).1.store == ShortCluster(entries, cs, t2).1.store
    ensures ShortCluster(entries, cs, t1).1.index == ShortCluster(entries, cs, t2).1.index
    decreases |cs|
  {
    if cs != [] {
      match FindShort(entries, cs[0])
      case None =>
      case Some(k) =>
        var (r1, u1) := Dispatch(entries[k], t1);
        var (r2, u2) := Dispatch(entries[k], t2);
        if r1 == Ok {
          SameTailCluster(entries, cs[1..], u1, u2);
        }
    }
  }

  // ------------------------------------------------- reference acceptance

  /** A non-choice kind whose dispatch succeeds whatever the store holds. */
  predicate Succeeds(k: Kind)
  {
    (k.Boolean? && k.value.Some?) || (k.Count? && k.count.Some?) || (k.Custom? && k.action.Some?)
  }

  predicate NoChoice(entries: seq<Entry>)
  {
    forall k :: 0 <= k < |entries| ==> !entries[k].kind.Choice?
  }

  /** Every character of a cluster names an entry that succeeds. */
  predicate ClusterAccepted(entries: seq<Entry>, cs: string)
  {
    forall k :: 0 <= k < |cs| ==> FindShort(entries, cs[k]).Some? && Succeeds(entries[FindShort(entries, cs[k]).value].kind)
  }

  /** Whether one argument is accepted, stated without running the parser. */
  predicate Accepted(entries: seq<Entry>, arg: string)
  {
    (|arg| >= 2 && arg[0] == '-' && arg[1] != '-' && ClusterAccepted(entries, arg[1..])) ||
    (|arg| >= 3 && arg[0] == '-' && arg[1] == '-' && arg[2] != '-' &&
     FindLong(entries, arg[2..]).Some? && Succeeds(entries[FindLong(entries, arg[2..]).value].kind))
  }

  lemma {:induction false} ClusterMatches(entries: seq<Entry>, cs: string, st: State)
    requires NoChoice(entries)
    ensures ShortCluster(entries, cs, st).1.index == st.index
    ensures ShortCluster(entries, cs, st).0 == Ok <==> ClusterAccepted(entries, cs)
    decreases |cs|
  {
    if cs != [] {
      match FindShort(entries, cs[0])
      case None =>
      case Some(k) =>
        var (res, st') := Dispatch(entries[k], st);
        if res == Ok {
          ClusterMatches(entries, cs[1..], st');
          assert ClusterAccepted(entries, cs) <==> ClusterAccepted(entries, cs[1..]) by {
            if ClusterAccepted(entries, cs[1..]) {
              forall j | 0 <= j < |cs| ensures FindShort(entries, cs[j]).Some? && Succeeds(entries[FindShort(entries, cs[j]).value].kind) {
                if j > 0 {
                  assert cs[j] == cs[1..][j - 1];
                }
              }
            }
            if ClusterAccepted(entries, cs) {
              forall j | 0 <= j < |cs[1..]| ensures FindShort(entries, cs[1..][j]).Some? && Succeeds(entries[FindShort(entries, cs[1..][j]).value].kind) {
                assert cs[1..][j] == cs[j + 1];
              }
            }
          }
        } else {
          assert !ClusterAccepted(entries, cs) by {
            assert cs[0] == cs[0];
          }
        }
    }
  }

  lemma OneMatches(entries: seq<Entry>, arg: string, st: State)
    requires NoChoice(entries)
    ensures ParseOne(entries, arg, st).1.index == st.index
    ensures ParseOne(entries, arg, st).0 == Ok <==> Accepted(entries, arg)
  {
    match LeadingDashes(arg)
    case None =>
    case Some(count) =>
      if count == 1 {
        ClusterMatches(entries, arg[1..], st);
      } else if count == 2 {
      } else {
        assert !Accepted(entries, arg) by {
          if count == 0 {
            assert arg[0] != '-';
          } else {
            assert arg[2] == '-';
          }
        }
      }
  }

  lemma {:induction false} FromMatches(entries: seq<Entry>, st: State)
    requires NoChoice(entries)
    ensures ParseFrom(entries, st).0 == Ok <==> forall k :: st.index <= k < |st.args| ==> Accepted(entries, st.args[k])
    decreases |st.args| - st.index
  {
    if HasNext(st) {
      var arg := st.args[st.index];
      var t := st.(index := st.index + 1);
      OneMatches(entries, arg, t);
      var (res, st') := ParseOne(entries, arg, t);
      if res == Ok {
        FromMatches(entries, st');
      }
    }
  }

  /**
   * With no choice entry (so no argument is consumed by another), parsing
   * succeeds exactly when every argument after the program name is accepted
   * on its own.
   */
  lemma ParseOkIffAllAccepted(entries: seq<Entry>, args: seq<string>, store: Store)
    requires |args| >= 1 && NoChoice(entries)
    ensures Parse(entries, args, store).0 == Ok <==> forall k :: 1 <= k < |args| ==> Accepted(entries, args[k])
  {
    FromMatches(entries, State(args, 1, store));
  }

  // ------------------------------------------------ first failure stops

  /** A character names an entry whose action succeeds. */
  predicate CharAccepted(entries: seq<Entry>, c: char)
  {
    FindShort(entries, c).Some? && Succeeds(entries[FindShort(entries, c).value].kind)
  }

  /** What a non-choice action returns, whatever the store holds. */
  function KindResult(k: Kind): (r: ParseResult)
    ensures !k.Choice? ==> (r == Ok <==> Succeeds(k))
  {
    match k
    case NoKind => InvalidEntry
    case Boolean(value, _) => if value.None? then MalFormedInput else Ok
    case Count(count) => if count.None? then MalFormedInput else Ok
    case Custom(action) => if action.None? then InvalidEntry else Ok
    case Choice(_, _) => MalFormedInput
  }

  /** What naming one character returns: no entry is malformed, otherwise its action decides. */
  function CharResult(entries: seq<Entry>, c: char): (r: ParseResult)
    requires NoChoice(entries)
    ensures r == Ok <==> CharAccepted(entries, c)
  {
    match FindShort(entries, c)
    case None => MalFormedInput
    case Some(k) => KindResult(entries[k].kind)
  }

  /** The position of the first character that is not accepted, or the length when all are. */
  function FirstRejected(entries: seq<Entry>, cs: string): (r: nat)
    ensures r <= |cs|
    ensures forall k :: 0 <= k < r ==> CharAccepted(entries, cs[k])
    ensures r < |cs| ==> !CharAccepted(entries, cs[r])
  {
    if cs == [] || !CharAccepted(entries, cs[0]) then 0
    else
      var j := FirstRejected(entries, cs[1..]);
      assert forall k :: 1 <= k < j + 1 ==> cs[k] == cs[1..][k - 1];
      j + 1
  }

  /**
   * Without choice entries, a cluster runs the accepted prefix and then
   * returns the first failing character's result: the characters after it
   * have no effect.
   */
  lemma {:induction false} ClusterStopsAtFirstRejected(entries: seq<Entry>, cs: string, st: State)
    requires NoChoice(entries)
    ensures var j := FirstRejected(entries, cs);
      var prefix := ShortCluster(entries, cs[..j], st);
      prefix.0 == Ok &&
      (j == |cs| ==> ShortCluster(entries, cs, st) == prefix) &&
      (j < |cs| ==> ShortCluster(entries, cs, st) == (CharResult(entries, cs[j]), prefix.1) && CharResult(entries, cs[j]) != Ok)
    decreases |cs|
  {
    var j := FirstRejected(entries, cs);
    if cs == [] {
      assert cs[..j] == cs;
    } else if !CharAccepted(entries, cs[0]) {
      assert cs[..j] == [];
    } else {
      var k := FindShort(entries, cs[0]).value;
      var (res, st') := Dispatch(entries[k], st);
      assert res == Ok;
      var j' := FirstRejected(entries, cs[1..]);
      assert j == j' + 1;
      ClusterStopsAtFirstRejected(entries, cs[1..], st');
      assert cs[..j][0] == cs[0] && cs[..j][1..] == cs[1..][..j'];
      if j < |cs| {
        assert cs[j] == cs[1..][j'];
      } else {
        assert cs[..j] == cs;
      }
    }
  }

  /** The position of the first argument from `from` on that is not accepted, or the length when all are. */
  function FirstRejectedArg(entries: seq<Entry>, args: seq<string>, from: nat): (r: nat)
    ensures r <= |args| && (from <= |args| ==> from <= r)
    ensures forall k :: from <= k < r ==> Accepted(entries, args[k])
    ensures r < |args| ==> !Accepted(entries, args[r])
    decreases |args| - from
  {
    if from >= |args| then |args|
    else if !Accepted(entries, args[from]) then from
    else FirstRejectedArg(entries, args, from + 1)
  }

  /** Without choice entries one argument's outcome does not depend on the other arguments. */
  lemma {:induction false} ClusterIgnoresArgs(entries: seq<Entry>, cs: string, t1: State, t2: State)
    requires NoChoice(entries) && t1.index == t2.index && t1.store == t2.store
    ensures ShortCluster(entries, cs, t1).0 == ShortCluster(entries, cs, t2).0
    ensures ShortCluster(entries, cs, t1).1.store == ShortCluster(entries, cs, t2).1.store
    ensures ShortCluster(entries, cs, t1).1.index == ShortCluster(entries, cs, t2).1.index
    decreases |cs|
  {
    if cs != [] {
      match FindShort(entries, cs[0])
      case None =>
      case Some(k) =>
        var (r1, u1) := Dispatch(entries[k], t1);
        var (r2, u2) := Dispatch(entries[k], t2);
        if r1 == Ok {
          ClusterIgnoresArgs(entries, cs[1..], u1, u2);
        }
    }
  }

  lemma OneIgnoresArgs(entries: seq<Entry>, arg: string, t1: State, t2: State)
    requires NoChoice(entries) && t1.index == t2.index && t1.store == t2.store
    ensures ParseOne(entries, arg, t1).0 == ParseOne(entries, arg, t2).0
    ensures ParseOne(entries, arg, t1).1.store == ParseOne(entries, arg, t2).1.store
    ensures ParseOne(entries, arg, t1).1.index == ParseOne(entries, arg, t2).1.index
  {
    if LeadingDashes(arg) == C.Some(1) {
      ClusterIgnoresArgs(entries, arg[1..], t1, t2);
    }
  }

  /**
   * The loop parses the arguments before the first rejected one to `Ok`,
   * and then returns exactly what that argument returns from the store they
   * left; when none is rejected, it succeeds with that store.
   */
  ghost predicate StopsAtFirstRejected(entries: seq<Entry>, st: State)
    requires NoChoice(entries)
  {
    var j := FirstRejectedArg(entries, st.args, st.index);
    StopsShape(entries, st.args, j, ParseFrom(entries, st), ParseFrom(entries, st.(args := st.args[..j])))
  }

  /** The shape of that conclusion, for the result `full` of the whole list and `prefix` of the list cut at `j`. */
  ghost predicate StopsShape(entries: seq<Entry>, args: seq<string>, j: nat, full: (ParseResult, State), prefix: (ParseResult, State))
  {
    prefix.0 == Ok &&
    (j == |args| ==> full.0 == Ok && full.1.store == prefix.1.store) &&
    (j < |args| ==> full == ParseOne(entries, args[j], State(args, j + 1, prefix.1.store)) && full.0 != Ok)
  }

  /**
   * Without choice entries, the loop parses the accepted arguments and then
   * returns what the first rejected one returns, from the store they left:
   * the arguments after it have no effect.
   */
  lemma {:induction false} FromStopsAtFirstRejected(entries: seq<Entry>, st: State)
    requires NoChoice(entries)
    ensures StopsAtFirstRejected(entries, st)
    decreases |st.args| - st.index
  {
    if !HasNext(st) {
      assert st.(args := st.args[..FirstRejectedArg(entries, st.args, st.index)]) == st;
    } else if !Accepted(entries, st.args[st.index]) {
      RejectedStep(entries, st);
    } else {
      var st' := AcceptedStep(entries, st, FirstRejectedArg(entries, st.args, st.index));
      FromStopsAtFirstRejected(entries, st');
      StopsCarriesBack(entries, st, st');
    }
  }

  /** The conclusion for the state after an accepted argument carries back to the state before it. */
  lemma StopsCarriesBack(entries: seq<Entry>, st: State, st': State)
    requires NoChoice(entries) && HasNext(st) && Accepted(entries, st.args[st.index])
    requires st' == State(st.args, st.index + 1, st'.store)
    requires var j := FirstRejectedArg(entries, st.args, st.index);
      ParseFrom(entries, st) == ParseFrom(entries, st') &&
      ParseFrom(entries, st.(args := st.args[..j])) == ParseFrom(entries, st'.(args := st.args[..j]))
    requires StopsAtFirstRejected(entries, st')
    ensures StopsAtFirstRejected(entries, st)
  {
    var j := FirstRejectedArg(entries, st.args, st.index);
    assert FirstRejectedArg(entries, st'.args, st'.index) == j;
    assert StopsShape(entries, st.args, j, ParseFrom(entries, st'), ParseFrom(entries, st'.(args := st.args[..j])));
  }

  /** A rejected argument ends the loop with its own result; the list cut before it parses to `Ok` at once. */
  lemma RejectedStep(entries: seq<Entry>, st: State)
    requires NoChoice(entries) && HasNext(st) && !Accepted(entries, st.args[st.index])
    ensures ParseFrom(entries, st.(args := st.args[..st.index])) == (Ok, st.(args := st.args[..st.index]))
    ensures ParseFrom(entries, st) == ParseOne(entries, st.args[st.index], st.(index := st.index + 1))
    ensures ParseFrom(entries, st).0 != Ok
  {
    OneMatches(entries, st.args[st.index], st.(index := st.index + 1));
  }

  /**
   * One accepted argument: parsing the full list and parsing the list cut
   * at `j` both move on to the same store, one argument further.
   */
  lemma AcceptedStep(entries: seq<Entry>, st: State, j: nat) returns (st': State)
    requires NoChoice(entries) && HasNext(st) && Accepted(entries, st.args[st.index])
    requires st.index < j <= |st.args|
    ensures st' == State(st.args, st.index + 1, st'.store)
    ensures ParseFrom(entries, st) == ParseFrom(entries, st')
    ensures ParseFrom(entries, st.(args := st.args[..j])) == ParseFrom(entries, st'.(args := st.args[..j]))
  {
    var arg := st.args[st.index];
    var t := st.(index := st.index + 1);
    OneMatches(entries, arg, t);
    var res;
    res, st' := ParseOne(entries, arg, t).0, ParseOne(entries, arg, t).1;
    var cut := st.(args := st.args[..j]);
    assert cut.args[cut.index] == arg;
    OneIgnoresArgs(entries, arg, t, cut.(index := st.index + 1));
  }

  /** `parse` stops at the first argument after the program name that is not accepted, and returns its result. */
  lemma ParseStopsAtFirstRejected(entries: seq<Entry>, args: seq<string>, store: Store)
    requires |args| >= 1 && NoChoice(entries)
    ensures var j := FirstRejectedArg(entries, args, 1);
      var prefix := ParseFrom(entries, State(args[..j], 1, store));
      prefix.0 == Ok &&
      (j < |args| ==>
        (Parse(entries, args, store) == ParseOne(entries, args[j], State(args, j + 1, prefix.1.store)) &&
         Parse(entries, args, store).0 != Ok))
  {
    FromStopsAtFirstRejected(entries, State(args, 1, store));
  }

  // --------------------------------------------------------------- usage

  const MAX_ARGS_SPACE: nat := 20

  function MaxLongName(entries: seq<Entry>): (r: nat)
    ensures forall k :: 0 <= k < |entries| ==> |entries[k].longName| <= r
    ensures entries == [] ==> r == 0
    ensures entries != [] ==> exists k :: 0 <= k < |entries| && r == |entries[k].longName|
  {
    if entries == [] then 0
    else
      var m := MaxLongName(entries[..|entries| - 1]);
      var l := |entries[|entries| - 1].longName|;
      if m >= l then m else l
  }

  /** The width `usage` reserves for long names: the longest one, capped at 20. */
  method ArgsSpace(entries: seq<Entry>) returns (argsSpace: nat)
    ensures argsSpace == C.Min(MAX_ARGS_SPACE, MaxLongName(entries))
  {
    argsSpace := 0;
    var i := 0;
    while i < |entries|
      invariant 0 <= i <= |entries|
      invariant argsSpace == C.Min(MAX_ARGS_SPACE, MaxLongName(entries[..i]))
    {
      assert entries[..i + 1][..i] == entries[..i];
      if argsSpace <= MAX_ARGS_SPACE {
        argsSpace := C.Min(MAX_ARGS_SPACE, C.Max(argsSpace, |entries[i].longName|));
      }
      i := i + 1;
    }
    assert entries[..i] == entries;
  }

  // ----------------------------------------------------------- from_args

  datatype Level = Trace | Debug | Info

  /** The options `from_args` fills in (the other fields keep their defaults). */
  datatype Options = Options(level: Level, renderdoc: bool, validationLayers: bool, presentMode: int)

  const PRESENT_MODE_IMMEDIATE: int := 0
  const PRESENT_MODE_MAILBOX: int := 1
  const PRESENT_MODE_FIFO: int := 2

  // addresses of the variables the entries of `from_args` point at
  const VERBOSE_COUNT: nat := 0
  const RENDERDOC: nat := 0
  const VALIDATION_LAYERS: nat := 1
  const PRESENT_MODE: nat := 0
  const USAGE: nat := 0

  function Table(): seq<Entry>
  {
    [ Entry('h', "help", Custom(C.Some(USAGE))),
      Entry('v', "verbose", Count(C.Some(VERBOSE_COUNT))),
      Entry('r', "renderdoc", Boolean(C.Some(RENDERDOC), false)),
      Entry('\0', "no-renderdoc", Boolean(C.Some(RENDERDOC), true)),
      Entry('l', "validation-layers", Boolean(C.Some(VALIDATION_LAYERS), false)),
      Entry('\0', "no-validation-layers", Boolean(C.Some(VALIDATION_LAYERS), true)),
      Entry('p', "present-mode",
            Choice(PRESENT_MODE, [("immediate", PRESENT_MODE_IMMEDIATE), ("fifo", PRESENT_MODE_FIFO), ("mailbox", PRESENT_MODE_MAILBOX)])) ]
  }

  function InitialStore(): Store
  {
    Store(map[RENDERDOC := false, VALIDATION_LAYERS := false], map[VERBOSE_COUNT := 0], map[PRESENT_MODE := PRESENT_MODE_FIFO], [])
  }

  /** The `switch` on the verbosity counter. */
  function LevelOf(count: nat): (r: Level)
    ensures r == Info <==> count == 0
    ensures r == Debug <==> count == 1
    ensures r == Trace <==> count >= 2
  {
    if count == 0 then Info else if count == 1 then Debug else Trace
  }

  /**
   * `from_args`: `None` when the usage text is printed, which ends the
   * program (a parse failure, or `-h`/`--help` anywhere it is reached).
   */
  function FromArgs(args: seq<string>): (r: C.Option<Options>)
    requires |args| >= 1
    ensures r.Some? ==> Parse(Table(), args, InitialStore()).0 == Ok
    ensures r.Some? ==> USAGE !in Parse(Table(), args, InitialStore()).1.store.invoked
  {
    var (res, st) := Parse(Table(), args, InitialStore());
    if res != Ok || USAGE in st.store.invoked then C.None
    else
      var s := st.store;
      C.Some(Options(
        LevelOf(CountAt(s, VERBOSE_COUNT)),
        if RENDERDOC in s.bools then s.bools[RENDERDOC] else false,
        if VALIDATION_LAYERS in s.bools then s.bools[VALIDATION_LAYERS] else false,
        if PRESENT_MODE in s.ints then s.ints[PRESENT_MODE] else PRESENT_MODE_FIFO))
  }

  /** No argument: the defaults (info level, nothing enabled, FIFO presentation). */
  lemma FromArgsDefaults(prog: string)
    ensures FromArgs([prog]) == C.Some(Options(Info, false, false, PRESENT_MODE_FIFO))
  {
  }

  const PRESENT_MODES: seq<(string, int)> :=
    [("immediate", PRESENT_MODE_IMMEDIATE), ("fifo", PRESENT_MODE_FIFO), ("mailbox", PRESENT_MODE_MAILBOX)]

  /** The entries of the table the examples below go through. */
  lemma TableKinds()
    ensures |Table()| == 7
    ensures Table()[0].kind == Custom(C.Some(USAGE))
    ensures Table()[1].kind == Count(C.Some(VERBOSE_COUNT))
    ensures Table()[6].kind == Choice(PRESENT_MODE, PRESENT_MODES)
  {
  }

  lemma ShortLookups()
    ensures FindShort(Table(), 'h') == C.Some(0)
    ensures FindShort(Table(), 'v') == C.Some(1)
    ensures FindShort(Table(), 'p') == C.Some(6)
  {
    var t := Table();
    assert t[0].shortName == 'h' && t[1].shortName == 'v' && t[6].shortName == 'p';
    assert FindShort(t, 'p') == C.Some(6) by {
      assert FindShort(t[6..], 'p') == C.Some(0);
      assert FindShort(t[5..], 'p') == C.Some(1) by { assert t[5..][1..] == t[6..]; }
      assert FindShort(t[4..], 'p') == C.Some(2) by { assert t[4..][1..] == t[5..]; }
      assert FindShort(t[3..], 'p') == C.Some(3) by { assert t[3..][1..] == t[4..]; }
      assert FindShort(t[2..], 'p') == C.Some(4) by { assert t[2..][1..] == t[3..]; }
      assert FindShort(t[1..], 'p') == C.Some(5) by { assert t[1..][1..] == t[2..]; }
    }
  }

  lemma ChoiceLookups()
    ensures FindChoice(PRESENT_MODES, "immediate") == C.Some(0)
    ensures FindChoice(PRESENT_MODES, "mailbox") == C.Some(2)
    ensures FindChoice(PRESENT_MODES, "vsync").None?
  {
    var cs := PRESENT_MODES;
    assert cs[0].0 != "mailbox" && cs[0].0 != "vsync" by { assert cs[0].0[0] == 'i'; }
    assert cs[1].0 != "mailbox" && cs[1].0 != "vsync" by { assert cs[1].0[0] == 'f'; }
    assert cs[2].0 == "mailbox" && cs[2].0 != "vsync" by { assert cs[2].0[0] == 'm'; }
    assert FindChoice(cs[2..], "mailbox") == C.Some(0);
    assert FindChoice(cs[1..], "mailbox") == C.Some(1) by { assert cs[1..][1..] == cs[2..]; }
    assert FindChoice(cs[2..][1..], "vsync").None?;
    assert FindChoice(cs[2..], "vsync").None?;
    assert FindChoice(cs[1..], "vsync").None? by { assert cs[1..][1..] == cs[2..]; }
  }

  /** What the variables hold before parsing. */
  lemma InitialValues()
    ensures RENDERDOC in InitialStore().bools && !InitialStore().bools[RENDERDOC]
    ensures VALIDATION_LAYERS in InitialStore().bools && !InitialStore().bools[VALIDATION_LAYERS]
    ensures PRESENT_MODE in InitialStore().ints && InitialStore().ints[PRESENT_MODE] == PRESENT_MODE_FIFO
    ensures CountAt(InitialStore(), VERBOSE_COUNT) == 0 && InitialStore().invoked == []
    ensures LevelOf(1) == Debug && LevelOf(2) == Trace && (0 + 1) % C.U64 == 1 && (1 + 1) % C.U64 == 2
  {
  }

  lemma LongLookups()
    ensures FindLong(Table(), "verbose") == C.Some(1)
  {
    var t := Table();
    assert t[0].longName != "verbose" by { assert t[0].longName[0] != "verbose"[0]; }
    assert t[1].longName == "verbose";
  }

  /** A counting short name adds one to its counter and hands the rest of the cluster on. */
  lemma CountStep(entries: seq<Entry>, cs: string, st: State, k: nat, p: nat)
    requires cs != [] && FindShort(entries, cs[0]) == C.Some(k) && entries[k].kind == Count(C.Some(p))
    ensures ShortCluster(entries, cs, st) == ShortCluster(entries, cs[1..], st.(store := Counted(st.store, p)))
  {
    assert Dispatch(entries[k], st) == (Ok, st.(store := Counted(st.store, p)));
  }

  /** A short name with a custom action records the action and hands the rest of the cluster on. */
  lemma CustomStep(entries: seq<Entry>, cs: string, st: State, k: nat, action: nat)
    requires cs != [] && FindShort(entries, cs[0]) == C.Some(k) && entries[k].kind == Custom(C.Some(action))
    ensures ShortCluster(entries, cs, st) ==
      ShortCluster(entries, cs[1..], st.(store := st.store.(invoked := st.store.invoked + [action])))
  {
    var d := Dispatch(entries[k], st);
    assert d.1.store == st.store.(invoked := st.store.invoked + [action]);
    assert d == (Ok, st.(store := st.store.(invoked := st.store.invoked + [action])));
  }

  /** A choice short name takes the next argument as its value and hands the rest of the cluster on. */
  lemma ChoiceStep(entries: seq<Entry>, cs: string, st: State, k: nat, target: nat, choices: seq<(string, int)>, j: nat)
    requires cs != [] && FindShort(entries, cs[0]) == C.Some(k) && entries[k].kind == Choice(target, choices)
    requires HasNext(st) && FindChoice(choices, st.args[st.index]) == C.Some(j)
    ensures ShortCluster(entries, cs, st) ==
      ShortCluster(entries, cs[1..], st.(index := st.index + 1, store := st.store.(ints := st.store.ints[target := choices[j].1])))
  {
    var d := Dispatch(entries[k], st);
    assert d.1.store == st.store.(ints := st.store.ints[target := choices[j].1]);
    assert d == (Ok, st.(index := st.index + 1, store := st.store.(ints := st.store.ints[target := choices[j].1])));
  }

  /** A parse of one cluster argument that consumes all the others. */
  lemma ParseOfCluster(entries: seq<Entry>, args: seq<string>, store: Store, st: State)
    requires |args| >= 2 && LeadingDashes(args[1]) == C.Some(1)
    requires ShortCluster(entries, args[1][1..], State(args, 2, store)) == (Ok, st) && st.index >= |args|
    ensures Parse(entries, args, store) == (Ok, st)
  {
    assert ParseOne(entries, args[1], State(args, 2, store)) == (Ok, st);
    assert ParseFrom(entries, State(args, 1, store)) == ParseFrom(entries, st);
  }

  /** What `from_args` reads off a parse that succeeded without the usage action. */
  lemma FromArgsReads(args: seq<string>, st: State, level: Level, renderdoc: bool, layers: bool, mode: int)
    requires |args| >= 1 && Parse(Table(), args, InitialStore()) == (Ok, st) && USAGE !in st.store.invoked
    requires level == LevelOf(CountAt(st.store, VERBOSE_COUNT))
    requires RENDERDOC in st.store.bools && st.store.bools[RENDERDOC] == renderdoc
    requires VALIDATION_LAYERS in st.store.bools && st.store.bools[VALIDATION_LAYERS] == layers
    requires PRESENT_MODE in st.store.ints && st.store.ints[PRESENT_MODE] == mode
    ensures FromArgs(args) == C.Some(Options(level, renderdoc, layers, mode))
  {
  }

  /** The stores the examples below end with. */
  function Verbose1(): (r: Store)
    ensures r.bools == InitialStore().bools && r.ints == InitialStore().ints && r.invoked == []
    ensures CountAt(r, VERBOSE_COUNT) == 1
  {
    InitialValues();
    Counted(InitialStore(), VERBOSE_COUNT)
  }

  function Verbose2(): (r: Store)
    ensures r.bools == InitialStore().bools && r.ints == InitialStore().ints && r.invoked == []
    ensures CountAt(r, VERBOSE_COUNT) == 2
  {
    InitialValues();
    Counted(Verbose1(), VERBOSE_COUNT)
  }

  function WithMode(s: Store, mode: int): (r: Store)
    ensures r.bools == s.bools && r.counts == s.counts && r.invoked == s.invoked
    ensures PRESENT_MODE in r.ints && r.ints[PRESENT_MODE] == mode
  {
    s.(ints := s.ints[PRESENT_MODE := mode])
  }

  lemma VerboseOnceParse(prog: string)
    ensures Parse(Table(), [prog, "-v"], InitialStore()) == (Ok, State([prog, "-v"], 2, Verbose1()))
  {
    LeadingDashesOf("-v", 1);
    TableKinds();
    ShortLookups();
    var args := [prog, "-v"];
    var cs := args[1][1..];
    assert cs == "v";
    CountStep(Table(), cs, State(args, 2, InitialStore()), 1, VERBOSE_COUNT);
    assert cs[1..] == [];
    ParseOfCluster(Table(), args, InitialStore(), State(args, 2, Verbose1()));
  }

  /** Once `-v` is debug. */
  lemma FromArgsVerboseOnce(prog: string)
    ensures FromArgs([prog, "-v"]) == C.Some(Options(Debug, false, false, PRESENT_MODE_FIFO))
  {
    InitialValues();
    VerboseOnceParse(prog);
    FromArgsReads([prog, "-v"], State([prog, "-v"], 2, Verbose1()), Debug, false, false, PRESENT_MODE_FIFO);
  }

  lemma VerboseTwiceParse(prog: string)
    ensures Parse(Table(), [prog, "-vv"], InitialStore()) == (Ok, State([prog, "-vv"], 2, Verbose2()))
  {
    LeadingDashesOf("-vv", 1);
    TableKinds();
    ShortLookups();
    var args := [prog, "-vv"];
    var cs := args[1][1..];
    assert cs == "vv";
    CountStep(Table(), cs, State(args, 2, InitialStore()), 1, VERBOSE_COUNT);
    CountStep(Table(), cs[1..], State(args, 2, Verbose1()), 1, VERBOSE_COUNT);
    assert cs[1..][1..] == [];
    ParseOfCluster(Table(), args, InitialStore(), State(args, 2, Verbose2()));
  }

  /** Twice `-v` in one cluster is trace. */
  lemma FromArgsVerboseTwice(prog: string)
    ensures FromArgs([prog, "-vv"]) == C.Some(Options(Trace, false, false, PRESENT_MODE_FIFO))
  {
    InitialValues();
    VerboseTwiceParse(prog);
    FromArgsReads([prog, "-vv"], State([prog, "-vv"], 2, Verbose2()), Trace, false, false, PRESENT_MODE_FIFO);
  }

  lemma VerboseLongParse(prog: string)
    ensures Parse(Table(), [prog, "--verbose"], InitialStore()) == (Ok, State([prog, "--verbose"], 2, Verbose1()))
  {
    LeadingDashesOf("--verbose", 2);
    TableKinds();
    var args := [prog, "--verbose"];
    assert args[1][2..] == "verbose";
    LongLookups();
    var st0 := State(args, 2, InitialStore());
    var d := Dispatch(Table()[1], st0);
    assert d.1.store == Verbose1();
    assert ParseOne(Table(), args[1], st0) == (Ok, State(args, 2, Verbose1()));
    assert ParseFrom(Table(), State(args, 1, InitialStore())) == ParseFrom(Table(), State(args, 2, Verbose1()));
  }

  /** The long name counts like the short one. */
  lemma FromArgsVerboseLong(prog: string)
    ensures FromArgs([prog, "--verbose"]) == C.Some(Options(Debug, false, false, PRESENT_MODE_FIFO))
  {
    InitialValues();
    VerboseLongParse(prog);
    FromArgsReads([prog, "--verbose"], State([prog, "--verbose"], 2, Verbose1()), Debug, false, false, PRESENT_MODE_FIFO);
  }

  lemma ChoiceParse(prog: string)
    ensures Parse(Table(), [prog, "-p", "mailbox"], InitialStore()) ==
      (Ok, State([prog, "-p", "mailbox"], 3, WithMode(InitialStore(), PRESENT_MODE_MAILBOX)))
  {
    LeadingDashesOf("-p", 1);
    TableKinds();
    ShortLookups();
    ChoiceLookups();
    var args := [prog, "-p", "mailbox"];
    var cs := args[1][1..];
    assert cs == "p";
    var st0 := State(args, 2, InitialStore());
    assert st0.args[st0.index] == "mailbox";
    ChoiceStep(Table(), cs, st0, 6, PRESENT_MODE, PRESENT_MODES, 2);
    assert cs[1..] == [];
    ParseOfCluster(Table(), args, InitialStore(), State(args, 3, WithMode(InitialStore(), PRESENT_MODE_MAILBOX)));
  }

  /** The choice consumes the following argument and stores the named mode. */
  lemma FromArgsChoice(prog: string)
    ensures FromArgs([prog, "-p", "mailbox"]) == C.Some(Options(Info, false, false, PRESENT_MODE_MAILBOX))
  {
    InitialValues();
    ChoiceParse(prog);
    var st := State([prog, "-p", "mailbox"], 3, WithMode(InitialStore(), PRESENT_MODE_MAILBOX));
    FromArgsReads([prog, "-p", "mailbox"], st, Info, false, false, PRESENT_MODE_MAILBOX);
  }

  /** A choice with an unknown or missing value is malformed, so the usage text ends the program. */
  lemma FromArgsBadChoice(prog: string)
    ensures FromArgs([prog, "-p", "vsync"]).None?
    ensures FromArgs([prog, "-p"]).None?
  {
    LeadingDashesOf("-p", 1);
    TableKinds();
    ShortLookups();
    ChoiceLookups();
    var args := [prog, "-p", "vsync"];
    assert args[1][1..] == "p";
    var args2 := [prog, "-p"];
    assert args2[1][1..] == "p";
  }

  /** Three dashes are malformed, so the usage text ends the program. */
  lemma FromArgsThreeDashes(prog: string)
    ensures FromArgs([prog, "---v"]).None?
  {
    LeadingDashesOf("---v", 3);
  }

  /** `-h` runs the usage action, which ends the program. */
  lemma FromArgsHelp(prog: string)
    ensures FromArgs([prog, "-h"]).None?
  {
    LeadingDashesOf("-h", 1);
    TableKinds();
    ShortLookups();
    var args := [prog, "-h"];
    var cs := args[1][1..];
    assert cs == "h";
    var st0 := State(args, 2, InitialStore());
    var st1 := st0.(store := st0.store.(invoked := st0.store.invoked + [USAGE]));
    CustomStep(Table(), cs, st0, 0, USAGE);
    assert cs[1..] == [];
    ParseOfCluster(Table(), args, InitialStore(), st1);
  }

  lemma QuirkParse(prog: string)
    ensures Parse(Table(), [prog, "-vpv", "immediate"], InitialStore()) ==
      (Ok, State([prog, "-vpv", "immediate"], 3, Counted(WithMode(Verbose1(), PRESENT_MODE_IMMEDIATE), VERBOSE_COUNT)))
  {
    LeadingDashesOf("-vpv", 1);
    TableKinds();
    ShortLookups();
    ChoiceLookups();
    var args := [prog, "-vpv", "immediate"];
    var cs := args[1][1..];
    assert cs == "vpv";
    CountStep(Table(), cs, State(args, 2, InitialStore()), 1, VERBOSE_COUNT);
    var st1 := State(args, 2, Verbose1());
    assert st1.args[st1.index] == "immediate";
    ChoiceStep(Table(), cs[1..], st1, 6, PRESENT_MODE, PRESENT_MODES, 0);
    var st2 := State(args, 3, WithMode(Verbose1(), PRESENT_MODE_IMMEDIATE));
    CountStep(Table(), cs[1..][1..], st2, 1, VERBOSE_COUNT);
    assert cs[1..][1..][1..] == [];
    ParseOfCluster(Table(), args, InitialStore(), st2.(store := Counted(st2.store, VERBOSE_COUNT)));
  }

  /**
   * The cluster quirk the source comments on: inside `-vpv` the `p` takes
   * the next argument as its value and the second `v` still counts.
   */
  lemma ClusterChoiceQuirk(prog: string)
    ensures FromArgs([prog, "-vpv", "immediate"]) == C.Some(Options(Trace, false, false, PRESENT_MODE_IMMEDIATE))
  {
    InitialValues();
    QuirkParse(prog);
    var st := State([prog, "-vpv", "immediate"], 3, Counted(WithMode(Verbose1(), PRESENT_MODE_IMMEDIATE), VERBOSE_COUNT));
    assert CountAt(WithMode(Verbose1(), PRESENT_MODE_IMMEDIATE), VERBOSE_COUNT) == 1;
    assert CountAt(st.store, VERBOSE_COUNT) == 2;
    FromArgsReads([prog, "-vpv", "immediate"], st, Trace, false, false, PRESENT_MODE_IMMEDIATE);
  }
}

=== FILE: pass.dfy ===
/**
 * `PassDefinition::build` and `BasicPipelineDefinition::build`: a pass's
 * definition lists become handles registered with the resource manager,
 * formats and blend states, index by index, and the Vulkan objects the pass
 * creates are tied to the caller's lifetime.
 *
 * Shader compilation and the creation of layouts and pipelines are Vulkan
 * calls: the handles they return are inputs (`Created`), and so is the
 * format an image definition resolves to against the swapchain.
 */
module Pass {
  import opened Common
  import R = Ressources
  import RM = RessourceManager
  import DS = DeletionStack
  import D = Deletion

  const VK_FORMAT_UNDEFINED: int := 0

  /** A default-constructed `BufferRessource`, the data of a newly registered storage buffer. */
  const EMPTY_BUFFER: R.BufferRessource := R.BufferRessource(0, 0, 0, 0)

  type ImageDef = RM.Definition<nat, R.ImageDefinition>
  type BufferDef = RM.Definition<nat, R.BufferDefinition>
  type Images = RM.Side<nat, R.ImageDefinition, R.ImageRessource>
  type Buffers = RM.Side<nat, R.BufferDefinition, R.BufferRessource>

  /** A colour attachment: its image and its blend state (an opaque value). */
  datatype ColorAttachment = ColorAttachment(def: ImageDef, blend: nat)

  datatype PassDefinition = PassDefinition(
    shaders: seq<nat>,
    descriptorSets: seq<seq<nat>>,
    inputImages: seq<ImageDef>,
    inputBuffers: seq<BufferDef>,
    colorAttachments: seq<ColorAttachment>,
    depthAttachment: Option<ImageDef>,
    outputBuffers: seq<BufferDef>)

  /** `PassInfo`; a depth handle that is never assigned is `None`. */
  datatype PassInfo = PassInfo(
    shaders: seq<nat>,
    descriptorSetLayouts: seq<nat>,
    pipelineLayout: nat,
    inputImages: seq<nat>,
    inputBuffers: seq<nat>,
    colorAttachments: seq<nat>,
    colorFormats: seq<int>,
    blendStates: seq<nat>,
    depthAttachment: Option<nat>,
    depthFormat: int,
    outputBuffers: seq<nat>)

  /** What the Vulkan calls of a pass build return: one stage per shader, one layout per descriptor set, a pipeline layout. */
  datatype Created = Created(stages: seq<nat>, setLayouts: seq<nat>, pipelineLayout: nat)

  predicate CreatedFor(def: PassDefinition, c: Created)
  {
    |c.stages| == |def.shaders| && |c.setLayouts| == |def.descriptorSets|
  }

  // ------------------------------------------------------- handles and registries

  /** `h` is the handle of the entry registered under `def`'s id in the scope `def` names. */
  predicate Names<D, Q>(s: RM.Side<nat, D, Q>, h: nat, def: RM.Definition<nat, D>)
  {
    match def.scope
    case Transient => exists j :: 0 <= j < |s.transient| && s.transient[j].0 == def.id && h == RM.HandleOf(j, RM.Transient)
    case Extern => exists j :: 0 <= j < |s.external| && s.external[j].id == def.id && h == RM.HandleOf(j, RM.Extern)
    case Storage => exists j :: 0 <= j < |s.storage| && s.storage[j].0 == def.id && h == RM.HandleOf(j, RM.Storage)
    case UnlistedScope(_) => false
  }

  /** Position by position, the handles name the definitions. */
  predicate AllNamed<D, Q>(s: RM.Side<nat, D, Q>, hs: seq<nat>, defs: seq<RM.Definition<nat, D>>)
  {
    |hs| == |defs| && forall i :: 0 <= i < |defs| ==> Names(s, hs[i], defs[i])
  }

  /** `t` keeps every entry of `s` at its position with its id. */
  predicate Extends<D, Q>(s: RM.Side<nat, D, Q>, t: RM.Side<nat, D, Q>)
  {
    |s.transient| <= |t.transient| && (forall k :: 0 <= k < |s.transient| ==> t.transient[k].0 == s.transient[k].0) &&
    |s.external| <= |t.external| && (forall k :: 0 <= k < |s.external| ==> t.external[k].id == s.external[k].id) &&
    |s.storage| <= |t.storage| && (forall k :: 0 <= k < |s.storage| ==> t.storage[k].0 == s.storage[k].0)
  }

  /** A handle keeps naming its entry as the registry grows. */
  lemma NamesKept<D, Q>(s: RM.Side<nat, D, Q>, t: RM.Side<nat, D, Q>, h: nat, def: RM.Definition<nat, D>)
    requires Names(s, h, def) && Extends(s, t)
    ensures Names(t, h, def)
  {
    match def.scope
    case Transient =>
      var j :| 0 <= j < |s.transient| && s.transient[j].0 == def.id && h == RM.HandleOf(j, RM.Transient);
      assert t.transient[j].0 == def.id;
    case Extern =>
      var j :| 0 <= j < |s.external| && s.external[j].id == def.id && h == RM.HandleOf(j, RM.Extern);
      assert t.external[j].id == def.id;
    case Storage =>
      var j :| 0 <= j < |s.storage| && s.storage[j].0 == def.id && h == RM.HandleOf(j, RM.Storage);
      assert t.storage[j].0 == def.id;
  }

  /** Appending a registration: the earlier handles keep naming their definitions and the new one names its own. */
  lemma RegisteredStep<D, Q>(s: RM.Side<nat, D, Q>, s1: RM.Side<nat, D, Q>, s2: RM.Side<nat, D, Q>,
                             hs: seq<nat>, h: nat, defs: seq<RM.Definition<nat, D>>)
    requires |defs| == |hs| + 1 && Extends(s, s1) && Extends(s1, s2)
    requires AllNamed(s1, hs, defs[..|hs|])
    requires Names(s2, h, defs[|hs|])
    ensures Extends(s, s2)
    ensures AllNamed(s2, hs + [h], defs)
  {
    forall i | 0 <= i < |defs|
      ensures Names(s2, (hs + [h])[i], defs[i])
    {
      if i < |hs| {
        assert Names(s1, hs[i], defs[..|hs|][i]);
        NamesKept(s1, s2, hs[i], defs[i]);
      }
    }
  }

  /** Every handle of `hs` keeps naming its definition in a grown registry. */
  lemma AllNamesKept<D, Q>(s: RM.Side<nat, D, Q>, t: RM.Side<nat, D, Q>, hs: seq<nat>, defs: seq<RM.Definition<nat, D>>)
    requires AllNamed(s, hs, defs) && Extends(s, t)
    ensures AllNamed(t, hs, defs)
  {
    forall i | 0 <= i < |defs|
      ensures Names(t, hs[i], defs[i])
    {
      NamesKept(s, t, hs[i], defs[i]);
    }
  }

  lemma ExtendsTransitive<D, Q>(s: RM.Side<nat, D, Q>, t: RM.Side<nat, D, Q>, u: RM.Side<nat, D, Q>)
    requires Extends(s, t) && Extends(t, u)
    ensures Extends(s, u)
  {
  }

  /** A successful `register_image` returns the handle of its definition's entry and only grows the registry. */
  lemma RegisterImageNames<D, Q>(s: RM.Side<nat, D, Q>, def: RM.Definition<nat, D>)
    requires RM.RegisterImage(s, def).Ok?
    ensures var (h, t) := RM.RegisterImage(s, def).value; Names(t, h, def) && Extends(s, t)
  {
    if def.scope.Extern? {
      var t := RM.RegisterExternal(s, def).1;
      forall k | 0 <= k < |s.external|
        ensures t.external[k].id == s.external[k].id
      {
        assert t.external[k] == t.external[..|s.external|][k];
      }
    }
  }

  /** A successful `register_buffer` returns the handle of its definition's entry and only grows the registry. */
  lemma RegisterBufferNames<D, Q>(s: RM.Side<nat, D, Q>, def: RM.Definition<nat, D>, empty: Q)
    requires RM.RegisterBuffer(s, def, empty).Ok?
    ensures var (h, t) := RM.RegisterBuffer(s, def, empty).value; Names(t, h, def) && Extends(s, t)
  {
    if def.scope.Extern? {
      var t := RM.RegisterExternal(s, def).1;
      forall k | 0 <= k < |s.external|
        ensures t.external[k].id == s.external[k].id
      {
        assert t.external[k] == t.external[..|s.external|][k];
      }
    }
  }

  /** `register_image` dispatches transient and external definitions only. */
  predicate ImageScoped<D>(d: RM.Definition<nat, D>)
  {
    d.scope.Transient? || d.scope.Extern?
  }

  predicate AllImageScoped<D>(defs: seq<RM.Definition<nat, D>>)
  {
    forall i :: 0 <= i < |defs| ==> ImageScoped(defs[i])
  }

  /** `register_buffer` dispatches every scope but an unlisted one. */
  predicate AllBufferScoped<D>(defs: seq<RM.Definition<nat, D>>)
  {
    forall i :: 0 <= i < |defs| ==> !defs[i].scope.UnlistedScope?
  }

  /** `register_image` over a list, in order: one handle per definition, each naming its definition. */
  function RegisterImages<D(==), Q>(s: RM.Side<nat, D, Q>, defs: seq<RM.Definition<nat, D>>): (r: Res<(seq<nat>, RM.Side<nat, D, Q>)>)
    ensures r.Ok? <==> AllImageScoped(defs)
    ensures r.Fail? ==> r.failure == AssertionFailed
    ensures r.Ok? ==> AllNamed(r.value.1, r.value.0, defs) && Extends(s, r.value.1)
    decreases |defs|
  {
    if defs == [] then Ok(([], s))
    else
      var last := defs[|defs| - 1];
      ImageScopedSplit(defs);
      match RegisterImages(s, defs[..|defs| - 1])
      case Fail(f) => Fail(f)
      case Ok((hs, s1)) =>
        match RM.RegisterImage(s1, last)
        case Fail(f) => Fail(f)
        case Ok((h, s2)) =>
          RegisterImageNames(s1, last);
          RegisteredStep(s, s1, s2, hs, h, defs);
          Ok((hs + [h], s2))
  }

  /** A list is image-scoped iff its prefix is and its last definition is. */
  lemma ImageScopedSplit<D>(defs: seq<RM.Definition<nat, D>>)
    requires defs != []
    ensures AllImageScoped(defs) <==> AllImageScoped(defs[..|defs| - 1]) && ImageScoped(defs[|defs| - 1])
  {
    var prefix := defs[..|defs| - 1];
    assert forall i :: 0 <= i < |prefix| ==> prefix[i] == defs[i];
  }

  /** A list is buffer-scoped iff its prefix is and its last definition is. */
  lemma BufferScopedSplit<D>(defs: seq<RM.Definition<nat, D>>)
    requires defs != []
    ensures AllBufferScoped(defs) <==> AllBufferScoped(defs[..|defs| - 1]) && !defs[|defs| - 1].scope.UnlistedScope?
  {
    var prefix := defs[..|defs| - 1];
    assert forall i :: 0 <= i < |prefix| ==> prefix[i] == defs[i];
  }

  /** `register_buffer` over a list, in order: one handle per definition, each naming its definition. */
  function RegisterBuffers<D(==), Q>(s: RM.Side<nat, D, Q>, defs: seq<RM.Definition<nat, D>>, empty: Q): (r: Res<(seq<nat>, RM.Side<nat, D, Q>)>)
    ensures r.Ok? <==> AllBufferScoped(defs)
    ensures r.Fail? ==> r.failure == AssertionFailed
    ensures r.Ok? ==> AllNamed(r.value.1, r.value.0, defs) && Extends(s, r.value.1)
    decreases |defs|
  {
    if defs == [] then Ok(([], s))
    else
      var last := defs[|defs| - 1];
      BufferScopedSplit(defs);
      match RegisterBuffers(s, defs[..|defs| - 1], empty)
      case Fail(f) => Fail(f)
      case Ok((hs, s1)) =>
        match RM.RegisterBuffer(s1, last, empty)
        case Fail(f) => Fail(f)
        case Ok((h, s2)) =>
          RegisterBufferNames(s1, last, empty);
          RegisteredStep(s, s1, s2, hs, h, defs);
          Ok((hs + [h], s2))
  }

  // ------------------------------------------------------------------ build

  /** The lifetime `l` with `handles` tied after it, in order, as objects of one kind. */
  function TieAll(l: DS.Lifetime, kind: DS.DeviceHandle, handles: seq<nat>): (r: DS.Lifetime)
    ensures r.allocator == l.allocator
    ensures |r.device| == |l.device| + |handles| && r.device[..|l.device|] == l.device
    ensures forall i :: 0 <= i < |handles| ==> r.device[|l.device| + i] == D.Entry(kind, handles[i])
    decreases |handles|
  {
    if handles == [] then l
    else
      var l1 := TieAll(l, kind, handles[..|handles| - 1]);
      assert l1.device[..|l.device|] == l.device;
      DS.TieDevice(l1, kind, handles[|handles| - 1])
  }

  function AttachmentDefs(cas: seq<ColorAttachment>): (r: seq<ImageDef>)
    ensures |r| == |cas| && forall i :: 0 <= i < |cas| ==> r[i] == cas[i].def
  {
    seq(|cas|, i requires 0 <= i < |cas| => cas[i].def)
  }


  /** The inputs register: images are transient or external, buffers are in a known scope. */
  predicate InputsRegistrable(def: PassDefinition)
  {
    AllImageScoped(def.inputImages) && AllBufferScoped(def.inputBuffers)
  }

  /** The outputs register: attachments are transient or external images, buffers are in a known scope. */
  predicate OutputsRegistrable(def: PassDefinition)
  {
    AllImageScoped(AttachmentDefs(def.colorAttachments)) &&
    (def.depthAttachment.Some? ==> ImageScoped(def.depthAttachment.value)) &&
    AllBufferScoped(def.outputBuffers)
  }

  datatype Inputs = Inputs(images: seq<nat>, buffers: seq<nat>, imageSide: Images, bufferSide: Buffers)

  /** Lines 54-63: input images, then input buffers, registered in order. */
  method RegisterInputs(def: PassDefinition, images: Images, buffers: Buffers) returns (r: Res<Inputs>)
    ensures r.Ok? <==> InputsRegistrable(def)
    ensures r.Fail? ==> r.failure == AssertionFailed
    ensures r.Ok? ==> Extends(images, r.value.imageSide) && Extends(buffers, r.value.bufferSide)
    ensures r.Ok? ==> AllNamed(r.value.imageSide, r.value.images, def.inputImages)
    ensures r.Ok? ==> AllNamed(r.value.bufferSide, r.value.buffers, def.inputBuffers)
  {
    var rImages := RegisterImages(images, def.inputImages);
    if rImages.Fail? {
      return Fail(rImages.failure);
    }
    var rBuffers := RegisterBuffers(buffers, def.inputBuffers, EMPTY_BUFFER);
    if rBuffers.Fail? {
      return Fail(rBuffers.failure);
    }
    r := Ok(Inputs(rImages.value.0, rBuffers.value.0, rImages.value.1, rBuffers.value.1));
  }

  /** Lines 76-81: the format of each colour attachment's image. */
  function Formats(cas: seq<ColorAttachment>, formatOf: R.ImageDefinition -> int): (r: seq<int>)
    ensures |r| == |cas| && forall i :: 0 <= i < |cas| ==> r[i] == formatOf(cas[i].def.definition)
  {
    seq(|cas|, i requires 0 <= i < |cas| => formatOf(cas[i].def.definition))
  }

  /** Lines 71-75: the blend state of each colour attachment. */
  function BlendStates(cas: seq<ColorAttachment>): (r: seq<nat>)
    ensures |r| == |cas| && forall i :: 0 <= i < |cas| ==> r[i] == cas[i].blend
  {
    seq(|cas|, i requires 0 <= i < |cas| => cas[i].blend)
  }

  /** Lines 82-85: the depth attachment's handle and format, or none and `VK_FORMAT_UNDEFINED`. */
  function RegisterDepth(images: Images, depth: Option<ImageDef>, formatOf: R.ImageDefinition -> int): (r: Res<(Option<nat>, int, Images)>)
    ensures r.Ok? <==> (depth.Some? ==> ImageScoped(depth.value))
    ensures r.Fail? ==> r.failure == AssertionFailed
    ensures r.Ok? ==> Extends(images, r.value.2)
    ensures r.Ok? && depth.None? ==> r.value.0.None? && r.value.1 == VK_FORMAT_UNDEFINED
    ensures r.Ok? && depth.Some? ==>
      r.value.0.Some? && Names(r.value.2, r.value.0.value, depth.value) && r.value.1 == formatOf(depth.value.definition)
  {
    if depth.None? then Ok((None, VK_FORMAT_UNDEFINED, images))
    else match RM.RegisterImage(images, depth.value)
      case Fail(f) => Fail(f)
      case Ok((h, t)) =>
        RegisterImageNames(images, depth.value);
        Ok((Some(h), formatOf(depth.value.definition), t))
  }

  datatype Outputs = Outputs(
    colors: seq<nat>, formats: seq<int>, blends: seq<nat>, depth: Option<nat>, depthFormat: int,
    buffers: seq<nat>, imageSide: Images, bufferSide: Buffers)

  /**
   * Lines 65-90: colour attachments with their blend states and formats,
   * the depth attachment if there is one, then output buffers.
   */
  method RegisterOutputs(def: PassDefinition, images: Images, buffers: Buffers, formatOf: R.ImageDefinition -> int)
    returns (r: Res<Outputs>)
    ensures r.Ok? <==> OutputsRegistrable(def)
    ensures r.Fail? ==> r.failure == AssertionFailed
    ensures r.Ok? ==> Extends(images, r.value.imageSide) && Extends(buffers, r.value.bufferSide)
    ensures r.Ok? ==> AllNamed(r.value.imageSide, r.value.colors, AttachmentDefs(def.colorAttachments))
    ensures r.Ok? ==> AllNamed(r.value.bufferSide, r.value.buffers, def.outputBuffers)
    ensures r.Ok? ==> |r.value.formats| == |def.colorAttachments| && |r.value.blends| == |def.colorAttachments|
    ensures r.Ok? ==> forall i :: 0 <= i < |def.colorAttachments| ==>
      r.value.formats[i] == formatOf(def.colorAttachments[i].def.definition) && r.value.blends[i] == def.colorAttachments[i].blend
    ensures r.Ok? && def.depthAttachment.None? ==> r.value.depth.None? && r.value.depthFormat == VK_FORMAT_UNDEFINED
    ensures r.Ok? && def.depthAttachment.Some? ==>
      r.value.depth.Some? && Names(r.value.imageSide, r.value.depth.value, def.depthAttachment.value) &&
      r.value.depthFormat == formatOf(def.depthAttachment.value.definition)
  {
    var colorDefs := AttachmentDefs(def.colorAttachments);
    var rColors := RegisterImages(images, colorDefs);
    if rColors.Fail? {
      return Fail(rColors.failure);
    }
    var (colors, im1) := rColors.value;
    var formats := Formats(def.colorAttachments, formatOf);
    var blends := BlendStates(def.colorAttachments);

    var rDepth := RegisterDepth(im1, def.depthAttachment, formatOf);
    if rDepth.Fail? {
      return Fail(rDepth.failure);
    }
    var (depth, depthFormat, im2) := rDepth.value;
    ExtendsTransitive(images, im1, im2);
    AllNamesKept(im1, im2, colors, colorDefs);
    var rBuffers := RegisterBuffers(buffers, def.outputBuffers, EMPTY_BUFFER);
    if rBuffers.Fail? {
      return Fail(rBuffers.failure);
    }
    r := Ok(Outputs(colors, formats, blends, depth, depthFormat, rBuffers.value.0, im2, rBuffers.value.1));
  }

  datatype Built = Built(info: PassInfo, images: Images, buffers: Buffers, lifetime: DS.Lifetime)

  /** The lifetime gained one descriptor-set layout per definition, in order, then the pipeline layout. */
  predicate TiedPass(l: DS.Lifetime, c: Created, r: DS.Lifetime)
  {
    r.allocator == l.allocator &&
    |r.device| == |l.device| + |c.setLayouts| + 1 && r.device[..|l.device|] == l.device &&
    (forall i :: 0 <= i < |c.setLayouts| ==> r.device[|l.device| + i] == D.Entry(DS.DescriptorSetLayout, c.setLayouts[i])) &&
    r.device[|r.device| - 1] == D.Entry(DS.PipelineLayout, c.pipelineLayout)
  }

  /**
   * `PassDefinition::build`: every definition list becomes a list of handles
   * of the same length and order, each naming its definition's entry; the
   * colour attachments' handles, blend states and formats line up; the depth
   * handle and format are set only for a defined depth attachment.
   */
  method BuildPass(def: PassDefinition, images: Images, buffers: Buffers, c: Created,
                   formatOf: R.ImageDefinition -> int, l: DS.Lifetime) returns (r: Res<Built>)
    requires CreatedFor(def, c)
    ensures r.Ok? <==> InputsRegistrable(def) && OutputsRegistrable(def)
    ensures r.Fail? ==> r.failure == AssertionFailed
    ensures r.Ok? ==> TiedPass(l, c, r.value.lifetime)
    ensures r.Ok? ==> var info := r.value.info;
      info.shaders == c.stages && info.descriptorSetLayouts == c.setLayouts && info.pipelineLayout == c.pipelineLayout
    ensures r.Ok? ==> Extends(images, r.value.images) && Extends(buffers, r.value.buffers)
    ensures r.Ok? ==> AllNamed(r.value.images, r.value.info.inputImages, def.inputImages)
    ensures r.Ok? ==> AllNamed(r.value.buffers, r.value.info.inputBuffers, def.inputBuffers)
    ensures r.Ok? ==> AllNamed(r.value.buffers, r.value.info.outputBuffers, def.outputBuffers)
    ensures r.Ok? ==> AllNamed(r.value.images, r.value.info.colorAttachments, AttachmentDefs(def.colorAttachments))
    ensures r.Ok? ==> var info := r.value.info;
      |info.colorFormats| == |def.colorAttachments| && |info.blendStates| == |def.colorAttachments| &&
      forall i :: 0 <= i < |def.colorAttachments| ==>
        info.colorFormats[i] == formatOf(def.colorAttachments[i].def.definition) &&
        info.blendStates[i] == def.colorAttachments[i].blend
    ensures r.Ok? && def.depthAttachment.None? ==> r.value.info.depthAttachment.None? && r.value.info.depthFormat == VK_FORMAT_UNDEFINED
    ensures r.Ok? && def.depthAttachment.Some? ==>
      r.value.info.depthAttachment.Some? && Names(r.value.images, r.value.info.depthAttachment.value, def.depthAttachment.value) &&
      r.value.info.depthFormat == formatOf(def.depthAttachment.value.definition)
  {
    var l1 := TieAll(l, DS.DescriptorSetLayout, c.setLayouts);
    var l2 := DS.TieDevice(l1, DS.PipelineLayout, c.pipelineLayout);
    assert l2.device[..|l.device|] == l1.device[..|l.device|];
    var rIn := RegisterInputs(def, images, buffers);
    if rIn.Fail? {
      return Fail(rIn.failure);
    }
    var ins := rIn.value;
    var rOut := RegisterOutputs(def, ins.imageSide, ins.bufferSide, formatOf);
    if rOut.Fail? {
      return Fail(rOut.failure);
    }
    var outs := rOut.value;
    ExtendsTransitive(images, ins.imageSide, outs.imageSide);
    ExtendsTransitive(buffers, ins.bufferSide, outs.bufferSide);
    AllNamesKept(ins.imageSide, outs.imageSide, ins.images, def.inputImages);
    AllNamesKept(ins.bufferSide, outs.bufferSide, ins.buffers, def.inputBuffers);
    var info := PassInfo(c.stages, c.setLayouts, c.pipelineLayout, ins.images, ins.buffers, outs.colors, outs.formats,
                         outs.blends, outs.depth, outs.depthFormat, outs.buffers);
    r := Ok(Built(info, outs.imageSide, outs.bufferSide, l2));
  }

  // --------------------------------------------------------------- pipeline

  /** The parts of the pipeline create info that come from the pass. */
  datatype PipelineInfo = PipelineInfo(stages: seq<nat>, layout: nat, colorFormats: seq<int>, depthFormat: int, blendStates: seq<nat>)

  /**
   * `BasicPipelineDefinition::build`: the pipeline (`pipeline`, the handle
   * Vulkan returns) is built from the pass's shader stages, layout,
   * attachment formats and blend states, and tied to the lifetime.
   */
  function BuildPipeline(info: PassInfo, pipeline: nat, l: DS.Lifetime): (r: (PipelineInfo, DS.Lifetime))
    ensures r.0.stages == info.shaders && r.0.layout == info.pipelineLayout
    ensures r.0.colorFormats == info.colorFormats && r.0.blendStates == info.blendStates && r.0.depthFormat == info.depthFormat
    ensures r.1.allocator == l.allocator && |r.1.device| == |l.device| + 1 && r.1.device[..|l.device|] == l.device
    ensures r.1.device[|l.device|] == D.Entry(DS.Pipeline, pipeline)
  {
    (PipelineInfo(info.shaders, info.pipelineLayout, info.colorFormats, info.depthFormat, info.blendStates),
     DS.TieDevice(l, DS.Pipeline, pipeline))
  }

  /**
   * A pass and its pipeline add to the lifetime one descriptor-set layout
   * per definition and exactly one pipeline layout and one pipeline, the
   * pipeline last.
   */
  lemma PassAndPipelineTiedOnce(l: DS.Lifetime, c: Created, passLifetime: DS.Lifetime, info: PassInfo, pipeline: nat)
    requires TiedPass(l, c, passLifetime)
    ensures var l3 := BuildPipeline(info, pipeline, passLifetime).1;
      |l3.device| == |l.device| + |c.setLayouts| + 2 && l3.allocator == l.allocator &&
      forall i :: |l.device| <= i < |l3.device| ==>
        (l3.device[i].kind == DS.PipelineLayout <==> i == |l3.device| - 2) &&
        (l3.device[i].kind == DS.Pipeline <==> i == |l3.device| - 1) &&
        (l3.device[i].kind == DS.DescriptorSetLayout <==> i < |l3.device| - 2)
  {
    var l3 := BuildPipeline(info, pipeline, passLifetime).1;
    forall i | |l.device| <= i < |l3.device|
      ensures (l3.device[i].kind == DS.PipelineLayout <==> i == |l3.device| - 2)
      ensures (l3.device[i].kind == DS.Pipeline <==> i == |l3.device| - 1)
      ensures (l3.device[i].kind == DS.DescriptorSetLayout <==> i < |l3.device| - 2)
    {
      if i < |passLifetime.device| {
        assert l3.device[i] == passLifetime.device[i] by {
          assert l3.device[..|passLifetime.device|][i] == passLifetime.device[i];
        }
        if i < |passLifetime.device| - 1 {
          assert passLifetime.device[|l.device| + (i - |l.device|)] == D.Entry(DS.DescriptorSetLayout, c.setLayouts[i - |l.device|]);
        }
      }
    }
  }
}

=== FILE: registry.dfy ===
/**
 * The configuration registry (`registry.h/.cpp`): one global JSON value,
 * and console variables that read themselves from `cvar/<name>` with a
 * default that is written back when the stored value is unusable.
 *
 * JSON values follow the JsonCpp semantics the source relies on: the
 * non-const `operator[]` turns a null value into an object and inserts a
 * missing key as null, and fails on any other kind of value.
 */
module Registry {
  import opened Common

  datatype Json =
    | Null
    | Bool(b: bool)
    | Int(i: int)
    | UInt(n: nat)
    | Real(r: real)
    | Str(s: string)
    | Array(items: seq<Json>)
    | Object(fields: map<string, Json>)

  const MAX_UINT: nat := U32 - 1

  /** `isUInt`: an integral value in the 32-bit unsigned range. */
  predicate IsUInt(v: Json)
  {
    match v
    case Int(i) => 0 <= i <= MAX_UINT
    case UInt(n) => n <= MAX_UINT
    case Real(r) => 0.0 <= r <= MAX_UINT as real && r == r.Floor as real
    case _ => false
  }

  /** `isNumeric`: any integer or floating-point value. */
  predicate IsNumeric(v: Json)
  {
    v.Int? || v.UInt? || v.Real?
  }

  /** `asUInt`: null reads as 0, a flag as 0 or 1, a number in range as itself; anything else throws. */
  function AsUInt(v: Json): (r: Res<nat>)
    ensures IsUInt(v) ==> r.Ok? && r.value <= MAX_UINT
    ensures v.UInt? && IsUInt(v) ==> r == Ok(v.n)
    ensures v.Null? ==> r == Ok(0)
  {
    match v
    case Null => Ok(0)
    case Bool(b) => Ok(if b then 1 else 0)
    case Int(i) => if 0 <= i <= MAX_UINT then Ok(i) else Fail(LogicError)
    case UInt(n) => if n <= MAX_UINT then Ok(n) else Fail(LogicError)
    case Real(r) => if 0.0 <= r <= MAX_UINT as real then Ok(r.Floor) else Fail(LogicError)
    case _ => Fail(LogicError)
  }

  /** `asFloat` on a numeric value (the rounding to single precision is not modelled). */
  function AsReal(v: Json): real
    requires IsNumeric(v)
  {
    match v
    case Int(i) => i as real
    case UInt(n) => n as real
    case Real(r) => r
  }

  // ----------------------------------------------------------- access paths

  /** The const lookup of a path: no value is created. */
  function Get(v: Json, path: seq<string>): Option<Json>
    decreases |path|
  {
    if path == [] then Some(v)
    else if v.Object? && path[0] in v.fields then Get(v.fields[path[0]], path[1..])
    else None
  }

  /** Every value along the path is null, an object, or missing: the non-const `operator[]` accepts it. */
  predicate Addressable(v: Json, path: seq<string>)
    decreases |path|
  {
    path == [] ||
    (v.Null?) ||
    (v.Object? && (path[0] !in v.fields || Addressable(v.fields[path[0]], path[1..])))
  }

  /** The child a key leads to, read through the non-const `operator[]`. */
  function Child(v: Json, key: string): Json
  {
    if v.Object? && key in v.fields then v.fields[key] else Null
  }

  /** A null value becomes an empty object when indexed. */
  function AsObject(v: Json): map<string, Json>
  {
    if v.Object? then v.fields else map[]
  }

  /** Assignment through a chain of non-const `operator[]`. */
  function SetAt(v: Json, path: seq<string>, x: Json): (r: Res<Json>)
    ensures r.Ok? <==> Addressable(v, path)
    ensures r.Fail? ==> r.failure == LogicError
    ensures r.Ok? ==> Get(r.value, path) == Some(x)
    decreases |path|
  {
    if path == [] then Ok(x)
    else if !(v.Null? || v.Object?) then Fail(LogicError)
    else
      match SetAt(Child(v, path[0]), path[1..], x)
      case Fail(f) => Fail(f)
      case Ok(updated) =>
        assert v.Null? ==> Child(v, path[0]) == Null && Addressable(Null, path[1..]);
        Ok(Object(AsObject(v)[path[0] := updated]))
  }

  /** What a chain of non-const `operator[]` finds: the stored value, or a null it creates. */
  function Found(v: Json, path: seq<string>): Json
  {
    if Get(v, path).Some? then Get(v, path).value else Null
  }

  /**
   * A read through a chain of non-const `operator[]`: the value found, and
   * the registry with every missing step created. Creating the steps is the
   * same as assigning the found value back.
   */
  function Index(v: Json, path: seq<string>): (r: Res<(Json, Json)>)
    ensures r.Fail? ==> r.failure == LogicError
    ensures r.Ok? <==> Addressable(v, path)
    ensures r.Ok? ==> r.value.0 == Found(v, path) && Get(r.value.1, path) == Some(r.value.0)
  {
    match SetAt(v, path, Found(v, path))
    case Fail(f) => Fail(f)
    case Ok(v') => Ok((Found(v, path), v'))
  }

  /** `p` is not inside the subtree at `q` and does not lead to it. */
  predicate Apart(p: seq<string>, q: seq<string>)
  {
    exists k :: 0 <= k < |p| && k < |q| && p[k] != q[k]
  }

  /** An assignment leaves every value on a path apart from its own where it was. */
  lemma {:induction false} SetAtFrame(v: Json, path: seq<string>, x: Json, p: seq<string>)
    requires Addressable(v, path) && Apart(p, path)
    ensures Get(SetAt(v, path, x).value, p) == Get(v, p)
    decreases |path|
  {
    var k :| 0 <= k < |p| && k < |path| && p[k] != path[k];
    if k > 0 {
      var c := Child(v, path[0]);
      assert v.Null? ==> Addressable(Null, path[1..]);
      assert Addressable(c, path[1..]);
      assert Apart(p[1..], path[1..]) by {
        assert p[1..][k - 1] != path[1..][k - 1];
      }
      SetAtFrame(c, path[1..], x, p[1..]);
      if v.Object? && path[0] in v.fields {
      } else {
        assert Get(c, p[1..]) == None by {
          assert c == Null;
        }
      }
    }
  }

  // ----------------------------------------------------------------- cvars

  function CVarPath(name: string): seq<string> { ["cvar", name] }

  /** `CVarFloat::save`. */
  function CVarFloatSave(reg: Json, name: string, f: real): (r: Res<Json>)
    ensures r.Fail? ==> r.failure == LogicError
    ensures r.Ok? <==> Addressable(reg, CVarPath(name))
    ensures r.Ok? ==> Get(r.value, CVarPath(name)) == Some(Real(f))
  {
    SetAt(reg, CVarPath(name), Real(f))
  }

  /** `CVarFloat::resolve`: the stored number, or the default, saved, when the stored value is not a number. */
  function CVarFloatResolve(reg: Json, name: string, default: real): (r: Res<(real, Json)>)
    ensures r.Fail? ==> r.failure == LogicError
    ensures r.Ok? <==> Addressable(reg, CVarPath(name))
    ensures r.Ok? ==> var found := Get(reg, CVarPath(name));
      if found.Some? && IsNumeric(found.value) then r.value.0 == AsReal(found.value)
      else r.value.0 == default && Get(r.value.1, CVarPath(name)) == Some(Real(default))
  {
    match Index(reg, CVarPath(name))
    case Fail(f) => Fail(f)
    case Ok((v, reg1)) =>
      AddressableWhenPresent(reg1, CVarPath(name));
      if !IsNumeric(v) then
        match CVarFloatSave(reg1, name, default)
        case Fail(f) =>
          assert false;
          Fail(f)
        case Ok(reg2) => Ok((default, reg2))
      else Ok((AsReal(v), reg1))
  }

  /** `CVarExtent2D::save`: width under `x`, height under `y`. */
  function CVarExtentSave(reg: Json, name: string, e: Extent2D): (r: Res<Json>)
    requires e.width <= MAX_UINT && e.height <= MAX_UINT
    ensures r.Fail? ==> r.failure == LogicError
    ensures r.Ok? <==> Addressable(reg, CVarPath(name) + ["x"])
    ensures r.Ok? ==> Get(r.value, CVarPath(name) + ["x"]) == Some(UInt(e.width))
    ensures r.Ok? ==> Get(r.value, CVarPath(name) + ["y"]) == Some(UInt(e.height))
  {
    match SetAt(reg, CVarPath(name) + ["x"], UInt(e.width))
    case Fail(f) => Fail(f)
    case Ok(reg1) =>
      assert Addressable(reg1, CVarPath(name) + ["y"]) by { AddressableAfterSet(reg, name, "x", "y", UInt(e.width)); }
      var r := SetAt(reg1, CVarPath(name) + ["y"], UInt(e.height));
      assert Apart(CVarPath(name) + ["x"], CVarPath(name) + ["y"]) by {
        assert (CVarPath(name) + ["x"])[2] != (CVarPath(name) + ["y"])[2];
      }
      SetAtFrame(reg1, CVarPath(name) + ["y"], UInt(e.height), CVarPath(name) + ["x"]);
      r
  }

  /** After an assignment, every value on the way to it is an object. */
  lemma {:induction false} SetAtMakesObjects(v: Json, path: seq<string>, x: Json, k: nat)
    requires Addressable(v, path) && k < |path|
    ensures Get(SetAt(v, path, x).value, path[..k]).Some?
    ensures Get(SetAt(v, path, x).value, path[..k]).value.Object?
    decreases |path|
  {
    if k > 0 {
      var c := Child(v, path[0]);
      assert v.Null? ==> Addressable(Null, path[1..]);
      SetAtMakesObjects(c, path[1..], x, k - 1);
      assert path[..k][1..] == path[1..][..k - 1];
    }
  }

  /** A key of an object reachable along a path can be indexed. */
  lemma {:induction false} AddressableExtend(v: Json, q: seq<string>, b: string)
    requires Get(v, q).Some? && Get(v, q).value.Object?
    ensures Addressable(v, q + [b])
    decreases |q|
  {
    if q != [] {
      AddressableExtend(v.fields[q[0]], q[1..], b);
      assert (q + [b])[1..] == q[1..] + [b];
    }
  }

  /** Writing one key of the subtree keeps its sibling writable. */
  lemma AddressableAfterSet(reg: Json, name: string, a: string, b: string, x: Json)
    requires Addressable(reg, CVarPath(name) + [a])
    ensures Addressable(SetAt(reg, CVarPath(name) + [a], x).value, CVarPath(name) + [b])
  {
    SetAtMakesObjects(reg, CVarPath(name) + [a], x, 2);
    assert (CVarPath(name) + [a])[..2] == CVarPath(name);
    AddressableExtend(SetAt(reg, CVarPath(name) + [a], x).value, CVarPath(name), b);
  }

  function XPath(name: string): seq<string> { CVarPath(name) + ["x"] }
  function YPath(name: string): seq<string> { CVarPath(name) + ["y"] }

  /** The two reads of `resolve`, which create `x` and `y` when they are missing. */
  function ReadXY(reg: Json, name: string): (r: Res<(Json, Json, Json)>)
    ensures r.Fail? ==> r.failure == LogicError
    ensures r.Ok? <==> Addressable(reg, XPath(name))
    ensures r.Ok? ==> r.value.0 == Found(reg, XPath(name)) && r.value.1 == Found(reg, YPath(name))
    ensures r.Ok? ==> Addressable(r.value.2, XPath(name))
  {
    match Index(reg, XPath(name))
    case Fail(f) => Fail(f)
    case Ok((vx, reg1)) =>
      AddressableAfterSet(reg, name, "x", "y", vx);
      assert Apart(YPath(name), XPath(name)) by { assert YPath(name)[2] != XPath(name)[2]; }
      SetAtFrame(reg, XPath(name), vx, YPath(name));
      match Index(reg1, YPath(name))
      case Fail(f) =>
        assert false;
        Fail(f)
      case Ok((vy, reg2)) =>
        AddressableAfterSet(reg1, name, "y", "x", vy);
        (Ok((vx, vy, reg2)))
  }

  /**
   * `CVarExtent2D::resolve`: the stored width and height when both are
   * 32-bit unsigned values, otherwise the default, which is saved.
   */
  function CVarExtentResolve(reg: Json, name: string, default: Extent2D): (r: Res<(Extent2D, Json)>)
    requires default.width <= MAX_UINT && default.height <= MAX_UINT
    ensures r.Fail? ==> r.failure == LogicError
    ensures r.Ok? <==> Addressable(reg, XPath(name))
    ensures r.Ok? ==>
      var x := Found(reg, XPath(name));
      var y := Found(reg, YPath(name));
      if IsUInt(x) && IsUInt(y) then r.value.0 == Extent2D(AsUInt(x).value, AsUInt(y).value)
      else r.value.0 == default &&
           Get(r.value.1, XPath(name)) == Some(UInt(default.width)) &&
           Get(r.value.1, YPath(name)) == Some(UInt(default.height))
  {
    match ReadXY(reg, name)
    case Fail(f) => Fail(f)
    case Ok((vx, vy, reg2)) =>
      if !IsUInt(vx) || !IsUInt(vy) then
        match CVarExtentSave(reg2, name, default)
        case Fail(f) =>
          assert false;
          Fail(f)
        case Ok(reg3) => Ok((default, reg3))
      else Ok((Extent2D(AsUInt(vx).value, AsUInt(vy).value), reg2))
  }

  /**
   * `CVarExtent::resolve` as written: the guard tests the height twice and
   * never the width, which is then converted whatever it holds.
   */
  function CVarExtentResolveAsWritten(reg: Json, name: string, default: Extent2D): (r: Res<(Extent2D, Json)>)
    requires default.width <= MAX_UINT && default.height <= MAX_UINT
    ensures r.Fail? ==> r.failure == LogicError
    ensures r.Ok? ==>
      var x := Found(reg, XPath(name));
      var y := Found(reg, YPath(name));
      if IsUInt(y) then AsUInt(x).Ok? && r.value.0 == Extent2D(AsUInt(x).value, AsUInt(y).value)
      else r.value.0 == default
  {
    match ReadXY(reg, name)
    case Fail(f) => Fail(f)
    case Ok((vx, vy, reg2)) =>
      if !IsUInt(vy) || !IsUInt(vy) then
        match CVarExtentSave(reg2, name, default)
        case Fail(f) =>
          assert false;
          Fail(f)
        case Ok(reg3) => Ok((default, reg3))
      else
        match AsUInt(vx)
        case Fail(f) => Fail(f)
        case Ok(w) => Ok((Extent2D(w, AsUInt(vy).value), reg2))
  }

  /** A saved extent is what the next `resolve` returns. */
  lemma SaveThenResolve(reg: Json, name: string, e: Extent2D, default: Extent2D)
    requires e.width <= MAX_UINT && e.height <= MAX_UINT
    requires default.width <= MAX_UINT && default.height <= MAX_UINT
    requires Addressable(reg, XPath(name))
    ensures CVarExtentSave(reg, name, e).Ok?
    ensures CVarExtentResolve(CVarExtentSave(reg, name, e).value, name, default).Ok?
    ensures CVarExtentResolve(CVarExtentSave(reg, name, e).value, name, default).value.0 == e
  {
    var reg1 := CVarExtentSave(reg, name, e).value;
    AddressableAfterSet(SetAt(reg, XPath(name), UInt(e.width)).value, name, "y", "x", UInt(e.height));
  }

  /** An unusable stored extent is replaced by the default, so the next `resolve` returns the default again. */
  lemma DefaultSticks(reg: Json, name: string, default: Extent2D)
    requires default.width <= MAX_UINT && default.height <= MAX_UINT
    requires Addressable(reg, XPath(name))
    requires !IsUInt(Found(reg, XPath(name))) || !IsUInt(Found(reg, YPath(name)))
    ensures CVarExtentResolve(reg, name, default).Ok?
    ensures CVarExtentResolve(reg, name, default).value.0 == default
    ensures CVarExtentResolve(CVarExtentResolve(reg, name, default).value.1, name, default).Ok?
    ensures CVarExtentResolve(CVarExtentResolve(reg, name, default).value.1, name, default).value.0 == default
  {
    var reg1 := CVarExtentResolve(reg, name, default).value.1;
    assert Get(reg1, XPath(name)) == Some(UInt(default.width));
    assert Addressable(reg1, XPath(name)) by {
      AddressableWhenPresent(reg1, XPath(name));
    }
  }

  /** A path that leads to a value can be indexed. */
  lemma {:induction false} AddressableWhenPresent(v: Json, path: seq<string>)
    requires Get(v, path).Some?
    ensures Addressable(v, path)
    decreases |path|
  {
    if path != [] {
      AddressableWhenPresent(v.fields[path[0]], path[1..]);
    }
  }

  /**
   * A saved float is what the next `resolve` returns, and saving writes
   * nothing outside `cvar/<name>`.
   */
  lemma FloatSaveThenResolve(reg: Json, name: string, f: real, default: real, p: seq<string>)
    requires Addressable(reg, CVarPath(name))
    ensures CVarFloatResolve(CVarFloatSave(reg, name, f).value, name, default).Ok?
    ensures CVarFloatResolve(CVarFloatSave(reg, name, f).value, name, default).value.0 == f
    ensures Apart(p, CVarPath(name)) ==> Get(CVarFloatSave(reg, name, f).value, p) == Get(reg, p)
  {
    AddressableWhenPresent(CVarFloatSave(reg, name, f).value, CVarPath(name));
    if Apart(p, CVarPath(name)) {
      SetAtFrame(reg, CVarPath(name), Real(f), p);
    }
  }

  /** Saving an extent writes nothing outside `cvar/<name>`. */
  lemma ExtentSaveFrame(reg: Json, name: string, e: Extent2D, p: seq<string>)
    requires e.width <= MAX_UINT && e.height <= MAX_UINT
    requires Addressable(reg, XPath(name)) && Apart(p, CVarPath(name))
    ensures Get(CVarExtentSave(reg, name, e).value, p) == Get(reg, p)
  {
    var reg1 := SetAt(reg, XPath(name), UInt(e.width)).value;
    var k :| 0 <= k < |p| && k < 2 && p[k] != CVarPath(name)[k];
    assert Apart(p, XPath(name)) by { assert p[k] != XPath(name)[k]; }
    assert Apart(p, YPath(name)) by { assert p[k] != YPath(name)[k]; }
    SetAtFrame(reg, XPath(name), UInt(e.width), p);
    AddressableAfterSet(reg, name, "x", "y", UInt(e.width));
    SetAtFrame(reg1, YPath(name), UInt(e.height), p);
  }

  /**
   * With the width missing and a valid height stored, the as-written
   * `resolve` returns a zero width; the checked one returns the default.
   */
  lemma AsWrittenAcceptsMissingWidth(name: string, default: Extent2D)
    requires default.width <= MAX_UINT && default.height <= MAX_UINT
    ensures var reg := Object(map["cvar" := Object(map[name := Object(map["y" := UInt(5)])])]);
      CVarExtentResolveAsWritten(reg, name, default).Ok? &&
      CVarExtentResolveAsWritten(reg, name, default).value.0 == Extent2D(0, 5) &&
      CVarExtentResolve(reg, name, default).Ok? &&
      CVarExtentResolve(reg, name, default).value.0 == default
  {
    var leaf := Object(map["y" := UInt(5)]);
    var mid := Object(map[name := leaf]);
    var reg := Object(map["cvar" := mid]);
    assert Get(reg, XPath(name)) == Get(mid, [name, "x"]) == Get(leaf, ["x"]) == None;
    assert Get(reg, YPath(name)) == Get(mid, [name, "y"]) == Get(leaf, ["y"]) == Some(UInt(5));
    assert Get(reg, CVarPath(name)) == Get(mid, [name]) == Get(leaf, []) == Some(leaf);
    AddressableExtend(reg, CVarPath(name), "x");
  }
}

=== FILE: ressource_manager.dfy ===
/**
 * The per-frame resource registry of `ressource_manager.h/.cpp`: handles
 * that pack a 16-bit index and a scope into 32 bits, idempotent
 * registration by id, pools of reusable transient resources, and the
 * acquire/release cycle that lays out one frame's resources.
 *
 * Images and buffers are handled by identical code in the source; the
 * model writes it once over a `Side` with type parameters for the id, the
 * definition and the resource.
 */
module RessourceManager {
  import opened Common

  // -------------------------------------------------------------- handles

  /** `RessourceScope`; a bit-cast handle may carry any other 16-bit code. */
  datatype Scope = Transient | Extern | Storage | UnlistedScope(code: nat)

  function ScopeCode(s: Scope): nat
  {
    match s
    case Transient => 0
    case Extern => 1
    case Storage => 2
    case UnlistedScope(c) => c
  }

  function ScopeOf(code: nat): (s: Scope)
    ensures code < 3 ==> !s.UnlistedScope?
    ensures ScopeCode(s) == code
  {
    if code == 0 then Transient else if code == 1 then Extern else if code == 2 then Storage else UnlistedScope(code)
  }

  /** A scope that fits the 16 bits it is stored in. */
  predicate ScopeValid(s: Scope)
  {
    s.UnlistedScope? ==> 3 <= s.code < U16
  }

  /** `ImageRessourceInfo` / `BufferRessourceInfo`. */
  datatype Info = Info(index: nat, scope: Scope)

  predicate InfoValid(info: Info)
  {
    info.index < U16 && ScopeValid(info.scope)
  }

  /** `into_handle`: the bit-cast of the 16-bit index (low half) and the scope (high half). */
  function IntoHandle(info: Info): (h: nat)
    requires InfoValid(info)
    ensures h < U32
    ensures h % U16 == info.index
  {
    ModUnique(info.index + U16 * ScopeCode(info.scope), U16, ScopeCode(info.scope), info.index);
    info.index + U16 * ScopeCode(info.scope)
  }

  /** `from_handle`: the inverse bit-cast. */
  function FromHandle(h: nat): (info: Info)
    requires h < U32
    ensures InfoValid(info)
  {
    Info(h % U16, ScopeOf(h / U16))
  }

  /** Decoding an encoded info gives it back. */
  lemma FromIntoHandle(info: Info)
    requires InfoValid(info)
    ensures FromHandle(IntoHandle(info)) == info
  {
    ModUnique(IntoHandle(info), U16, ScopeCode(info.scope), info.index);
  }

  /** Encoding a decoded handle gives it back: the bit-cast loses nothing. */
  lemma IntoFromHandle(h: nat)
    requires h < U32
    ensures IntoHandle(FromHandle(h)) == h
  {
  }

  // ----------------------------------------------------------- frame data

  /** `FrameRessourceData` for one kind of resource: the array and the start of each scope. */
  datatype FrameData<R> = FrameData(ressources: seq<R>, transientOffset: nat, storageOffset: nat, externalOffset: nat)

  /** `buffer_index`: the handle's index shifted by its scope's offset; other scopes are unreachable. */
  function BufferIndex<R>(fd: FrameData<R>, h: nat): (r: Res<nat>)
    requires h < U32
    ensures r.Fail? <==> FromHandle(h).scope.UnlistedScope?
    ensures r.Fail? ==> r.failure == AssertionFailed
    ensures r.Ok? ==> r.value >= FromHandle(h).index
  {
    var info := FromHandle(h);
    match info.scope
    case Transient => Ok(info.index + fd.transientOffset)
    case Extern => Ok(info.index + fd.externalOffset)
    case Storage => Ok(info.index + fd.storageOffset)
    case UnlistedScope(_) => Fail(AssertionFailed)
  }

  /** `image_index`: the same, narrowed to 32 bits. */
  function ImageIndex<R>(fd: FrameData<R>, h: nat): (r: Res<nat>)
    requires h < U32
    ensures r.Fail? <==> BufferIndex(fd, h).Fail?
    ensures r.Ok? ==> r.value < U32 && r.value == BufferIndex(fd, h).value % U32
  {
    match BufferIndex(fd, h)
    case Ok(i) => Ok(i % U32)
    case Fail(f) => Fail(f)
  }

  // ---------------------------------------------------------------- pools

  /** `ImagePool` / `BufferPool`: a definition and the resources built for it and given back. */
  datatype Pool<D, R> = Pool(infos: D, storage: seq<R>)

  /** `get`: the last resource given back, or a newly built one when there is none. */
  function PoolGet<D, R>(pool: Pool<D, R>, build: D -> R): (r: (R, Pool<D, R>))
    ensures r.1.infos == pool.infos
    ensures pool.storage == [] ==> r.0 == build(pool.infos) && r.1 == pool
    ensures pool.storage != [] ==> r.1.storage + [r.0] == pool.storage
  {
    if pool.storage == [] then (build(pool.infos), pool)
    else (pool.storage[|pool.storage| - 1], pool.(storage := pool.storage[..|pool.storage| - 1]))
  }

  function Push<D, R>(pool: Pool<D, R>, x: R): Pool<D, R>
  {
    pool.(storage := pool.storage + [x])
  }

  /** Giving back what `get` took from a non-empty pool restores it. */
  lemma GetThenPushRestores<D, R>(pool: Pool<D, R>, build: D -> R)
    requires pool.storage != []
    ensures Push(PoolGet(pool, build).1, PoolGet(pool, build).0) == pool
  {
  }

  /** The resources of the pools `f` selects, in pool order: what `clear_pool_if` destroys. */
  function Selected<D, R>(pools: seq<Pool<D, R>>, f: D -> bool): seq<R>
  {
    if pools == [] then []
    else (if f(pools[0].infos) then pools[0].storage else []) + Selected(pools[1..], f)
  }

  /**
   * `clear_pool_if`: every resource of a selected pool goes through the
   * destructor once, in order, and the selected pools are emptied; the
   * others keep their content.
   */
  method ClearPoolIf<D, R>(pools: seq<Pool<D, R>>, f: D -> bool) returns (cleared: seq<Pool<D, R>>, destroyed: seq<R>)
    ensures |cleared| == |pools|
    ensures forall k :: 0 <= k < |pools| ==> cleared[k].infos == pools[k].infos
    ensures forall k :: 0 <= k < |pools| ==> cleared[k].storage == (if f(pools[k].infos) then [] else pools[k].storage)
    ensures destroyed == Selected(pools, f)
  {
    cleared := pools;
    destroyed := [];
    var i := 0;
    while i < |pools|
      invariant 0 <= i <= |pools| && |cleared| == |pools|
      invariant forall k :: 0 <= k < |pools| ==> cleared[k].infos == pools[k].infos
      invariant forall k :: 0 <= k < i ==> cleared[k].storage == (if f(pools[k].infos) then [] else pools[k].storage)
      invariant forall k :: i <= k < |pools| ==> cleared[k] == pools[k]
      invariant destroyed + Selected(pools[i..], f) == Selected(pools, f)
    {
      assert pools[i..][1..] == pools[i + 1..];
      if f(pools[i].infos) {
        destroyed := destroyed + pools[i].storage;
        cleared := cleared[i := pools[i].(storage := [])];
      }
      i := i + 1;
    }
  }

  // --------------------------------------------------------- registration

  /** `ImageRessourceDefinition` / `BufferRessourceDefinition`, with the scope `register_*` dispatches on. */
  datatype Definition<I, D> = Definition(definition: D, id: I, scope: Scope)

  /** The registry for one kind of resource. */
  datatype Side<I, D, R> = Side(
    pools: seq<Pool<D, R>>,
    external: seq<Definition<I, D>>,
    transient: seq<(I, nat)>,
    storage: seq<(I, D, R)>)

  /** `std::ranges::find` with a projection: the first position whose projection is `d`. */
  function Find<T, K(==)>(v: seq<T>, d: K, proj: T -> K): (r: Option<nat>)
    ensures r.Some? ==> r.value < |v| && proj(v[r.value]) == d
    ensures r.Some? ==> forall k :: 0 <= k < r.value ==> proj(v[k]) != d
    ensures r.None? ==> forall k :: 0 <= k < |v| ==> proj(v[k]) != d
  {
    if v == [] then None
    else if proj(v[0]) == d then Some(0)
    else match Find(v[1..], d, proj)
      case None => None
      case Some(k) => Some(k + 1)
  }

  /** `find_or_push_back`: the first matching position, or a new element at the end. */
  function FindOrPushBack<T, K(==)>(v: seq<T>, d: K, proj: T -> K, item: T): (r: (nat, seq<T>))
    requires proj(item) == d
    ensures r.0 < |r.1| && proj(r.1[r.0]) == d
    ensures forall k :: 0 <= k < r.0 ==> proj(r.1[k]) != d
    ensures (exists k :: 0 <= k < |v| && proj(v[k]) == d) ==> r.1 == v
    ensures (forall k :: 0 <= k < |v| ==> proj(v[k]) != d) ==> r == (|v|, v + [item])
  {
    match Find(v, d, proj)
    case Some(i) => (i, v)
    case None => (|v|, v + [item])
  }

  /** Registering twice finds what the first call put there. */
  lemma FindOrPushBackIdempotent<T, K>(v: seq<T>, d: K, proj: T -> K, item: T, item2: T)
    requires proj(item) == d && proj(item2) == d
    ensures var (i, v1) := FindOrPushBack(v, d, proj, item);
      FindOrPushBack(v1, d, proj, item2) == (i, v1)
  {
    var (i, v1) := FindOrPushBack(v, d, proj, item);
    assert proj(v1[i]) == d;
  }

  function StorageId<I, D, R>(e: (I, D, R)): I { e.0 }
  function TransientId<I>(e: (I, nat)): I { e.0 }
  function ExternalId<I, D>(e: Definition<I, D>): I { e.id }
  function PoolInfos<D, R>(p: Pool<D, R>): D { p.infos }

  /** The handle of position `i` of a scope: the index is truncated to 16 bits. */
  function HandleOf(i: nat, scope: Scope): (h: nat)
    requires !scope.UnlistedScope?
    ensures h < U32 && FromHandle(h) == Info(i % U16, scope)
  {
    FromIntoHandle(Info(i % U16, scope));
    IntoHandle(Info(i % U16, scope))
  }

  /**
   * `register_storage_*`: the entry with this id, added with an empty
   * resource if new; a given resource overwrites the stored one.
   */
  function RegisterStorage<I(==), D, R>(s: Side<I, D, R>, def: Definition<I, D>, data: Option<R>, empty: R): (r: (nat, Side<I, D, R>))
    ensures r.1.pools == s.pools && r.1.external == s.external && r.1.transient == s.transient
    ensures |s.storage| <= |r.1.storage| && forall k :: 0 <= k < |s.storage| ==> r.1.storage[k].0 == s.storage[k].0
    // the first entry with this id: its resource is the given one, or is kept when none is given
    ensures exists i :: (0 <= i < |r.1.storage| && r.0 == HandleOf(i, Storage) && r.1.storage[i].0 == def.id &&
      (forall k :: 0 <= k < i ==> r.1.storage[k].0 != def.id) &&
      (forall k :: 0 <= k < |s.storage| && k != i ==> r.1.storage[k] == s.storage[k]) &&
      (data.Some? ==> r.1.storage[i].2 == data.value) &&
      (data.None? && i < |s.storage| ==> r.1.storage[i] == s.storage[i]))
    ensures (exists k :: 0 <= k < |s.storage| && s.storage[k].0 == def.id) ==> |r.1.storage| == |s.storage|
    ensures (forall k :: 0 <= k < |s.storage| ==> s.storage[k].0 != def.id) ==>
      r.0 == HandleOf(|s.storage|, Storage) &&
      r.1.storage == s.storage + [(def.id, def.definition, if data.Some? then data.value else empty)]
  {
    var (i, v) := FindOrPushBack(s.storage, def.id, StorageId, (def.id, def.definition, empty));
    var v' := if data.Some? then v[i := (v[i].0, v[i].1, data.value)] else v;
    (HandleOf(i, Storage), s.(storage := v'))
  }

  /** `register_external_*`: the definition with this id, appended if new. */
  function RegisterExternal<I(==), D, R>(s: Side<I, D, R>, def: Definition<I, D>): (r: (nat, Side<I, D, R>))
    ensures r.1.pools == s.pools && r.1.storage == s.storage && r.1.transient == s.transient
    ensures exists i :: 0 <= i < |r.1.external| && r.0 == HandleOf(i, Extern) && r.1.external[i].id == def.id
    ensures |s.external| <= |r.1.external| && r.1.external[..|s.external|] == s.external
  {
    var (i, v) := FindOrPushBack(s.external, def.id, ExternalId, def);
    (HandleOf(i, Extern), s.(external := v))
  }

  /** `register_*_pool`: the pool for this definition, created if new. */
  function RegisterPool<I, D(==), R>(s: Side<I, D, R>, d: D): (r: (nat, Side<I, D, R>))
    ensures r.0 < |r.1.pools| && r.1.pools[r.0].infos == d
    ensures r.1.external == s.external && r.1.storage == s.storage && r.1.transient == s.transient
    ensures |s.pools| <= |r.1.pools| && forall k :: 0 <= k < |s.pools| ==> r.1.pools[k] == s.pools[k]
  {
    var (p, v) := FindOrPushBack(s.pools, d, PoolInfos, Pool(d, []));
    (p, s.(pools := v))
  }

  /** Every transient entry names an existing pool. */
  predicate SideValid<I, D, R>(s: Side<I, D, R>)
  {
    forall k :: 0 <= k < |s.transient| ==> s.transient[k].1 < |s.pools|
  }

  /**
   * `register_transient_*`: the entry with this id; only a new one finds or
   * creates the pool of its definition.
   */
  function RegisterTransient<I(==), D(==), R>(s: Side<I, D, R>, def: Definition<I, D>): (r: (nat, Side<I, D, R>))
    ensures r.1.external == s.external && r.1.storage == s.storage
    ensures SideValid(s) ==> SideValid(r.1)
    ensures exists i :: 0 <= i < |r.1.transient| && r.0 == HandleOf(i, Transient) && r.1.transient[i].0 == def.id
    ensures (exists k :: 0 <= k < |s.transient| && s.transient[k].0 == def.id) ==> r.1 == s
    ensures (forall k :: 0 <= k < |s.transient| ==> s.transient[k].0 != def.id) ==>
      |r.1.transient| == |s.transient| + 1 && r.1.transient[..|s.transient|] == s.transient &&
      r.1.transient[|s.transient|].1 < |r.1.pools| && r.1.pools[r.1.transient[|s.transient|].1].infos == def.definition
  {
    match Find(s.transient, def.id, TransientId)
    case Some(i) => (HandleOf(i, Transient), s)
    case None =>
      var (p, s1) := RegisterPool(s, def.definition);
      assert s.transient + [(def.id, p)] == s.transient + [(def.id, p)];
      (HandleOf(|s.transient|, Transient), s1.(transient := s.transient + [(def.id, p)]))
  }

  /** `register_image`: transient and external definitions are dispatched, a storage one is unreachable. */
  function RegisterImage<I(==), D(==), R>(s: Side<I, D, R>, def: Definition<I, D>): (r: Res<(nat, Side<I, D, R>)>)
    ensures r.Fail? <==> !(def.scope.Transient? || def.scope.Extern?)
    ensures def.scope.Transient? ==> r == Ok(RegisterTransient(s, def))
    ensures def.scope.Extern? ==> r == Ok(RegisterExternal(s, def))
  {
    match def.scope
    case Transient => Ok(RegisterTransient(s, def))
    case Extern => Ok(RegisterExternal(s, def))
    case _ => Fail(AssertionFailed)
  }

  /** `register_buffer`: all three scopes are dispatched; a storage buffer is registered without data. */
  function RegisterBuffer<I(==), D(==), R>(s: Side<I, D, R>, def: Definition<I, D>, empty: R): (r: Res<(nat, Side<I, D, R>)>)
    ensures r.Fail? <==> def.scope.UnlistedScope?
    ensures def.scope.Transient? ==> r == Ok(RegisterTransient(s, def))
    ensures def.scope.Extern? ==> r == Ok(RegisterExternal(s, def))
    ensures def.scope.Storage? ==> r == Ok(RegisterStorage(s, def, None, empty))
  {
    match def.scope
    case Transient => Ok(RegisterTransient(s, def))
    case Extern => Ok(RegisterExternal(s, def))
    case Storage => Ok(RegisterStorage(s, def, None, empty))
    case UnlistedScope(_) => Fail(AssertionFailed)
  }

  /** Registering an external id a second time gives the same handle and adds nothing. */
  lemma RegisterExternalIdempotent<I, D, R>(s: Side<I, D, R>, def: Definition<I, D>, def2: Definition<I, D>)
    requires def2.id == def.id
    ensures RegisterExternal(RegisterExternal(s, def).1, def2) == RegisterExternal(s, def)
  {
    FindOrPushBackIdempotent(s.external, def.id, ExternalId, def, def2);
  }

  /** Registering a storage id a second time without data gives the same handle and changes nothing. */
  lemma RegisterStorageIdempotent<I, D, R>(s: Side<I, D, R>, def: Definition<I, D>, def2: Definition<I, D>, data: Option<R>, empty: R)
    requires def2.id == def.id
    ensures RegisterStorage(RegisterStorage(s, def, data, empty).1, def2, None, empty) == RegisterStorage(s, def, data, empty)
  {
    var item := (def.id, def.definition, empty);
    var (i, v) := FindOrPushBack(s.storage, def.id, StorageId, item);
    var v' := if data.Some? then v[i := (v[i].0, v[i].1, data.value)] else v;
    assert StorageId(v'[i]) == def.id;
    assert forall k :: 0 <= k < i ==> StorageId(v'[k]) != def.id by {
      forall k | 0 <= k < i ensures StorageId(v'[k]) != def.id {
        assert v'[k] == v[k];
      }
    }
  }

  /** Registering a transient id a second time gives the same handle and adds no entry and no pool. */
  lemma RegisterTransientIdempotent<I, D, R>(s: Side<I, D, R>, def: Definition<I, D>, def2: Definition<I, D>)
    requires def2.id == def.id
    ensures RegisterTransient(RegisterTransient(s, def).1, def2) == RegisterTransient(s, def)
  {
    var s1 := RegisterTransient(s, def).1;
    if Find(s.transient, def.id, TransientId).None? {
      var n := |s.transient|;
      assert TransientId(s1.transient[n]) == def.id;
      forall k | 0 <= k < n ensures TransientId(s1.transient[k]) != def.id {
        assert s1.transient[k] == s.transient[k];
      }
    }
  }

  /** Two new transient ids with the same definition share one pool. */
  lemma TransientsShareThePool<I, D, R>(s: Side<I, D, R>, a: Definition<I, D>, b: Definition<I, D>)
    requires a.id != b.id && a.definition == b.definition
    requires forall k :: 0 <= k < |s.transient| ==> s.transient[k].0 != a.id && s.transient[k].0 != b.id
    ensures var s1 := RegisterTransient(s, a).1;
      var s2 := RegisterTransient(s1, b).1;
      |s2.transient| == |s.transient| + 2 &&
      s2.transient[|s.transient|].1 == s2.transient[|s.transient| + 1].1 &&
      |s2.pools| == |s1.pools|
  {
    var s1 := RegisterTransient(s, a).1;
    var p := s1.transient[|s.transient|].1;
    assert PoolInfos(s1.pools[p]) == b.definition;
    assert Find(s1.pools, b.definition, PoolInfos) == Find(s.pools, a.definition, PoolInfos) || p == |s.pools| by {
      if Find(s.pools, a.definition, PoolInfos).None? {
        forall k | 0 <= k < |s.pools| ensures PoolInfos(s1.pools[k]) != b.definition {
          assert s1.pools[k] == s.pools[k];
        }
      }
    }
    forall k | 0 <= k < |s1.transient| ensures s1.transient[k].0 != b.id {
      if k < |s.transient| {
        assert s1.transient[k] == s.transient[k];
      }
    }
  }

  // ------------------------------------------------------ acquire/release

  /** How many transient entries draw from pool `p`. */
  function Uses<I>(ts: seq<(I, nat)>, p: nat): (r: nat)
    ensures r <= |ts|
  {
    if ts == [] then 0 else (if ts[0].1 == p then 1 else 0) + Uses(ts[1..], p)
  }

  predicate PoolsCover<I, D, R>(pools: seq<Pool<D, R>>, ts: seq<(I, nat)>)
  {
    forall k :: 0 <= k < |ts| ==> ts[k].1 < |pools|
  }

  /** The transient loop of `acquire_frame_data`: one `get` from its pool per transient entry, in order. */
  function AcquireTransient<I, D, R>(pools: seq<Pool<D, R>>, ts: seq<(I, nat)>, build: D -> R): (r: (seq<R>, seq<Pool<D, R>>))
    requires PoolsCover(pools, ts)
    ensures |r.0| == |ts| && |r.1| == |pools|
    ensures forall p :: 0 <= p < |pools| ==> r.1[p].infos == pools[p].infos
    ensures forall k :: 0 <= k < |ts| ==>
      r.0[k] == build(pools[ts[k].1].infos) || r.0[k] in pools[ts[k].1].storage
    decreases |ts|
  {
    if ts == [] then ([], pools)
    else
      var p := ts[0].1;
      var (x, pool') := PoolGet(pools[p], build);
      var pools1 := pools[p := pool'];
      var (rest, pools2) := AcquireTransient(pools1, ts[1..], build);
      assert forall k :: 0 <= k < |ts[1..]| ==> pools1[ts[1..][k].1].infos == pools[ts[k + 1].1].infos;
      assert forall q :: 0 <= q < |pools| ==> forall x :: x in pools1[q].storage ==> x in pools[q].storage;
      ([x] + rest, pools2)
  }

  /** The transient loop of `release_frame_data`: resource `i` goes back onto the pool of entry `i`. */
  function ReleaseTransient<I, D, R>(pools: seq<Pool<D, R>>, ts: seq<(I, nat)>, rs: seq<R>): (r: seq<Pool<D, R>>)
    requires PoolsCover(pools, ts) && |rs| >= |ts|
    ensures |r| == |pools|
    ensures forall p :: 0 <= p < |pools| ==> r[p].infos == pools[p].infos
    decreases |ts|
  {
    if ts == [] then pools
    else
      var p := ts[0].1;
      ReleaseTransient(pools[p := Push(pools[p], rs[0])], ts[1..], rs[1..])
  }

  /** `acquire` takes from each pool as many resources as it has entries drawing from it, from the top. */
  lemma {:induction false} AcquireTakesFromTheTop<I, D, R>(pools: seq<Pool<D, R>>, ts: seq<(I, nat)>, build: D -> R, p: nat)
    requires PoolsCover(pools, ts) && p < |pools|
    ensures var after := AcquireTransient(pools, ts, build).1[p].storage;
      |after| == Max(0, |pools[p].storage| - Uses(ts, p)) && after == pools[p].storage[..|after|]
    decreases |ts|
  {
    if ts != [] {
      var q := ts[0].1;
      var (x, pool') := PoolGet(pools[q], build);
      var pools1 := pools[q := pool'];
      AcquireTakesFromTheTop(pools1, ts[1..], build, p);
      if q == p && pools[p].storage != [] {
        assert pools1[p].storage == pools[p].storage[..|pools[p].storage| - 1];
      }
    }
  }

  /** `release` puts back on each pool exactly as many resources as it has entries drawing from it. */
  lemma {:induction false} ReleaseGrows<I, D, R>(pools: seq<Pool<D, R>>, ts: seq<(I, nat)>, rs: seq<R>, p: nat)
    requires PoolsCover(pools, ts) && |rs| >= |ts| && p < |pools|
    ensures var after := ReleaseTransient(pools, ts, rs)[p].storage;
      |after| == |pools[p].storage| + Uses(ts, p) && after[..|pools[p].storage|] == pools[p].storage
    decreases |ts|
  {
    if ts != [] {
      var q := ts[0].1;
      var pools1 := pools[q := Push(pools[q], rs[0])];
      ReleaseGrows(pools1, ts[1..], rs[1..], p);
      var n := |pools[p].storage|;
      var after := ReleaseTransient(pools, ts, rs)[p].storage;
      assert after[..|pools1[p].storage|] == pools1[p].storage;
      assert after[..n] == after[..|pools1[p].storage|][..n];
    }
  }

  /**
   * A frame acquired and then released leaves every pool holding
   * `max(size, uses)` resources: what it held is given back, and what had
   * to be built is kept for the next frame.
   */
  lemma AcquireThenReleaseSizes<I, D, R>(pools: seq<Pool<D, R>>, ts: seq<(I, nat)>, build: D -> R, p: nat)
    requires PoolsCover(pools, ts) && p < |pools|
    ensures var (rs, pools1) := AcquireTransient(pools, ts, build);
      PoolsCover(pools1, ts) &&
      |ReleaseTransient(pools1, ts, rs)[p].storage| == Max(|pools[p].storage|, Uses(ts, p))
  {
    var (rs, pools1) := AcquireTransient(pools, ts, build);
    AcquireTakesFromTheTop(pools, ts, build, p);
    ReleaseGrows(pools1, ts, rs, p);
  }

  /**
   * `acquire_frame_data` for one kind: transients from their pools, then
   * the storage resources, then one default slot per external entry.
   */
  function AcquireFrameData<I, D, R>(s: Side<I, D, R>, build: D -> R, empty: R): (r: (FrameData<R>, Side<I, D, R>))
    requires SideValid(s)
    ensures var fd := r.0;
      fd.transientOffset == 0 && fd.storageOffset == |s.transient| &&
      fd.externalOffset == |s.transient| + |s.storage| &&
      |fd.ressources| == |s.transient| + |s.storage| + |s.external|
    ensures forall k :: 0 <= k < |s.storage| ==> r.0.ressources[|s.transient| + k] == s.storage[k].2
    ensures forall k :: |s.transient| + |s.storage| <= k < |r.0.ressources| ==> r.0.ressources[k] == empty
    ensures r.1.external == s.external && r.1.transient == s.transient && r.1.storage == s.storage
    ensures SideValid(r.1)
  {
    var (rs, pools) := AcquireTransient(s.pools, s.transient, build);
    var stored := seq(|s.storage|, k requires 0 <= k < |s.storage| => s.storage[k].2);
    var externals := seq(|s.external|, k => empty);
    (FrameData(rs + stored + externals, 0, |rs|, |rs| + |stored|), s.(pools := pools))
  }

  /** `release_frame_data` for one kind: the transient resources go back onto their pools. */
  function ReleaseFrameData<I, D, R>(s: Side<I, D, R>, fd: FrameData<R>): (r: Side<I, D, R>)
    requires SideValid(s) && fd.transientOffset + |s.transient| <= |fd.ressources|
    ensures r.external == s.external && r.transient == s.transient && r.storage == s.storage
    ensures SideValid(r)
  {
    var rs := fd.ressources[fd.transientOffset..];
    s.(pools := ReleaseTransient(s.pools, s.transient, rs))
  }

  /**
   * In acquired frame data, a storage handle and an external handle find
   * their own slots.
   */
  lemma HandlesFindTheirSlots<I, D, R>(s: Side<I, D, R>, build: D -> R, empty: R, k: nat)
    requires SideValid(s)
    ensures var fd := AcquireFrameData(s, build, empty).0;
      (k < |s.storage| && k < U16 ==>
        BufferIndex(fd, HandleOf(k, Storage)) == Ok(|s.transient| + k) &&
        fd.ressources[|s.transient| + k] == s.storage[k].2) &&
      (k < |s.external| && k < U16 ==>
        BufferIndex(fd, HandleOf(k, Extern)) == Ok(|s.transient| + |s.storage| + k) &&
        fd.ressources[|s.transient| + |s.storage| + k] == empty) &&
      (k < |s.transient| && k < U16 ==> BufferIndex(fd, HandleOf(k, Transient)) == Ok(k))
  {
  }
}

=== FILE: ressources.dfy ===
/**
 * Images and buffers of `ressources.h/.cpp`: the per-image synchronisation
 * state and the barrier it prepares, the mapping from the renderer's
 * definition flags to Vulkan formats, usages, aspects, extents and
 * allocation flags, and the per-frame storages the resource manager keeps.
 *
 * The header and the implementation of this snapshot declare
 * `ImageDefinition` differently (a variant size and format in the header,
 * flags and an optional size in the implementation); both shapes are
 * modelled, each with the functions written against it.
 */
module Ressources {
  import opened Common
  import opened Synchronisation

  // -------------------------------------------------------------- constants

  // the renderer's image usage bits (their values are not part of this model's sources; any distinct bits do)
  const IMAGE_USAGE_COLOR_BIT: bv32 := 0x1
  const IMAGE_USAGE_DEPTH_BIT: bv32 := 0x2
  const IMAGE_USAGE_SAMPLED_BIT: bv32 := 0x4
  const IMAGE_USAGE_TRANSFER_DST_BIT: bv32 := 0x8

  // the renderer's image option bits: the first three as declared, the others distinct placeholders
  const IMAGE_OPTION_FLAG_COLOR_ATTACHMENT_BIT: bv32 := 0x1
  const IMAGE_OPTION_FLAG_TEXTURE_ATTACHMENT_BIT: bv32 := 0x2
  const IMAGE_OPTION_FLAG_EXTERNAL_BIT: bv32 := 0x4
  const IMAGE_OPTION_FLAG_FORMAT_R8G8B8A8_UNORM_BIT: bv32 := 0x8
  const IMAGE_OPTION_FLAG_FORMAT_R32G32B32A32_SFLOAT_BIT: bv32 := 0x10
  const IMAGE_OPTION_FLAG_FORMAT_D16_UNORM_BIT: bv32 := 0x20
  const IMAGE_OPTION_FLAG_FORMAT_SAME_AS_FRAMEBUFFER_BIT: bv32 := 0x40
  const IMAGE_OPTION_FLAG_SIZE_SAME_AS_FRAMEBUFFER_BIT: bv32 := 0x80
  const IMAGE_OPTION_FLAG_SIZE_CUSTOM_BIT: bv32 := 0x100

  const BUFFER_OPTION_FLAG_CPU_TO_GPU_BIT: bv32 := 0x1

  const VK_IMAGE_ASPECT_NONE: bv32 := 0
  const VK_IMAGE_ASPECT_COLOR_BIT: bv32 := 0x1
  const VK_IMAGE_ASPECT_DEPTH_BIT: bv32 := 0x2

  const VK_IMAGE_USAGE_TRANSFER_DST_BIT: bv32 := 0x2
  const VK_IMAGE_USAGE_SAMPLED_BIT: bv32 := 0x4
  const VK_IMAGE_USAGE_COLOR_ATTACHMENT_BIT: bv32 := 0x10
  const VK_IMAGE_USAGE_DEPTH_STENCIL_ATTACHMENT_BIT: bv32 := 0x20

  const VK_FORMAT_R8G8B8A8_UNORM: int := 37
  const VK_FORMAT_R32G32B32_SFLOAT: int := 106
  const VK_FORMAT_R32G32B32A32_SFLOAT: int := 109
  const VK_FORMAT_D16_UNORM: int := 124

  const VK_ATTACHMENT_LOAD_OP_LOAD: nat := 0
  const VK_ATTACHMENT_LOAD_OP_CLEAR: nat := 1
  const VK_ATTACHMENT_STORE_OP_STORE: nat := 0

  const VK_MEMORY_PROPERTY_DEVICE_LOCAL_BIT: bv32 := 0x1
  const VK_MEMORY_PROPERTY_HOST_VISIBLE_BIT: bv32 := 0x2
  const VMA_MEMORY_USAGE_AUTO: nat := 7
  const VMA_MEMORY_USAGE_AUTO_PREFER_DEVICE: nat := 8
  const VMA_ALLOCATION_CREATE_HOST_ACCESS_RANDOM_BIT: bv32 := 0x800

  predicate Has(flags: bv32, bit: bv32) { flags & bit != 0 }

  // ------------------------------------------------------- image ressource

  /** `ImageRessource`; handles are opaque numbers, 0 standing for a null handle. */
  datatype ImageRessource = ImageRessource(image: nat, view: nat, syncInfo: SyncInfo, alloc: nat, usage: bv32)

  /** The aspects an image of this usage has: colour for colour or sampled images, depth for depth images. */
  function AspectMask(usage: bv32): (r: bv32)
    ensures Has(r, VK_IMAGE_ASPECT_COLOR_BIT) <==> Has(usage, IMAGE_USAGE_COLOR_BIT) || Has(usage, IMAGE_USAGE_SAMPLED_BIT)
    ensures Has(r, VK_IMAGE_ASPECT_DEPTH_BIT) <==> Has(usage, IMAGE_USAGE_DEPTH_BIT)
    ensures r & !(VK_IMAGE_ASPECT_COLOR_BIT | VK_IMAGE_ASPECT_DEPTH_BIT) == 0
  {
    var color := if Has(usage, IMAGE_USAGE_COLOR_BIT) || Has(usage, IMAGE_USAGE_SAMPLED_BIT) then VK_IMAGE_ASPECT_COLOR_BIT else VK_IMAGE_ASPECT_NONE;
    var depth := if Has(usage, IMAGE_USAGE_DEPTH_BIT) then VK_IMAGE_ASPECT_DEPTH_BIT else VK_IMAGE_ASPECT_NONE;
    color | depth
  }

  /** The single mip level and layer every barrier of the renderer covers. */
  function WholeImage(usage: bv32): SubresourceRange
  {
    SubresourceRange(AspectMask(usage), 0, 1, 0, 1)
  }

  /**
   * `prepare_barrier`: a barrier from the recorded state to `dst` when the
   * layout or the queue family changes; either way `dst` becomes the
   * recorded state.
   */
  function PrepareBarrier(img: ImageRessource, dst: SyncInfo): (r: (Option<Barrier>, ImageRessource))
    ensures r.0.Some? <==> dst.layout != img.syncInfo.layout || dst.queueFamilyIndex != img.syncInfo.queueFamilyIndex
    ensures r.0.Some? ==> Src(r.0.value) == img.syncInfo && Dst(r.0.value) == dst
    ensures r.0.Some? ==> r.0.value.image == img.image && r.0.value.range == WholeImage(img.usage)
    ensures r.1 == img.(syncInfo := dst)
  {
    var barrier :=
      if dst.layout != img.syncInfo.layout || dst.queueFamilyIndex != img.syncInfo.queueFamilyIndex
      then Some(MakeBarrier(img.syncInfo, dst, img.image, WholeImage(img.usage)))
      else None;
    (barrier, img.(syncInfo := SyncInfo(dst.accessMask, dst.stageMask, dst.layout, dst.queueFamilyIndex)))
  }

  /** Preparing the same transition twice emits nothing the second time. */
  lemma PrepareBarrierTwice(img: ImageRessource, dst: SyncInfo)
    ensures PrepareBarrier(PrepareBarrier(img, dst).1, dst) == (None, PrepareBarrier(img, dst).1)
  {
  }

  /** Barriers chain: each one starts from the state the previous one ended in. */
  lemma BarriersChain(img: ImageRessource, a: SyncInfo, b: SyncInfo)
    requires b.layout != a.layout
    ensures var (_, img1) := PrepareBarrier(img, a);
      PrepareBarrier(img1, b).0.Some? && Src(PrepareBarrier(img1, b).0.value) == a
  {
  }

  /** `invalidate`: the content is forgotten, the image is back in the undefined layout. */
  function Invalidate(img: ImageRessource): (r: ImageRessource)
    ensures r.syncInfo.layout == VK_IMAGE_LAYOUT_UNDEFINED && r.syncInfo.queueFamilyIndex == VK_QUEUE_FAMILY_IGNORED
    ensures r.syncInfo.stageMask == VK_PIPELINE_STAGE_TOP_OF_PIPE_BIT && r.syncInfo.accessMask == 0
    ensures r.(syncInfo := img.syncInfo) == img
  {
    img.(syncInfo := SrcImageMemoryBarrierUndefined)
  }

  /** After `invalidate`, any use in a defined layout is preceded by a barrier from the undefined layout. */
  lemma InvalidateForcesBarrier(img: ImageRessource, dst: SyncInfo)
    requires dst.layout != VK_IMAGE_LAYOUT_UNDEFINED
    ensures PrepareBarrier(Invalidate(img), dst).0.Some?
    ensures PrepareBarrier(Invalidate(img), dst).0.value.oldLayout == VK_IMAGE_LAYOUT_UNDEFINED
  {
  }

  /** `from_external_image`: an image the renderer does not own, so with no allocation. */
  function FromExternalImage(image: nat, view: nat, usage: bv32, sync: SyncInfo): (r: ImageRessource)
    ensures r.alloc == 0 && r.image == image && r.view == view && r.usage == usage && r.syncInfo == sync
  {
    ImageRessource(image, view, sync, 0, usage)
  }

  /** `VkRenderingAttachmentInfo` as `as_attachment` fills it. */
  datatype Attachment = Attachment(view: nat, layout: int, loadOp: nat, storeOp: nat, clearValue: Option<nat>)

  /** `as_attachment`: cleared when a clear value is given, loaded otherwise, always stored, in the current layout. */
  function AsAttachment(img: ImageRessource, clear: Option<nat>): (r: Attachment)
    ensures r.loadOp == VK_ATTACHMENT_LOAD_OP_CLEAR <==> clear.Some?
    ensures r.loadOp == VK_ATTACHMENT_LOAD_OP_LOAD <==> clear.None?
    ensures r.storeOp == VK_ATTACHMENT_STORE_OP_STORE
    ensures r.layout == img.syncInfo.layout && r.view == img.view && r.clearValue == clear
  {
    Attachment(img.view, img.syncInfo.layout,
               if clear.Some? then VK_ATTACHMENT_LOAD_OP_CLEAR else VK_ATTACHMENT_LOAD_OP_LOAD,
               VK_ATTACHMENT_STORE_OP_STORE, clear)
  }

  // ----------------------------------------------- implementation's definition

  /** `ImageDefinition` as the implementation reads it: option flags, usage bits, an optional size. */
  datatype ImageOptions = ImageOptions(flags: bv32, usage: bv32, size: Option<Extent2D>)

  /** How many of the four format flags are set. */
  function FormatFlagCount(flags: bv32): nat
  {
    (if Has(flags, IMAGE_OPTION_FLAG_FORMAT_R8G8B8A8_UNORM_BIT) then 1 else 0) +
    (if Has(flags, IMAGE_OPTION_FLAG_FORMAT_R32G32B32A32_SFLOAT_BIT) then 1 else 0) +
    (if Has(flags, IMAGE_OPTION_FLAG_FORMAT_D16_UNORM_BIT) then 1 else 0) +
    (if Has(flags, IMAGE_OPTION_FLAG_FORMAT_SAME_AS_FRAMEBUFFER_BIT) then 1 else 0)
  }

  /** The format each format flag is meant to select. */
  function FlagFormat(bit: bv32, framebufferFormat: int): int
  {
    if bit == IMAGE_OPTION_FLAG_FORMAT_R8G8B8A8_UNORM_BIT then VK_FORMAT_R8G8B8A8_UNORM
    else if bit == IMAGE_OPTION_FLAG_FORMAT_R32G32B32A32_SFLOAT_BIT then VK_FORMAT_R32G32B32A32_SFLOAT
    else if bit == IMAGE_OPTION_FLAG_FORMAT_D16_UNORM_BIT then VK_FORMAT_D16_UNORM
    else framebufferFormat
  }

  /**
   * `ImageDefinition::format` as written: exactly one format flag must be
   * set; the four-channel float flag yields the three-channel float format.
   */
  function FormatAsWritten(def: ImageOptions, framebufferFormat: int): (r: Res<int>)
    ensures r.Ok? <==> FormatFlagCount(def.flags) == 1
    ensures r.Fail? ==> r.failure == AssertionFailed
    ensures r.Ok? && Has(def.flags, IMAGE_OPTION_FLAG_FORMAT_R32G32B32A32_SFLOAT_BIT) ==> r.value == VK_FORMAT_R32G32B32_SFLOAT
  {
    if FormatFlagCount(def.flags) != 1 then Fail(AssertionFailed)
    else if Has(def.flags, IMAGE_OPTION_FLAG_FORMAT_R8G8B8A8_UNORM_BIT) then Ok(VK_FORMAT_R8G8B8A8_UNORM)
    else if Has(def.flags, IMAGE_OPTION_FLAG_FORMAT_R32G32B32A32_SFLOAT_BIT) then Ok(VK_FORMAT_R32G32B32_SFLOAT)
    else if Has(def.flags, IMAGE_OPTION_FLAG_FORMAT_D16_UNORM_BIT) then Ok(VK_FORMAT_D16_UNORM)
    else Ok(framebufferFormat)
  }

  /** `ImageDefinition::format` with each flag selecting the format it names. */
  function Format(def: ImageOptions, framebufferFormat: int): (r: Res<int>)
    ensures r.Ok? <==> FormatFlagCount(def.flags) == 1
    ensures r.Fail? ==> r.failure == AssertionFailed
    ensures forall bit :: bit in {IMAGE_OPTION_FLAG_FORMAT_R8G8B8A8_UNORM_BIT, IMAGE_OPTION_FLAG_FORMAT_R32G32B32A32_SFLOAT_BIT,
                                  IMAGE_OPTION_FLAG_FORMAT_D16_UNORM_BIT, IMAGE_OPTION_FLAG_FORMAT_SAME_AS_FRAMEBUFFER_BIT} ==>
      r.Ok? && Has(def.flags, bit) ==> r.value == FlagFormat(bit, framebufferFormat)
  {
    if FormatFlagCount(def.flags) != 1 then Fail(AssertionFailed)
    else if Has(def.flags, IMAGE_OPTION_FLAG_FORMAT_R8G8B8A8_UNORM_BIT) then Ok(VK_FORMAT_R8G8B8A8_UNORM)
    else if Has(def.flags, IMAGE_OPTION_FLAG_FORMAT_R32G32B32A32_SFLOAT_BIT) then Ok(VK_FORMAT_R32G32B32A32_SFLOAT)
    else if Has(def.flags, IMAGE_OPTION_FLAG_FORMAT_D16_UNORM_BIT) then Ok(VK_FORMAT_D16_UNORM)
    else Ok(framebufferFormat)
  }

  /** The four-channel float flag: the format as written drops the alpha channel. */
  lemma FourChannelFlagLosesAlpha(framebufferFormat: int)
    ensures var def := ImageOptions(IMAGE_OPTION_FLAG_FORMAT_R32G32B32A32_SFLOAT_BIT, 0, None);
      FormatAsWritten(def, framebufferFormat) == Ok(VK_FORMAT_R32G32B32_SFLOAT) &&
      Format(def, framebufferFormat) == Ok(VK_FORMAT_R32G32B32A32_SFLOAT)
  {
  }

  /** `image_usage`: each of the renderer's usage bits turns on its Vulkan counterpart, and nothing else is set. */
  function ImageUsage(def: ImageOptions): (r: bv32)
    ensures Has(r, VK_IMAGE_USAGE_COLOR_ATTACHMENT_BIT) <==> Has(def.usage, IMAGE_USAGE_COLOR_BIT)
    ensures Has(r, VK_IMAGE_USAGE_DEPTH_STENCIL_ATTACHMENT_BIT) <==> Has(def.usage, IMAGE_USAGE_DEPTH_BIT)
    ensures Has(r, VK_IMAGE_USAGE_SAMPLED_BIT) <==> Has(def.usage, IMAGE_USAGE_SAMPLED_BIT)
    ensures Has(r, VK_IMAGE_USAGE_TRANSFER_DST_BIT) <==> Has(def.usage, IMAGE_USAGE_TRANSFER_DST_BIT)
    ensures r & !(VK_IMAGE_USAGE_COLOR_ATTACHMENT_BIT | VK_IMAGE_USAGE_DEPTH_STENCIL_ATTACHMENT_BIT |
                  VK_IMAGE_USAGE_SAMPLED_BIT | VK_IMAGE_USAGE_TRANSFER_DST_BIT) == 0
  {
    (if Has(def.usage, IMAGE_USAGE_COLOR_BIT) then VK_IMAGE_USAGE_COLOR_ATTACHMENT_BIT else 0) |
    (if Has(def.usage, IMAGE_USAGE_DEPTH_BIT) then VK_IMAGE_USAGE_DEPTH_STENCIL_ATTACHMENT_BIT else 0) |
    (if Has(def.usage, IMAGE_USAGE_SAMPLED_BIT) then VK_IMAGE_USAGE_SAMPLED_BIT else 0) |
    (if Has(def.usage, IMAGE_USAGE_TRANSFER_DST_BIT) then VK_IMAGE_USAGE_TRANSFER_DST_BIT else 0)
  }

  /** `VkExtent3D`. */
  datatype Extent3D = Extent3D(width: nat, height: nat, depth: nat)

  /**
   * `ImageDefinition::extent`: the framebuffer size takes precedence over a
   * custom size, which must then be given; without either flag there is no
   * extent. The depth is always 1.
   */
  function Extent(def: ImageOptions, framebuffer: Extent2D): (r: Res<Extent3D>)
    ensures r.Ok? <==> Has(def.flags, IMAGE_OPTION_FLAG_SIZE_SAME_AS_FRAMEBUFFER_BIT) ||
                       (Has(def.flags, IMAGE_OPTION_FLAG_SIZE_CUSTOM_BIT) && def.size.Some?)
    ensures r.Fail? ==> r.failure == AssertionFailed
    ensures r.Ok? ==> r.value.depth == 1
    ensures Has(def.flags, IMAGE_OPTION_FLAG_SIZE_SAME_AS_FRAMEBUFFER_BIT) ==>
      r == Ok(Extent3D(framebuffer.width, framebuffer.height, 1))
    ensures !Has(def.flags, IMAGE_OPTION_FLAG_SIZE_SAME_AS_FRAMEBUFFER_BIT) && r.Ok? ==>
      r.value == Extent3D(def.size.value.width, def.size.value.height, 1)
  {
    if Has(def.flags, IMAGE_OPTION_FLAG_SIZE_SAME_AS_FRAMEBUFFER_BIT) then Ok(Extent3D(framebuffer.width, framebuffer.height, 1))
    else if Has(def.flags, IMAGE_OPTION_FLAG_SIZE_CUSTOM_BIT) then
      if def.size.None? then Fail(AssertionFailed)
      else Ok(Extent3D(def.size.value.width, def.size.value.height, 1))
    else Fail(AssertionFailed)
  }

  // ---------------------------------------------------------------- buffers

  /** `BufferDefinition`. */
  datatype BufferDefinition = BufferDefinition(usage: bv32, size: nat, flags: bv32)

  /** `VmaAllocationCreateInfo` as `build_buffer` fills it from the four `vma_*` functions. */
  datatype AllocationInfo = AllocationInfo(flags: bv32, usage: nat, requiredFlags: bv32, preferredFlags: bv32)

  /**
   * A CPU-to-GPU buffer must be host-visible, prefers device-local memory
   * and is written at random; any other buffer leaves the choice to the
   * allocator.
   */
  function Allocation(def: BufferDefinition): (r: AllocationInfo)
    ensures Has(def.flags, BUFFER_OPTION_FLAG_CPU_TO_GPU_BIT) <==> Has(r.requiredFlags, VK_MEMORY_PROPERTY_HOST_VISIBLE_BIT)
    ensures Has(def.flags, BUFFER_OPTION_FLAG_CPU_TO_GPU_BIT) <==> r.usage == VMA_MEMORY_USAGE_AUTO_PREFER_DEVICE
    ensures Has(def.flags, BUFFER_OPTION_FLAG_CPU_TO_GPU_BIT) <==> r.flags == VMA_ALLOCATION_CREATE_HOST_ACCESS_RANDOM_BIT
    ensures Has(def.flags, BUFFER_OPTION_FLAG_CPU_TO_GPU_BIT) <==> r.preferredFlags == VK_MEMORY_PROPERTY_DEVICE_LOCAL_BIT
    ensures !Has(def.flags, BUFFER_OPTION_FLAG_CPU_TO_GPU_BIT) ==> r == AllocationInfo(0, VMA_MEMORY_USAGE_AUTO, 0, 0)
  {
    if Has(def.flags, BUFFER_OPTION_FLAG_CPU_TO_GPU_BIT) then
      AllocationInfo(VMA_ALLOCATION_CREATE_HOST_ACCESS_RANDOM_BIT, VMA_MEMORY_USAGE_AUTO_PREFER_DEVICE,
                     VK_MEMORY_PROPERTY_HOST_VISIBLE_BIT, VK_MEMORY_PROPERTY_DEVICE_LOCAL_BIT)
    else AllocationInfo(0, VMA_MEMORY_USAGE_AUTO, 0, 0)
  }

  /** `BufferRessource`. */
  datatype BufferRessource = BufferRessource(buffer: nat, alloc: nat, usage: bv32, size: nat)

  // -------------------------------------------------- header's definition

  datatype SizeSpec = FramebufferExtent | InternalResolution | FixedSize(extent: Extent2D) | CVarSize(name: string, default: Extent2D)
  datatype FormatSpec = FramebufferFormat | FixedFormat(format: int)

  /** `ImageDefinition` as the header declares it. */
  datatype ImageDefinition = ImageDefinition(flags: bv32, usage: bv32, size: SizeSpec, format: FormatSpec)

  /** `depends_on_swapchain`: sized by the framebuffer or the internal resolution, or in the framebuffer's format. */
  predicate DependsOnSwapchain(def: ImageDefinition)
  {
    def.size.FramebufferExtent? || def.size.InternalResolution? || def.format.FramebufferFormat?
  }

  // ---------------------------------------------------------- storages

  /** The slot a frame uses: frames in flight take turns. */
  function SlotOf(frameId: nat): (r: nat)
    ensures r < MAX_FRAMES_IN_FLIGHT
  {
    frameId % MAX_FRAMES_IN_FLIGHT
  }

  /** `store`: the slot of this frame gets the resource. */
  function StoreSlot<T>(slots: seq<T>, frameId: nat, x: T): (r: seq<T>)
    requires |slots| == MAX_FRAMES_IN_FLIGHT
    ensures |r| == MAX_FRAMES_IN_FLIGHT
  {
    slots[SlotOf(frameId) := x]
  }

  /** `get`: the resource of this frame's slot. */
  function GetSlot<T>(slots: seq<T>, frameId: nat): T
    requires |slots| == MAX_FRAMES_IN_FLIGHT
  {
    slots[SlotOf(frameId)]
  }

  /** A frame sees what was stored for it, or for any frame sharing its slot; the other slot is untouched. */
  lemma StoreThenGet<T>(slots: seq<T>, f: nat, g: nat, x: T)
    requires |slots| == MAX_FRAMES_IN_FLIGHT
    ensures f % MAX_FRAMES_IN_FLIGHT == g % MAX_FRAMES_IN_FLIGHT ==> GetSlot(StoreSlot(slots, f, x), g) == x
    ensures f % MAX_FRAMES_IN_FLIGHT != g % MAX_FRAMES_IN_FLIGHT ==> GetSlot(StoreSlot(slots, f, x), g) == GetSlot(slots, g)
  {
  }

  /** Consecutive frames use different slots, and a frame shares its slot with the frame two later. */
  lemma FramesAlternate(f: nat)
    ensures SlotOf(f) != SlotOf(f + 1)
    ensures SlotOf(f) == SlotOf(f + MAX_FRAMES_IN_FLIGHT)
  {
  }

  /** `ImageRessourceStorage`: one image per frame in flight and an invalidation flag. */
  datatype ImageStorage = ImageStorage(definition: ImageDefinition, ressources: seq<ImageRessource>, invalidated: bool)

  predicate StorageValid(st: ImageStorage)
  {
    |st.ressources| == MAX_FRAMES_IN_FLIGHT
  }

  predicate IsExternal(def: ImageDefinition)
  {
    Has(def.flags, IMAGE_OPTION_FLAG_EXTERNAL_BIT)
  }

  /**
   * `init`: an owned storage gets one freshly built image per slot (`built`,
   * in slot order) and is valid again; an external storage is left alone.
   */
  function InitStorage(st: ImageStorage, built: seq<ImageRessource>): (r: ImageStorage)
    requires StorageValid(st) && |built| == MAX_FRAMES_IN_FLIGHT
    ensures StorageValid(r) && r.definition == st.definition
    ensures IsExternal(st.definition) ==> r == st
    ensures !IsExternal(st.definition) ==>
      !r.invalidated && forall f :: GetSlot(r.ressources, f) == built[SlotOf(f)]
  {
    if IsExternal(st.definition) then st
    else st.(ressources := built, invalidated := false)
  }

  /**
   * `from_external_images`: the swapchain's images and views, which must
   * pair up and cover every slot, fill the slots in order.
   */
  function FromExternalImages(st: ImageStorage, images: seq<nat>, views: seq<nat>): (r: Res<ImageStorage>)
    requires StorageValid(st)
    ensures r.Ok? <==> |images| == |views| && |images| >= MAX_FRAMES_IN_FLIGHT
    ensures r.Fail? ==> r.failure == AssertionFailed
    ensures r.Ok? ==> StorageValid(r.value) && r.value.definition == st.definition && r.value.invalidated == st.invalidated
    ensures r.Ok? ==> forall i :: 0 <= i < MAX_FRAMES_IN_FLIGHT ==>
      r.value.ressources[i] == FromExternalImage(images[i], views[i], st.definition.usage, SrcImageMemoryBarrierUndefined)
  {
    if |images| != |views| || |images| < MAX_FRAMES_IN_FLIGHT then Fail(AssertionFailed)
    else
      Ok(st.(ressources := seq(MAX_FRAMES_IN_FLIGHT, i requires 0 <= i < MAX_FRAMES_IN_FLIGHT =>
        FromExternalImage(images[i], views[i], st.definition.usage, SrcImageMemoryBarrierUndefined))))
  }

  /** `ImageRessourceId`: eight ids before `MAX`. */
  const IMAGE_ID_COUNT: nat := 8
  /** `BufferRessourceId`: two ids before `MAX`. */
  const BUFFER_ID_COUNT: nat := 2

  /** `BufferRessourceStorage`. */
  datatype BufferStorage = BufferStorage(definition: BufferDefinition, ressources: seq<BufferRessource>)

  /** The resource manager of the header: one storage per image id and per buffer id. */
  datatype Manager = Manager(images: seq<ImageStorage>, buffers: seq<BufferStorage>, hasInvalidated: bool)

  predicate ManagerValid(m: Manager)
  {
    |m.images| == IMAGE_ID_COUNT && |m.buffers| == BUFFER_ID_COUNT &&
    forall k :: 0 <= k < IMAGE_ID_COUNT ==> StorageValid(m.images[k])
  }

  /** `define_image`: the storage of this id gets the definition. */
  function DefineImage(m: Manager, id: nat, def: ImageDefinition): (r: Manager)
    requires ManagerValid(m) && id < IMAGE_ID_COUNT
    ensures ManagerValid(r)
  {
    m.(images := m.images[id := m.images[id].(definition := def)])
  }

  /** `image_definition`. */
  function ImageDefinitionOf(m: Manager, id: nat): ImageDefinition
    requires ManagerValid(m) && id < IMAGE_ID_COUNT
  {
    m.images[id].definition
  }

  /** A definition is read back under its id, and no other id's definition changes. */
  lemma DefineThenRead(m: Manager, id: nat, def: ImageDefinition, other: nat)
    requires ManagerValid(m) && id < IMAGE_ID_COUNT && other < IMAGE_ID_COUNT
    ensures ImageDefinitionOf(DefineImage(m, id, def), id) == def
    ensures other != id ==> ImageDefinitionOf(DefineImage(m, id, def), other) == ImageDefinitionOf(m, other)
  {
  }

  /** `invalidate_image`: this storage and the manager are flagged, nothing else changes. */
  function InvalidateImage(m: Manager, id: nat): (r: Manager)
    requires ManagerValid(m) && id < IMAGE_ID_COUNT
    ensures ManagerValid(r) && r.hasInvalidated && r.images[id].invalidated
    ensures r.buffers == m.buffers
    ensures r.images[id].definition == m.images[id].definition && r.images[id].ressources == m.images[id].ressources
    ensures forall k :: 0 <= k < IMAGE_ID_COUNT && k != id ==> r.images[k] == m.images[k]
  {
    m.(images := m.images[id := m.images[id].(invalidated := true)], hasInvalidated := true)
  }

  /** `FrameRessourceManager::get_image`: the image of a frame's slot in an id's storage. */
  function FrameImage(m: Manager, frameIndex: nat, id: nat): (r: ImageRessource)
    requires ManagerValid(m) && id < IMAGE_ID_COUNT
    ensures r in m.images[id].ressources
  {
    GetSlot(m.images[id].ressources, frameIndex)
  }
}

=== FILE: sparse_set.dfy ===
/**
 * `utils::data::sparse_set<T, N>`: a dense array of N items (data plus the
 * handle it was created with), a live `length`, and a `hive` that maps each
 * handle to the item's position in the dense array. The hive used here is
 * the one with the corrected successor guard (`Hive.CreateFixed`); the
 * written hive hands out the same handle whenever a free slot is on hand
 * (`CreateMatchesAsWritten`).
 */
module SparseSet {
  import opened Common
  import Hive

  datatype Item<T> = Item(data: T, handle: Hive.HiveHandle)

  datatype SparseSet<T> = SparseSet(dense: seq<Item<T>>, length: nat, sparse: Hive.Hive)

  /** A fresh set: the dense array is not initialised, so its contents are a parameter. */
  function New<T>(n: nat, init: seq<Item<T>>): (s: SparseSet<T>)
    requires 1 <= n <= U16 && |init| == n
    ensures Valid(s, n) && Size(s) == 0
  {
    SparseSet(init, 0, Hive.EmptyHive())
  }

  /** Every live item's handle resolves, through the hive, to the item's own position. */
  ghost predicate Valid<T>(s: SparseSet<T>, n: nat)
  {
    |s.dense| == n && s.length <= n && Hive.Good(s.sparse, n) && Hive.Ready(s.sparse) &&
    forall k :: 0 <= k < s.length ==> Hive.Get(s.sparse, s.dense[k].handle) == Ok(Some(k))
  }

  /** The dense position a hive lookup produced, bounds-checked by `dense.at`. */
  function At<T>(s: SparseSet<T>, pos: Res<Option<nat>>): (r: Res<Option<T>>)
    ensures pos.Fail? ==> r == Fail(pos.failure)
    ensures pos == Ok(None) ==> r == Ok(None)
    ensures pos.Ok? && pos.value.Some? ==>
      r == (if pos.value.value < |s.dense| then Ok(Some(s.dense[pos.value.value].data)) else Fail(OutOfRange))
  {
    match pos
    case Fail(f) => Fail(f)
    case Ok(None) => Ok(None)
    case Ok(Some(p)) => if p < |s.dense| then Ok(Some(s.dense[p].data)) else Fail(OutOfRange)
  }

  /** `get`: the data of a live handle; null for a stale one. */
  function Get<T>(s: SparseSet<T>, h: Hive.HiveHandle): (r: Res<Option<T>>)
    ensures r == At(s, Hive.Get(s.sparse, h))
    ensures Valid(s, |s.dense|) ==>
      forall k :: 0 <= k < s.length && s.dense[k].handle == h ==> r == Ok(Some(s.dense[k].data))
  {
    At(s, Hive.Get(s.sparse, h))
  }

  /**
   * `get_unchecked`: the data at whatever position the hive slot holds; the
   * slot's liveness is not checked, and a removed slot's position is
   * undefined.
   */
  function GetUnchecked<T>(s: SparseSet<T>, i: Hive.HiveIndex): (r: Res<Option<T>>)
    ensures Valid(s, |s.dense|) ==>
      forall k :: 0 <= k < s.length && s.dense[k].handle.index == i ==> r == Ok(Some(s.dense[k].data))
    ensures (i.chunk < |s.sparse.inner| && i.chunkIndex < |s.sparse.inner[i.chunk].slots| &&
             s.sparse.inner[i.chunk].slots[i.chunkIndex].holdsLink) ==> r == Fail(Undefined)
    ensures i.chunk >= |s.sparse.inner| ==> r == Ok(None)
  {
    At(s, Hive.GetUnchecked(s.sparse, i))
  }

  /** `size`: the number of live items at the front of the dense array. */
  function Size<T>(s: SparseSet<T>): (r: nat)
    ensures Valid(s, |s.dense|) ==>
      r <= |s.dense| && forall k :: 0 <= k < r ==> Get(s, s.dense[k].handle) == Ok(Some(s.dense[k].data))
  {
    s.length
  }

  /**
   * `begin()`..`end()` spans the whole dense array, not only the `size()`
   * live items.
   */
  function Iterate<T>(s: SparseSet<T>, n: nat): (r: seq<Item<T>>)
    requires Valid(s, n)
    ensures |r| == n && Size(s) <= |r|
    ensures forall k :: 0 <= k < Size(s) ==> Get(s, r[k].handle) == Ok(Some(r[k].data))
  {
    s.dense
  }

  /** A hive index whose slot exists and holds (not a link but) a position inside the dense array. */
  ghost predicate Resolves<T>(s: SparseSet<T>, i: Hive.HiveIndex)
  {
    i.chunk < |s.sparse.inner| && i.chunkIndex < |s.sparse.inner[i.chunk].slots| &&
    !s.sparse.inner[i.chunk].slots[i.chunkIndex].holdsLink &&
    s.sparse.inner[i.chunk].slots[i.chunkIndex].data < |s.dense|
  }

  function Pos<T>(s: SparseSet<T>, i: Hive.HiveIndex): (r: nat)
    requires Resolves(s, i)
    ensures Hive.GetUnchecked(s.sparse, i) == Ok(Some(r)) && r < |s.dense|
  {
    s.sparse.inner[i.chunk].slots[i.chunkIndex].data
  }

  /**
   * `swap_dense(i, j)`: swaps the data (only the data, not the stored
   * handles) of the two dense items, then swaps the two hive entries.
   * Dereferencing a null `get_unchecked` is undefined, hence the precondition.
   */
  function SwapDense<T>(s: SparseSet<T>, i: Hive.HiveIndex, j: Hive.HiveIndex): (r: SparseSet<T>)
    requires Resolves(s, i) && Resolves(s, j)
    ensures r.length == s.length && |r.dense| == |s.dense| && |r.sparse.inner| == |s.sparse.inner|
    ensures GetUnchecked(r, i) == GetUnchecked(s, i) && GetUnchecked(r, j) == GetUnchecked(s, j)
    ensures Hive.GetUnchecked(r.sparse, i) == Hive.GetUnchecked(s.sparse, j)
    ensures Hive.GetUnchecked(r.sparse, j) == Hive.GetUnchecked(s.sparse, i)
    ensures forall k :: 0 <= k < |s.dense| ==> r.dense[k].handle == s.dense[k].handle
  {
    var pi := Pos(s, i);
    var pj := Pos(s, j);
    var di := s.dense[pi].data;
    var dj := s.dense[pj].data;
    var dense := s.dense[pi := s.dense[pi].(data := dj)][pj := s.dense[pj].(data := di)];
    var sparse := Hive.Write(Hive.Write(s.sparse, i, pj), j, pi);
    SparseSet(dense, s.length, sparse)
  }

  /** `i` is the index of a live item's handle. */
  ghost predicate IsLive<T>(s: SparseSet<T>, i: Hive.HiveIndex)
  {
    Resolves(s, i) && Pos(s, i) < s.length && s.dense[Pos(s, i)].handle.index == i
  }

  /**
   * `remove_unchecked(i)` as written: swaps `i` with the last item, shrinks
   * the set, and removes from the hive the handle stored at the last dense
   * position, which is the last item's, not `i`'s. An empty set makes
   * `dense.at(length - 1)` throw.
   */
  function RemoveUncheckedAsWritten<T>(s: SparseSet<T>, i: Hive.HiveIndex, n: nat): (r: Res<SparseSet<T>>)
    requires Valid(s, n)
    requires s.length > 0 ==> IsLive(s, i)
    ensures s.length == 0 <==> r == Fail(OutOfRange)
    ensures r.Ok? ==> r.value.length == s.length - 1
    ensures r.Ok? ==> Get(r.value, s.dense[s.length - 1].handle) == Ok(None)
    ensures r.Ok? && Pos(s, i) != s.length - 1 ==>
      Get(r.value, s.dense[Pos(s, i)].handle) == Ok(Some(s.dense[Pos(s, i)].data))
  {
    if s.length == 0 then Fail(OutOfRange)
    else
      var j := s.dense[s.length - 1].handle;
      assert Hive.Get(s.sparse, j) == Ok(Some(s.length - 1));
      var swapped := SwapDense(s, i, j.index);
      var shrunk := swapped.(length := s.length - 1);
      match Hive.Remove(shrunk.sparse, j)
      case Ok(sparse) => Ok(shrunk.(sparse := sparse))
      case Fail(f) => assert false; Fail(f)
  }

  /**
   * `remove_unchecked(i)` as evidently intended: the last item (data and
   * handle) moves into `i`'s dense position, the two hive entries are
   * swapped, the set shrinks, and `i`'s own handle is removed from the hive.
   */
  function RemoveUnchecked<T>(s: SparseSet<T>, i: Hive.HiveIndex, n: nat): (r: Res<SparseSet<T>>)
    requires Valid(s, n)
    requires s.length > 0 ==> IsLive(s, i)
    ensures s.length == 0 <==> r == Fail(OutOfRange)
    ensures r.Ok? ==> Valid(r.value, n) && r.value.length == s.length - 1
    ensures r.Ok? ==> Get(r.value, s.dense[Pos(s, i)].handle) == Ok(None)
    ensures r.Ok? ==> forall k :: 0 <= k < s.length && k != Pos(s, i) ==>
      Get(r.value, s.dense[k].handle) == Ok(Some(s.dense[k].data))
  {
    if s.length == 0 then Fail(OutOfRange)
    else
      RemoveUncheckedKeepsValid(s, i, n);
      Ok(RemoveUncheckedState(s, i, n))
  }

  function RemoveUncheckedState<T>(s: SparseSet<T>, i: Hive.HiveIndex, n: nat): SparseSet<T>
    requires Valid(s, n) && s.length > 0 && IsLive(s, i)
  {
    var last := s.length - 1;
    var a := Pos(s, i);
    var hi := s.dense[a].handle;
    var j := s.dense[last].handle;
    assert Hive.Get(s.sparse, j) == Ok(Some(last));
    assert j.index.chunk < |s.sparse.inner|;
    var dense := s.dense[a := s.dense[last]][last := s.dense[a]];
    var sparse := Hive.Write(Hive.Write(s.sparse, i, last), j.index, a);
    assert hi.index.chunk < |sparse.inner|;
    match Hive.Remove(sparse, hi)
    case Ok(sparse') => SparseSet(dense, last, sparse')
    case Fail(_) => SparseSet(dense, last, sparse)
  }

  lemma RemoveUncheckedKeepsValid<T>(s: SparseSet<T>, i: Hive.HiveIndex, n: nat)
    requires Valid(s, n) && s.length > 0 && IsLive(s, i)
    ensures Valid(RemoveUncheckedState(s, i, n), n)
    ensures RemoveUncheckedState(s, i, n).length == s.length - 1
    ensures Get(RemoveUncheckedState(s, i, n), s.dense[Pos(s, i)].handle) == Ok(None)
    ensures forall k :: 0 <= k < s.length && k != Pos(s, i) ==>
      Get(RemoveUncheckedState(s, i, n), s.dense[k].handle) == Ok(Some(s.dense[k].data))
  {
    var last := s.length - 1;
    var a := Pos(s, i);
    var hi := s.dense[a].handle;
    var j := s.dense[last].handle;
    assert Hive.Get(s.sparse, j) == Ok(Some(last));
    assert Hive.Get(s.sparse, hi) == Ok(Some(a));
    var w1 := Hive.Write(s.sparse, i, last);
    Hive.WriteKeepsGood(s.sparse, i, last, n);
    var sparse := Hive.Write(w1, j.index, a);
    Hive.WriteKeepsGood(w1, j.index, a, n);
    Hive.LiveIsInitialized(s.sparse, hi, n);
    Hive.RemoveKeepsGood(sparse, hi, n);
    var r := RemoveUncheckedState(s, i, n);
    assert r.sparse == Hive.Remove(sparse, hi).value;
    assert hi.index == i;
    forall k | 0 <= k < r.length ensures Hive.Get(r.sparse, r.dense[k].handle) == Ok(Some(k)) {
      var hk := s.dense[k].handle;
      assert Hive.Get(s.sparse, hk) == Ok(Some(k));
      if k == a {
        assert r.dense[k].handle == j && j.index != i;
        assert Hive.Get(w1, j) == Ok(Some(last));
        assert Hive.Get(sparse, j) == Ok(Some(a));
      } else {
        assert r.dense[k].handle == hk && hk.index != i && hk.index != j.index;
        assert Hive.Get(sparse, hk) == Ok(Some(k));
      }
    }
  }

  /**
   * `create`: a full set makes `dense.at(N)` throw (after logging); otherwise
   * the next dense item is reset, the set grows, and a new hive handle is
   * made to point at the item.
   */
  function Create<T>(s: SparseSet<T>, n: nat, zero: T): (r: Res<(SparseSet<T>, Hive.HiveHandle)>)
    requires Valid(s, n)
    ensures s.length == n <==> r == Fail(OutOfRange)
    ensures r.Ok? ==> r.value.0.length == s.length + 1 && |r.value.0.dense| == n
    ensures r.Ok? ==> Get(r.value.0, r.value.1) == Ok(Some(zero))
    ensures r.Ok? ==> r.value.0.dense[s.length] == Item(zero, r.value.1)
    ensures r.Ok? ==> forall k :: 0 <= k < s.length ==> r.value.0.dense[k] == s.dense[k]
  {
    if s.length >= |s.dense| then Fail(OutOfRange)
    else
      var (sparse, handle) := Hive.CreateFixed(s.sparse, n).value;
      var sparse' := Hive.Write(sparse, handle.index, s.length);
      Ok((SparseSet(s.dense[s.length := Item(zero, handle)], s.length + 1, sparse'), handle))
  }

  /** The set's invariant together with the hive's spelled-out free list. */
  ghost predicate Sound<T>(s: SparseSet<T>, n: nat, free: seq<Hive.HiveIndex>, tail: Option<Hive.HiveIndex>)
  {
    Valid(s, n) && Hive.FreeList(s.sparse, n, free, tail)
  }

  lemma NewIsSound<T>(n: nat, init: seq<Item<T>>)
    requires 1 <= n <= U16 && |init| == n
    ensures Sound(New(n, init), n, [], None)
  {
    Hive.EmptyFreeList(n);
  }

  /** `create` keeps every live handle resolving to its own item. */
  lemma CreateKeepsSound<T>(s: SparseSet<T>, n: nat, zero: T, free: seq<Hive.HiveIndex>, tail: Option<Hive.HiveIndex>)
    requires Sound(s, n, free, tail) && s.length < n && |s.sparse.inner| + 1 < U16
    ensures Create(s, n, zero).Ok?
    ensures Sound(Create(s, n, zero).value.0, n,
                  Hive.FreeAfterCreate(s.sparse, n, free, tail).0, Hive.FreeAfterCreate(s.sparse, n, free, tail).1)
  {
    Hive.CreateKeepsFreeList(s.sparse, n, free, tail);
    var (sparse, handle) := Hive.CreateFixed(s.sparse, n).value;
    Hive.WriteKeepsFreeList(sparse, handle.index, s.length, n,
                            Hive.FreeAfterCreate(s.sparse, n, free, tail).0, Hive.FreeAfterCreate(s.sparse, n, free, tail).1);
    Hive.FreeListIsReady(Hive.Write(sparse, handle.index, s.length), n,
                         Hive.FreeAfterCreate(s.sparse, n, free, tail).0, Hive.FreeAfterCreate(s.sparse, n, free, tail).1);
    var r := Create(s, n, zero).value.0;
    forall k | 0 <= k < r.length ensures Hive.Get(r.sparse, r.dense[k].handle) == Ok(Some(k)) {
      if k < s.length {
        assert Hive.Get(s.sparse, s.dense[k].handle) == Ok(Some(k));
      }
    }
  }

  /**
   * While the hive has a free slot on hand, the written hive's `create`
   * hands out the same handle as the corrected one `Create` uses.
   */
  lemma CreateMatchesAsWritten<T>(s: SparseSet<T>, n: nat, zero: T, free: seq<Hive.HiveIndex>, tail: Option<Hive.HiveIndex>)
    requires Sound(s, n, free, tail) && s.length < n && (|free| > 0 || tail.Some?)
    ensures Create(s, n, zero).Ok? && Hive.CreateAsWritten(s.sparse, n).Ok?
    ensures Create(s, n, zero).value.1 == Hive.CreateAsWritten(s.sparse, n).value.1
  {
    Hive.AsWrittenAgreesWhileFree(s.sparse, n, free, tail);
  }

  /** The corrected `remove_unchecked` puts the removed slot on the front of the hive's free list. */
  lemma RemoveKeepsSound<T>(s: SparseSet<T>, i: Hive.HiveIndex, n: nat, free: seq<Hive.HiveIndex>, tail: Option<Hive.HiveIndex>)
    requires Sound(s, n, free, tail) && s.length > 0 && IsLive(s, i)
    ensures RemoveUnchecked(s, i, n).Ok?
    ensures Sound(RemoveUnchecked(s, i, n).value, n, [s.dense[Pos(s, i)].handle.index] + free, tail)
  {
    var last := s.length - 1;
    var a := Pos(s, i);
    var hi := s.dense[a].handle;
    var j := s.dense[last].handle;
    assert Hive.Get(s.sparse, j) == Ok(Some(last));
    assert Hive.Get(s.sparse, hi) == Ok(Some(a));
    var w1 := Hive.Write(s.sparse, i, last);
    Hive.WriteKeepsFreeList(s.sparse, i, last, n, free, tail);
    var sparse := Hive.Write(w1, j.index, a);
    Hive.WriteKeepsFreeList(w1, j.index, a, n, free, tail);
    assert Hive.Get(w1, hi) == Ok(Some(last));
    assert Hive.Get(sparse, hi).Ok? && Hive.Get(sparse, hi).value.Some?;
    Hive.RemoveKeepsFreeList(sparse, hi, n, free, tail);
    assert RemoveUncheckedState(s, i, n).sparse == Hive.Remove(sparse, hi).value;
    RemoveUncheckedKeepsValid(s, i, n);
  }

  /** A two-slot set after two `create` calls, with both handles; `None` if either call failed. */
  function TwoCreated<T>(zero: T, init: seq<Item<T>>): (r: Option<(SparseSet<T>, Hive.HiveHandle, Hive.HiveHandle)>)
    requires |init| == 2
    ensures r.Some? ==> |r.value.0.dense| == 2
  {
    match Create(New(2, init), 2, zero)
    case Fail(_) => None
    case Ok((s1, a)) =>
      match Create(s1, 2, zero)
      case Fail(_) => None
      case Ok((s2, b)) => if |s2.dense| == 2 then Some((s2, a, b)) else None
  }

  /**
   * Two items in a set of capacity two; removing the first with the written
   * `remove_unchecked` loses the second one and leaves the first reachable,
   * while the corrected version removes exactly the first.
   */
  lemma AsWrittenRemovesTheWrongItem<T>(zero: T, init: seq<Item<T>>)
    requires |init| == 2
    ensures TwoCreated(zero, init).Some?
    ensures var (s2, a, b) := TwoCreated(zero, init).value;
            Valid(s2, 2) && s2.length == 2 && IsLive(s2, a.index) &&
            Get(RemoveUncheckedAsWritten(s2, a.index, 2).value, b) == Ok(None) &&
            Get(RemoveUncheckedAsWritten(s2, a.index, 2).value, a) == Ok(Some(zero)) &&
            Get(RemoveUnchecked(s2, a.index, 2).value, a) == Ok(None) &&
            Get(RemoveUnchecked(s2, a.index, 2).value, b) == Ok(Some(zero))
  {
    var s0 := New(2, init);
    NewIsSound(2, init);
    CreateKeepsSound(s0, 2, zero, [], None);
    var (s1, a) := Create(s0, 2, zero).value;
    var (free1, tail1) := Hive.FreeAfterCreate(s0.sparse, 2, [], None);
    CreateKeepsSound(s1, 2, zero, free1, tail1);
    var (s2, b) := Create(s1, 2, zero).value;
    assert TwoCreated(zero, init) == Some((s2, a, b));
    assert s2.length == 2;
    assert s2.dense[0].handle == a && s2.dense[1].handle == b;
    assert Hive.Get(s2.sparse, a) == Ok(Some(0));
    assert IsLive(s2, a.index);
    var wrong := RemoveUncheckedAsWritten(s2, a.index, 2).value;
    assert Get(wrong, b) == Ok(None);
    assert Get(wrong, a) == Ok(Some(zero));
    var right := RemoveUnchecked(s2, a.index, 2).value;
    assert Get(right, a) == Ok(None);
    assert Get(right, b) == Ok(Some(zero));
  }
}

=== FILE: staging.dfy ===
/**
 * The staging-buffer bump allocator of `vertex.cpp` / `uploader.h` and the
 * `Uploader` that drives it (`uploader.cpp`).
 *
 * A staging buffer is a host-mapped allocation (`mapped`, whose length is
 * `alloc_info.size`) with a 32-bit `offset` to the first free byte and the
 * 32-bit size `to_upload` of the region handed out last. `consume` hands
 * out the window at the aligned offset without advancing it; `commit`
 * records the copy out of that window and advances the offset past it.
 * Command recording is modelled by returning the copy region recorded.
 */
module Staging {
  import opened Common
  import opened Misc
  import D = Deletion
  import DS = DeletionStack

  type Byte = b: int | 0 <= b < 256

  datatype StagingBuffer = StagingBuffer(buffer: nat, alloc: nat, mapped: seq<Byte>, offset: nat, toUpload: nat)

  /** The widths of the fields: a 32-bit offset and upload size, and a buffer created with a 32-bit size. */
  predicate Valid(sb: StagingBuffer)
  {
    |sb.mapped| < U32 && sb.offset < U32 && sb.toUpload < U32
  }

  /** The offset has not run past the end of the mapped memory. */
  predicate InBounds(sb: StagingBuffer)
  {
    sb.offset <= |sb.mapped|
  }

  /** A window of the mapped memory, `subspan(start, size)`. */
  datatype Window = Window(start: nat, size: nat)

  /** `VkBufferCopy`. */
  datatype BufferCopy = BufferCopy(srcOffset: nat, dstOffset: nat, size: nat)

  /** `VkRect2D`. */
  datatype Rect = Rect(x: int, y: int, width: nat, height: nat)

  /** `VkBufferImageCopy`, reduced to what varies: the buffer offset and the target rectangle. */
  datatype ImageCopy = ImageCopy(bufferOffset: nat, image: nat, layout: int, rect: Rect)

  /** `init`: a fresh buffer of the given size, nothing handed out yet. */
  function Init(buffer: nat, alloc: nat, size: nat): (r: StagingBuffer)
    requires size < U32
    ensures Valid(r) && InBounds(r) && |r.mapped| == size && r.offset == 0 && r.toUpload == 0
  {
    StagingBuffer(buffer, alloc, seq(size, _ => 0), 0, 0)
  }

  /**
   * `available`: the size minus the aligned offset, in `size_t`; when the
   * aligned offset lies past the end the subtraction wraps around.
   */
  function Available(sb: StagingBuffer, a: nat): (r: nat)
    requires Valid(sb) && 1 <= a < U32 && IsPowerOfTwo(a)
    ensures Align32(sb.offset, a) <= |sb.mapped| ==> r == |sb.mapped| - Align32(sb.offset, a)
    ensures Align32(sb.offset, a) > |sb.mapped| ==> r == U64 + |sb.mapped| - Align32(sb.offset, a) && r >= U64 - U32
  {
    var aligned := Align32(sb.offset, a);
    if aligned <= |sb.mapped| then |sb.mapped| - aligned
    else
      WrapNegative(|sb.mapped| - aligned);
      (|sb.mapped| - aligned) % U64
  }

  /** A negative `size_t` difference wraps to 2^64 plus the difference. */
  lemma WrapNegative(d: int)
    requires d < 0 && d + U64 > 0
    ensures d % U64 == d + U64
  {
    ModUnique(d, U64, -1, d + U64);
  }

  /**
   * `consume` as written: the assertion compares the wrapped `available`,
   * then the offset is aligned and the window of `size` bytes at it handed
   * out; `to_upload` is the size narrowed to 32 bits.
   */
  function ConsumeAsWritten(sb: StagingBuffer, size: nat, a: nat): (r: Res<(StagingBuffer, Window)>)
    requires Valid(sb) && 1 <= a < U32 && IsPowerOfTwo(a)
    ensures r.Ok? <==> Available(sb, a) >= size
    ensures r.Fail? ==> r.failure == AssertionFailed
    ensures r.Ok? ==> r.value.1 == Window(Align32(sb.offset, a), size)
    ensures r.Ok? ==> r.value.0 == sb.(offset := Align32(sb.offset, a), toUpload := size % U32)
  {
    if Available(sb, a) < size then Fail(AssertionFailed)
    else
      var offset := Align32(sb.offset, a);
      Ok((sb.(offset := offset, toUpload := size % U32), Window(offset, size)))
  }

  /**
   * `consume` with the check it intends: the aligned offset plus the size
   * must fit in the buffer, so the window handed out always lies inside it.
   */
  function Consume(sb: StagingBuffer, size: nat, a: nat): (r: Res<(StagingBuffer, Window)>)
    requires Valid(sb) && 1 <= a < U32 && IsPowerOfTwo(a)
    ensures r.Ok? <==> Align32(sb.offset, a) + size <= |sb.mapped|
    ensures r.Fail? ==> r.failure == AssertionFailed
    ensures r.Ok? ==> r.value.1 == Window(Align32(sb.offset, a), size)
    ensures r.Ok? ==> r.value.1.start + r.value.1.size <= |sb.mapped|
    ensures r.Ok? ==> r.value.0 == sb.(offset := Align32(sb.offset, a), toUpload := size)
    ensures r.Ok? ==> Valid(r.value.0) && InBounds(r.value.0)
  {
    var offset := Align32(sb.offset, a);
    if offset > |sb.mapped| || |sb.mapped| - offset < size then Fail(AssertionFailed)
    else Ok((sb.(offset := offset, toUpload := size), Window(offset, size)))
  }

  /**
   * The wrapped `available` lets a request through whose window ends past
   * the buffer: 10 bytes, 9 of them used, then one byte aligned to 4.
   */
  lemma ConsumePastTheEnd()
    ensures var sb := StagingBuffer(0, 0, seq(10, _ => 0), 9, 0);
      ConsumeAsWritten(sb, 1, 4).Ok? && ConsumeAsWritten(sb, 1, 4).value.1 == Window(12, 1) &&
      Consume(sb, 1, 4).Fail?
  {
    var sb := StagingBuffer(0, 0, seq(10, _ => 0), 9, 0);
    assert IsPowerOfTwo(4) by {
      assert IsPowerOfTwo(2) by { assert IsPowerOfTwo(1); }
    }
    assert Align32(9, 4) == 12 by {
      assert Align32(9, 4) % 4 == 0 && 9 <= Align32(9, 4) < 13;
    }
  }

  /** With no alignment to apply, as in every upload, the check as written is the intended one. */
  lemma AsWrittenAgreesWithoutAlignment(sb: StagingBuffer, size: nat)
    requires Valid(sb) && InBounds(sb)
    ensures ConsumeAsWritten(sb, size, 1).Ok? <==> Consume(sb, size, 1).Ok?
    ensures Consume(sb, size, 1).Ok? ==> ConsumeAsWritten(sb, size, 1) == Consume(sb, size, 1)
  {
    AlignByOne(sb.offset);
    assert Available(sb, 1) == |sb.mapped| - sb.offset;
    if Consume(sb, size, 1).Ok? {
      assert size % U32 == size;
    }
  }

  /** `commit`: the copy out of the last window is recorded and the offset moves past it. */
  function Commit(sb: StagingBuffer, dstOffset: nat): (r: (StagingBuffer, BufferCopy))
    requires Valid(sb)
    ensures Valid(r.0) && r.1 == BufferCopy(sb.offset, dstOffset, sb.toUpload)
    ensures r.0 == sb.(offset := (sb.offset + sb.toUpload) % U32)
    ensures sb.offset + sb.toUpload <= |sb.mapped| ==> r.0.offset == sb.offset + sb.toUpload && InBounds(r.0)
  {
    (sb.(offset := (sb.offset + sb.toUpload) % U32), BufferCopy(sb.offset, dstOffset, sb.toUpload))
  }

  /** `commit_image`: the same, with the copy going to an image rectangle in its current layout. */
  function CommitImage(sb: StagingBuffer, image: nat, layout: int, rect: Rect): (r: (StagingBuffer, ImageCopy))
    requires Valid(sb)
    ensures Valid(r.0) && r.1 == ImageCopy(sb.offset, image, layout, rect)
    ensures r.0 == sb.(offset := (sb.offset + sb.toUpload) % U32)
    ensures sb.offset + sb.toUpload <= |sb.mapped| ==> r.0.offset == sb.offset + sb.toUpload && InBounds(r.0)
  {
    (sb.(offset := (sb.offset + sb.toUpload) % U32), ImageCopy(sb.offset, image, layout, rect))
  }

  /** `reset`: the whole buffer is available again. */
  function Reset(sb: StagingBuffer): (r: StagingBuffer)
    requires Valid(sb)
    ensures Valid(r) && InBounds(r) && r.mapped == sb.mapped
    ensures Available(r, 1) == |sb.mapped|
  {
    AlignByOne(0);
    sb.(offset := 0, toUpload := 0)
  }

  /**
   * Two consume-then-commit rounds hand out windows that do not overlap,
   * and the offset stays inside the buffer throughout.
   */
  lemma SuccessiveWindowsDisjoint(sb: StagingBuffer, n1: nat, a1: nat, n2: nat, a2: nat, d1: nat)
    requires Valid(sb) && InBounds(sb)
    requires 1 <= a1 < U32 && IsPowerOfTwo(a1) && 1 <= a2 < U32 && IsPowerOfTwo(a2)
    requires |sb.mapped| + a1 < U32 && |sb.mapped| + a2 < U32
    requires Consume(sb, n1, a1).Ok?
    ensures var (sb1, w1) := Consume(sb, n1, a1).value;
      var (sb2, _) := Commit(sb1, d1);
      InBounds(sb2) && sb2.offset == w1.start + w1.size &&
      (Consume(sb2, n2, a2).Ok? ==> w1.start + w1.size <= Consume(sb2, n2, a2).value.1.start)
  {
  }

  // -------------------------------------------------------------- uploader

  /** Size of the single staging buffer `Uploader::init` creates: 2^28 bytes. */
  const UPLOADER_STAGING_SIZE: nat := 0x1000_0000

  /** `Uploader`: its allocator (0 once moved from) and its staging buffers. */
  datatype Uploader = Uploader(allocator: nat, staging: seq<StagingBuffer>)

  predicate UploaderValid(u: Uploader)
  {
    forall i :: 0 <= i < |u.staging| ==> Valid(u.staging[i])
  }

  /** `Uploader::init`: exactly one staging buffer of 2^28 bytes, created by the allocator. */
  function UploaderInit(allocator: nat, buffer: nat, alloc: nat): (r: Uploader)
    ensures UploaderValid(r) && |r.staging| == 1 && r.allocator == allocator
    ensures |r.staging[0].mapped| == UPLOADER_STAGING_SIZE && r.staging[0].offset == 0 && InBounds(r.staging[0])
  {
    Uploader(allocator, [Init(buffer, alloc, UPLOADER_STAGING_SIZE)])
  }

  /** `~Uploader`: it asserts that the uploader was trimmed. */
  function UploaderDrop(u: Uploader): (r: Res<()>)
    ensures r.Ok? <==> u.staging == []
  {
    D.Drop(u.staging)
  }

  /** The move constructor: the target takes everything, the source keeps a null allocator and no buffer. */
  function Move(u: Uploader): (r: (Uploader, Uploader))
    ensures r.0 == u
    ensures r.1.allocator == 0 && UploaderDrop(r.1).Ok?
  {
    (u, Uploader(0, []))
  }

  /**
   * `defer_trim`: one buffer entry, with its allocation, per staging buffer,
   * in order; the uploader is left with none.
   */
  method DeferTrim(u: Uploader, stack: seq<DS.VmaEntry>) returns (trimmed: Uploader, stack': seq<DS.VmaEntry>)
    ensures trimmed == u.(staging := []) && UploaderDrop(trimmed).Ok?
    ensures |stack'| == |stack| + |u.staging| && stack'[..|stack|] == stack
    ensures forall i :: 0 <= i < |u.staging| ==>
      stack'[|stack| + i] == D.Entry(DS.VmaBuffer, (u.staging[i].buffer, u.staging[i].alloc))
  {
    stack' := stack;
    for i := 0 to |u.staging|
      invariant |stack'| == |stack| + i && stack'[..|stack|] == stack
      invariant forall k :: 0 <= k < i ==>
        stack'[|stack| + k] == D.Entry(DS.VmaBuffer, (u.staging[k].buffer, u.staging[k].alloc))
    {
      stack' := D.Defer(stack', D.Entry(DS.VmaBuffer, (u.staging[i].buffer, u.staging[i].alloc)));
    }
    trimmed := u.(staging := []);
  }

  /** `Uploader::map`: the first staging buffer hands out the window; the alignment never reaches it. */
  function Map(u: Uploader, size: nat): (r: Res<(Uploader, Window)>)
    requires UploaderValid(u) && |u.staging| >= 1
    ensures r.Ok? <==> u.staging[0].offset + size <= |u.staging[0].mapped|
    ensures r.Ok? ==> r.value.1 == Window(u.staging[0].offset, size)
    ensures r.Ok? ==> |r.value.0.staging| == |u.staging|
    ensures r.Ok? ==> UploaderValid(r.value.0) && r.value.0.staging[1..] == u.staging[1..] && r.value.0.allocator == u.allocator
  {
    AlignByOne(u.staging[0].offset);
    match Consume(u.staging[0], size, 1)
    case Ok((sb, w)) => Ok((u.(staging := u.staging[0 := sb]), w))
    case Fail(e) => Fail(e)
  }

  /** `commit_buffer`: `to_upload` is set to the size before the commit, both narrowed to 32 bits. */
  function CommitBuffer(u: Uploader, size: nat, dstOffset: nat): (r: (Uploader, BufferCopy))
    requires UploaderValid(u) && |u.staging| >= 1
    ensures UploaderValid(r.0) && |r.0.staging| == |u.staging| && r.0.staging[1..] == u.staging[1..]
    ensures r.1 == BufferCopy(u.staging[0].offset, dstOffset % U32, size % U32)
    ensures r.0.staging[0].offset == (u.staging[0].offset + size % U32) % U32
  {
    var (sb, copy) := Commit(u.staging[0].(toUpload := size % U32), dstOffset % U32);
    (u.(staging := u.staging[0 := sb]), copy)
  }

  /** `commit_image`: likewise, towards an image rectangle. */
  function CommitImageUpload(u: Uploader, size: nat, image: nat, layout: int, rect: Rect): (r: (Uploader, ImageCopy))
    requires UploaderValid(u) && |u.staging| >= 1
    ensures UploaderValid(r.0) && |r.0.staging| == |u.staging| && r.0.staging[1..] == u.staging[1..]
    ensures r.1 == ImageCopy(u.staging[0].offset, image, layout, rect)
    ensures r.0.staging[0].offset == (u.staging[0].offset + size % U32) % U32
  {
    var (sb, copy) := CommitImage(u.staging[0].(toUpload := size % U32), image, layout, rect);
    (u.(staging := u.staging[0 := sb]), copy)
  }

  /** `memcpy` of the source into a window of the first staging buffer. */
  function Write(u: Uploader, w: Window, src: seq<Byte>): (r: Uploader)
    requires |u.staging| >= 1 && w.size == |src| && w.start + w.size <= |u.staging[0].mapped|
    ensures |r.staging| == |u.staging| && r.staging[1..] == u.staging[1..] && r.allocator == u.allocator
    ensures r.staging[0] == u.staging[0].(mapped := r.staging[0].mapped)
    ensures |r.staging[0].mapped| == |u.staging[0].mapped|
    ensures r.staging[0].mapped[w.start..w.start + w.size] == src
  {
    var m := u.staging[0].mapped;
    var m' := m[..w.start] + src + m[w.start + w.size..];
    assert m'[w.start..w.start + w.size] == src;
    u.(staging := u.staging[0 := u.staging[0].(mapped := m')])
  }

  /** Executing a recorded buffer copy from the mapped memory into a destination buffer. */
  function ExecuteCopy(mem: seq<Byte>, dst: seq<Byte>, c: BufferCopy): (r: seq<Byte>)
    requires c.srcOffset + c.size <= |mem| && c.dstOffset + c.size <= |dst|
    ensures |r| == |dst| && r[c.dstOffset..c.dstOffset + c.size] == mem[c.srcOffset..c.srcOffset + c.size]
    ensures r[..c.dstOffset] == dst[..c.dstOffset] && r[c.dstOffset + c.size..] == dst[c.dstOffset + c.size..]
  {
    var r := dst[..c.dstOffset] + mem[c.srcOffset..c.srcOffset + c.size] + dst[c.dstOffset + c.size..];
    assert r[c.dstOffset..c.dstOffset + c.size] == mem[c.srcOffset..c.srcOffset + c.size];
    r
  }

  /**
   * `upload_buffer`: map the source's size, check that all of it was
   * mapped, copy it in, commit it to the destination offset. It fails iff
   * the first staging buffer has no room left; otherwise the offset
   * advances by exactly the source's size and executing the recorded copy
   * puts the source at the destination offset.
   */
  function UploadBuffer(u: Uploader, dstOffset: nat, src: seq<Byte>): (r: Res<(Uploader, BufferCopy)>)
    requires UploaderValid(u) && |u.staging| >= 1 && InBounds(u.staging[0])
    ensures r.Ok? <==> u.staging[0].offset + |src| <= |u.staging[0].mapped|
    ensures r.Fail? ==> r.failure == AssertionFailed
    ensures r.Ok? ==> var (u', copy) := r.value;
      UploaderValid(u') && |u'.staging| == |u.staging| && u'.staging[1..] == u.staging[1..] &&
      InBounds(u'.staging[0]) && u'.staging[0].offset == u.staging[0].offset + |src| &&
      copy == BufferCopy(u.staging[0].offset, dstOffset % U32, |src|) &&
      u'.staging[0].mapped[copy.srcOffset..copy.srcOffset + copy.size] == src
  {
    match Map(u, |src|)
    case Fail(e) => Fail(e)
    case Ok((mappedU, w)) =>
      if w.size != |src| then Fail(AssertionFailed)
      else
        var written := Write(mappedU, w, src);
        Ok(CommitBuffer(written, |src|, dstOffset))
  }

  /** An upload followed by the execution of its copy writes exactly the source at the destination offset. */
  lemma UploadThenExecute(u: Uploader, dstOffset: nat, src: seq<Byte>, dst: seq<Byte>)
    requires UploaderValid(u) && |u.staging| >= 1 && InBounds(u.staging[0])
    requires UploadBuffer(u, dstOffset, src).Ok?
    requires dstOffset < U32 && dstOffset + |src| <= |dst|
    ensures var (u', copy) := UploadBuffer(u, dstOffset, src).value;
      var out := ExecuteCopy(u'.staging[0].mapped, dst, copy);
      out[dstOffset..dstOffset + |src|] == src &&
      out[..dstOffset] == dst[..dstOffset] && out[dstOffset + |src|..] == dst[dstOffset + |src|..]
  {
    var (u', copy) := UploadBuffer(u, dstOffset, src).value;
    assert copy.dstOffset == dstOffset && copy.size == |src|;
    assert u'.staging[0].mapped[copy.srcOffset..copy.srcOffset + copy.size] == src;
    var out := ExecuteCopy(u'.staging[0].mapped, dst, copy);
    assert out[dstOffset..dstOffset + |src|] == src;
  }

  /** `upload_image`: the same map / check / copy / commit sequence towards an image rectangle. */
  function UploadImage(u: Uploader, image: nat, layout: int, rect: Rect, src: seq<Byte>): (r: Res<(Uploader, ImageCopy)>)
    requires UploaderValid(u) && |u.staging| >= 1 && InBounds(u.staging[0])
    ensures r.Ok? <==> u.staging[0].offset + |src| <= |u.staging[0].mapped|
    ensures r.Ok? ==> var (u', copy) := r.value;
      UploaderValid(u') && |u'.staging| == |u.staging| &&
      InBounds(u'.staging[0]) && u'.staging[0].offset == u.staging[0].offset + |src| &&
      copy == ImageCopy(u.staging[0].offset, image, layout, rect) &&
      u'.staging[0].mapped[copy.bufferOffset..copy.bufferOffset + |src|] == src
  {
    match Map(u, |src|)
    case Fail(e) => Fail(e)
    case Ok((mappedU, w)) =>
      if w.size != |src| then Fail(AssertionFailed)
      else
        var written := Write(mappedU, w, src);
        Ok(CommitImageUpload(written, |src|, image, layout, rect))
  }

  /** A command recorded on one of the transferer's command buffers. */
  datatype Command = CopyBuffer(dst: nat, copy: BufferCopy) | CopyToImage(region: ImageCopy)

  /** `Transferer`: the transfer command buffer, the graphics one, and the uploader. */
  datatype Transferer = Transferer(cmd: seq<Command>, graphicsCmd: seq<Command>, uploader: Uploader)

  /** `Transferer::upload_buffer`: the copy is recorded on the transfer command buffer, never on the graphics one. */
  function TransferBuffer(t: Transferer, dst: nat, dstOffset: nat, src: seq<Byte>): (r: Res<Transferer>)
    requires UploaderValid(t.uploader) && |t.uploader.staging| >= 1 && InBounds(t.uploader.staging[0])
    ensures r.Ok? <==> UploadBuffer(t.uploader, dstOffset, src).Ok?
    ensures r.Ok? ==> r.value.graphicsCmd == t.graphicsCmd && |r.value.cmd| == |t.cmd| + 1 && r.value.cmd[..|t.cmd|] == t.cmd
    ensures r.Ok? ==> r.value.cmd[|t.cmd|] == CopyBuffer(dst, UploadBuffer(t.uploader, dstOffset, src).value.1)
  {
    match UploadBuffer(t.uploader, dstOffset, src)
    case Fail(e) => Fail(e)
    case Ok((u', copy)) => Ok(Transferer(t.cmd + [CopyBuffer(dst, copy)], t.graphicsCmd, u'))
  }

  /** `Transferer::upload_image`: likewise for an image. */
  function TransferImage(t: Transferer, image: nat, layout: int, rect: Rect, src: seq<Byte>): (r: Res<Transferer>)
    requires UploaderValid(t.uploader) && |t.uploader.staging| >= 1 && InBounds(t.uploader.staging[0])
    ensures r.Ok? <==> UploadImage(t.uploader, image, layout, rect, src).Ok?
    ensures r.Ok? ==> r.value.graphicsCmd == t.graphicsCmd && |r.value.cmd| == |t.cmd| + 1 && r.value.cmd[..|t.cmd|] == t.cmd
  {
    match UploadImage(t.uploader, image, layout, rect, src)
    case Fail(e) => Fail(e)
    case Ok((u', copy)) => Ok(Transferer(t.cmd + [CopyToImage(copy)], t.graphicsCmd, u'))
  }
}

=== FILE: static_stack.dfy ===
/**
 * `utils::data::static_stack<T, N>`: a stack stored in a fixed array of N
 * slots with an item count. Only the first `count` slots are the stack's
 * contents (`begin()`..`end()`).
 */
module StaticStack {
  import opened Common

  datatype Stack<T> = Stack(inner: seq<T>, count: nat)

  /** The array has N slots and the count never exceeds N. */
  ghost predicate Valid<T>(s: Stack<T>, n: nat)
  {
    |s.inner| == n && s.count <= n
  }

  /** A value-initialised stack: N copies of `T{}` and no item. */
  function Empty<T>(n: nat, zero: T): (s: Stack<T>)
    ensures Valid(s, n)
    ensures Items(s) == []
  {
    Stack(seq(n, _ => zero), 0)
  }

  /** The range `begin()`..`end()`. */
  function Items<T>(s: Stack<T>): (r: seq<T>)
    requires s.count <= |s.inner|
    ensures |r| == s.count
    ensures forall i :: 0 <= i < s.count ==> r[i] == s.inner[i]
  {
    s.inner[..s.count]
  }

  function Size<T>(s: Stack<T>): (r: nat)
    requires s.count <= |s.inner|
    ensures r == |Items(s)|
  {
    s.count
  }

  function IsEmpty<T>(s: Stack<T>): (r: bool)
    requires s.count <= |s.inner|
    ensures r <==> Items(s) == []
  {
    s.count == 0
  }

  /** `push_back`: asserts there is room, then appends. */
  function PushBack<T>(s: Stack<T>, item: T, n: nat): (r: Res<Stack<T>>)
    requires Valid(s, n)
    ensures r.Ok? <==> s.count < n
    ensures r.Fail? ==> r.failure == AssertionFailed
    ensures r.Ok? ==> Valid(r.value, n) && Items(r.value) == Items(s) + [item]
  {
    if s.count < n then
      var r := Stack(s.inner[s.count := item], s.count + 1);
      assert Items(r) == Items(s) + [item];
      Ok(r)
    else
      Fail(AssertionFailed)
  }

  /**
   * `pop_back` as written: the assertion demands more than one item, so a
   * stack holding exactly one item cannot be popped.
   */
  function PopBackAsWritten<T>(s: Stack<T>, n: nat): (r: Res<Stack<T>>)
    requires Valid(s, n)
    ensures r.Ok? <==> s.count > 1
    ensures r.Ok? ==> Valid(r.value, n) && Items(r.value) == Items(s)[..s.count - 1]
  {
    if s.count > 1 then Ok(Stack(s.inner, s.count - 1)) else Fail(AssertionFailed)
  }

  /** `pop_back` with the check the assertion message describes: the stack is not empty. */
  function PopBack<T>(s: Stack<T>, n: nat): (r: Res<Stack<T>>)
    requires Valid(s, n)
    ensures r.Ok? <==> !IsEmpty(s)
    ensures r.Ok? ==> Valid(r.value, n) && Items(r.value) == Items(s)[..s.count - 1]
  {
    if s.count > 0 then Ok(Stack(s.inner, s.count - 1)) else Fail(AssertionFailed)
  }

  function Clear<T>(s: Stack<T>, n: nat): (r: Stack<T>)
    requires Valid(s, n)
    ensures Valid(r, n) && IsEmpty(r) && r.inner == s.inner
  {
    Stack(s.inner, 0)
  }

  /** The one-item stack that the written assertion refuses to pop. */
  lemma PopSingleItemRejected<T>(zero: T, x: T)
    ensures PushBack(Empty(1, zero), x, 1).Ok?
    ensures PopBackAsWritten(PushBack(Empty(1, zero), x, 1).value, 1).Fail?
    ensures PopBack(PushBack(Empty(1, zero), x, 1).value, 1) == Ok(Stack([x], 0))
  {
    assert Empty(1, zero).inner[0 := x] == [x];
  }

  /** Popping right after a push gives back the same items. */
  lemma PushThenPop<T>(s: Stack<T>, x: T, n: nat)
    requires Valid(s, n) && s.count < n
    ensures PopBack(PushBack(s, x, n).value, n).Ok?
    ensures Items(PopBack(PushBack(s, x, n).value, n).value) == Items(s)
  {
  }

  /** Pushes `xs` one after another, stopping at the first failure. */
  function PushAll<T>(s: Stack<T>, xs: seq<T>, n: nat): (r: Res<Stack<T>>)
    requires Valid(s, n)
    ensures r.Ok? ==> Valid(r.value, n)
    decreases |xs|
  {
    if xs == [] then Ok(s)
    else
      match PushBack(s, xs[0], n)
      case Ok(s') => PushAll(s', xs[1..], n)
      case Fail(f) => Fail(f)
  }

  /** Pushing a sequence that fits leaves exactly that sequence on top, in order. */
  lemma {:induction false} PushAllItems<T>(s: Stack<T>, xs: seq<T>, n: nat)
    requires Valid(s, n) && s.count + |xs| <= n
    ensures PushAll(s, xs, n).Ok?
    ensures Items(PushAll(s, xs, n).value) == Items(s) + xs
    decreases |xs|
  {
    if xs != [] {
      var s' := PushBack(s, xs[0], n).value;
      PushAllItems(s', xs[1..], n);
      assert Items(s) + [xs[0]] + xs[1..] == Items(s) + xs;
    }
  }

  /** Pushing more than the remaining room always ends in the assertion. */
  lemma {:induction false} PushAllOverflow<T>(s: Stack<T>, xs: seq<T>, n: nat)
    requires Valid(s, n) && s.count + |xs| > n
    ensures PushAll(s, xs, n) == Fail(AssertionFailed)
    decreases |xs|
  {
    if s.count < n {
      PushAllOverflow(PushBack(s, xs[0], n).value, xs[1..], n);
    }
  }
}

=== FILE: swapchain.dfy ===
/**
 * The choices `swapchain.cpp` makes when it (re)creates the swapchain:
 * extent, surface format, present mode, image count and sharing mode, and
 * one view per swapchain image tied to the lifetime. Surface queries and
 * the window's framebuffer size are inputs.
 */
module Swapchain {
  import opened Common
  import D = Deletion
  import DS = DeletionStack

  const UINT32_MAX: nat := 0xFFFF_FFFF
  const VK_FORMAT_B8G8R8A8_UNORM: int := 44
  const VK_COLOR_SPACE_SRGB_NONLINEAR_KHR: int := 0

  datatype SurfaceFormat = SurfaceFormat(format: int, colorSpace: int)

  /** The surface format the renderer prefers. */
  const PREFERRED_FORMAT: SurfaceFormat := SurfaceFormat(VK_FORMAT_B8G8R8A8_UNORM, VK_COLOR_SPACE_SRGB_NONLINEAR_KHR)

  /** `VkSurfaceCapabilitiesKHR`, the fields used. */
  datatype Capabilities = Capabilities(
    currentExtent: Extent2D, minImageExtent: Extent2D, maxImageExtent: Extent2D,
    minImageCount: nat, maxImageCount: nat)

  /** The surface reports 32-bit sizes and sensible bounds: minimums below maximums, as Vulkan guarantees. */
  predicate CapabilitiesValid(c: Capabilities)
  {
    c.maxImageExtent.width < U32 && c.maxImageExtent.height < U32 &&
    c.minImageExtent.width <= c.maxImageExtent.width && c.minImageExtent.height <= c.maxImageExtent.height &&
    (c.maxImageCount == 0 || c.minImageCount <= c.maxImageCount)
  }

  /**
   * `compute_extent`: the surface's current extent unless its width is the
   * special value `UINT32_MAX`; then the framebuffer size, narrowed to 32
   * bits, clamped into the surface's bounds.
   */
  function ComputeExtent(c: Capabilities, fbWidth: int, fbHeight: int): (r: Extent2D)
    requires CapabilitiesValid(c)
    ensures c.currentExtent.width != UINT32_MAX ==> r == c.currentExtent
    ensures c.currentExtent.width == UINT32_MAX ==>
      c.minImageExtent.width <= r.width <= c.maxImageExtent.width &&
      c.minImageExtent.height <= r.height <= c.maxImageExtent.height
    ensures c.currentExtent.width == UINT32_MAX && 0 <= fbWidth && c.minImageExtent.width <= fbWidth <= c.maxImageExtent.width ==>
      r.width == fbWidth
    ensures c.currentExtent.width == UINT32_MAX && 0 <= fbHeight && c.minImageExtent.height <= fbHeight <= c.maxImageExtent.height ==>
      r.height == fbHeight
  {
    if c.currentExtent.width != UINT32_MAX then c.currentExtent
    else
      var w := fbWidth % U32;
      var h := fbHeight % U32;
      NarrowKeeps(fbWidth);
      NarrowKeeps(fbHeight);
      Extent2D(Clamp(w, c.minImageExtent.width, c.maxImageExtent.width),
               Clamp(h, c.minImageExtent.height, c.maxImageExtent.height))
  }

  /** Narrowing to 32 bits keeps a value that fits. */
  lemma NarrowKeeps(x: int)
    ensures 0 <= x < U32 ==> x % U32 == x
  {
  }

  /**
   * The surface-format scan: the preferred format when offered, the first
   * offered one otherwise (the list must not be empty).
   */
  method ChooseSurfaceFormat(available: seq<SurfaceFormat>) returns (r: SurfaceFormat)
    requires |available| >= 1
    ensures PREFERRED_FORMAT in available ==> r == PREFERRED_FORMAT
    ensures PREFERRED_FORMAT !in available ==> r == available[0]
  {
    var chosen: Option<SurfaceFormat> := None;
    for i := 0 to |available|
      invariant chosen.Some? <==> PREFERRED_FORMAT in available[..i]
      invariant chosen.Some? ==> chosen.value == PREFERRED_FORMAT
    {
      if available[i].format == VK_FORMAT_B8G8R8A8_UNORM && available[i].colorSpace == VK_COLOR_SPACE_SRGB_NONLINEAR_KHR {
        chosen := Some(available[i]);
      }
      assert available[..i + 1] == available[..i] + [available[i]];
    }
    assert available[..|available|] == available;
    r := if chosen.Some? then chosen.value else available[0];
  }

  /** The present-mode scan: the configured mode when offered, the first offered one otherwise. */
  method ChoosePresentMode(available: seq<int>, preferred: int) returns (r: int)
    requires |available| >= 1
    ensures r in available
    ensures r == preferred <==> preferred in available
    ensures preferred !in available ==> r == available[0]
  {
    var chosen: Option<int> := None;
    for i := 0 to |available|
      invariant chosen.Some? <==> preferred in available[..i]
      invariant chosen.Some? ==> chosen.value == preferred
    {
      if available[i] == preferred {
        chosen := Some(available[i]);
      }
      assert available[..i + 1] == available[..i] + [available[i]];
    }
    assert available[..|available|] == available;
    r := if chosen.Some? then chosen.value else available[0];
  }

  /**
   * The image count as written: `std::clamp(MAX_FRAMES_IN_FLIGHT,
   * minImageCount, maxImageCount or MAX_FRAMES_IN_FLIGHT when 0)`. When
   * the surface has no maximum and a minimum above the number of frames in
   * flight, the upper bound lies below the lower one and `std::clamp`'s
   * precondition is violated.
   */
  function ImageCountAsWritten(c: Capabilities): (r: Res<nat>)
    ensures r.Fail? <==> (c.maxImageCount == 0 && c.minImageCount > MAX_FRAMES_IN_FLIGHT) ||
                         (c.maxImageCount != 0 && c.minImageCount > c.maxImageCount)
    ensures r.Fail? ==> r.failure == Undefined
    ensures r.Ok? ==> r.value == Clamp(MAX_FRAMES_IN_FLIGHT, c.minImageCount,
                                       if c.maxImageCount == 0 then MAX_FRAMES_IN_FLIGHT else c.maxImageCount)
  {
    var hi := if c.maxImageCount == 0 then MAX_FRAMES_IN_FLIGHT else c.maxImageCount;
    if hi < c.minImageCount then Fail(Undefined)
    else Ok(Clamp(MAX_FRAMES_IN_FLIGHT, c.minImageCount, hi))
  }

  /**
   * The image count intended: as many images as frames in flight, but at
   * least the surface's minimum and, when it has one, at most its maximum.
   */
  function ImageCount(c: Capabilities): (r: nat)
    requires CapabilitiesValid(c)
    ensures c.minImageCount <= r
    ensures c.maxImageCount != 0 ==> r <= c.maxImageCount
    ensures r == MAX_FRAMES_IN_FLIGHT <==>
      c.minImageCount <= MAX_FRAMES_IN_FLIGHT && (c.maxImageCount == 0 || MAX_FRAMES_IN_FLIGHT <= c.maxImageCount)
  {
    if c.maxImageCount == 0 then Max(MAX_FRAMES_IN_FLIGHT, c.minImageCount)
    else Clamp(MAX_FRAMES_IN_FLIGHT, c.minImageCount, c.maxImageCount)
  }

  /** A surface wanting at least three images and setting no maximum breaks the clamp as written. */
  lemma UnboundedSurfaceBreaksClamp()
    ensures var c := Capabilities(Extent2D(0, 0), Extent2D(0, 0), Extent2D(0, 0), 3, 0);
      CapabilitiesValid(c) && ImageCountAsWritten(c) == Fail(Undefined) && ImageCount(c) == 3
  {
  }

  /** Wherever the clamp as written is defined on a valid surface, the intended count agrees with it. */
  lemma ImageCountAgrees(c: Capabilities)
    requires CapabilitiesValid(c) && ImageCountAsWritten(c).Ok?
    ensures ImageCountAsWritten(c).value == ImageCount(c)
  {
  }

  datatype SharingMode = Exclusive | Concurrent

  /** Exclusive with no family list iff both families are the same; concurrent listing both otherwise. */
  function Sharing(graphics: nat, present: nat): (r: (SharingMode, seq<nat>))
    ensures r.0 == Exclusive <==> graphics == present
    ensures r.0 == Exclusive ==> r.1 == []
    ensures r.0 == Concurrent ==> r.1 == [graphics, present]
  {
    if graphics == present then (Exclusive, []) else (Concurrent, [graphics, present])
  }

  /**
   * The view loop: one view per swapchain image, each tied to the lifetime
   * as it is created. `createView` stands for `vkCreateImageView`.
   */
  method CreateViews(lifetime: DS.Lifetime, images: seq<nat>, createView: nat -> nat)
    returns (views: seq<nat>, lifetime': DS.Lifetime)
    ensures |views| == |images| && forall i :: 0 <= i < |images| ==> views[i] == createView(images[i])
    ensures lifetime'.allocator == lifetime.allocator
    ensures |lifetime'.device| == |lifetime.device| + |images| && lifetime'.device[..|lifetime.device|] == lifetime.device
    ensures forall i :: 0 <= i < |images| ==> lifetime'.device[|lifetime.device| + i] == D.Entry(DS.ImageView, views[i])
  {
    views := [];
    lifetime' := lifetime;
    for i := 0 to |images|
      invariant |views| == i && forall k :: 0 <= k < i ==> views[k] == createView(images[k])
      invariant lifetime'.allocator == lifetime.allocator
      invariant |lifetime'.device| == |lifetime.device| + i && lifetime'.device[..|lifetime.device|] == lifetime.device
      invariant forall k :: 0 <= k < i ==> lifetime'.device[|lifetime.device| + k] == D.Entry(DS.ImageView, views[k])
    {
      var view := createView(images[i]);
      views := views + [view];
      lifetime' := DS.TieDevice(lifetime', DS.ImageView, view);
    }
  }

  /** The swapchain as `init_with_config` configures it. */
  datatype Config = Config(format: SurfaceFormat, presentMode: int, extent: Extent2D, imageCount: nat,
                           sharing: SharingMode, families: seq<nat>)

  /**
   * `init_with_config` up to the creation call and the tie that follows it,
   * with the intended image count. The handle the creation call returns is
   * a parameter.
   */
  method InitWithConfig(l: DS.Lifetime, c: Capabilities, formats: seq<SurfaceFormat>, modes: seq<int>, preferredMode: int,
                        fbWidth: int, fbHeight: int, graphics: nat, present: nat, created: nat)
    returns (r: Config, after: DS.Lifetime)
    requires CapabilitiesValid(c) && |formats| >= 1 && |modes| >= 1
    ensures r.format in formats && r.presentMode in modes
    ensures r.extent == ComputeExtent(c, fbWidth, fbHeight)
    ensures c.minImageCount <= r.imageCount && (c.maxImageCount != 0 ==> r.imageCount <= c.maxImageCount)
    ensures (r.sharing, r.families) == Sharing(graphics, present)
    // the new swapchain is the one object tied, after everything tied before
    ensures after.allocator == l.allocator
    ensures after.device == l.device + [D.Entry(DS.SwapchainKHR, created)]
  {
    var format := ChooseSurfaceFormat(formats);
    var mode := ChoosePresentMode(modes, preferredMode);
    r := Config(format, mode, ComputeExtent(c, fbWidth, fbHeight), ImageCount(c),
                Sharing(graphics, present).0, Sharing(graphics, present).1);
    after := DS.TieDevice(l, DS.SwapchainKHR, created);
  }
}

=== FILE: synchronisation.dfy ===
/**
 * Image synchronisation of `synchronisation.h`: the access/stage/layout/
 * queue state a `SyncInfo` describes, the barrier between two such states,
 * the predefined states, and the batching `submit<N>` that forwards only
 * the barriers that exist.
 */
module Synchronisation {
  import opened Common
  import StaticStack

  // Vulkan constants (values of the Vulkan headers)
  const VK_IMAGE_LAYOUT_UNDEFINED: int := 0
  const VK_IMAGE_LAYOUT_GENERAL: int := 1
  const VK_IMAGE_LAYOUT_COLOR_ATTACHMENT_OPTIMAL: int := 2
  const VK_IMAGE_LAYOUT_SHADER_READ_ONLY_OPTIMAL: int := 5
  const VK_IMAGE_LAYOUT_TRANSFER_DST_OPTIMAL: int := 7
  const VK_IMAGE_LAYOUT_DEPTH_ATTACHMENT_OPTIMAL: int := 1000241000
  const VK_IMAGE_LAYOUT_PRESENT_SRC_KHR: int := 1000001002

  const VK_QUEUE_FAMILY_IGNORED: nat := 0xFFFF_FFFF

  const VK_PIPELINE_STAGE_TOP_OF_PIPE_BIT: bv64 := 0x1
  const VK_PIPELINE_STAGE_FRAGMENT_SHADER_BIT: bv64 := 0x80
  const VK_PIPELINE_STAGE_LATE_FRAGMENT_TESTS_BIT: bv64 := 0x200
  const VK_PIPELINE_STAGE_COLOR_ATTACHMENT_OUTPUT_BIT: bv64 := 0x400
  const VK_PIPELINE_STAGE_TRANSFER_BIT: bv64 := 0x1000
  const VK_PIPELINE_STAGE_BOTTOM_OF_PIPE_BIT: bv64 := 0x2000

  const VK_ACCESS_COLOR_ATTACHMENT_WRITE_BIT: bv64 := 0x100
  const VK_ACCESS_DEPTH_STENCIL_ATTACHMENT_READ_BIT: bv64 := 0x200
  const VK_ACCESS_DEPTH_STENCIL_ATTACHMENT_WRITE_BIT: bv64 := 0x400
  const VK_ACCESS_SHADER_SAMPLED_READ_BIT: bv64 := 0x1_0000_0000
  const VK_ACCESS_SHADER_STORAGE_READ_BIT: bv64 := 0x2_0000_0000

  /** `SyncInfo`: what the last use of an image did and the layout it left it in. */
  datatype SyncInfo = SyncInfo(accessMask: bv64, stageMask: bv64, layout: int, queueFamilyIndex: nat)

  datatype SubresourceRange = SubresourceRange(aspectMask: bv32, baseMipLevel: nat, levelCount: nat, baseArrayLayer: nat, layerCount: nat)

  /** `VkImageMemoryBarrier2` (without the structure header). */
  datatype Barrier = Barrier(
    srcStageMask: bv64, srcAccessMask: bv64, dstStageMask: bv64, dstAccessMask: bv64,
    oldLayout: int, newLayout: int, srcQueueFamilyIndex: nat, dstQueueFamilyIndex: nat,
    image: nat, range: SubresourceRange)

  /** The source state of a barrier. */
  function Src(b: Barrier): SyncInfo
  {
    SyncInfo(b.srcAccessMask, b.srcStageMask, b.oldLayout, b.srcQueueFamilyIndex)
  }

  /** The destination state of a barrier. */
  function Dst(b: Barrier): SyncInfo
  {
    SyncInfo(b.dstAccessMask, b.dstStageMask, b.newLayout, b.dstQueueFamilyIndex)
  }

  /** `SyncInfo::barrier`: a transition from `src` to `dst` for one image range. */
  function MakeBarrier(src: SyncInfo, dst: SyncInfo, image: nat, range: SubresourceRange): (b: Barrier)
    ensures Src(b) == src && Dst(b) == dst
    ensures b.image == image && b.range == range
  {
    Barrier(src.stageMask, src.accessMask, dst.stageMask, dst.accessMask,
            src.layout, dst.layout, src.queueFamilyIndex, dst.queueFamilyIndex, image, range)
  }

  /** A barrier is determined by its two states, its image and its range. */
  lemma BarrierDeterminedByStates(b: Barrier)
    ensures MakeBarrier(Src(b), Dst(b), b.image, b.range) == b
  {
  }

  /** `SyncInfo::queue`: the same state on another queue family. */
  function Queue(s: SyncInfo, q: nat): (r: SyncInfo)
    ensures r.queueFamilyIndex == q
    ensures r.accessMask == s.accessMask && r.stageMask == s.stageMask && r.layout == s.layout
  {
    s.(queueFamilyIndex := q)
  }

  /** Only the last queue family set counts, and setting the current one changes nothing. */
  lemma QueueOverrides(s: SyncInfo, a: nat, b: nat)
    ensures Queue(Queue(s, a), b) == Queue(s, b)
    ensures Queue(s, s.queueFamilyIndex) == s
  {
  }

  // predefined states
  const SrcImageMemoryBarrierUndefined: SyncInfo :=
    SyncInfo(0, VK_PIPELINE_STAGE_TOP_OF_PIPE_BIT, VK_IMAGE_LAYOUT_UNDEFINED, VK_QUEUE_FAMILY_IGNORED)
  const SyncColorAttachmentOutput: SyncInfo :=
    SyncInfo(VK_ACCESS_COLOR_ATTACHMENT_WRITE_BIT, VK_PIPELINE_STAGE_COLOR_ATTACHMENT_OUTPUT_BIT,
             VK_IMAGE_LAYOUT_COLOR_ATTACHMENT_OPTIMAL, VK_QUEUE_FAMILY_IGNORED)
  const SyncFragmentShaderReadOnly: SyncInfo :=
    SyncInfo(VK_ACCESS_SHADER_SAMPLED_READ_BIT, VK_PIPELINE_STAGE_FRAGMENT_SHADER_BIT,
             VK_IMAGE_LAYOUT_SHADER_READ_ONLY_OPTIMAL, VK_QUEUE_FAMILY_IGNORED)
  const SyncFragmentStorageRead: SyncInfo :=
    SyncInfo(VK_ACCESS_SHADER_STORAGE_READ_BIT, VK_PIPELINE_STAGE_FRAGMENT_SHADER_BIT,
             VK_IMAGE_LAYOUT_GENERAL, VK_QUEUE_FAMILY_IGNORED)
  const SyncLateDepth: SyncInfo :=
    SyncInfo(VK_ACCESS_DEPTH_STENCIL_ATTACHMENT_READ_BIT | VK_ACCESS_DEPTH_STENCIL_ATTACHMENT_WRITE_BIT,
             VK_PIPELINE_STAGE_LATE_FRAGMENT_TESTS_BIT, VK_IMAGE_LAYOUT_DEPTH_ATTACHMENT_OPTIMAL, VK_QUEUE_FAMILY_IGNORED)
  const SyncPresent: SyncInfo :=
    SyncInfo(0, VK_PIPELINE_STAGE_BOTTOM_OF_PIPE_BIT, VK_IMAGE_LAYOUT_PRESENT_SRC_KHR, VK_QUEUE_FAMILY_IGNORED)
  const SyncImageTransfer: SyncInfo :=
    SyncInfo(0, VK_PIPELINE_STAGE_TRANSFER_BIT, VK_IMAGE_LAYOUT_TRANSFER_DST_OPTIMAL, VK_QUEUE_FAMILY_IGNORED)

  function Predefined(): seq<SyncInfo>
  {
    [SrcImageMemoryBarrierUndefined, SyncColorAttachmentOutput, SyncFragmentShaderReadOnly,
     SyncFragmentStorageRead, SyncLateDepth, SyncPresent, SyncImageTransfer]
  }

  /**
   * Every predefined state ignores queue families and they all have
   * different layouts: moving between two of them is a layout change.
   */
  lemma PredefinedDifferByLayout()
    ensures forall k :: 0 <= k < |Predefined()| ==> Predefined()[k].queueFamilyIndex == VK_QUEUE_FAMILY_IGNORED
    ensures forall j, k :: 0 <= j < k < |Predefined()| ==> Predefined()[j].layout != Predefined()[k].layout
  {
  }

  // ------------------------------------------------------------- submit

  /** The engaged barriers, in order. */
  function Engaged<B>(bs: seq<Option<B>>): (r: seq<B>)
    ensures |r| <= |bs|
  {
    if bs == [] then []
    else (if bs[0].Some? then [bs[0].value] else []) + Engaged(bs[1..])
  }

  /** With no engaged barrier there is nothing to forward. */
  lemma {:induction false} EngagedEmpty<B>(bs: seq<Option<B>>)
    ensures Engaged(bs) == [] <==> forall k :: 0 <= k < |bs| ==> bs[k].None?
  {
    if bs != [] {
      EngagedEmpty(bs[1..]);
      assert forall k :: 1 <= k < |bs| ==> bs[k] == bs[1..][k - 1];
    }
  }

  /**
   * `submit<N>`: the engaged barriers are pushed onto a static stack of
   * capacity N and recorded as one pipeline barrier, or nothing is recorded
   * when the stack stays empty.
   */
  method Submit<B>(barriers: seq<Option<B>>, zero: B) returns (recorded: Option<seq<B>>)
    ensures recorded.None? <==> forall k :: 0 <= k < |barriers| ==> barriers[k].None?
    ensures recorded.Some? ==> recorded.value == Engaged(barriers)
  {
    var n := |barriers|;
    var stack := StaticStack.Empty(n, zero);
    var i := 0;
    while i < n
      invariant 0 <= i <= n
      invariant StaticStack.Valid(stack, n)
      invariant StaticStack.Items(stack) + Engaged(barriers[i..]) == Engaged(barriers)
      invariant stack.count <= i
    {
      assert barriers[i..][1..] == barriers[i + 1..];
      if barriers[i].Some? {
        var pushed := StaticStack.PushBack(stack, barriers[i].value, n);
        stack := pushed.value;
      }
      i := i + 1;
    }
    EngagedEmpty(barriers);
    if StaticStack.Size(stack) > 0 {
      recorded := Some(StaticStack.Items(stack));
    } else {
      recorded := None;
    }
  }
}

=== FILE: timeline.dfy ===
/**
 * `utils::Timeline<T, N>`: the last N samples, stored twice in a buffer of
 * 2N slots so that the history is always one contiguous span starting at
 * the smaller of the two write indices.
 */
module Timeline {

  datatype Timeline<T> = Timeline(index1: nat, index2: nat, data: seq<T>)

  /** The two write indices are N apart modulo 2N. */
  ghost predicate Valid<T>(t: Timeline<T>, n: nat)
  {
    n >= 1 && |t.data| == 2 * n &&
    ((t.index1 < n && t.index2 == t.index1 + n) || (t.index2 < n && t.index1 == t.index2 + n))
  }

  function Start<T>(t: Timeline<T>): nat
  {
    if t.index1 <= t.index2 then t.index1 else t.index2
  }

  /**
   * A fresh timeline: `index1 = 0`, `index2 = N`; the buffer is not
   * initialised, so its contents are a parameter.
   */
  function Init<T>(n: nat, init: seq<T>): (t: Timeline<T>)
    requires n >= 1 && |init| == 2 * n
    ensures Valid(t, n) && History(t, n) == init[..n]
  {
    Timeline(0, n, init)
  }

  /** `push`: writes the sample at both indices and advances both modulo 2N. */
  function Push<T>(t: Timeline<T>, p: T, n: nat): (r: Timeline<T>)
    requires Valid(t, n)
    ensures Valid(r, n)
    ensures r.data[t.index1] == p && r.data[t.index2] == p
    ensures forall i :: 0 <= i < 2 * n && i != t.index1 && i != t.index2 ==> r.data[i] == t.data[i]
  {
    Timeline(Advance(t.index1, 2 * n), Advance(t.index2, 2 * n), t.data[t.index1 := p][t.index2 := p])
  }

  /** `(i + 1) % size` for an index already inside the buffer. */
  function Advance(i: nat, size: nat): (r: nat)
    requires i < size
    ensures r == if i + 1 < size then i + 1 else 0
  {
    var r := (i + 1) % size;
    assert i + 1 == size ==> r == 0;
    r
  }

  /** `history`: the N slots starting at the smaller index. */
  function History<T>(t: Timeline<T>, n: nat): (r: seq<T>)
    requires Valid(t, n)
    ensures |r| == n
  {
    t.data[Start(t)..Start(t) + n]
  }

  /**
   * The representation invariant: the history window holds `w`, and every
   * slot before the window equals its mirror N slots later.
   */
  ghost predicate Holds<T>(t: Timeline<T>, n: nat, w: seq<T>)
  {
    Valid(t, n) && |w| == n &&
    (forall k :: 0 <= k < n ==> t.data[Start(t) + k] == w[k]) &&
    (forall i :: 0 <= i < Start(t) ==> t.data[i] == t.data[i + n])
  }

  lemma HoldsHistory<T>(t: Timeline<T>, n: nat, w: seq<T>)
    requires Holds(t, n, w)
    ensures History(t, n) == w
  {
  }

  /** One push drops the oldest sample of the window and appends the new one. */
  lemma PushShiftsWindow<T>(t: Timeline<T>, n: nat, w: seq<T>, p: T)
    requires Holds(t, n, w)
    ensures Holds(Push(t, p, n), n, w[1..] + [p])
  {
    var r := Push(t, p, n);
    var m := Start(t);
    var w' := w[1..] + [p];
    if m + 1 < n {
      assert Start(r) == m + 1;
      forall k | 0 <= k < n ensures r.data[m + 1 + k] == w'[k] {
        if k < n - 1 {
          assert r.data[m + 1 + k] == t.data[m + (k + 1)];
        }
      }
    } else {
      assert Start(r) == 0;
      forall k | 0 <= k < n ensures r.data[k] == w'[k] {
        if k < n - 1 {
          assert r.data[k] == t.data[k] == t.data[k + n] == t.data[m + (k + 1)];
        }
      }
    }
  }

  /** Pushes every sample of `ps` in order. */
  function PushAll<T>(t: Timeline<T>, ps: seq<T>, n: nat): (r: Timeline<T>)
    requires Valid(t, n)
    ensures Valid(r, n)
    decreases |ps|
  {
    if ps == [] then t else PushAll(Push(t, ps[0], n), ps[1..], n)
  }

  /** Pushing `ps` slides the window along `w + ps`. */
  lemma {:induction false} PushAllWindow<T>(t: Timeline<T>, n: nat, w: seq<T>, ps: seq<T>)
    requires Holds(t, n, w)
    ensures Holds(PushAll(t, ps, n), n, (w + ps)[|ps|..])
    decreases |ps|
  {
    if ps != [] {
      PushShiftsWindow(t, n, w, ps[0]);
      PushAllWindow(Push(t, ps[0], n), n, w[1..] + [ps[0]], ps[1..]);
      SlideOne(w, ps);
    }
  }

  /** Sliding the window by one sample and then by the rest is sliding it by all of them. */
  lemma SlideOne<T>(w: seq<T>, ps: seq<T>)
    requires |w| >= 1 && ps != []
    ensures (w[1..] + [ps[0]] + ps[1..])[|ps[1..]|..] == (w + ps)[|ps|..]
  {
    var a := (w[1..] + [ps[0]] + ps[1..])[|ps| - 1..];
    var b := (w + ps)[|ps|..];
    assert |a| == |b|;
    forall k | 0 <= k < |a| ensures a[k] == b[k] {
      var m := k + |ps| - 1;
      if m < |w| - 1 {
        assert a[k] == w[m + 1] == b[k];
      } else if m == |w| - 1 {
        assert a[k] == ps[0] == b[k];
      } else {
        assert a[k] == ps[m - |w| + 1] == b[k];
      }
    }
  }

  /** A window of N taken at `|ps|` from `a + ps` with `|a| == N` lies wholly inside `ps`. */
  lemma WindowInsidePushes<T>(a: seq<T>, ps: seq<T>)
    requires |ps| >= |a|
    ensures (a + ps)[|ps|..] == ps[|ps| - |a|..]
  {
    var w := (a + ps)[|ps|..];
    forall k | 0 <= k < |a| ensures w[k] == ps[|ps| - |a| + k] {
      assert w[k] == (a + ps)[|ps| + k];
    }
  }

  /**
   * After any sequence of pushes from a fresh timeline, the history is the
   * last N values of the initial window followed by the pushed samples.
   */
  lemma HistoryAfterPushes<T>(n: nat, init: seq<T>, ps: seq<T>)
    requires n >= 1 && |init| == 2 * n
    ensures History(PushAll(Init(n, init), ps, n), n) == (init[..n] + ps)[|ps|..]
  {
    var t0 := Init(n, init);
    var w := (init[..n] + ps)[|ps|..];
    assert Holds(PushAll(t0, ps, n), n, w) by {
      assert Holds(t0, n, init[..n]);
      PushAllWindow(t0, n, init[..n], ps);
    }
    HoldsHistory(PushAll(t0, ps, n), n, w);
  }

  /** Once at least N samples were pushed, the history is the last N of them in push order. */
  lemma HistoryIsLastN<T>(n: nat, init: seq<T>, ps: seq<T>)
    requires n >= 1 && |init| == 2 * n && |ps| >= n
    ensures History(PushAll(Init(n, init), ps, n), n) == ps[|ps| - n..]
  {
    var a := init[..n];
    assert |a| == n;
    var h := History(PushAll(Init(n, init), ps, n), n);
    assert h == (a + ps)[|ps|..] by {
      HistoryAfterPushes(n, init, ps);
    }
    assert (a + ps)[|ps|..] == ps[|ps| - n..] by {
      WindowInsidePushes(a, ps);
    }
  }
}

=== FILE: types.dfy ===
/**
 * Helpers of `utils/types.h`: `make_non_null_pointer` and `debouncer`.
 * Clock readings are parameters (nanoseconds of `steady_clock`).
 */
module Types {
  import opened Common

  datatype Pointer = Null | Address(address: nat)

  /** `make_non_null_pointer`: empty exactly for a null pointer. */
  function MakeNonNullPointer(p: Pointer): (r: Option<nat>)
    ensures r.None? <==> p.Null?
    ensures r.Some? ==> p == Address(r.value)
  {
    match p
    case Null => None
    case Address(a) => Some(a)
  }

  /** 100 ms in `steady_clock` ticks. */
  const DEFAULT_DELAY: int := 100_000_000

  /** `debouncer`: the quiet period `d` and the last value seen with the time it was seen. */
  datatype Debouncer<T> = Debouncer(d: int, lastVal: Option<(int, T)>)

  function NewDebouncer<T>(): (db: Debouncer<T>)
    ensures db.d == DEFAULT_DELAY && db.lastVal.None?
  {
    Debouncer(DEFAULT_DELAY, None)
  }

  /**
   * `debounce(fn1, fn2)`: `res` is what `fn1()` returned, `now1` and `now2`
   * the two clock readings (the first is only taken when `res` holds a
   * value). Returns the new state and the value `fn2` was called with, if
   * it was called.
   */
  function Debounce<T>(db: Debouncer<T>, res: Option<T>, now1: int, now2: int): (r: (Debouncer<T>, Option<T>))
    requires now1 <= now2
    requires db.lastVal.Some? ==> db.lastVal.value.0 <= now1
    ensures r.0.d == db.d
    // the value handed over is the most recent one
    ensures r.1.Some? && res.Some? ==> r.1.value == res.value
    ensures r.1.Some? && res.None? ==> db.lastVal.Some? && r.1.value == db.lastVal.value.1
    // it is handed over only once the quiet period has elapsed since it was seen
    ensures r.1.Some? && res.Some? ==> db.d <= now2 - now1
    ensures r.1.Some? && res.None? ==> db.lastVal.Some? && db.d <= now2 - db.lastVal.value.0
    // handing over clears the state; otherwise the most recent value is kept
    ensures r.1.Some? <==> r.0.lastVal.None? && (res.Some? || db.lastVal.Some?)
    ensures r.1.None? && res.Some? ==> r.0.lastVal == Some((now1, res.value))
    ensures r.1.None? && res.None? ==> r.0.lastVal == db.lastVal
  {
    var last := if res.Some? then Some((now1, res.value)) else db.lastVal;
    if last.Some? && db.d <= now2 - last.value.0 then (Debouncer(db.d, None), Some(last.value.1))
    else (Debouncer(db.d, last), None)
  }

  /** Feeds a burst of values (one per call, call `k` at time `times[k]`). */
  function DebounceAll<T>(db: Debouncer<T>, values: seq<T>, times: seq<int>): (r: (Debouncer<T>, seq<T>))
    requires |values| == |times|
    requires forall k :: 0 < k < |times| ==> times[k - 1] <= times[k]
    requires db.lastVal.Some? && |times| > 0 ==> db.lastVal.value.0 <= times[0]
    ensures r.0.d == db.d
    ensures r.0.lastVal.Some? ==> |times| == 0 || r.0.lastVal.value.0 <= times[|times| - 1]
    ensures |values| > 0 && r.1 == [] ==> r.0.lastVal == Some((times[|times| - 1], values[|values| - 1]))
    decreases |values|
  {
    if values == [] then (db, [])
    else
      var (db1, out1) := DebounceAll(db, values[..|values| - 1], times[..|times| - 1]);
      var t := times[|times| - 1];
      var (db2, fired) := Debounce(db1, Some(values[|values| - 1]), t, t);
      (db2, out1 + (if fired.Some? then [fired.value] else []))
  }

  /**
   * A burst whose calls are closer together than the quiet period hands
   * nothing over, and the state ends holding the burst's last value.
   */
  lemma {:induction false} BurstIsSuppressed<T>(values: seq<T>, times: seq<int>, d: int)
    requires |values| == |times| > 0 && d > 0
    requires forall k :: 0 < k < |times| ==> times[k - 1] <= times[k] < times[k - 1] + d
    ensures DebounceAll(Debouncer(d, None), values, times).1 == []
    ensures DebounceAll(Debouncer(d, None), values, times).0.lastVal == Some((times[|times| - 1], values[|values| - 1]))
    decreases |values|
  {
    if |values| > 1 {
      BurstIsSuppressed(values[..|values| - 1], times[..|times| - 1], d);
    }
  }

  /** Once the clock has moved past the quiet period, a call without a new value hands the last value over. */
  lemma QuietPeriodFires<T>(db: Debouncer<T>, t: int, v: T, now: int)
    requires db.lastVal == Some((t, v)) && t + db.d <= now && t <= now
    ensures Debounce(db, None, now, now) == (Debouncer(db.d, None), Some(v))
  {
  }
}

=== FILE: vertex_layout.dfy ===
/**
 * The vertex input layout of `vertex.cpp`: one binding, per-vertex rate,
 * and six attributes, each reading one member of the vertex.
 *
 * Member offsets are those of the C++ vertex struct, whose definition is
 * not part of this model; an attribute records which member it reads.
 */
module VertexLayout {

  import opened Common

  const VK_FORMAT_R32G32_SFLOAT: int := 103
  const VK_FORMAT_R32G32B32_SFLOAT: int := 106
  const VK_VERTEX_INPUT_RATE_VERTEX: int := 0

  /** The vertex members the attribute table reads. */
  datatype Member = Pos | Normal | Tangent | Color | Uv1 | Uv2

  /** `VkVertexInputAttributeDescription`, with the member in place of its byte offset. */
  datatype AttributeDescription = AttributeDescription(location: nat, binding: nat, format: int, member: Member)

  /** `VkVertexInputBindingDescription`, with the stride left as the vertex's size. */
  datatype BindingDescription = BindingDescription(binding: nat, inputRate: int)

  const ATTRIBUTES: seq<AttributeDescription> := [
    AttributeDescription(0, 0, VK_FORMAT_R32G32B32_SFLOAT, Pos),
    AttributeDescription(1, 0, VK_FORMAT_R32G32B32_SFLOAT, Normal),
    AttributeDescription(2, 0, VK_FORMAT_R32G32B32_SFLOAT, Tangent),
    AttributeDescription(3, 0, VK_FORMAT_R32G32B32_SFLOAT, Color),
    AttributeDescription(4, 0, VK_FORMAT_R32G32_SFLOAT, Uv1),
    AttributeDescription(5, 0, VK_FORMAT_R32G32_SFLOAT, Uv2)
  ]

  const BINDINGS: seq<BindingDescription> := [BindingDescription(0, VK_VERTEX_INPUT_RATE_VERTEX)]

  /** Number of 32-bit float components a format of the table carries. */
  function Components(format: int): nat
  {
    if format == VK_FORMAT_R32G32B32_SFLOAT then 3 else if format == VK_FORMAT_R32G32_SFLOAT then 2 else 0
  }

  /**
   * The attribute a shader input location reads: locations 0 to 5 are
   * bound, each on the single binding, three-component floats for the
   * first four members and two-component floats for the two texture
   * coordinates; every member is read by exactly one location.
   */
  function AttributeAt(location: nat): (r: Option<AttributeDescription>)
    ensures r.Some? <==> location < 6
    ensures r.Some? ==> r.value.location == location && r.value.binding == BINDINGS[0].binding
    ensures r.Some? ==> Components(r.value.format) == (if location < 4 then 3 else 2)
    ensures forall l :: 0 <= l < 6 && l != location && r.Some? ==> ATTRIBUTES[l].member != r.value.member
  {
    if location < |ATTRIBUTES| then Some(ATTRIBUTES[location]) else None
  }
}

=== FILE: vk_utils.dfy ===
/**
 * Helpers of the renderer's `utils.cpp`: the extension check that every
 * instance and device selection goes through, and the printable name of a
 * `VkObjectType`.
 */
module VkUtils {

  /** The required names, as a set, lie within the available ones: order and repetitions do not matter. */
  ghost predicate Satisfied(required: seq<string>, available: seq<string>)
  {
    (set n | n in required) <= (set n | n in available)
  }

  /**
   * `check_extensions`: the required names are collected into a set, so are
   * the available ones, and the check succeeds iff the set difference is
   * empty.
   */
  method CheckExtensions(required: seq<string>, available: seq<string>) returns (ok: bool)
    ensures ok <==> forall n :: n in required ==> n in available
    ensures ok <==> Satisfied(required, available)
  {
    var availableSet: set<string> := {};
    for i := 0 to |available|
      invariant availableSet == set k | 0 <= k < i :: available[k]
    {
      availableSet := availableSet + {available[i]};
    }
    var missing: seq<string> := [];
    for i := 0 to |required|
      invariant forall n :: n in missing <==> n in required[..i] && n !in availableSet
    {
      if required[i] !in availableSet {
        missing := missing + [required[i]];
      }
    }
    assert required[..|required|] == required;
    ok := missing == [];
    if !ok {
      assert missing[0] in missing;
    }
    SatisfiedIff(required, available);
  }

  lemma SatisfiedIff(required: seq<string>, available: seq<string>)
    ensures Satisfied(required, available) <==> forall n :: n in required ==> n in available
  {
    var R := set m | m in required;
    var A := set m | m in available;
    if forall n :: n in required ==> n in available {
      forall n | n in R ensures n in A {
      }
    } else {
      var w :| w in required && w !in available;
      assert w in R && w !in A;
    }
  }

  /** The `VkObjectType` values the name switch lists. */
  const KNOWN_OBJECT_TYPES: set<int> := {
    0, 1, 2, 3, 4, 5, 6, 7, 8, 9, 10, 11, 12, 13, 14, 15, 16, 17, 18, 19, 20, 21, 22, 23, 24, 25,
    1000156000, 1000085000, 1000295000, 1000000000, 1000001000, 1000002000, 1000002001, 1000011000,
    1000023000, 1000023001, 1000029000, 1000029001, 1000128000, 1000150000, 1000160000, 1000165000,
    1000210000, 1000268000, 1000277000, 1000307000, 1000307001, 1000366000, 1000396000, 1000464000,
    1000482000
  }

  /** `vkObjectTypeName`: the enumerator's name without its `VK_OBJECT_TYPE_` prefix, `"unknown"` for any other value. */
  function ObjectTypeName(t: int): string
  {
    match t
    case 0 => "UNKNOWN"
    case 1 => "INSTANCE"
    case 2 => "PHYSICAL_DEVICE"
    case 3 => "DEVICE"
    case 4 => "QUEUE"
    case 5 => "SEMAPHORE"
    case 6 => "COMMAND_BUFFER"
    case 7 => "FENCE"
    case 8 => "DEVICE_MEMORY"
    case 9 => "BUFFER"
    case 10 => "IMAGE"
    case 11 => "EVENT"
    case 12 => "QUERY_POOL"
    case 13 => "BUFFER_VIEW"
    case 14 => "IMAGE_VIEW"
    case 15 => "SHADER_MODULE"
    case 16 => "PIPELINE_CACHE"
    case 17 => "PIPELINE_LAYOUT"
    case 18 => "RENDER_PASS"
    case 19 => "PIPELINE"
    case 20 => "DESCRIPTOR_SET_LAYOUT"
    case 21 => "SAMPLER"
    case 22 => "DESCRIPTOR_POOL"
    case 23 => "DESCRIPTOR_SET"
    case 24 => "FRAMEBUFFER"
    case 25 => "COMMAND_POOL"
    case 1000156000 => "SAMPLER_YCBCR_CONVERSION"
    case 1000085000 => "DESCRIPTOR_UPDATE_TEMPLATE"
    case 1000295000 => "PRIVATE_DATA_SLOT"
    case 1000000000 => "SURFACE_KHR"
    case 1000001000 => "SWAPCHAIN_KHR"
    case 1000002000 => "DISPLAY_KHR"
    case 1000002001 => "DISPLAY_MODE_KHR"
    case 1000011000 => "DEBUG_REPORT_CALLBACK_EXT"
    case 1000023000 => "VIDEO_SESSION_KHR"
    case 1000023001 => "VIDEO_SESSION_PARAMETERS_KHR"
    case 1000029000 => "CU_MODULE_NVX"
    case 1000029001 => "CU_FUNCTION_NVX"
    case 1000128000 => "DEBUG_UTILS_MESSENGER_EXT"
    case 1000150000 => "ACCELERATION_STRUCTURE_KHR"
    case 1000160000 => "VALIDATION_CACHE_EXT"
    case 1000165000 => "ACCELERATION_STRUCTURE_NV"
    case 1000210000 => "PERFORMANCE_CONFIGURATION_INTEL"
    case 1000268000 => "DEFERRED_OPERATION_KHR"
    case 1000277000 => "INDIRECT_COMMANDS_LAYOUT_NV"
    case 1000307000 => "CUDA_MODULE_NV"
    case 1000307001 => "CUDA_FUNCTION_NV"
    case 1000366000 => "BUFFER_COLLECTION_FUCHSIA"
    case 1000396000 => "MICROMAP_EXT"
    case 1000464000 => "OPTICAL_FLOW_SESSION_NV"
    case 1000482000 => "SHADER_EXT"
    case _ => "unknown"
  }

  /** Every value the switch does not list is named `"unknown"`. */
  lemma UnlistedIsUnknown(t: int)
    requires t !in KNOWN_OBJECT_TYPES
    ensures ObjectTypeName(t) == "unknown"
  {
  }

  /** Listed values keep their name, `UNKNOWN` included, which differs from the fallback. */
  lemma ListedNames()
    ensures ObjectTypeName(0) == "UNKNOWN" != ObjectTypeName(-1)
    ensures ObjectTypeName(10) == "IMAGE" && ObjectTypeName(1000001000) == "SWAPCHAIN_KHR"
  {
  }
}
